=== FILE: README.md ===
# Chicken-stall dashboard: a verified model of its logic

This project models the deterministic logic of a small React and Supabase dashboard used to run a chain of fried-chicken stalls. It covers staff accounts, per-stall stock and status, sales and expense reports, and an audit trail. Each awaited database, authentication or network call becomes an input of the model: the rows a select returns, the error a write throws, the identity provider's answer. The browser's clock and the host's UTC offset are inputs too.

The modules follow the source files:

- **Calendar**, **DateString**, **DateUtils**, **DateFilterUtils**: the fixed UTC+8 (Asia/Manila) calendar engine.
  - Civil dates and JavaScript's day numbering, with a proved bijection.
  - RFC 3339 `full-date` strings, whose string order is proved to be date order.
  - "Today" in Manila, and the preset ranges.
  - Range validation, and start/end-of-day instants for timestamp columns.
  - The translation of a range into query predicates (**QueryBuilder**: a query is the sequence of `eq`, `gte`, `lte` and `is null` calls made on it).
- **DateRangeFilter**: the date-range picker, a class whose handlers update the local dates, the preset and the validation message. It includes `detectPreset` with its near round trip.
- **AdminStaff**: the `admin-staff` edge function.
  - CORS origin choice (WHATWG Fetch Standard, section 3.2).
  - Path routing and the bearer-token gate (RFC 6750, section 2.1).
  - Create staff, resend invite, read auth metadata and delete staff, over the identity and profile stores.
  - Status codes per RFC 9110.
- **AdminApi** and **UriComponent**: the browser client of that function.
  - Base-URL derivation, and percent-encoding of path segments (RFC 3986, section 2.1).
  - Request building and reply classification.
  - A proof that every client call reaches the handler it names, except for an identifier of "." or "..", which the URL parser resolves as a dot segment; where those calls land instead is stated too.
- **JsonValue**, **ChangesViewer**, **AuditLogger**, **AuditLogView**: the audit trail.
  - The field-level diff of two JSON records.
  - The logger that never throws and warns once about a missing table.
  - The audit page's filters, options and export name.
- **Reports**, **Dashboard**, **DashboardSeries**, **DashboardStaff**, **StaffReportsToday**: the reporting aggregations. They use three shared modules:
  - **Grouping**: the `forEach`-into-an-object idiom.
  - **JsObject**: the enumeration order of `Object.values`.
  - **Sorting**: a stable `Array.prototype.sort`.
- **ManageStaff**, **ChickenStocks**, **EditMenuPrices**, **ExpensesOverview**, **Notifications**: the admin editing screens, as classes holding the screen's state.
  - Input checks.
  - Optimistic per-key updates with rollback.
  - The toast list.
  - They use **JsNumber**, a model of `Number(string)`, and **Text**, for trimming, digits and splitting.

Integers are unbounded. Amounts in the reports are whole numbers. Prices and costs typed into the forms are read by `Number` into exact reals.

## Model

| member | source | states |
|---|---|---|
| Calendar.DaysInMonth | src/utils/dateFilterUtils.js:69 | month lengths: 28 to 31 days, 29 in February exactly in a Gregorian leap year |
| Calendar.FromDayNumber | src/utils/dateUtils.js:21 | the civil date of a day number is a valid date whose day number is that number |
| Calendar.FromDayNumberOfDate | src/utils/dateUtils.js:21 | day numbering and its inverse are a bijection on valid dates |
| Calendar.DayNumberInjective | src/utils/dateUtils.js:21 | distinct valid dates have distinct day numbers |
| Calendar.DayNumberOrder | src/utils/dateFilterUtils.js:106 | comparing day numbers is comparing dates |
| Calendar.PrevDay | src/utils/dateFilterUtils.js:35-36 | the day before a valid date is valid |
| Calendar.PrevDayNumber | src/utils/dateFilterUtils.js:35-36 | the day before is exactly one day number earlier, crossing month and year ends |
| Calendar.PrevMonthStart | src/utils/dateFilterUtils.js:68 | the first of the previous month is a valid date with day 1 |
| Calendar.LocalDate | src/utils/dateFilterUtils.js:60 | the host-local date of an instant (getFullYear, getMonth, getDate) is a valid date |
| Calendar.LocalDateOfMidnight | src/utils/dateUtils.js:21 | host-local midnight of a day seen from another offset falls on the day shifted by the offset difference |
| Calendar.LocalDateOfOwnMidnight | src/utils/dateUtils.js:21 | host-local midnight of a day read back on the same host is that day |
| Calendar.SetDateBack | src/utils/dateUtils.js:41 | with a fixed offset, `setDate(getDate() - n)` moves an instant back exactly n days |
| Calendar.MakeDayDayZero | src/utils/dateFilterUtils.js:69 | day 0 of a month is the last day of the previous month (normalisation, not clamping) |
| Calendar.MakeDayPrevMonth | src/utils/dateFilterUtils.js:68 | month index m - 2 with day 1 is the first of the previous month, also in January |
| Calendar.SetHoursOfMidnight | src/utils/dateFilterUtils.js:154-158 | `setHours` on a local midnight adds the time of day |
| Calendar.SetDateLocal | src/dashboard.jsx:196 | `setDate` lands on the day the normalised date names and keeps the time of day |
| Calendar.SetMonthLocal | src/dashboard.jsx:195 | `setMonth` lands on the day the normalised date names (day 31 rolls into the next month) and keeps the time of day |
| Calendar.MidnightOfLocalDate | src/utils/dateUtils.js:21 | an instant at local midnight is its local day number of days less the offset |
| DateString.Format | src/utils/dateUtils.js:10 | `YYYY-MM-DD` text of a date has its dashes at positions 4 and 7 |
| DateString.Parse | src/utils/dateUtils.js:20 | a `full-date` (section 5.6 of RFC 3339) parses only to a valid date with a four-digit year |
| DateString.ParseFormat | src/utils/dateUtils.js:10 | formatting then parsing gives the date back |
| DateString.FormatParse | src/utils/dateUtils.js:20 | a string that parses is the canonical text of its date |
| DateString.FormatOrder | src/utils/dateFilterUtils.js:129 | comparing two `full-date` strings with `<` is comparing the dates, in both directions |
| DateString.FormatInjective | src/utils/dateFilterUtils.js:129 | equal dates and only those have equal text |
| DateString.IsoDate | src/utils/dateFilterUtils.js:161 | the date half of `toISOString` is the `full-date` text for four-digit years |
| DateString.IsoTime | src/utils/dateFilterUtils.js:161 | the time half of `toISOString` has twelve characters |
| DateString.IsoString | src/utils/dateFilterUtils.js:161 | `toISOString` is 24 characters whose first ten are the UTC date |
| DateUtils.PHDateOf | src/utils/dateUtils.js:9-11 | the Manila (UTC+8) date of an instant is a valid date |
| DateUtils.PHDateOfBounds | src/utils/dateUtils.js:9-11 | the instant lies inside the Manila day it is dated with |
| DateUtils.GetPHDateString | src/utils/dateUtils.js:9-11 | the text of the Manila date parses back to that date |
| DateUtils.DateFieldsOfFormat | src/utils/dateUtils.js:18-20 | `split('-').map(Number)` of a formatted date gives back year, month and day |
| DateUtils.GetPHDateIsHostMidnight | src/utils/dateUtils.js:16-22 | `getPHDate` is host-local midnight of the Manila date, whose host date is the Manila date |
| DateUtils.HostShift | src/utils/dateUtils.js:21 | the day shift of host-local midnight read in Manila: 0 from UTC-16 to UTC+8, -1 east of UTC+8 |
| DateUtils.PHDateOfHostMidnight | src/utils/dateUtils.js:21 | the Manila date of host-local midnight of a day is that day moved by the host shift |
| DateUtils.AddDays | src/utils/dateUtils.js:41 | shifting a date by n days gives a valid date n day numbers later |
| DateUtils.AddDaysAdd | src/utils/dateUtils.js:41 | shifting by a then b days is shifting by a + b days |
| DateUtils.HostMidnightString | src/utils/dateUtils.js:40-42 | the Manila text of host-local midnight of a date is the date moved by the host shift |
| DateUtils.SetDateBackFromMidnight | src/utils/dateUtils.js:41 | stepping back n days from host-local midnight gives host-local midnight n days earlier |
| DateUtils.DaysAgoInstant | src/utils/dateUtils.js:38-41 | the instant `getPHDateDaysAgo` renders is host-local midnight n days before the Manila date |
| DateUtils.GetPHDateDaysAgoIsShift | src/utils/dateUtils.js:38-43 | `getPHDateDaysAgo(n)` names the Manila date n days back moved by the host shift, exactly n days back from UTC-16 to UTC+8 |
| DateUtils.FormatPHDate | src/utils/dateUtils.js:27-28 | an empty date string formats to the empty string |
| DateUtils.ParseSaleDate | src/utils/dateUtils.js:49-58 | empty stays empty; a string starting `YYYY-MM-DD` gives the prefix of at least ten characters that ends right before its first 'T', or the whole string when it has none |
| DateUtils.ParseSaleDateOfTimestamp | src/utils/dateUtils.js:52-53 | a stored timestamp gives its date part |
| DateUtils.ParseSaleDateIdempotent | src/utils/dateUtils.js:49-54 | applying `parseSaleDate` to its own result changes nothing |
| DateFilterUtils.PresetDates | src/utils/dateFilterUtils.js:26-78 | the intended days of a preset: defined exactly for the six range presets, both valid dates |
| DateFilterUtils.RangeOf | src/utils/dateFilterUtils.js:76-77 | no dates is the range `('', '')` |
| DateFilterUtils.PresetRange | src/utils/dateFilterUtils.js:26-78 | `custom` and every unknown preset, and only those, give `('', '')` |
| DateFilterUtils.ShiftDates | src/utils/dateUtils.js:21 | moving a pair of dates by k days moves both day numbers by k |
| DateFilterUtils.PresetSingleDays | src/utils/dateFilterUtils.js:31-39 | 'today' is today twice; 'yesterday' is the day before twice, 31 December of the previous year on 1 January |
| DateFilterUtils.PresetSpans | src/utils/dateFilterUtils.js:41-57 | 'last_7_days' and 'last_30_days' end today and span 7 and 30 inclusive days |
| DateFilterUtils.PresetThisMonth | src/utils/dateFilterUtils.js:59-65 | 'this_month' runs from the first of the month to today |
| DateFilterUtils.PresetLastMonth | src/utils/dateFilterUtils.js:67-74 | 'last_month' runs from the first to the last day of the previous month: December in January, 28 or 29 February in March |
| DateFilterUtils.PresetOrdered | src/utils/dateFilterUtils.js:26-78 | every preset range starts no later than it ends and ends no later than today |
| DateFilterUtils.TodayString | src/utils/dateFilterUtils.js:27-28 | today's text is the Manila date moved by the host shift |
| DateFilterUtils.DaysBackString | src/utils/dateFilterUtils.js:35-37 | a bound built by stepping back n days names the day n days back, moved by the host shift |
| DateFilterUtils.ConstructedString | src/utils/dateFilterUtils.js:60-69 | a bound built with the host-local constructor names its day moved by the host shift |
| DateFilterUtils.GetPresetDateRangeShift | src/utils/dateFilterUtils.js:26-78 | as written, every bound of every preset is the intended day moved by the host shift |
| DateFilterUtils.GetPresetDateRangeWestOfManila | src/utils/dateFilterUtils.js:26-78 | from UTC-16 to UTC+8 the code returns the intended ranges |
| DateFilterUtils.GetPresetDateRangeEastOfManila | src/utils/dateFilterUtils.js:27-32 | east of UTC+8 even 'today' names the day before the Manila date |
| DateFilterUtils.PresetLabel | src/utils/dateFilterUtils.js:206-217 | unknown presets are labelled 'Custom Range' |
| DateFilterUtils.PresetLabelInjective | src/utils/dateFilterUtils.js:207-215 | distinct presets, 'custom' included, have distinct labels |
| DateFilterUtils.UtcMidnight | src/utils/dateFilterUtils.js:104-105 | `new Date(s)` of a date-only string is UTC midnight of its date, and invalid exactly when `Parse` rejects it |
| DateFilterUtils.SpanDaysOfMidnights | src/utils/dateFilterUtils.js:115-116 | the inclusive span of two midnights is the day count plus one |
| DateFilterUtils.ValidateDateRange | src/utils/dateFilterUtils.js:90-138 | both-empty and one-bound ranges are valid unconditionally; valid exactly when no error; unparsable dates pass when the future is allowed |
| DateFilterUtils.ValidateDateRangeOfDates | src/utils/dateFilterUtils.js:104-137 | for real dates: valid iff start not after end, span within a non-zero maxDays, and no bound after today unless allowed; the error is that of the first failing check: start after end, then the span over `maxDays`, then a future bound |
| DateFilterUtils.PresetRangeValidates | src/utils/dateFilterUtils.js:26-138 | every preset range passes validation against its own today |
| DateFilterUtils.DayBoundInstant | src/utils/dateFilterUtils.js:150-158 | the instant of a bound, when there is one, is a valid time value |
| DateFilterUtils.DateToUTCTimestamp | src/utils/dateFilterUtils.js:146-162 | `null` exactly for the empty string; an invalid date throws 'Invalid time value' |
| DateFilterUtils.DayBoundsOfDate | src/utils/dateFilterUtils.js:150-158 | the bounds of a date are host-local 00:00:00.000 and 23:59:59.999, 86,399,999 ms apart |
| DateFilterUtils.HostDayWindow | src/utils/dateFilterUtils.js:150-158 | the instants between the bounds are exactly those of the host-local day |
| DateFilterUtils.PHDayTimestamp | src/utils/dateFilterUtils.js:146-162 | the corrected conversion, fixed at UTC+8, gives `null` exactly for the empty string |
| DateFilterUtils.PHDayWindow | src/utils/dateFilterUtils.js:150-158 | at UTC+8 the bounds enclose exactly the instants of that Manila day |
| DateFilterUtils.UtcHostMissesManilaMorning | src/utils/dateFilterUtils.js:152 | on a UTC host the start bound is 08:00 Manila, so the Manila day's first hours fall outside |
| DateFilterUtils.DateToUTCTimestampExample | src/utils/dateFilterUtils.js:146-162 | '2024-01-05' at UTC+8 gives 2024-01-04T16:00:00.000Z and 2024-01-05T15:59:59.999Z |
| DateFilterUtils.AddBound | src/utils/dateFilterUtils.js:176-196 | an empty bound adds nothing; otherwise at most one predicate is appended, `gte` for the start and `lte` for the end |
| DateFilterUtils.ApplyDateRangeFilter | src/utils/dateFilterUtils.js:173-199 | a missing query or column, or two empty bounds, leave the query unchanged; otherwise it only grows, by at most two predicates |
| DateFilterUtils.ApplyDateRangeFilterPlain | src/utils/dateFilterUtils.js:182-195 | plain columns get `gte(start)` then `lte(end)` on the strings themselves |
| DateFilterUtils.ApplyDateRangeFilterConverted | src/utils/dateFilterUtils.js:176-192 | converted bounds become `gte` then `lte` on the converted texts |
| DateFilterUtils.ApplyDateRangeFilterTimestamps | src/utils/dateFilterUtils.js:173-199 | timestamp columns of real dates get host-local midnight of the start and the last millisecond of the end |
| DateRangeFilter.PresetRanges | src/components/common/DateRangeFilter.jsx:61-63 | the ranges of the six non-custom presets, in declaration order |
| DateRangeFilter.FirstMatch | src/components/common/DateRangeFilter.jsx:61-66 | the first index whose range equals the pair; none exactly when no range does |
| DateRangeFilter.DetectedPreset | src/components/common/DateRangeFilter.jsx:58-69 | '' for two empty dates; otherwise the first preset whose range is the pair, and 'custom' only when no preset's range is |
| DateRangeFilter.DetectPreset | src/components/common/DateRangeFilter.jsx:58-69 | the search loop returns what the specification function gives |
| DateRangeFilter.PresetDatesEqual | src/utils/dateFilterUtils.js:41-74 | two presets have the same days exactly when they are the same preset or 'this_month' coincides with another one on that day of the month |
| DateRangeFilter.PresetRangesCollide | src/components/common/DateRangeFilter.jsx:61-66 | two presets return the same range exactly when they are the same or 'this_month' coincides with the other |
| DateRangeFilter.PresetRangeNonEmpty | src/utils/dateFilterUtils.js:26-74 | every non-custom preset has a non-empty range |
| DateRangeFilter.DetectPresetRoundTrip | src/components/common/DateRangeFilter.jsx:58-69 | detecting the range of a chosen preset gives that preset back, except that 'this_month' shows as the earlier preset with the same range |
| DateRangeFilter.EditedPair | src/components/common/DateRangeFilter.jsx:104-105 | the value replaces the start for 'start' and the end for 'end' only |
| DateRangeFilter.PickerValidation | src/components/common/DateRangeFilter.jsx:115-118 | the picker's check is valid exactly when it has no error |
| DateRangeFilter.DateRangePicker.constructor | src/components/common/DateRangeFilter.jsx:39-42 | first render holds the props' dates, no preset and no error |
| DateRangeFilter.DateRangePicker.SyncProps | src/components/common/DateRangeFilter.jsx:45-55 | the inputs take the props' dates and the preset is the detected one ('' for two empty dates); nothing is reported |
| DateRangeFilter.DateRangePicker.ChoosePreset | src/components/common/DateRangeFilter.jsx:72-100 | the choice is shown and the error cleared; '' clears and reports the empty range, 'custom' keeps the dates, any other preset takes and reports its range |
| DateRangeFilter.DateRangePicker.ChangeDate | src/components/common/DateRangeFilter.jsx:103-133 | the input named by the kind takes the value at once; an invalid pair sets the error and reports nothing; a valid pair clears the error, selects 'custom' and is reported |
| DateRangeFilter.DateRangePicker.Clear | src/components/common/DateRangeFilter.jsx:136-144 | no dates, no preset, no error, and the empty range reported |
| AdminStaff.AllowedOrigins | supabase/functions/admin-staff/index.ts:20 | the allow-list is the comma-separated entries of the setting, each trimmed |
| AdminStaff.CorsOrigin | supabase/functions/admin-staff/index.ts:11-48 | with no setting or "*", the request's origin or "*" (section 3.2 of the WHATWG Fetch Standard) |
| AdminStaff.CorsOriginIsEchoOrEntry | supabase/functions/admin-staff/index.ts:11-48 | the answer is always the request's own origin, an allow-list entry, or "*" |
| AdminStaff.CorsOriginWithRemoteEntry | supabase/functions/admin-staff/index.ts:20-47 | with a non-local entry on the list, an origin is echoed only when listed; otherwise the first entry or "*" |
| AdminStaff.CorsOriginLocalListAcceptsHttps | supabase/functions/admin-staff/index.ts:29-42 | with only local entries, every https origin is echoed |
| AdminStaff.StripSlashes | supabase/functions/admin-staff/index.ts:112 | removing one leading and one trailing '/' never lengthens the path |
| AdminStaff.Segments | supabase/functions/admin-staff/index.ts:112 | splitting the path gives at least one segment |
| AdminStaff.Rest | supabase/functions/admin-staff/index.ts:115 | the rest is the segments after the resource, empty when there are fewer than two |
| AdminStaff.AuthenticatedUser | supabase/functions/admin-staff/index.ts:62-82 | no header gives no caller; a caller is a user with a profile, with that profile's role |
| AdminStaff.CreateStaff | supabase/functions/admin-staff/index.ts:134-202 | no body is a 500; missing email, password or full name is a 400; only a 200 adds a profile, a 'staff' one with status 'inactive' for the new user |
| AdminStaff.CreateStaffOutcomes | supabase/functions/admin-staff/index.ts:154-201 | a failed user creation changes nothing; a failed profile insert leaves the user without a profile; the invite's outcome never matters |
| AdminStaff.ProfilesWithEmail | supabase/functions/admin-staff/index.ts:229-233 | the ids whose profile has the e-mail, and no others |
| AdminStaff.ResendErrorText | supabase/functions/admin-staff/index.ts:263-267 | a provider message about 'already confirmed' or 'not found' is reworded, in that order of precedence |
| AdminStaff.ResendInvite | supabase/functions/admin-staff/index.ts:205-272 | no body is a 500; every reply is 200, 400, 404 or 500; 404 exactly when there is no e-mail and the staff id has no profile with an e-mail; 200 only with a target e-mail and a resend that went through; an "already confirmed" refusal after a failed user lookup comes only from the provider's resend error |
| AdminStaff.ResendTo | supabase/functions/admin-staff/index.ts:243-271 | once the target is known the reply is 200 or 400; 200 exactly when the target is not refused as confirmed and the resend goes through; a failed user lookup never refuses, so the provider's resend decides |
| AdminStaff.ResendInviteTargets | supabase/functions/admin-staff/index.ts:211-250 | a present e-mail wins over the staff id; an id without a profile is 404; neither is 400; a confirmed user is refused when the user lookup succeeds; when it fails, a target with a profile is resent to |
| AdminStaff.AuthInfo | supabase/functions/admin-staff/index.ts:276-304 | 200 exactly for an admin, or for the caller asking about themself, when the lookup succeeds and the user exists, with that user's confirmation and sign-in times; no caller or another staff member is 403; a permitted caller gets 404 with the lookup's error message, or 'User not found' without one |
| AdminStaff.DeleteStaff | supabase/functions/admin-staff/index.ts:307-320 | the profile is always removed; a failed user deletion is 400 and keeps the user; otherwise 204 (section 15.3.5 of RFC 9110) and the user is gone |
| AdminStaff.Serve | supabase/functions/admin-staff/index.ts:105-327 | the reply carries the request's CORS origin; OPTIONS is 200, a non-staff resource 404 and a non-admin caller 403 (outside the auth endpoint), none of them changing the stores |
| AdminStaff.ServeChangesOnlyForAdmins | supabase/functions/admin-staff/index.ts:125-131 | the stores change only for an admin caller and only on POST or DELETE |
| AdminStaff.Gateway.constructor | supabase/functions/admin-staff/index.ts:58-60 | the gateway starts on the given stores and setting |
| AdminStaff.Gateway.SingleProfileWithEmail | supabase/functions/admin-staff/index.ts:229-237 | `.single()` finds a profile exactly when one profile has the e-mail |
| AdminStaff.Gateway.Create | supabase/functions/admin-staff/index.ts:134-202 | creation done store call by store call gives the reply and stores of CreateStaff |
| AdminStaff.Gateway.Resend | supabase/functions/admin-staff/index.ts:205-272 | resending reads the stores and gives the reply of ResendInvite |
| AdminStaff.Gateway.Delete | supabase/functions/admin-staff/index.ts:307-320 | deletion, profile first, gives the reply and stores of DeleteStaff |
| AdminStaff.Gateway.Handle | supabase/functions/admin-staff/index.ts:105-327 | the handler gives the reply and stores of Serve |
| UriComponent.Utf8Char | src/services/adminApi.js:86 | one character becomes one to four UTF-8 octets (section 3 of RFC 3629), one octet exactly for ASCII |
| UriComponent.Utf8 | src/services/adminApi.js:86 | the UTF-8 encoding of a string is a sequence of octets |
| UriComponent.Utf8CharDecodes | src/services/adminApi.js:86 | one character's octets decode to that character, in shortest form |
| UriComponent.Utf8RoundTrip | src/services/adminApi.js:86 | decoding the UTF-8 encoding of any string gives the string back |
| UriComponent.PercentOctet | src/services/adminApi.js:86 | `%XY` names exactly the octet it encodes |
| UriComponent.PercentOctets | src/services/adminApi.js:86 | three characters per octet, each '%' or a hex digit |
| UriComponent.EncodeURIComponent | src/services/adminApi.js:86 | the encoding is never shorter and holds only unreserved characters, '%' and hex digits |
| UriComponent.EncodedHasNoDelimiters | src/services/adminApi.js:86 | the encoding holds no '/', '?' or '#', so it is written as one path segment (section 3.3 of RFC 3986); "." and ".." are still resolved by the URL parser (`AdminApi.EncodeDots`) |
| UriComponent.EncodeUnreserved | src/services/adminApi.js:86 | a string of unreserved characters is its own encoding |
| UriComponent.DecodeOctet | src/services/adminApi.js:86 | percent-decoding reads one `%XY` back as its octet |
| UriComponent.PercentDecodeOctets | src/services/adminApi.js:86 | percent-decoding reads the octets' triples back as the octets |
| UriComponent.PercentDecodeEncode | src/services/adminApi.js:86 | percent-decoding the encoding gives the UTF-8 octets of the original |
| UriComponent.DecodeEncode | src/services/adminApi.js:96 | decoding the encoding of any identifier gives the identifier back |
| AdminApi.DeriveDefaultBaseUrl | src/services/adminApi.js:3-23 | no URL, an empty one or one the URL parser refuses gives none; any derived URL ends in `/admin-staff` |
| AdminApi.FoundAfter | src/services/adminApi.js:14 | a pattern whose first character is absent from a prefix is first found right after it |
| AdminApi.DeriveForHostedProject | src/services/adminApi.js:13-15 | `https://<ref>.supabase.co` gives `https://<ref>.functions.supabase.co/admin-staff` |
| AdminApi.DeriveForOtherHost | src/services/adminApi.js:18 | any other host keeps its origin and uses the `/functions/v1` prefix |
| AdminApi.StripTrailingSlash | src/services/adminApi.js:28 | at most one trailing slash is dropped, and nothing else changes |
| AdminApi.BaseUrlPrecedence | src/services/adminApi.js:25-28 | the configured URL wins over the derived one, which wins over the empty base |
| AdminApi.Prepare | src/services/adminApi.js:38-57 | an empty base fails first, then a missing or empty session token; otherwise the fetch goes to base + path with `Bearer <token>` |
| AdminApi.ReadReply | src/services/adminApi.js:59-68 | a non-2xx status fails with the reply's text, a fallback when it is empty, or 'Unknown error' when it cannot be read; 204 is null; else the parsed JSON |
| AdminApi.FailureHasMessage | src/services/adminApi.js:59-61 | a failed request always carries a non-empty message |
| AdminApi.EndpointOf | src/services/adminApi.js:71-97 | only an auth-status lookup with an empty id fails before fetching; every path starts with `/staff`; a body is sent exactly with POST |
| AdminApi.Call | src/services/adminApi.js:38-97 | no fetch happens exactly when the id check, the base or the token fails; otherwise the outcome is the reply's reading |
| AdminApi.ResolveDots | src/services/adminApi.js:50 | the URL parser's path state never resolves a non-empty list of segments to none |
| AdminApi.ResolvedClean | src/services/adminApi.js:50 | after resolving, no segment is "." or "..", and no segment gains a '/' |
| AdminApi.ParsedPath | src/services/adminApi.js:50 | the parsed `pathname` of a path starting with '/' starts with '/' |
| AdminApi.ParsedPathIdempotent | src/services/adminApi.js:50 | parsing a parsed path changes nothing |
| AdminApi.ParsedJoin | src/services/adminApi.js:50 | a path of separator-free segments is parsed by resolving those segments |
| AdminApi.ParsedPlain | src/services/adminApi.js:50 | a path with no "." or ".." segment is kept exactly as written |
| AdminApi.ResolvePlain | src/services/adminApi.js:50 | resolving segments none of which is "." or ".." appends them unchanged |
| AdminApi.EncodeDots | src/services/adminApi.js:86 | an encoded id is "." or ".." exactly when the id is, and those two encode to themselves |
| AdminApi.Received | src/services/adminApi.js:50 | the gateway sees the parsed form of `/admin-staff` followed by the operation's path, with its verb, body, bearer token and origin |
| AdminApi.SegmentsOf | src/services/adminApi.js:86 | the gateway's split of `/a/b/…` gives back the separator-free segments |
| AdminApi.CreateRoute | src/services/adminApi.js:72 | `/staff` splits into the function and the resource only |
| AdminApi.ResendRoute | src/services/adminApi.js:79 | `/staff/resend-invite` reaches the resend branch |
| AdminApi.EmptyIdRoute | src/services/adminApi.js:86 | a delete with an empty id loses its segment and is read as a create path |
| AdminApi.ResolveLastDot | src/services/adminApi.js:86 | a final "." leaves a trailing '/' after the other segments; a final ".." also removes the segment before it |
| AdminApi.ResolveInnerDot | src/services/adminApi.js:96 | an inner "." disappears; an inner ".." removes itself and the segment before it |
| AdminApi.DotIdRoute | src/services/adminApi.js:86 | a delete of "." arrives as `/admin-staff/staff/`, the bare resource |
| AdminApi.DotDotIdRoute | src/services/adminApi.js:86 | a delete of ".." arrives as `/admin-staff/`, which names no resource |
| AdminApi.DotAuthRoute | src/services/adminApi.js:96 | the auth lookup of "." arrives as `/admin-staff/staff/auth` |
| AdminApi.DotDotAuthRoute | src/services/adminApi.js:96 | the auth lookup of ".." arrives as `/admin-staff/auth`, which names no resource |
| AdminApi.IdRoute | src/services/adminApi.js:86 | a non-empty id other than "." and ".." is one segment after the resource |
| AdminApi.AuthRoute | src/services/adminApi.js:96 | the auth lookup of an id other than "." and ".." is the id segment followed by `auth` |
| AdminApi.RestOf | src/services/adminApi.js:71-97 | a staff path's rest is the segments after `staff` |
| AdminApi.Routes | src/services/adminApi.js:71-97 | each client operation reaches the gateway branch written for it; a delete of "." reaches the bare resource, and ".." in either id leaves the staff resource; the auth lookup of "." reaches `staff/auth` |
| AdminApi.ClientReachesHandler | src/services/adminApi.js:71-97 | end to end, each call gets the reply and stores of the gateway handler for it; only the auth-status lookup is open to non-admins; a delete with an empty id or "." is answered 404 to an admin, the auth lookup of "." 404 to an admin and 403 to anyone else, and ".." in either id 404 to everyone |
| JsonValue.Distinct | src/components/admin/ChangesViewer.jsx:75 | a `Set` of a list holds the same elements, each once, and is no longer |
| JsonValue.DistinctOfDistinct | src/components/admin/ChangesViewer.jsx:75 | a list without repetitions is its own set |
| JsonValue.Without | src/components/admin/ChangesViewer.jsx:75 | the elements of one list not in another, in order |
| JsonValue.DistinctAppend | src/components/admin/ChangesViewer.jsx:75 | the set of `a` followed by `b` lists `a`'s elements first, then those only `b` has |
| JsonValue.Keys | src/components/admin/ChangesViewer.jsx:75 | `Object.keys` of a parsed object lists each of its member names once and nothing else |
| JsonValue.Lookup | src/components/admin/ChangesViewer.jsx:78-79 | `obj[key]` is defined exactly for the object's own keys (names inherited from `Object.prototype` are under Left out) |
| JsonValue.KeysOrder | src/components/admin/ChangesViewer.jsx:75 | `Object.keys` lists the array-index names first, ascending by value, then the other names in the order they first appear |
| JsonValue.SerialisedLookup | src/components/admin/ChangesViewer.jsx:96 | what `JSON.stringify` writes for an object lists its `Object.keys` in order, and each key holds its own value written out; a missing key stays `undefined` |
| ChangesViewer.Changes | src/components/admin/ChangesViewer.jsx:62-72 | CREATE, DELETE, or a side that is not a plain object, gives no change |
| ChangesViewer.CalculateChanges | src/components/admin/ChangesViewer.jsx:62-109 | the loop over the key set pushes exactly the changes of Changes |
| ChangesViewer.Differing | src/components/admin/ChangesViewer.jsx:77-105 | the keys whose two sides serialise differently (`JSON.stringify`, with `undefined` for a missing side), in order |
| ChangesViewer.DifferingAppend | src/components/admin/ChangesViewer.jsx:77 | the differing keys of a concatenation are those of each part, in order |
| ChangesViewer.ChangeOfReports | src/components/admin/ChangesViewer.jsx:78-105 | one key gives a change exactly when its sides serialise differently: 'added' with a null old side, 'removed' with a null new side, else 'modified' with both values |
| ChangesViewer.DiffKeysReports | src/components/admin/ChangesViewer.jsx:77-106 | the diff of a key list reports exactly the keys whose serialisations differ, in key order, each truthfully |
| ChangesViewer.ChangesReport | src/components/admin/ChangesViewer.jsx:62-109 | the differing keys of the old object in `Object.keys` order, then the differing keys only the new object has, in its order; no key twice |
| ChangesViewer.DifferingDistinct | src/components/admin/ChangesViewer.jsx:75-77 | keys taken from a set are reported at most once |
| ChangesViewer.ChangedKeys | src/components/admin/ChangesViewer.jsx:62-109 | a key is reported exactly when either object has it and the serialisations of its two sides differ |
| ChangesViewer.DiffSelf | src/components/admin/ChangesViewer.jsx:62-109 | a record diffed against itself reports nothing |
| ChangesViewer.DiffKeysSame | src/components/admin/ChangesViewer.jsx:77-106 | any key list diffed over one object reports nothing |
| ChangesViewer.NoChangesIffSameFields | src/components/admin/ChangesViewer.jsx:62-109 | an update reports no change exactly when every key is missing on both sides or serialises alike on both |
| ChangesViewer.SameSerialisationNoChanges | src/components/admin/ChangesViewer.jsx:62-109 | two records that serialise to the same text give no change |
| ChangesViewer.IndexKeyPositionIgnored | src/components/admin/ChangesViewer.jsx:96 | `{"price":{"b":1,"1":2}}` against `{"price":{"1":2,"b":1}}` gives no change, as both prices serialise to `{"1":2,"b":1}` |
| ChangesViewer.IndexFieldReportedFirst | src/components/admin/ChangesViewer.jsx:75-105 | `{"b":1,"1":2}` against `{"b":3,"1":4}` reports field "1" before field "b" |
| ChangesViewer.RepeatedNameOverridden | src/components/admin/ChangesViewer.jsx:78-96 | a repeated member name holds its last value: `{"a":1,"a":2}` against `{"a":2}` gives no change |
| ChangesViewer.TopLevelOrderIgnored | src/components/admin/ChangesViewer.jsx:75-105 | records whose members are listed in another order give no change, though they serialise differently |
| ChangesViewer.NestedOrderModified | src/components/admin/ChangesViewer.jsx:96 | the same reordering one level down is a 'modified' field |
| ChangesViewer.LowerAscii | src/components/admin/ChangesViewer.jsx:124 | `toLowerCase` maps A-Z to a-z and keeps every other character |
| ChangesViewer.FormatValue | src/components/admin/ChangesViewer.jsx:114-152 | null shows 'null', a date-like string its date, a number in a money field as money, a boolean 'Yes' or 'No', an array its item count, an object its field count, a string itself |
| ChangesViewer.CountedReadsBack | src/components/admin/ChangesViewer.jsx:143-148 | a count label starts with the count, which reads back, and is plural exactly when the count is not 1 |
| ChangesViewer.ParseError | src/components/admin/ChangesViewer.jsx:25-39 | a parse error is reported exactly when either stored side fails to parse |
| ChangesViewer.ButtonPrecedence | src/components/admin/ChangesViewer.jsx:167-295 | a parse error wins; a dash exactly when nothing parsed is truthy and nothing failed; then the CREATE and DELETE summaries; an update shows its change count, or a plain View exactly when every field serialises alike |
| AuditLogger.MissingCharNotContained | src/utils/auditLog.js:57-58 | a string lacking one character of a pattern does not contain it |
| AuditLogger.Default | src/utils/auditLog.js:23-31 | a parameter default replaces only `undefined` |
| AuditLogger.OrElse | src/utils/auditLog.js:43-44 | a truthy value is kept and anything else gives the fallback |
| AuditLogger.StoredValue | src/utils/auditLog.js:45-46 | an old or new value is stored exactly when it is truthy, and then as that value |
| AuditLogger.ClientIP | src/utils/auditLog.js:83-87 | no client address is ever known |
| AuditLogger.RowOf | src/utils/auditLog.js:36-49 | the row carries the caller's action, entity, user and name; a missing entity id or stall is null, missing details ''; the address only when given and truthy; old and new values only when truthy; the clock's ISO time |
| AuditLogger.MinimalCallDefaults | src/utils/auditLog.js:20-49 | a call naming only action, entity and user gets every default |
| AuditLogger.Reported | src/utils/auditLog.js:51-77 | each call writes at most one console line; the missing-table warning exactly for a missing-table error before the latch is set |
| AuditLogger.Warnings | src/utils/auditLog.js:62-63 | the warning count is zero exactly when no line is the warning |
| AuditLogger.WarningsAppend | src/utils/auditLog.js:62-63 | warnings of consecutive calls add up |
| AuditLogger.AuditTrail.constructor | src/utils/auditLog.js:62 | a session starts with no rows, no console lines and the latch clear |
| AuditLogger.AuditTrail.LogActivity | src/utils/auditLog.js:20-78 | never fails; an accepted insert appends exactly its row; the latch is set by the first missing-table error and the warning is written at most once per session |
| AuditLogView.EqIfSet | src/components/admin/AuditLog.jsx:66-74 | an empty filter adds nothing; a set one adds exactly its equality |
| AuditLogView.EqFilters | src/components/admin/AuditLog.jsx:66-74 | action, entity and user each add an equality exactly when set, and nothing else is added |
| AuditLogView.LoadQuery | src/components/admin/AuditLog.jsx:56-74 | the date range in timestamp mode on `timestamp`, then the equality filters; a bound the date conversion refuses fails the load |
| AuditLogView.LoadQueryWithoutDates | src/components/admin/AuditLog.jsx:63-74 | without dates only the equality filters narrow the select |
| AuditLogView.LoadQueryOfDates | src/components/admin/AuditLog.jsx:63 | two real days bound the select by their host-local start and end instants |
| AuditLogView.Present | src/components/admin/AuditLog.jsx:99-101 | `.filter(Boolean)` keeps exactly the non-empty values |
| AuditLogView.ActionsOf | src/components/admin/AuditLog.jsx:99 | one action per row, in row order |
| AuditLogView.EntitiesOf | src/components/admin/AuditLog.jsx:100 | one entity per row, in row order |
| AuditLogView.UserIdsOf | src/components/admin/AuditLog.jsx:101 | one user id per row, in row order |
| AuditLogView.SortedOptions | src/components/admin/AuditLog.jsx:99-100 | the options are exactly the non-empty values, strictly ascending, so each once |
| AuditLogView.ColumnValues | src/components/admin/AuditLog.jsx:99-101 | a column holds a value exactly when some row holds it there |
| AuditLogView.FilterOptionsContents | src/components/admin/AuditLog.jsx:95-104 | every option list holds exactly the non-empty values of its column, each once; actions and entities ascending |
| AuditLogView.LooksUpUserNamesIff | src/components/admin/AuditLog.jsx:107-116 | user names are looked up exactly when some row names a user |
| AuditLogView.FilterOptionsOfNull | src/components/admin/AuditLog.jsx:96-101 | a null `data` gives no options and no name lookup |
| AuditLogView.Caught | src/components/admin/AuditLog.jsx:78-93 | a missing-table error is replaced by `TABLE_MISSING`; any other is rethrown as it is |
| AuditLogView.MessageOf | src/components/admin/AuditLog.jsx:121 | the shown message is never empty |
| AuditLogView.ContainsLonger | src/components/admin/AuditLog.jsx:125-126 | a message naming the 'audit_logs table' names 'audit_logs' |
| AuditLogView.LoadFailedMessagePlain | src/components/admin/AuditLog.jsx:121-126 | the default message is not read as a missing table |
| AuditLogView.FailedLoadView | src/components/admin/AuditLog.jsx:118-154 | the setup help shows exactly for a missing-table error or one whose message is `TABLE_MISSING`; any other shows its message or the default |
| AuditLogView.LoggerClassifierWeaker | src/components/admin/AuditLog.jsx:80-87 | every error the logger reads as a missing table, the page does too |
| AuditLogView.ClassifiersDisagree | src/components/admin/AuditLog.jsx:86 | a message naming only `audit_logs` is a missing table to the page and not to the logger |
| AuditLogView.FilterState.constructor | src/components/admin/AuditLog.jsx:23-27 | every filter starts empty |
| AuditLogView.FilterState.ClearFilters | src/components/admin/AuditLog.jsx:257-263 | every filter is back to '', so the next load is the unfiltered select |
| AuditLogView.ExportFilename | src/components/admin/AuditLog.jsx:223-227 | the name is `audit_log_…xlsx` |
| AuditLogView.ExportFilenameOfRange | src/components/admin/AuditLog.jsx:224-225 | with both dates set the name carries the range |
| AuditLogView.NoTInFormat | src/components/admin/AuditLog.jsx:226 | a formatted date holds no 'T' |
| AuditLogView.ExportFilenameOfToday | src/components/admin/AuditLog.jsx:226 | otherwise the name carries the UTC calendar date of the clock |
| Notifications.DefaultDuration | src/contexts/NotificationContext.jsx:15 | errors and warnings default to 7000 ms, every other kind to 5000 ms |
| Notifications.DurationOf | src/contexts/NotificationContext.jsx:15 | a given non-zero duration is kept, else the default; never 0 |
| Notifications.ToastId | src/contexts/NotificationContext.jsx:14 | every id starts with `toast-` |
| Notifications.Ids | src/contexts/NotificationContext.jsx:10 | one id per toast, in order |
| Notifications.WithoutId | src/contexts/NotificationContext.jsx:10 | exactly the toasts with another id are kept |
| Notifications.WithoutIdAppend | src/contexts/NotificationContext.jsx:10 | filtering distributes over concatenation, so the kept toasts keep their order |
| Notifications.WithoutAbsentId | src/contexts/NotificationContext.jsx:10 | removing an id no toast has changes nothing |
| Notifications.ToastList.constructor | src/contexts/NotificationContext.jsx:7 | the list starts empty |
| Notifications.ToastList.AddToast | src/contexts/NotificationContext.jsx:13-32 | exactly one toast is appended, with the returned id and its duration; the others are unchanged |
| Notifications.ToastList.RemoveToast | src/contexts/NotificationContext.jsx:9-11 | every toast with the id is removed, the rest kept in order |
| Notifications.ToastList.ShowSuccess | src/contexts/NotificationContext.jsx:34-36 | appends a 'success' toast |
| Notifications.ToastList.ShowError | src/contexts/NotificationContext.jsx:38-40 | appends an 'error' toast |
| Notifications.ToastList.ShowInfo | src/contexts/NotificationContext.jsx:42-44 | appends an 'info' toast |
| Notifications.ToastList.ShowWarning | src/contexts/NotificationContext.jsx:46-48 | appends a 'warning' toast |
| Notifications.RemoveUndoesAdd | src/contexts/NotificationContext.jsx:24-29 | removing a freshly added toast by its id gives back the list it was added to |
| Notifications.RemoveKeepsOthers | src/contexts/NotificationContext.jsx:9-11 | removing one id keeps every other toast in place |
| Notifications.ShowDefaults | src/contexts/NotificationContext.jsx:34-48 | without a duration, an error or warning shows 7000 ms and success or info 5000 ms |
| Reports.WithRange | src/Reports.jsx:65-70 | a card takes the range's dates, and its stall only when the range defines one |
| Reports.ApplyGlobalRangeToCards | src/Reports.jsx:59-95 | the sales card gets only the dates; the five other cards get the dates and keep their stall unless the range defines one |
| Reports.ApplyGlobalRangeTwice | src/Reports.jsx:59-95 | applying two ranges is applying the second, with the first's stall where the second has none; applying one twice changes nothing more |
| Reports.StallLabel | src/Reports.jsx:189 | the stall's name, or `Stall <id>` without one |
| Reports.Amount | src/Reports.jsx:195 | a missing amount counts as 0, any other as its number |
| Reports.Amounts | src/Reports.jsx:195 | one amount per sale, in order |
| Reports.StallRows | src/Reports.jsx:184-186 | one stall's rows are among the rows |
| Reports.TotalOfSales | src/Reports.jsx:184-202 | summing the grouped entries is summing the amounts with missing ones as 0 |
| Reports.SalesByStallSummary | src/Reports.jsx:183-204 | one summary per stall that has a sale, with that stall's total and count; together they account for every amount |
| Reports.LastSaleIsLatest | src/Reports.jsx:197-202 | with valid dates, a stall's `last_sale` is its latest sale's date, the earliest read on ties |
| Reports.ChartData | src/Reports.jsx:930 | the chart is a permutation of the summaries, descending by total or by count |
| Reports.ChartDataTies | src/Reports.jsx:930 | stalls with equal values keep their order |
| Reports.OrNull | src/Reports.jsx:291-297 | null exactly for '', the text itself otherwise |
| Reports.StatisticsScope | src/Reports.jsx:283-298 | a staff member gets Manila's today and the profile's stall; an admin gets the debounced filters; anyone else the undebounced filter stall and no dates |
| Reports.ScopeQuery | src/Reports.jsx:300-310 | `gte`, `lte` and the stall equality are each added exactly when set |
| Reports.StaffStatisticsIgnoreFilters | src/Reports.jsx:288-292 | a staff member's statistics do not depend on the card's filters |
| Reports.StaffStatisticsAreToday | src/Reports.jsx:288-310 | a staff member's statistics select the rows the staff restriction of every other card selects |
| Reports.AdminEmptyFiltersSelectAll | src/Reports.jsx:293-310 | an admin with empty filters gets unfiltered statistics |
| Reports.HighestIndex | src/Reports.jsx:367-368 | the fold lands on the first of the largest totals |
| Reports.LowestIndex | src/Reports.jsx:369-370 | the fold lands on the first of the smallest totals |
| Reports.HighestEarningStall | src/Reports.jsx:367-368 | null exactly without stalls; otherwise a stall with the largest total, the first such |
| Reports.LowestEarningStall | src/Reports.jsx:369-370 | null exactly without stalls; otherwise a stall with the smallest total, the first such |
| Reports.LoadStatistics | src/Reports.jsx:329-377 | the totals are the sums of the amounts read; the highest and lowest stalls are null exactly when no stall has a sale, and otherwise the first of the largest and of the smallest stall totals |
| Reports.StatisticsStallsAreExtremes | src/Reports.jsx:352-370 | the highest and lowest stall each have a sale in scope and carry what they earned; no stall with a sale earned more than the highest or less than the lowest |
| Reports.ExpenseStallFilter | src/Reports.jsx:261-267 | at most one stall predicate is added |
| Reports.ExpenseStallSelection | src/Reports.jsx:261-267 | an unset stall selects every expense, `__none__` exactly those without a stall, any other id exactly that stall's |
| Reports.ActivityKey | src/Reports.jsx:455 | the key is the stall id, a dash, then the date |
| Reports.ActivityKeys | src/Reports.jsx:455 | one key per row, in order |
| Reports.FirstPerKeyKeys | src/Reports.jsx:452-461 | the kept rows' keys are the input's keys, each once, in first-occurrence order |
| Reports.FirstOccurrenceKept | src/Reports.jsx:452-458 | a row whose key has not occurred before it is kept |
| Reports.KeptIsFirstOccurrence | src/Reports.jsx:452-458 | every kept row is the first row of its key |
| Reports.LatestByStallAndDate | src/Reports.jsx:452-461 | the `forEach` and `Object.values` keep exactly the first row per stall and date |
| Reports.FindItem | src/Reports.jsx:1810 | the first item with the id, none exactly when no item has it |
| Reports.ChooseItem | src/Reports.jsx:1808-1830 | an unknown item changes only the product; a known one sets product, unit price (0 when the price is not a number), name and total for the current quantity |
| Reports.ChangeQuantity | src/Reports.jsx:1850-1857 | the quantity (0 when it reads as not a number) changes and the total follows; nothing else changes |
| Reports.EditsKeepPriced | src/Reports.jsx:1808-1857 | every edit keeps the total equal to quantity times unit price |
| Reports.ChooseThenChangeQuantity | src/Reports.jsx:1808-1857 | choosing a known item then a quantity charges that quantity at the item's price |
| Dashboard.AmountsOf | src/dashboard.jsx:84 | one amount per row, in order |
| Dashboard.AmountsOfPrefix | src/dashboard.jsx:84 | the amounts of a longer list extend those of its prefix |
| Dashboard.TotalOfAmounts | src/dashboard.jsx:84 | when each row adds its amount or 0, the grouped total is the sum with missing amounts as 0 |
| Dashboard.LoadStockByStall | src/dashboard.jsx:72-87 | the `forEach` into an object and `Object.values` give StockByStall |
| Dashboard.StockByStallSummary | src/dashboard.jsx:72-87 | one entry per stall with a stock row, holding its quantities' sum under its first row's name; together every quantity |
| Dashboard.StockByStallNumericOrder | src/dashboard.jsx:87 | with numeric stall ids `Object.values` lists the stalls in ascending id order, whatever the row order (section 10.4.2 of ECMA-262, integer-index keys first) |
| Dashboard.ItemLabel | src/dashboard.jsx:149 | the item's name, or 'Unknown Item' |
| Dashboard.LoadBestSellers | src/dashboard.jsx:147-165 | the grouping, the descending sort and the first four give BestSellers |
| Dashboard.ItemSalesSummary | src/dashboard.jsx:147-158 | one entry per item label some sale has, holding that label's units; together every unit |
| Dashboard.PermutationKeepsKeysDistinct | src/dashboard.jsx:161-163 | a rearrangement of groups with distinct keys has distinct keys |
| Dashboard.OnceInDistinctKeys | src/dashboard.jsx:161-163 | a group with a distinct key occurs once |
| Dashboard.BestSellersAreTop | src/dashboard.jsx:160-163 | at most four items, descending, drawn from the items, and no item left out sold more than an item shown |
| Dashboard.PrefixOfSorted | src/dashboard.jsx:161-163 | the first n of a descending rearrangement are the n largest |
| Dashboard.InsertPeriod | src/dashboard.jsx:251-258 | inserting a bucket keeps the periods ascending and adds exactly that bucket |
| Dashboard.SortByPeriod | src/dashboard.jsx:251-258 | the sort is a permutation with ascending periods |
| Dashboard.LoadTimeBasedSales | src/dashboard.jsx:226-261 | the grouping and sort give TimeBasedSales |
| Dashboard.BucketOfSummary | src/dashboard.jsx:226-249 | a group of the rows is a bucket of its period |
| Dashboard.TimeBasedSalesBuckets | src/dashboard.jsx:226-261 | one bucket per period some sale falls in, summing and counting that period's sales; with a grouping, strictly ascending periods |
| Dashboard.BucketsOfGroups | src/dashboard.jsx:251 | every rearrangement of the groups consists of buckets |
| Dashboard.TimeBucketsPermute | src/dashboard.jsx:251-258 | the buckets are the groups, reordered by period |
| Dashboard.SamePresence | src/dashboard.jsx:251 | two rearrangements of the groups have the same periods |
| Dashboard.StrictlyAscendingPeriods | src/dashboard.jsx:251-258 | ascending periods without repeats are strictly ascending |
| Dashboard.SalesForFinds | src/dashboard.jsx:527 | the first bucket's sales for the period, 0 when none has it |
| Dashboard.SalesForRows | src/dashboard.jsx:527 | the charted point of a period is the sum of that period's sale amounts, 0 for none |
| DashboardSeries.MonthsBack | src/dashboard.jsx:195-196 | a valid first-of-month exactly n months before the given day's month |
| DashboardSeries.YearMonthKeyInjective | src/dashboard.jsx:555-557 | for four-digit years, two months share a key exactly when they are the same month |
| DashboardSeries.BucketsOfSale | src/dashboard.jsx:227-236 | a sale on day d falls in the day bucket of d and the month bucket the line chart looks up for d's month |
| DashboardSeries.MonthsBackFromFirst | src/dashboard.jsx:195-196 | moving to the first before changing the month lands on the first of the month n months back |
| DashboardSeries.DaysBackKey | src/dashboard.jsx:509-517 | n days back from Manila's today, rendered from host-local midnight, is Manila's today moved by n days and the host shift |
| DashboardSeries.DaySeries | src/dashboard.jsx:507-547 | seven points; point k is the sales of the date 6 - k days before the end |
| DashboardSeries.MonthSeries | src/dashboard.jsx:549-565 | twelve points; point k is the sales of the month 11 - k months back (corrected as under Findings) |
| DashboardSeries.TimeBasedLine | src/dashboard.jsx:502-566 | yesterday and week give seven daily points ending yesterday or today; month gives twelve monthly points ending this month (corrected as under Findings); any other period nothing |
| DashboardSeries.TimeBasedLineDays | src/dashboard.jsx:507-547 | the day views draw consecutive Manila days, moved by the host shift |
| DashboardSeries.TimeQuery | src/dashboard.jsx:200-219 | the window on `sale_date`, then the stall unless it is 'all' |
| DashboardSeries.MonthWindowStart | src/dashboard.jsx:195-196 | the month window starts at local midnight of the first of the month eleven months back (corrected as under Findings) |
| DashboardSeries.YesterdayWindow | src/dashboard.jsx:178-185 | the seven days ending yesterday, by day |
| DashboardSeries.WeekWindow | src/dashboard.jsx:186-191 | today and the six days before, by day |
| DashboardSeries.MonthWindow | src/dashboard.jsx:192-198 | the first of the month eleven months back to today, by month |
| DashboardSeries.TimeWindow | src/dashboard.jsx:172-201 | the grouping is by month exactly for the month view and absent exactly without a period; without a period both bounds are one date; the week and month views end on the date `getPHDate()` names (month view corrected as under Findings) |
| DashboardSeries.TimeWindowDates | src/dashboard.jsx:172-201 | each window covers exactly the days its series draws; without a period both bounds are today (month window corrected as under Findings) |
| DashboardSeries.MonthKeysDistinct | src/dashboard.jsx:549-565 | the corrected month view's twelve keys are distinct |
| DashboardSeries.AsWrittenSeriesMonthOf | src/dashboard.jsx:553-554 | `setMonth(getMonth() - i)` keeps the day of the month and lets it overflow into the next month |
| DashboardSeries.FebruaryOverflow | src/dashboard.jsx:554 | 31 February is that many days into March |
| DashboardSeries.AprilOverflow | src/dashboard.jsx:195 | 31 April is 1 May |
| DashboardSeries.AsWrittenSeriesRepeatsMarch | src/dashboard.jsx:549-565 | on 31 March the last two points both carry March's key and February is never drawn |
| DashboardSeries.AsWrittenWindowStartOf | src/dashboard.jsx:195-196 | the window start as written is two day-overflowing month steps |
| DashboardSeries.AsWrittenWindowSkipsApril | src/dashboard.jsx:192-198 | on 31 March the window as written starts on 1 May of the year before, so April is not read |
| DashboardSeries.NextMonthStart | src/dashboard.jsx:195 | the first of the next month is the first of this month plus its length |
| DashboardSeries.SalesVsExpenseQueries | src/dashboard.jsx:97-114 | every sale and expense dated on or after the twelve-months-back bound |
| DashboardSeries.BestSellersQuery | src/dashboard.jsx:131-143 | the best sellers read the same bound as the sales total |
| DashboardSeries.SalesVsExpense | src/dashboard.jsx:116-123 | both totals, missing amounts as 0, exactly when both reads succeed; a failed read keeps the card |
| DashboardSeries.TwelveMonthsAgoDate | src/dashboard.jsx:97-100 | on hosts from just east of UTC-16 to UTC+8 the bound is the same Manila day a year earlier, 29 February rolling to 1 March |
| DashboardSeries.YearBefore | src/dashboard.jsx:99 | the same month and day a year earlier, 29 February becoming 1 March |
| StaffReportsToday.BuildTodayRangePH | src/utils/staffReportsToday.js:7-14 | start and end are the same non-empty date |
| StaffReportsToday.BuildTodayRangeIsTodayPreset | src/utils/staffReportsToday.js:7-14 | it is the range of the 'today' preset |
| StaffReportsToday.BuildTodayRangeIsPHToday | src/utils/staffReportsToday.js:7-14 | on a host at or west of UTC+8 it is Manila's calendar date |
| StaffReportsToday.RestrictToStaffStallAndToday | src/utils/staffReportsToday.js:24-41 | anyone but a staff member with a stall keeps the query; a staff member gets the stall equality first, and the today bounds only with a date column |
| StaffReportsToday.RestrictIsStallThenToday | src/utils/staffReportsToday.js:32-38 | with a date column, the stall filter then exactly the today range on a plain date column |
| StaffReportsToday.CurrentStallStock | src/utils/staffReportsToday.js:47-63 | 0 without a stall, on a failed read or a missing quantity; otherwise the quantity |
| StaffReportsToday.TodaySalesQueryOfNonStaff | src/utils/staffReportsToday.js:140-147 | a non-staff profile with a stall passes the guard but its total is over every sale |
| StaffReportsToday.TodaySalesQueryOfStaff | src/utils/staffReportsToday.js:147 | a staff member's sales query names the stall and today on `sale_date` |
| StaffReportsToday.SumAmountsAppend | src/utils/staffReportsToday.js:152 | the total is additive over concatenation |
| StaffReportsToday.SumAmountsNonNegative | src/utils/staffReportsToday.js:152 | non-negative amounts give a non-negative total |
| StaffReportsToday.TodaySalesTotal | src/utils/staffReportsToday.js:139-157 | 0 without a stall or on a failed read; otherwise the sum with missing amounts as 0 |
| StaffReportsToday.NormaliseRow | src/utils/staffReportsToday.js:96-99 | the level is always a number, a null one 0; an empty status reads 'not_sold_out'; present values are kept |
| StaffReportsToday.TodayKey | src/utils/staffReportsToday.js:116-122 | today's row of a stall is keyed by the stall and Manila's today |
| StaffReportsToday.FetchTodayStockStatus | src/utils/staffReportsToday.js:69-107 | no stall, no row or a failed read give the default; otherwise today's row normalised |
| StaffReportsToday.StockStatusHistory.constructor | src/utils/staffReportsToday.js:127 | the table starts with the given rows |
| StaffReportsToday.StockStatusHistory.SaveTodayStockStatus | src/utils/staffReportsToday.js:113-134 | nothing without a stall or on a failed upsert; otherwise today's row of the stall becomes the new values and no other row changes |
| StaffReportsToday.SaveThenFetch | src/utils/staffReportsToday.js:69-134 | reading today's status right after saving it gives the saved values back, normalised |
| StaffReportsToday.SaveTwiceKeepsLast | src/utils/staffReportsToday.js:128 | saving twice on one day leaves one row with the second values; other rows are untouched |
| DashboardStaff.BuildStatusLookup | src/dashboard.jsx:314-323 | the `forEach` fills exactly the StatusLookup object |
| DashboardStaff.LastRowOf | src/dashboard.jsx:316-317 | the last row naming the stall, -1 for none |
| DashboardStaff.StatusLookupLastRow | src/dashboard.jsx:314-323 | a stall is in the lookup exactly when a row names it, holding the last such row normalised |
| DashboardStaff.MergeStatus | src/dashboard.jsx:325-337 | each stall in order, with the lookup's status or 'not_sold_out' and no level |
| DashboardStaff.LoadStallsStatus | src/dashboard.jsx:282-343 | a failed read keeps the card; no stalls gives an empty list without the second read; otherwise every stall in order with its status |
| DashboardStaff.LookupAgreesWithFetch | src/dashboard.jsx:300-323 | when the rows read are the table's today rows, the card shows for a stall what `fetchTodayStockStatus` gives |
| DashboardStaff.LoadStaffStatistics | src/dashboard.jsx:378-395 | nothing without a profile; otherwise the stall stock, the sales total and today's status |
| DashboardStaff.NextStatus | src/dashboard.jsx:414-415 | 'sold_out' becomes 'not_sold_out' and anything else 'sold_out' |
| DashboardStaff.NextStatusTwice | src/dashboard.jsx:414-415 | toggling twice from a saved status comes back to it |
| DashboardStaff.ToggleStockStatus | src/dashboard.jsx:411-433 | nothing without a profile; otherwise the card shows the next status and today's row is saved with the shown stock and that status |
| DashboardStaff.ToggleThenLoad | src/dashboard.jsx:378-433 | after a successful toggle, loading again shows the status the card already shows |
| ManageStaff.LookupOf | src/ManageStaff.jsx:89 | an empty id or an account the gateway does not know makes the lookup throw; otherwise the account's answer |
| ManageStaff.PromotedRow | src/ManageStaff.jsx:92-98 | only the status may change, and only from 'inactive' to 'active' for a confirmed account |
| ManageStaff.VerifyStaff | src/ManageStaff.jsx:88-111 | with an answer, 'active' shows exactly for a confirmed account and 'unverified' otherwise, with the sign-in time when truthy; a throwing lookup shows the stored status |
| ManageStaff.PromoteAllOnlyActivates | src/ManageStaff.jsx:92-97 | the writes keep every row and change nothing but a status to 'active'; every confirmed 'inactive' member whose write went through is 'active' |
| ManageStaff.StaffStore.constructor | src/ManageStaff.jsx:52-80 | the store starts on the given profiles and accounts |
| ManageStaff.StaffStore.FetchStaffWithVerification | src/ManageStaff.jsx:85-113 | every staff row, in order, verified against its account, the promotions also written to the table |
| ManageStaff.StaffStore.UpdateStaff | src/ManageStaff.jsx:232-321 | nothing without a member on view; refused without a full name; a failed write reports with the prefix; otherwise the four editable columns are written and the audit values kept |
| ManageStaff.StaffStore.ConfirmDeleteStaff | src/ManageStaff.jsx:336-398 | nothing without an id; the profile is deleted first and its failure stops everything; a failed account deletion is only logged |
| ManageStaff.NewProfile | src/ManageStaff.jsx:144-152 | the audit's new profile is the form's, a 'staff' one with status 'inactive', empty contact and stall as null |
| ManageStaff.CreateStaff | src/ManageStaff.jsx:117-195 | refused before any call: without email or password with the credentials message, else for a non-admin caller with the admins-only message; a failed call fails with the error prefix followed by its message, a reply without a user id with the prefix and the missing-id message; otherwise the new profile |
| ManageStaff.FormOf | src/ManageStaff.jsx:197-210 | the form opened on a member, empty for a missing value and 'active' for a missing status |
| ManageStaff.UpdatedRow | src/ManageStaff.jsx:262-267 | name, contact, status and stall from the form, empty contact and stall as null; id, email and role kept |
| ManageStaff.AuditOf | src/ManageStaff.jsx:243-257 | the audit value carries the five shown columns of the row |
| ManageStaff.SaveUnchangedForm | src/ManageStaff.jsx:197-267 | opening a member and saving unchanged writes the row back as it was |
| ManageStaff.DeactivateIsUndoneByRefresh | src/ManageStaff.jsx:262-299 | setting a confirmed member to 'inactive' is undone by the refresh that follows |
| ManageStaff.FindStaff | src/ManageStaff.jsx:342 | the first member with the id, none exactly when no member has it |
| ManageStaff.StaffOfStall | src/ManageStaff.jsx:403 | exactly the members assigned to the stall, each as often as in the list |
| ManageStaff.StaffOfStallAppend | src/ManageStaff.jsx:403 | filtering distributes over concatenation, so the kept members keep their order |
| ManageStaff.StaffByStall | src/ManageStaff.jsx:400-404 | one group per listed stall, holding that stall's members |
| ManageStaff.GroupMembership | src/ManageStaff.jsx:400-404 | a member is in a stall's group exactly when assigned to it; one without a listed stall is in none |
| ChickenStocks.StatusBadgeColor | src/components/admin/ChickenStocksAndStallStatus.jsx:15-25 | any status outside the three choices gets the neutral badge |
| ChickenStocks.StatusBadgesDistinct | src/components/admin/ChickenStocksAndStallStatus.jsx:15-25 | 'active', 'inactive' and 'under maintenance' get three different badges, none of them neutral |
| ChickenStocks.FindStall | src/components/admin/ChickenStocksAndStallStatus.jsx:121 | none exactly when no stall has the id; otherwise a listed stall with the id, the only one when ids are distinct |
| ChickenStocks.StallIds | src/components/admin/ChickenStocksAndStallStatus.jsx:81 | the ids in list order, one per stall |
| ChickenStocks.EditStalls | src/components/admin/ChickenStocksAndStallStatus.jsx:122-124 | same length; exactly the stalls with the id are edited, every other stall is kept |
| ChickenStocks.SetStatus | src/components/admin/ChickenStocksAndStallStatus.jsx:122-124 | same length; exactly the stalls with the id take the new status |
| ChickenStocks.SetLocation | src/components/admin/ChickenStocksAndStallStatus.jsx:300-302 | same length; exactly the stalls with the id take the new location |
| ChickenStocks.StatusRollbackRestores | src/components/admin/ChickenStocksAndStallStatus.jsx:167-170 | with distinct ids, putting back the status found before the change gives back the list |
| ChickenStocks.LocationRollbackRestores | src/components/admin/ChickenStocksAndStallStatus.jsx:331-334 | with distinct ids, putting back the location found before the change gives back the list |
| ChickenStocks.FindStockRow | src/components/admin/ChickenStocksAndStallStatus.jsx:89 | none exactly when no row has the stall's id; otherwise a row with that id |
| ChickenStocks.LoadedEntry | src/components/admin/ChickenStocksAndStallStatus.jsx:89-102 | a stall without a row gets no id and 0; one with a row gets its first row's id and quantity |
| ChickenStocks.InputNumber | src/components/admin/ChickenStocksAndStallStatus.jsx:277-279 | a shown quantity reads as itself and a missing input as not a number |
| ChickenStocks.InputNumberAgreesWithNumber | src/components/admin/ChickenStocksAndStallStatus.jsx:278 | a whole number read from a typed input is the number `Number` reads |
| ChickenStocks.ClearedInputIsZero | src/components/admin/ChickenStocksAndStallStatus.jsx:278-280 | a blank input reads as 0, so blurring it saves a level of 0 |
| ChickenStocks.StockPanel.constructor | src/components/admin/ChickenStocksAndStallStatus.jsx:29-38 | the panel starts with no stocks, no inputs, no messages and no history |
| ChickenStocks.StockPanel.LoadStalls | src/components/admin/ChickenStocksAndStallStatus.jsx:42-70 | a failed read only sets the error (its message or the default); otherwise the list is replaced, every stall id gets an empty stock input and a location input showing the last such stall's location or '' |
| ChickenStocks.InitialInputs | src/components/admin/ChickenStocksAndStallStatus.jsx:56-61 | the two maps have exactly the listed ids as keys, every stock input empty, and each location input from the last stall with that id |
| ChickenStocks.IdsBefore | src/components/admin/ChickenStocksAndStallStatus.jsx:56-61 | every id among the first stalls is in the set and nothing else is |
| ChickenStocks.StockPanel.LoadStocks | src/components/admin/ChickenStocksAndStallStatus.jsx:73-114 | nothing happens without stalls; a failed read only sets the error; otherwise exactly the listed stalls get an entry from their first row (or none and 0) and their input shows that quantity |
| ChickenStocks.StockPanel.HandleStockChange | src/components/admin/ChickenStocksAndStallStatus.jsx:178-268 | a non-finite or negative quantity only sets the error; a failed write puts the old entry and input back; a successful one shows the quantity, updates or inserts the row, and records today's level keeping its sold-out status |
| ChickenStocks.StockPanel.HandleStockInputBlur | src/components/admin/ChickenStocksAndStallStatus.jsx:277-290 | an input that reads as a non-negative number is saved as by a stock change: a failed write puts the old entry and input back and sets the error; a successful one shows the quantity, updates or inserts the row and records today's level; any other input is reset to the current quantity and nothing else changes |
| ChickenStocks.StockPanel.HandleStockInputChange | src/components/admin/ChickenStocksAndStallStatus.jsx:270-275 | the stall's stock input holds the typed text and no other input changes |
| ChickenStocks.StockPanel.HandleStatusChange | src/components/admin/ChickenStocksAndStallStatus.jsx:116-176 | on success the status is shown and stored and a history row added unless that insert fails; on failure the stalls get back the status found before and nothing is stored |
| ChickenStocks.StockPanel.HandleLocationChange | src/components/admin/ChickenStocksAndStallStatus.jsx:292-342 | on success the trimmed location is shown and stored (null when empty); on failure the location and its input go back to the one found before and nothing is stored |
| ChickenStocks.StockPanel.HandleLocationInputChange | src/components/admin/ChickenStocksAndStallStatus.jsx:344-349 | the stall's location input holds the typed text and no other input changes |
| ChickenStocks.StockPanel.HandleLocationInputBlur | src/components/admin/ChickenStocksAndStallStatus.jsx:351-354 | the input's text, or '' without one, is saved as by a location change |
| ChickenStocks.LocationText | src/components/admin/ChickenStocksAndStallStatus.jsx:59 | a truthy location is shown, anything else as '' |
| ChickenStocks.LocationInput | src/components/admin/ChickenStocksAndStallStatus.jsx:352 | the typed text, or '' when the stall has no input |
| ChickenStocks.PrevQuantity | src/components/admin/ChickenStocksAndStallStatus.jsx:190 | the entry's quantity, 0 without an entry |
| ChickenStocks.PrevUid | src/components/admin/ChickenStocksAndStallStatus.jsx:191 | the entry's row id, none without an entry |
| ChickenStocks.PrevLocation | src/components/admin/ChickenStocksAndStallStatus.jsx:298 | the location of the first stall with the id, none without one |
| ChickenStocks.StockAfterWrite | src/components/admin/ChickenStocksAndStallStatus.jsx:193-220 | the new quantity, with the existing row id or else the inserted row's |
| ChickenStocks.UpdateQuantity | src/components/admin/ChickenStocksAndStallStatus.jsx:204-207 | only the row with that id changes, and only its quantity |
| ChickenStocks.StockTableAfterWrite | src/components/admin/ChickenStocksAndStallStatus.jsx:203-220 | a stall with a row id has that row updated; one without gets a new row with the quantity |
| ChickenStocks.KeptStatus | src/components/admin/ChickenStocksAndStallStatus.jsx:226-230 | today's stored sold-out status, 'not_sold_out' when there is none |
| ChickenStocks.SavedLevel | src/components/admin/ChickenStocksAndStallStatus.jsx:224-232 | no stall id or a failed write leaves the history as it was; otherwise today's row holds the level and the kept status |
| ChickenStocks.SavedLevelKeepsStatus | src/components/admin/ChickenStocksAndStallStatus.jsx:224-232 | read back after a save, today's row has the new level and the status it had before |
| ChickenStocks.StatusWritten | src/components/admin/ChickenStocksAndStallStatus.jsx:127-130 | the stall's row takes the status; no other row changes |
| ChickenStocks.LocationWritten | src/components/admin/ChickenStocksAndStallStatus.jsx:304-309 | the stall's row takes the trimmed location, null exactly when it is empty, and keeps its status; no other row changes |
| ChickenStocks.StoredLocationTrimmed | src/components/admin/ChickenStocksAndStallStatus.jsx:297-309 | a stored location never begins or ends with white space |
| ChickenStocks.StockRollbackRestores | src/components/admin/ChickenStocksAndStallStatus.jsx:193-264 | a stock edit keeps every listed stall covered, and putting back the old entry after a failed write restores the stock map |
| EditMenuPrices.WithField | src/components/admin/EditMenuPrices.jsx:38 | the typed text replaces the edited field; the id and the other field are kept |
| EditMenuPrices.ChangeField | src/components/admin/EditMenuPrices.jsx:37-39 | same length; every item with the id gets the edit and every other item is kept |
| EditMenuPrices.FindMenuItem | src/components/admin/EditMenuPrices.jsx:56 | none exactly when no item has the id; otherwise the first listed item with it |
| EditMenuPrices.FindAfterChange | src/components/admin/EditMenuPrices.jsx:37-56 | after an edit, looking the id up finds the edited form of the item found before |
| EditMenuPrices.EditedPriceIsOldValue | src/components/admin/EditMenuPrices.jsx:37-57 | after typing a price, the listed item the save reports as old carries the typed price and its own name |
| EditMenuPrices.NameText | src/components/admin/EditMenuPrices.jsx:44 | a null name is '' and any other name is itself |
| EditMenuPrices.PriceNumber | src/components/admin/EditMenuPrices.jsx:45 | a null price is 0, a stored number itself, typed text what `Number` reads |
| EditMenuPrices.Validate | src/components/admin/EditMenuPrices.jsx:44-53 | a blank trimmed name is refused first, then a non-finite or negative price; otherwise the row is the trimmed name and the price, and is a valid row |
| EditMenuPrices.TypedDecimalSaves | src/components/admin/EditMenuPrices.jsx:45-53 | a typed price `whole.fraction` with a name saves exactly that decimal value |
| EditMenuPrices.TypedNegativeRefused | src/components/admin/EditMenuPrices.jsx:49-52 | a typed negative whole price is refused with the price message |
| EditMenuPrices.UpdateRow | src/components/admin/EditMenuPrices.jsx:60-63 | only the row with the id is replaced; without such a row nothing changes |
| EditMenuPrices.UpdateKeepsValid | src/components/admin/EditMenuPrices.jsx:44-63 | a save of a checked row keeps every stored row a valid one |
| EditMenuPrices.MenuEditor.constructor | src/components/admin/EditMenuPrices.jsx:8-13 | the editor starts on the given items and table with no messages |
| EditMenuPrices.MenuEditor.HandleItemFieldChange | src/components/admin/EditMenuPrices.jsx:37-39 | the list becomes the edited list |
| EditMenuPrices.MenuEditor.SaveMenuItem | src/components/admin/EditMenuPrices.jsx:41-86 | a refused item or a failed write leaves the table and sets the error; a successful write stores the checked row, sets the success message and, for a signed-in user, reports the listed item's name and price as old and the stored row as new; the table stays valid |
| ExpensesOverview.CheckForm | src/components/admin/ExpensesOverview.jsx:84-85 | the name message exactly when the name is empty; the cost message exactly when there is a name and the cost is empty or reads below zero; no refusal otherwise |
| ExpensesOverview.PayloadOf | src/components/admin/ExpensesOverview.jsx:87-97 | the typed name and `Number(cost)`, the chosen date or today's Manila date, and null for each empty optional input |
| ExpensesOverview.AcceptedCostNotNegative | src/components/admin/ExpensesOverview.jsx:85-90 | a form that passes the checks never stores a cost below zero |
| ExpensesOverview.DefaultDateIsManilaToday | src/components/admin/ExpensesOverview.jsx:91-94 | without a chosen date the row is dated with the Manila calendar day of the moment it is added |
| ExpensesOverview.WholeCostAccepted | src/components/admin/ExpensesOverview.jsx:85 | with a name, a whole-number cost passes exactly when it is not below zero |
| ExpensesOverview.ExpensePanel.constructor | src/components/admin/ExpensesOverview.jsx:10-20 | the panel starts with empty inputs and no messages on the given list |
| ExpensesOverview.ExpensePanel.ClearForm | src/components/admin/ExpensesOverview.jsx:128-133 | every input is empty again |
| ExpensesOverview.JsonNumber | src/components/admin/ExpensesOverview.jsx:90-101 | a sent number is kept exactly when it is finite; NaN and the infinities become null |
| ExpensesOverview.StoredRowOf | src/components/admin/ExpensesOverview.jsx:87-103 | the stored row has every typed field of the payload and its cost as sent, null when `Number(cost)` is not finite |
| ExpensesOverview.AcceptedCostStored | src/components/admin/ExpensesOverview.jsx:85-103 | an accepted cost is stored as null exactly when it reads as NaN or an infinity, and otherwise as a number not below zero |
| ExpensesOverview.ExpensePanel.AddExpense | src/components/admin/ExpensesOverview.jsx:79-140 | a refused form or a failed insert keeps the list and the inputs and sets the error; a successful insert puts the stored row (cost null when not finite) first, clears the inputs, sets the success message and, for a signed-in user, reports the new id with the inserted values; loading ends on every path |
| JsNumber.ParseNumber | src/components/admin/EditMenuPrices.jsx:45 | a blank string is 0, and only a string whose trimmed text starts with a minus sign reads below zero |
| JsNumber.ParseDigits | src/components/admin/ChickenStocksAndStallStatus.jsx:183 | a run of decimal digits reads as its value |
| JsNumber.ParseIntToString | src/components/admin/ExpensesOverview.jsx:85 | reading the decimal text of any integer, negative ones included, gives the integer back |
| JsNumber.ParseNegated | src/components/admin/ExpensesOverview.jsx:85 | a minus sign in front of an unsigned literal negates what it reads as |
| JsNumber.ParseDecimal | src/components/admin/EditMenuPrices.jsx:45 | a literal `whole.fraction` reads as exactly `whole + fraction / 10^w` |
| JsNumber.ParseNumberAgreesWithNumberOf | src/components/admin/ChickenStocksAndStallStatus.jsx:278 | wherever the whole-number reading of a stock input gives a value, `Number` gives the same |
| Text.Trim | src/components/admin/EditMenuPrices.jsx:44 | the result neither starts nor ends with white space, and is empty exactly when the string is all white space |
| Text.TrimIdempotent | src/components/admin/ChickenStocksAndStallStatus.jsx:297 | trimming twice is trimming once |
| Text.MessageOr | src/components/admin/EditMenuPrices.jsx:82 | a non-empty message is shown, otherwise the fallback |
| Text.NullIfEmpty | src/components/admin/ExpensesOverview.jsx:89 | null exactly for the empty string, the string itself otherwise |
| Text.Utf16Char | src/utils/dateFilterUtils.js:129 | a character is one code unit below U+10000 and otherwise a surrogate pair, a lead unit in 0xD800..0xDBFF and a trail unit in 0xDC00..0xDFFF |
| Text.Utf16 | src/utils/dateFilterUtils.js:129 | a string has at least as many code units as characters |
| Text.UnitsLessCommon | src/utils/dateFilterUtils.js:129 | a common prefix of code units does not decide the order |
| Text.UnitsOfDifferentChars | src/utils/dateFilterUtils.js:129 | of two different characters, the one whose code units come first is the one of lower rank, whatever follows |
| Text.LexLessIsCodeUnitOrder | src/utils/dateFilterUtils.js:129 | the string order used throughout is exactly lexicographic order on the strings' UTF-16 code units |
| Text.Sort | src/components/admin/AuditLog.jsx:99-100 | the same strings, ascending by UTF-16 code units |
| Text.SortDistinct | src/components/admin/AuditLog.jsx:99-100 | sorting a list without repeats gives a strictly ascending list without repeats |
| Text.JoinSplit | src/utils/dateUtils.js:30 | splitting on a character and joining on it gives the string back |
| Text.SplitJoin | src/utils/dateUtils.js:30 | joining parts free of the separator and splitting again gives the parts back |
| Sorting.SortBy | src/dashboard.jsx:161-162 | a rearrangement of the list, ascending by the key |
| Sorting.SortByStable | src/dashboard.jsx:161-162 | the elements of each key keep their order |
| Sorting.SortByIsTheStableSort | src/dashboard.jsx:161-162 | any sorted rearrangement that keeps each key's order is exactly the result |
| JsObject.EnumerationOrderShape | src/dashboard.jsx:87 | every key listed as often as given; array-index keys first in ascending value, then the others in insertion order |
| JsObject.EnumerationOrderDistinct | src/dashboard.jsx:87 | distinct keys stay distinct |
| JsObject.EnumerationOrderOfNames | src/Reports.jsx:460 | without array-index keys the order is insertion order |
| JsObject.EnumerationOrderOfIndices | src/Reports.jsx:205 | with only array-index keys the keys come in ascending numeric order |
| JsObject.NonDigitKey | src/Reports.jsx:455 | a key with a non-digit in it, such as a `stall-date` key, is never an array index |
| Grouping.TallyStep | src/dashboard.jsx:148-160 | one more row changes only the group of its own key: a fresh group for a new key, the row added otherwise |
| Grouping.Accumulate | src/dashboard.jsx:147-161 | the object filled row by row and read back with `Object.values` gives the grouping |
| Grouping.ValuesOf | src/dashboard.jsx:161 | reading the filled object back lists the groups in enumeration order of the keys |
| Grouping.GroupedKeys | src/Reports.jsx:184-205 | the groups list each key some row has, once each |
| Grouping.GroupedConserves | src/Reports.jsx:184-205 | the groups' totals add up to the total of all rows |
| Grouping.GroupedRows | src/Reports.jsx:184-205 | one group per key, each summarising exactly the rows of its key, together accounting for every amount |
| Grouping.LatestIsFirstMaximum | src/Reports.jsx:195-200 | with valid dates the kept latest date is that of the row with the largest time, the first one on a tie |
| Text.NumberOf | src/components/admin/ChickenStocksAndStallStatus.jsx:278 | a run of decimal digits reads as its value |

## Left out

- Rendering, charts, dialogs and routing: every JSX tree, Recharts and Chart.js, the theme toggle, the sidebar, the profile page, the confirm modal and the stock-management page carry no logic beyond what is modelled.
- Network and authentication I/O. Every Supabase select, insert, update, upsert and delete, every `fetch`, and the session are inputs (the rows or error a call returns) or updates of map-backed stores. Server-side ordering (`.order(...)`) is taken as the order of the given rows.
- The Supabase client, the login page, the profile context and the re-export of the notification helpers are not part of this model.
- Concurrency and timing: `Promise.all` is modelled as its calls made in sequence. Debouncing, the 30-second refresh interval, toast expiry timers, `isMounted` guards and React's batching of state updates are not modelled; a timer's effect is a later call.
- Loading and spinner flags that only drive rendering (`menuLoading`, `stockLoadingId`, `statusLoadingId`, `locationLoadingId`) are not modelled. `loading` is modelled where a handler sets it.
- Locale text: `toLocaleDateString`/`toLocaleString` labels, the text `formatPHDate` produces (only its empty-input guard is modelled), `toFixed`, and the currency and plain-number branches of `formatValue`. `localeCompare` is modelled as UTF-16 code-unit order, the order of `<`; the locale's collation is not modelled. The strings it compares here are `YYYY-MM-DD` and `YYYY-MM` keys, whose digit and hyphen order is the same under both.
- Time zones other than fixed offsets: the host's offset from UTC is a constant parameter, so daylight-saving changes on the host are not modelled. Asia/Manila has none.
- DateFilterUtils.UtcMidnight: reads only strings that name a real date. V8 also accepts a `YYYY-MM-DD` day past the end of its month, up to 31, and rolls it over into the next month (`2024-02-30` is 1 March), where the model gives an invalid Date. Other forms V8's fallback date parser accepts are not modelled either.
- DateUtils.DateFields: reads each field of `split('-').map(Number)` as decimal digits with optional surrounding white space (an empty field is 0). `Number` also reads a sign, a fraction, an exponent and hexadecimal, octal or binary literals ('2024-01-05.5', '2024-1e1-05', '2024-+1-05'), and `new Date(y, m - 1, d)` truncates such values. The model reads these fields as not a number, so the Date is invalid.
- DateFilterUtils.DayBoundInstant: through DateUtils.DateFields, a date string with a signed, fractional, exponent or non-decimal field has no bound, where the source truncates the field and gives one.
- DateFilterUtils.DateToUTCTimestamp: through DateUtils.DateFields, such a date string throws 'Invalid time value', where the source returns a bound.
- DashboardSeries.TimeBasedLine: the month view is the corrected series, twelve distinct months ending with the current one. On days 29 to 31 the source's `setMonth(getMonth() - i)` overflows into the next month, so it can repeat a month and skip another; that as-written series is `DashboardSeries.AsWrittenSeriesMonthOf`, shown under "## Findings".
- DashboardSeries.TimeWindow: the month window starts on the first of the month eleven months back, as the corrected code does. The source calls `setMonth` before `setDate(1)`, which on days 29 to 31 can overflow and start a month late; that as-written start is `DashboardSeries.AsWrittenWindowStartOf`, shown under "## Findings".
- DashboardSeries.TimeWindowDates: states the corrected month window of `DashboardSeries.TimeWindow`, not the as-written one.
- Dashboard.LoadBestSellers, Grouping.Accumulate, ChangesViewer.ChangeOfReports, JsonValue.Lookup: keys that name members of `Object.prototype` (`constructor`, `toString`, `valueOf`, `hasOwnProperty`, `isPrototypeOf`, `propertyIsEnumerable`, `toLocaleString`, `__proto__` and the legacy `__defineGetter__` family) are not modelled. A modelled object holds only its own keys, where `obj[key]` in JavaScript also finds these inherited members. Stall ids, `YYYY-MM-DD`/`YYYY-MM` period keys and `stall-date` keys cannot take these names; a menu item's name and an audited field's name can.
- Grouping.Accumulate: groups by a key that may name an `Object.prototype` member as if the accumulator held only its own keys; the Dashboard.LoadBestSellers line describes what the source does instead.
- JsonValue.Lookup: a key naming an `Object.prototype` member is absent unless the object has it as its own key; in the source, `obj[key]` returns the inherited member.
- Dashboard.ItemSalesSummary: an item named after an `Object.prototype` member is listed with its units. In the source, `!itemSales[itemName]` finds the inherited member, so no own entry is made, the `+=` writes onto the inherited value instead, and `Object.values` leaves the item out of the best sellers.
- Grouping.TallyStep: a new key naming an `Object.prototype` member starts a fresh group. The source's `!acc[key]` test sees the inherited member and starts none.
- ChangesViewer.ChangeOfReports: a field named after an `Object.prototype` member and present on one side only is reported 'added' or 'removed' with a null side. In the source the missing side reads the inherited member instead of `undefined`: a function, which `JSON.stringify` writes as `undefined`, or for `__proto__` the object `Object.prototype`, written `{}`. The change is then 'modified' with that member as the old or new value, or no change at all when the present side is also written `{}`.
- ChangesViewer.DiffKeysReports: inherits the reading of prototype-named fields described on the ChangesViewer.ChangeOfReports line.
- Years outside 0..9999: the date-string lemmas assume four-digit years, as RFC 3339 `full-date` does (`DateString.FourDigitYear` accepts 0..9999). `DashboardSeries.MonthKeysDistinct` is stated for years 1001..9999 only.
- `Number()` on hexadecimal, octal and binary literals (read here as NaN), and binary floating point: finite numbers are exact reals, so there is no rounding and no overflow to infinity.
- ChickenStocks.InputNumber: reads a typed stock level as a whole number only. A typed fraction, exponent or sign is read as not a number, so the input is reset instead of saved.
- The audit `details` strings built from template literals, and the audit entries of the stock, status and location handlers of the stock panel, are not modelled. The entries of the menu, expense and staff screens are.
- The page loaders `loadMenuItems`, `loadExpenses` and the expense panel's profile load only copy rows into state and are not modelled. The `stalls(stall_name)` join echoed back by the expense insert is not modelled.
- DashboardStaff.LookupAgreesWithFetch: stated for one stall at a time rather than for every stall of the list at once.
- JsonValue.Serialised: the text `JSON.stringify` writes is not modelled. Two values are taken to serialise to the same text exactly when their written-out forms are equal, which holds because `JSON.stringify` writes each written-out form in one way only. Numbers are integers, so `-0` and fractions do not arise.
- AdminApi.ResolveDots: the URL parser also reads `%2e` in any case as a dot within a dot segment, and for special schemes `\` as a separator. These spellings are not modelled, because `encodeURIComponent` never writes them: the only '%' it writes starts the escape of a byte it encoded, and it escapes '\' but never '.'.
- ExcelJS export, the clipboard, `window.history`, `Math.random` (toast ids take the random suffix as an input) and the text of `JSON.parse` errors.

## Findings

| source | as written | input that shows it | evidently intended | confidence | as-written member | corrected member |
|---|---|---|---|---|---|---|
| src/utils/dateUtils.js:16-22 | `getPresetDateRange` starts from `getPHDate()`, which is host-local midnight of the Manila date, and renders each bound back in Manila time | a host at UTC+9 at any instant: the 'today' preset names the day before the Manila date | every preset names Manila days, whatever the host's zone | high (proved; not executed) | DateFilterUtils.GetPresetDateRangeEastOfManila | DateFilterUtils.PresetRange |
| src/utils/dateFilterUtils.js:146-162 | `dateToUTCTimestamp` builds the day's bounds with the host-local `Date` constructor | a host at UTC and '2024-01-05': the start bound is 2024-01-05T00:00:00.000Z, 08:00 in Manila, so sales in the first eight Manila hours are left out | the bounds of the Manila day, 2024-01-04T16:00:00.000Z to 2024-01-05T15:59:59.999Z | high (proved; not executed) | DateFilterUtils.UtcHostMissesManilaMorning | DateFilterUtils.PHDayTimestamp |
| src/dashboard.jsx:549-565 | each point of the month view is `setMonth(getMonth() - i)` on today, which keeps the day of the month | today 2024-03-31: the point one month back is 2024-03-02, so March appears twice and February never | the twelve distinct months ending with the current one | high (proved; not executed) | DashboardSeries.AsWrittenSeriesRepeatsMarch | DashboardSeries.MonthKeysDistinct |
| src/dashboard.jsx:192-198 | the month window starts with `setMonth(getMonth() - 11)` and then `setDate(1)` | today 2024-03-31: the start overflows to 2023-05-01, so April 2023 is not read | the first day of the month eleven months back | high (proved; not executed) | DashboardSeries.AsWrittenWindowSkipsApril | DashboardSeries.MonthWindow |

=== FILE: admin_api.dfy ===
/**
 * The browser's client for the admin-staff function: where the function
 * lives, how a call is authorised and sent, how its reply is read back, and
 * which path and verb each of the four operations uses.  The session token,
 * the parsed `VITE_SUPABASE_URL` and the network reply are inputs.
 */
module AdminApi {
  import opened Wrappers
  import opened Text
  import opened UriComponent
  import AdminStaff

  // ---------------------------------------------------------------------------
  // The base URL
  // ---------------------------------------------------------------------------

  /** The parts of `new URL(supabaseUrl)` the client reads. */
  datatype ParsedUrl = ParsedUrl(protocol: string, hostname: string, origin: string)

  const HostedSuffix := ".supabase.co"
  const FunctionsSuffix := ".functions.supabase.co"

  /**
   * `deriveDefaultAdminApiBaseUrl()`: `parsed` is `None` when the URL
   * constructor throws.  A hosted project's functions live on their own
   * host; any other server serves them under `/functions/v1`.
   */
  function DeriveDefaultBaseUrl(supabaseUrl: Option<string>, parsed: Option<ParsedUrl>): (r: Option<string>)
    ensures supabaseUrl.None? || supabaseUrl == Some("") || parsed.None? ==> r.None?
    ensures r.Some? ==> EndsWith(r.value, "/admin-staff")
  {
    hide EndsWith, ReplaceFirst;
    if supabaseUrl.None? || supabaseUrl.value == "" then None
    else
      match parsed
      case None => None
      case Some(u) =>
        if EndsWith(u.hostname, HostedSuffix) then
          var base := u.protocol + "//" + ReplaceFirst(u.hostname, HostedSuffix, FunctionsSuffix);
          EndsWithAppended(base, "/admin-staff");
          Some(base + "/admin-staff")
        else
          EndsWithAppended(u.origin + "/functions/v1", "/admin-staff");
          assert u.origin + "/functions/v1" + "/admin-staff" == u.origin + "/functions/v1/admin-staff";
          Some(u.origin + "/functions/v1/admin-staff")
  }

  /** A pattern whose first character is absent from `p` is first found right after `p`. */
  lemma FoundAfter(p: string, sub: string)
    requires sub != [] && sub[0] !in p
    ensures IndexOf(p + sub, sub) == |p|
  {
    var s := p + sub;
    assert s[|p|..|p| + |sub|] == sub;
    assert OccursAt(s, sub, |p|);
  }

  /** A hosted project `https://<ref>.supabase.co` has its functions at `https://<ref>.functions.supabase.co/admin-staff`. */
  lemma DeriveForHostedProject(supabaseUrl: string, protocol: string, project: string, origin: string)
    requires supabaseUrl != "" && '.' !in project
    ensures DeriveDefaultBaseUrl(Some(supabaseUrl), Some(ParsedUrl(protocol, project + HostedSuffix, origin)))
            == Some(protocol + "//" + project + FunctionsSuffix + "/admin-staff")
  {
    var host := project + HostedSuffix;
    FoundAfter(project, HostedSuffix);
    assert EndsWith(host, HostedSuffix) by {
      assert host[|host| - |HostedSuffix|..] == HostedSuffix;
    }
    assert host[..|project|] == project;
    assert host[|project| + |HostedSuffix|..] == "";
    var replaced := ReplaceFirst(host, HostedSuffix, FunctionsSuffix);
    assert replaced == project + FunctionsSuffix;
    var u := ParsedUrl(protocol, host, origin);
    assert DeriveDefaultBaseUrl(Some(supabaseUrl), Some(u)) == Some(protocol + "//" + replaced + "/admin-staff");
    assert protocol + "//" + replaced + "/admin-staff" == protocol + "//" + project + FunctionsSuffix + "/admin-staff";
  }

  /** Any other host keeps its origin and uses the `/functions/v1` prefix. */
  lemma DeriveForOtherHost(supabaseUrl: string, u: ParsedUrl)
    requires supabaseUrl != "" && !EndsWith(u.hostname, HostedSuffix)
    ensures DeriveDefaultBaseUrl(Some(supabaseUrl), Some(u)) == Some(u.origin + "/functions/v1/admin-staff")
  {
  }

  /** `s.replace(/\/$/, '')`: one trailing slash is dropped. */
  function StripTrailingSlash(s: string): (r: string)
    ensures r == s || r + "/" == s
    ensures s == [] || s[|s| - 1] != '/' ==> r == s
  {
    if s != [] && s[|s| - 1] == '/' then s[..|s| - 1] else s
  }

  /**
   * `ADMIN_API_BASE_URL`: `VITE_ADMIN_API_URL` when set and non-empty, else
   * the derived URL, else empty; then one trailing slash removed.
   */
  function BaseUrl(adminApiUrl: Option<string>, derived: Option<string>): (r: string)
  {
    var raw := if adminApiUrl.Some? && adminApiUrl.value != "" then adminApiUrl.value
               else if derived.Some? then derived.value
               else "";
    StripTrailingSlash(raw)
  }

  /** The configured URL wins; without it the derived URL is used unchanged; with neither the base is empty. */
  lemma BaseUrlPrecedence(adminApiUrl: Option<string>, supabaseUrl: Option<string>, parsed: Option<ParsedUrl>)
    ensures var derived := DeriveDefaultBaseUrl(supabaseUrl, parsed);
            var b := BaseUrl(adminApiUrl, derived);
            (adminApiUrl.Some? && adminApiUrl.value != "" ==>
               b == adminApiUrl.value || b + "/" == adminApiUrl.value) &&
            (!(adminApiUrl.Some? && adminApiUrl.value != "") && derived.Some? ==>
               b == derived.value && EndsWith(b, "/admin-staff")) &&
            (!(adminApiUrl.Some? && adminApiUrl.value != "") && derived.None? ==> b == "")
  {
    var derived := DeriveDefaultBaseUrl(supabaseUrl, parsed);
    if derived.Some? {
      var d := derived.value;
      assert d[|d| - 1] == "/admin-staff"[11];
    }
  }

  // ---------------------------------------------------------------------------
  // Sending a request and reading its reply
  // ---------------------------------------------------------------------------

  const NotConfigured := "Admin API base URL is not configured. Set VITE_ADMIN_API_URL or ensure VITE_SUPABASE_URL is valid."
  const NotSignedIn := "You must be signed in to perform this action."
  const UnknownError := "Unknown error"

  /** The `fetch` the client makes: URL, verb, bearer header and JSON body. */
  datatype Fetch = Fetch(url: string, verb: string, authorization: string, body: Option<AdminStaff.RequestBody>)

  /**
   * The checks `request()` makes before fetching: a configured base URL,
   * then a session token (`None` or empty when signed out).
   */
  function Prepare(base: string, path: string, verb: string, body: Option<AdminStaff.RequestBody>,
                   token: Option<string>): (r: Result<Fetch>)
    ensures base == "" ==> r == Failure(NotConfigured)
    ensures base != "" && (token.None? || token.value == "") ==> r == Failure(NotSignedIn)
    ensures r.Ok? <==> base != "" && token.Some? && token.value != ""
    ensures r.Ok? ==> r.value.url == base + path && r.value.verb == verb && r.value.body == body &&
                      StartsWith(r.value.authorization, "Bearer ") &&
                      r.value.authorization[|"Bearer "|..] == token.value
  {
    if base == "" then Failure(NotConfigured)
    else if token.None? || token.value == "" then Failure(NotSignedIn)
    else Ok(Fetch(base + path, verb, "Bearer " + token.value, body))
  }

  /**
   * A reply as the client sees it: its status, what `response.text()` gives
   * (`None` when it rejects) and what `response.json()` gives.
   */
  datatype HttpReply = HttpReply(status: int, text: Option<string>, json: Result<AdminStaff.Body>)

  function StatusFailure(status: int): (m: string)
  {
    "Admin API request failed with status " + IntToString(status)
  }

  /**
   * What `request()` makes of a reply: a non-2xx status throws the reply's
   * text (or a fallback), 204 gives null (`None`), anything else the parsed
   * JSON, whose own failure propagates.
   */
  function ReadReply(reply: HttpReply): (r: Result<Option<AdminStaff.Body>>)
    ensures r.Ok? <==> 200 <= reply.status <= 299 && (reply.status == 204 || reply.json.Ok?)
    ensures !(200 <= reply.status <= 299) && reply.text.None? ==> r == Failure(UnknownError)
    ensures !(200 <= reply.status <= 299) && reply.text == Some("") ==> r == Failure(StatusFailure(reply.status))
    ensures !(200 <= reply.status <= 299) && reply.text.Some? && reply.text.value != "" ==>
              r == Failure(reply.text.value)
    ensures reply.status == 204 ==> r == Ok(None)
    ensures 200 <= reply.status <= 299 && reply.status != 204 && reply.json.Ok? ==> r == Ok(Some(reply.json.value))
  {
    if !(200 <= reply.status <= 299) then
      var errorText := if reply.text.Some? then reply.text.value else UnknownError;
      Failure(if errorText != "" then errorText else StatusFailure(reply.status))
    else if reply.status == 204 then Ok(None)
    else
      match reply.json
      case Ok(v) => Ok(Some(v))
      case Failure(e) => Failure(e)
  }

  /** A failed request always carries a non-empty message. */
  lemma FailureHasMessage(reply: HttpReply)
    requires ReadReply(reply).Failure?
    requires reply.json.Failure? ==> reply.json.error != ""
    ensures ReadReply(reply).error != ""
  {
  }

  // ---------------------------------------------------------------------------
  // The four operations
  // ---------------------------------------------------------------------------

  /** The exported calls; an absent field of the argument is `None`. */
  datatype Operation =
    | CreateStaffAccount(email: Option<string>, password: Option<string>, fullName: Option<string>,
                         contactNumber: Option<string>, stallId: Option<string>)
    | ResendStaffInvite(inviteEmail: Option<string>)
    | DeleteStaffAccount(userId: string)
    | FetchUserAuthStatus(authUserId: string)

  /** The path, verb and JSON body of an operation, or the error it throws before any request. */
  datatype Endpoint = Endpoint(path: string, verb: string, body: Option<AdminStaff.RequestBody>)

  const IdRequired := "User ID is required to fetch auth status."

  function EndpointOf(op: Operation): (r: Result<Endpoint>)
    ensures r.Failure? <==> op.FetchUserAuthStatus? && op.authUserId == ""
    ensures r.Ok? ==> StartsWith(r.value.path, "/staff")
    ensures r.Ok? ==> (r.value.body.Some? <==> r.value.verb == "POST")
  {
    match op
    case CreateStaffAccount(email, password, fullName, contactNumber, stallId) =>
      Ok(Endpoint("/staff", "POST",
                  Some(AdminStaff.RequestBody(email, password, fullName, contactNumber, stallId, None))))
    case ResendStaffInvite(email) =>
      Ok(Endpoint("/staff/resend-invite", "POST", Some(AdminStaff.RequestBody(email, None, None, None, None, None))))
    case DeleteStaffAccount(id) =>
      Ok(Endpoint("/staff/" + EncodeURIComponent(id), "DELETE", None))
    case FetchUserAuthStatus(id) =>
      if id == "" then Failure(IdRequired)
      else Ok(Endpoint("/staff/" + EncodeURIComponent(id) + "/auth", "GET", None))
  }

  /**
   * One call end to end: the fetch made (`None` when it threw first) and the
   * outcome, with `reply` what the network returns for that fetch.
   */
  function Call(op: Operation, base: string, token: Option<string>, reply: HttpReply)
    : (r: (Option<Fetch>, Result<Option<AdminStaff.Body>>))
    ensures r.0.None? <==> r.1.Failure? && (EndpointOf(op).Failure? || Prepare(base, "", "", None, token).Failure?)
    ensures r.0.None? && EndpointOf(op).Ok? ==> r.1 == Failure(Prepare(base, "", "", None, token).error)
    ensures EndpointOf(op).Failure? ==> r.1 == Failure(IdRequired)
    ensures r.0.Some? ==> EndpointOf(op).Ok? && r.0.value.url == base + EndpointOf(op).value.path && r.1 == ReadReply(reply)
  {
    match EndpointOf(op)
    case Failure(e) => (None, Failure(e))
    case Ok(ep) =>
      match Prepare(base, ep.path, ep.verb, ep.body, token)
      case Failure(e) => (None, Failure(e))
      case Ok(f) => (Some(f), ReadReply(reply))
  }

  // ---------------------------------------------------------------------------
  // Client and gateway agree on the routes
  // ---------------------------------------------------------------------------

  // ---------------------------------------------------------------------------
  // The path the URL parser keeps
  // ---------------------------------------------------------------------------

  /** A segment the URL parser resolves instead of keeping. */
  predicate IsDotSegment(seg: string)
  {
    seg == "." || seg == ".."
  }

  /**
   * The URL parser's path state (WHATWG URL Standard, section 4.4), segment
   * by segment onto `kept`: ".." removes the last kept segment, "." is
   * dropped, and either one as the final segment leaves an empty final
   * segment, that is a trailing '/'; any other segment is kept.
   */
  function ResolveDots(kept: seq<string>, segs: seq<string>): (r: seq<string>)
    ensures |segs| >= 1 ==> |r| >= 1
    decreases |segs|
  {
    if segs == [] then kept
    else
      var trailing := if |segs| == 1 then [""] else [];
      if segs[0] == ".." then ResolveDots((if kept == [] then [] else kept[..|kept| - 1]) + trailing, segs[1..])
      else if segs[0] == "." then ResolveDots(kept + trailing, segs[1..])
      else ResolveDots(kept + [segs[0]], segs[1..])
  }

  /** Resolving leaves no dot segment behind, and adds no separator. */
  lemma {:induction false} ResolvedClean(kept: seq<string>, segs: seq<string>)
    requires forall i :: 0 <= i < |kept| ==> '/' !in kept[i] && !IsDotSegment(kept[i])
    requires forall i :: 0 <= i < |segs| ==> '/' !in segs[i]
    ensures forall i :: 0 <= i < |ResolveDots(kept, segs)| ==>
              '/' !in ResolveDots(kept, segs)[i] && !IsDotSegment(ResolveDots(kept, segs)[i])
    decreases |segs|
  {
    if segs != [] {
      var trailing: seq<string> := if |segs| == 1 then [""] else [];
      if segs[0] == ".." {
        var shorter := if kept == [] then [] else kept[..|kept| - 1];
        assert forall i :: 0 <= i < |shorter| ==> shorter[i] == kept[i];
        ResolvedClean((if kept == [] then [] else kept[..|kept| - 1]) + trailing, segs[1..]);
      } else if segs[0] == "." {
        ResolvedClean(kept + trailing, segs[1..]);
      } else {
        ResolvedClean(kept + [segs[0]], segs[1..]);
      }
    }
  }

  /** The `pathname` the URL parser makes of a path that starts with '/'. */
  function ParsedPath(path: string): (p: string)
    requires path != [] && path[0] == '/'
    ensures p != [] && p[0] == '/'
  {
    "/" + Join(ResolveDots([], Split(path[1..], '/')), '/')
  }

  /** Parsing is idempotent: a parsed path has no dot segment left to resolve. */
  lemma ParsedPathIdempotent(path: string)
    requires path != [] && path[0] == '/'
    ensures ParsedPath(ParsedPath(path)) == ParsedPath(path)
  {
    var segs := Split(path[1..], '/');
    var r := ResolveDots([], segs);
    var j := Join(r, '/');
    assert ParsedPath(path)[1..] == j;
    ResolvedClean([], segs);
    SplitJoin(r, '/');
    ResolvePlain([], r);
    assert [] + r == r;
  }

  /** A path the client writes: separator-free segments after a leading '/'. */
  lemma ParsedJoin(parts: seq<string>)
    requires |parts| >= 1
    requires forall i :: 0 <= i < |parts| ==> '/' !in parts[i]
    ensures ParsedPath("/" + Join(parts, '/')) == "/" + Join(ResolveDots([], parts), '/')
  {
    var j := Join(parts, '/');
    assert ("/" + j)[1..] == j;
    SplitJoin(parts, '/');
  }

  /** A path without "." or ".." segments is kept as written. */
  lemma ParsedPlain(parts: seq<string>)
    requires |parts| >= 1
    requires forall i :: 0 <= i < |parts| ==> '/' !in parts[i] && !IsDotSegment(parts[i])
    ensures ParsedPath("/" + Join(parts, '/')) == "/" + Join(parts, '/')
  {
    ParsedJoin(parts);
    ResolvePlain([], parts);
    assert [] + parts == parts;
  }

  lemma {:induction false} ResolvePlain(kept: seq<string>, segs: seq<string>)
    requires forall i :: 0 <= i < |segs| ==> !IsDotSegment(segs[i])
    ensures ResolveDots(kept, segs) == kept + segs
    decreases |segs|
  {
    if segs != [] {
      ResolvePlain(kept + [segs[0]], segs[1..]);
      assert kept + [segs[0]] + segs[1..] == kept + segs;
    }
  }

  /** `encodeURIComponent` leaves "." and ".." as they are, and makes no other identifier one. */
  lemma EncodeDots(id: string)
    ensures IsDotSegment(EncodeURIComponent(id)) <==> IsDotSegment(id)
    ensures IsDotSegment(id) ==> EncodeURIComponent(id) == id
  {
    EncodeUnreserved(".");
    EncodeUnreserved("..");
    DecodeEncode(id);
    DecodeEncode(".");
    DecodeEncode("..");
  }

  /**
   * The request the admin-staff function receives for a fetch: the platform
   * strips the URL down to `/admin-staff` followed by the operation's path,
   * as the URL parser leaves it.
   */
  function Received(ep: Endpoint, token: string, origin: Option<string>): (req: AdminStaff.Request)
    ensures req.pathname == ParsedPath("/admin-staff" + ep.path) && req.verb == ep.verb && req.body == ep.body
    ensures req.authorization == Some("Bearer " + token) && req.origin == origin
  {
    AdminStaff.Request(ep.verb, ParsedPath("/admin-staff" + ep.path), origin, Some("Bearer " + token), ep.body)
  }

  /** `Segments("/" + a + "/" + b + …)` for separator-free segments, the last one non-empty. */
  lemma SegmentsOf(parts: seq<string>)
    requires |parts| >= 1 && parts[|parts| - 1] != ""
    requires forall i :: 0 <= i < |parts| ==> '/' !in parts[i]
    ensures AdminStaff.Segments("/" + Join(parts, '/')) == parts
  {
    var j := Join(parts, '/');
    JoinEndsWithLast(parts);
    assert ("/" + j)[1..] == j;
    SplitJoin(parts, '/');
  }

  lemma {:induction false} JoinEndsWithLast(parts: seq<string>)
    requires |parts| >= 1 && parts[|parts| - 1] != ""
    ensures Join(parts, '/') != "" && Join(parts, '/')[|Join(parts, '/')| - 1] == parts[|parts| - 1][|parts[|parts| - 1]| - 1]
    decreases |parts|
  {
    if |parts| > 1 {
      JoinEndsWithLast(parts[1..]);
    }
  }

  lemma JoinThree(a: string, b: string, c: string)
    ensures Join([a, b, c], '/') == a + "/" + b + "/" + c
  {
    assert [a, b, c][1..] == [b, c];
    assert [b, c][1..] == [c];
    assert Join([b, c], '/') == b + "/" + c;
    assert Join([a, b, c], '/') == a + "/" + (b + "/" + c);
  }

  lemma JoinFour(a: string, b: string, c: string, d: string)
    ensures Join([a, b, c, d], '/') == a + "/" + b + "/" + c + "/" + d
  {
    assert [a, b, c, d][1..] == [b, c, d];
    JoinThree(b, c, d);
    assert Join([a, b, c, d], '/') == a + "/" + (b + "/" + c + "/" + d);
  }


  const Function := "admin-staff"
  const Resource := "staff"

  lemma StaffPrefix()
    ensures "/admin-staff" + "/staff/" == "/" + Function + "/" + Resource + "/"
    ensures '/' !in Function && '/' !in Resource && '/' !in "auth"
    ensures !IsDotSegment(Function) && !IsDotSegment(Resource) && !IsDotSegment("auth")
  {
  }

  /** A raw path without dot segments, its last segment non-empty, reaches the gateway split as written. */
  lemma RouteOf(raw: string, parts: seq<string>)
    requires raw == "/" + Join(parts, '/')
    requires |parts| >= 1 && parts[|parts| - 1] != ""
    requires forall i :: 0 <= i < |parts| ==> '/' !in parts[i] && !IsDotSegment(parts[i])
    ensures raw != [] && raw[0] == '/' && AdminStaff.Segments(ParsedPath(raw)) == parts
  {
    ParsedPlain(parts);
    SegmentsOf(parts);
  }

  lemma CreateRoute()
    ensures AdminStaff.Segments(ParsedPath("/admin-staff" + "/staff")) == [Function, Resource]
  {
    StaffPrefix();
    assert "/admin-staff" + "/staff" == "/" + (Function + "/" + Resource);
    assert [Function, Resource][1..] == [Resource];
    RouteOf("/admin-staff" + "/staff", [Function, Resource]);
  }

  lemma ResendRoute()
    ensures AdminStaff.Segments(ParsedPath("/admin-staff" + "/staff/resend-invite")) == [Function, Resource, "resend-invite"]
  {
    hide *;
    ResendPath();
    ResendNoSlash();
    JoinThree(Function, Resource, "resend-invite");
    RouteOf("/admin-staff" + "/staff/resend-invite", [Function, Resource, "resend-invite"]);
  }

  lemma ResendPath()
    ensures "/admin-staff" + "/staff/resend-invite" == "/" + (Function + "/" + Resource + "/" + "resend-invite")
  {
    var x := "resend-invite";
    ResendSuffix();
    hide *;
    StaffPrefix();
    assert "/admin-staff" + "/staff/resend-invite" == ("/admin-staff" + "/staff/") + x;
  }

  lemma ResendSuffix()
    ensures "/staff/resend-invite" == "/staff/" + "resend-invite"
  {
  }

  lemma ResendNoSlash()
    ensures '/' !in Function && '/' !in Resource && '/' !in "resend-invite"
    ensures !IsDotSegment(Function) && !IsDotSegment(Resource) && !IsDotSegment("resend-invite")
  {
  }

  /** `/admin-staff/staff/<last>` as separator-free segments. */
  lemma StaffPath(last: string)
    requires '/' !in last
    ensures "/admin-staff" + ("/staff/" + last) == "/" + Join([Function, Resource, last], '/')
  {
    hide *;
    StaffPrefix();
    JoinThree(Function, Resource, last);
    assert "/admin-staff" + ("/staff/" + last) == ("/admin-staff" + "/staff/") + last;
    assert ("/" + Function + "/" + Resource + "/") + last == "/" + (Function + "/" + Resource + "/" + last);
  }

  /** `/admin-staff/staff/<id>/auth` as separator-free segments. */
  lemma AuthPath(id: string)
    requires '/' !in id
    ensures "/admin-staff" + ("/staff/" + id + "/auth") == "/" + Join([Function, Resource, id, "auth"], '/')
  {
    hide *;
    StaffPrefix();
    JoinFour(Function, Resource, id, "auth");
    assert "/admin-staff" + ("/staff/" + id + "/auth") == ("/admin-staff" + "/staff/") + id + "/auth";
    assert ("/" + Function + "/" + Resource + "/") + id + "/auth" == "/" + (Function + "/" + Resource + "/" + id + "/" + "auth");
  }

  /** `/admin-staff/staff/` splits into the function and the resource. */
  lemma StaffRoot()
    ensures AdminStaff.Segments("/" + Join([Function, Resource, ""], '/')) == [Function, Resource]
  {
    var x := Function + "/" + Resource;
    JoinThree(Function, Resource, "");
    assert "/" + Join([Function, Resource, ""], '/') == "/" + x + "/";
    StripSlashesAround(x);
    assert [Function, Resource][1..] == [Resource];
    StaffPrefix();
    SplitJoin([Function, Resource], '/');
  }

  lemma EmptyIdRoute()
    ensures AdminStaff.Segments(ParsedPath("/admin-staff" + ("/staff/" + EncodeURIComponent("")))) == [Function, Resource]
  {
    assert EncodeURIComponent("") == "";
    StaffPrefix();
    StaffPath("");
    ParsedPlain([Function, Resource, ""]);
    StaffRoot();
  }

  lemma StripSlashesAround(x: string)
    ensures AdminStaff.StripSlashes("/" + x + "/") == x
  {
    var p := "/" + x + "/";
    assert p[1..] == x + "/";
    assert (x + "/")[..|x|] == x;
  }

  lemma IdRoute(id: string)
    requires id != "" && !IsDotSegment(id)
    ensures AdminStaff.Segments(ParsedPath("/admin-staff" + ("/staff/" + EncodeURIComponent(id)))) ==
            [Function, Resource, EncodeURIComponent(id)]
  {
    var e := EncodeURIComponent(id);
    EncodedHasNoDelimiters(id);
    EncodeDots(id);
    hide *;
    StaffPrefix();
    StaffPath(e);
    RouteOf("/admin-staff" + ("/staff/" + e), [Function, Resource, e]);
  }

  lemma AuthRoute(id: string)
    requires !IsDotSegment(id)
    ensures AdminStaff.Segments(ParsedPath("/admin-staff" + ("/staff/" + EncodeURIComponent(id) + "/auth"))) ==
            [Function, Resource, EncodeURIComponent(id), "auth"]
  {
    var e := EncodeURIComponent(id);
    EncodedHasNoDelimiters(id);
    EncodeDots(id);
    hide *;
    StaffPrefix();
    AuthPath(e);
    RouteOf("/admin-staff" + ("/staff/" + e + "/auth"), [Function, Resource, e, "auth"]);
  }

  /** "." and ".." as the last of three segments. */
  lemma ResolveLastDot(a: string, b: string)
    requires !IsDotSegment(a) && !IsDotSegment(b)
    ensures ResolveDots([], [a, b, "."]) == [a, b, ""]
    ensures ResolveDots([], [a, b, ".."]) == [a, ""]
  {
    assert [a, b, "."][1..] == [b, "."] && [b, "."][1..] == ["."];
    assert [a, b, ".."][1..] == [b, ".."] && [b, ".."][1..] == [".."];
    assert [] + [a] == [a] && [a] + [b] == [a, b] && [a, b][..1] == [a];
    assert [a, b] + [""] == [a, b, ""] && [a] + [""] == [a, ""];
    assert ResolveDots([], [a, b, "."]) == ResolveDots([a], [b, "."]) == ResolveDots([a, b], ["."]);
    assert ResolveDots([], [a, b, ".."]) == ResolveDots([a], [b, ".."]) == ResolveDots([a, b], [".."]);
  }

  /** "." and ".." as the third of four segments. */
  lemma ResolveInnerDot(a: string, b: string, c: string)
    requires !IsDotSegment(a) && !IsDotSegment(b) && !IsDotSegment(c)
    ensures ResolveDots([], [a, b, ".", c]) == [a, b, c]
    ensures ResolveDots([], [a, b, "..", c]) == [a, c]
  {
    assert [a, b, ".", c][1..] == [b, ".", c] && [b, ".", c][1..] == [".", c] && [".", c][1..] == [c];
    assert [a, b, "..", c][1..] == [b, "..", c] && [b, "..", c][1..] == ["..", c] && ["..", c][1..] == [c];
    assert [] + [a] == [a] && [a] + [b] == [a, b] && [a, b][..1] == [a];
    assert [a, b] + [c] == [a, b, c] && [a] + [c] == [a, c];
    assert [a, b] + [] == [a, b] && [a] + [] == [a];
    assert ResolveDots([], [a, b, ".", c]) == ResolveDots([a], [b, ".", c]) == ResolveDots([a, b], [".", c]);
    assert ResolveDots([a, b], [".", c]) == ResolveDots([a, b], [c]);
    assert ResolveDots([], [a, b, "..", c]) == ResolveDots([a], [b, "..", c]) == ResolveDots([a, b], ["..", c]);
    assert ResolveDots([a, b], ["..", c]) == ResolveDots([a], [c]);
  }

  /** A delete of "." is resolved to `/admin-staff/staff/`, the path of no single member. */
  lemma DotIdRoute()
    ensures AdminStaff.Segments(ParsedPath("/admin-staff" + ("/staff/" + EncodeURIComponent(".")))) == [Function, Resource]
  {
    EncodeDots(".");
    assert EncodeURIComponent(".") == ".";
    hide *;
    StaffPrefix();
    StaffPath(".");
    ParsedJoin([Function, Resource, "."]);
    ResolveLastDot(Function, Resource);
    StaffRoot();
  }

  /** A delete of ".." is resolved to `/admin-staff/`, which names no resource. */
  lemma DotDotIdRoute()
    ensures AdminStaff.Segments(ParsedPath("/admin-staff" + ("/staff/" + EncodeURIComponent("..")))) == [Function]
  {
    EncodeDots("..");
    assert EncodeURIComponent("..") == "..";
    hide *;
    StaffPrefix();
    StaffPath("..");
    ParsedJoin([Function, Resource, ".."]);
    ResolveLastDot(Function, Resource);
    FunctionRoot();
  }

  /** `/admin-staff/` names the function only. */
  lemma FunctionRoot()
    ensures AdminStaff.Segments("/" + Join([Function, ""], '/')) == [Function]
  {
    assert [Function, ""][1..] == [""];
    assert Join([Function, ""], '/') == Function + "/";
    StripSlashesAround(Function);
    assert "/" + Join([Function, ""], '/') == "/" + Function + "/";
    StaffPrefix();
    SplitJoin([Function], '/');
  }

  /** The auth lookup of "." is resolved to `/admin-staff/staff/auth`: a staff path with `auth` as its id. */
  lemma DotAuthRoute()
    ensures AdminStaff.Segments(ParsedPath("/admin-staff" + ("/staff/" + EncodeURIComponent(".") + "/auth"))) ==
            [Function, Resource, "auth"]
  {
    EncodeDots(".");
    assert EncodeURIComponent(".") == ".";
    hide *;
    StaffPrefix();
    AuthPath(".");
    ParsedJoin([Function, Resource, ".", "auth"]);
    ResolveInnerDot(Function, Resource, "auth");
    JoinThree(Function, Resource, "auth");
    SegmentsOf([Function, Resource, "auth"]);
  }

  /** The auth lookup of ".." is resolved to `/admin-staff/auth`, which names no resource. */
  lemma DotDotAuthRoute()
    ensures AdminStaff.Segments(ParsedPath("/admin-staff" + ("/staff/" + EncodeURIComponent("..") + "/auth"))) ==
            [Function, "auth"]
  {
    EncodeDots("..");
    assert EncodeURIComponent("..") == "..";
    hide *;
    StaffPrefix();
    AuthPath("..");
    ParsedJoin([Function, Resource, "..", "auth"]);
    ResolveInnerDot(Function, Resource, "auth");
    SegmentsOf([Function, "auth"]);
  }

  lemma RestOf(p: string, parts: seq<string>)
    requires AdminStaff.Segments(p) == parts && |parts| >= 2 && parts[1] == "staff"
    ensures AdminStaff.IsStaffResource(p) && AdminStaff.Rest(p) == parts[2..]
  {
  }

  /**
   * The routes: each operation reaches the gateway branch written for it,
   * except where the URL parser resolves an id of "." or ".." away.
   */
  lemma Routes(op: Operation)
    requires EndpointOf(op).Ok?
    ensures var p := ParsedPath("/admin-staff" + EndpointOf(op).value.path);
            (op.CreateStaffAccount? ==> AdminStaff.IsStaffResource(p) && AdminStaff.Rest(p) == []) &&
            (op.ResendStaffInvite? ==> AdminStaff.IsStaffResource(p) && AdminStaff.Rest(p) == ["resend-invite"]) &&
            (op.DeleteStaffAccount? && op.userId != "" && !IsDotSegment(op.userId) ==>
               AdminStaff.IsStaffResource(p) && AdminStaff.Rest(p) == [EncodeURIComponent(op.userId)]) &&
            (op.DeleteStaffAccount? && (op.userId == "" || op.userId == ".") ==>
               AdminStaff.IsStaffResource(p) && AdminStaff.Rest(p) == []) &&
            (op.DeleteStaffAccount? && op.userId == ".." ==> !AdminStaff.IsStaffResource(p)) &&
            (op.FetchUserAuthStatus? && !IsDotSegment(op.authUserId) ==>
               AdminStaff.IsStaffResource(p) && AdminStaff.Rest(p) == [EncodeURIComponent(op.authUserId), "auth"]) &&
            (op.FetchUserAuthStatus? && op.authUserId == "." ==>
               AdminStaff.IsStaffResource(p) && AdminStaff.Rest(p) == ["auth"]) &&
            (op.FetchUserAuthStatus? && op.authUserId == ".." ==> !AdminStaff.IsStaffResource(p))
  {
    var p := ParsedPath("/admin-staff" + EndpointOf(op).value.path);
    match op
    case CreateStaffAccount(_, _, _, _, _) =>
      CreateRoute();
      RestOf(p, [Function, Resource]);
    case ResendStaffInvite(_) =>
      ResendRoute();
      RestOf(p, [Function, Resource, "resend-invite"]);
    case DeleteStaffAccount(id) =>
      if id == "" {
        EmptyIdRoute();
        RestOf(p, [Function, Resource]);
      } else if id == "." {
        DotIdRoute();
        RestOf(p, [Function, Resource]);
      } else if id == ".." {
        DotDotIdRoute();
      } else {
        IdRoute(id);
        RestOf(p, [Function, Resource, EncodeURIComponent(id)]);
      }
    case FetchUserAuthStatus(id) =>
      if id == "." {
        DotAuthRoute();
        RestOf(p, [Function, Resource, "auth"]);
      } else if id == ".." {
        DotDotAuthRoute();
      } else {
        AuthRoute(id);
        RestOf(p, [Function, Resource, EncodeURIComponent(id), "auth"]);
      }
  }

  /**
   * End to end: each call reaches the handler written for it, with the
   * identifier as the client encoded it; only the auth-status lookup is open
   * to non-admins.  A delete with an empty id, or with "." (which the URL
   * parser resolves to the bare resource), finds no route; an id of ".."
   * leaves the staff resource and is answered 404 before any role check;
   * the auth lookup of "." is read as a request on `/staff/auth`, which only
   * an admin passes and which no branch serves.
   */
  lemma ClientReachesHandler(op: Operation, token: string, origin: Option<string>,
                             s: AdminStaff.Store, p: AdminStaff.Provider)
    requires EndpointOf(op).Ok?
    ensures var req := Received(EndpointOf(op).value, token, origin);
            var d := AdminStaff.Dispatch(s, req, p);
            var admin := AdminStaff.IsAdmin(s, req.authorization, p);
            var lookup := op.FetchUserAuthStatus? && !IsDotSegment(op.authUserId);
            var up := (op.DeleteStaffAccount? && op.userId == "..") || (op.FetchUserAuthStatus? && op.authUserId == "..");
            (lookup ==>
               d == (AdminStaff.AuthInfo(s, AdminStaff.AuthenticatedUser(s, req.authorization, p),
                                         EncodeURIComponent(op.authUserId), p.lookupError), s)) &&
            (up ==> d == (AdminStaff.Reply(404, AdminStaff.Text("Not Found")), s)) &&
            (!lookup && !up && !admin ==> d == (AdminStaff.Reply(403, AdminStaff.Text("Forbidden")), s)) &&
            (op.CreateStaffAccount? && admin ==> d == AdminStaff.CreateStaff(s, req.body, p)) &&
            (op.ResendStaffInvite? && admin ==> d == (AdminStaff.ResendInvite(s, req.body, p), s)) &&
            (op.DeleteStaffAccount? && op.userId != "" && !IsDotSegment(op.userId) && admin ==>
               d == AdminStaff.DeleteStaff(s, EncodeURIComponent(op.userId), p)) &&
            (((op.DeleteStaffAccount? && (op.userId == "" || op.userId == ".")) ||
              (op.FetchUserAuthStatus? && op.authUserId == ".")) && admin ==>
               d == (AdminStaff.Reply(404, AdminStaff.Text("Not Found")), s))
  {
    hide AdminStaff.CreateStaff, AdminStaff.ResendInvite, AdminStaff.AuthInfo, AdminStaff.AuthenticatedUser,
         AdminStaff.DeleteStaff, AdminStaff.IsAdmin, AdminStaff.IsStaffResource, AdminStaff.Rest, EncodeURIComponent,
         ParsedPath;
    Routes(op);
  }
}

=== FILE: admin_staff.dfy ===
/**
 * The `admin-staff` edge function (supabase/functions/admin-staff/index.ts):
 * CORS origin selection, path routing, the bearer-token authorization gate
 * and the four staff operations, over two stores — the identity provider's
 * users and the `profiles` table — both keyed by user id.
 *
 * Everything the function learns from outside its stores is a parameter:
 * the request (method, path, `Origin` and `Authorization` headers, JSON body,
 * `None` when it does not parse), and a `Provider` record holding which user
 * each access token belongs to and the outcome of each provider call
 * (user creation, profile insert, invite e-mails, user deletion).
 * Status codes are those of RFC 9110: 200, 204 (section 15.3.5), 400
 * (section 15.5.1), 403 (section 15.5.4), 404 (section 15.5.5) and 500.
 */
module AdminStaff {
  import opened Wrappers
  import opened Text

  // ---------------------------------------------------------------------------
  // CORS (the CORS protocol, section 3.2 of the WHATWG Fetch Standard)
  // ---------------------------------------------------------------------------

  /** The `ALLOWED_ORIGIN` list: the comma-separated entries, trimmed. */
  function AllowedOrigins(env: string): (list: seq<string>)
    ensures |list| == |Split(env, ',')|
    ensures forall i :: 0 <= i < |list| ==> list[i] == Trim(Split(env, ',')[i])
  {
    var parts := Split(env, ',');
    seq(|parts|, i requires 0 <= i < |parts| => Trim(parts[i]))
  }

  /** An origin the function treats as a production site. */
  predicate IsProductionDomain(origin: string)
  {
    Contains(origin, "vercel.app") || Contains(origin, "netlify.app") || Contains(origin, "github.io") ||
    StartsWith(origin, "https://")
  }

  /** Every allow-list entry names the local machine. */
  predicate HasOnlyLocalhost(list: seq<string>)
  {
    forall i :: 0 <= i < |list| ==> Contains(list[i], "localhost") || Contains(list[i], "127.0.0.1")
  }

  /**
   * `getCorsOrigin(req)`: the `Access-Control-Allow-Origin` value for a
   * request with origin `requestOrigin` (`None` when the header is absent)
   * given the `ALLOWED_ORIGIN` setting.
   */
  function CorsOrigin(allowedEnv: Option<string>, requestOrigin: Option<string>): (r: string)
    ensures !Truthy(allowedEnv) || allowedEnv.value == "*" ==>
              r == (if Truthy(requestOrigin) then requestOrigin.value else "*")
  {
    if !Truthy(allowedEnv) || allowedEnv.value == "*" then
      if Truthy(requestOrigin) then requestOrigin.value else "*"
    else
      var list := AllowedOrigins(allowedEnv.value);
      if Truthy(requestOrigin) && requestOrigin.value in list then requestOrigin.value
      else if Truthy(requestOrigin) && IsProductionDomain(requestOrigin.value) && HasOnlyLocalhost(list) then
        requestOrigin.value
      else if list[0] != "" then list[0]
      else "*"
  }

  /** The answer is always the request's own origin, an allow-list entry, or "*". */
  lemma CorsOriginIsEchoOrEntry(allowedEnv: Option<string>, requestOrigin: Option<string>)
    ensures var r := CorsOrigin(allowedEnv, requestOrigin);
            r == "*" || (Truthy(requestOrigin) && r == requestOrigin.value) ||
            (Truthy(allowedEnv) && r in AllowedOrigins(allowedEnv.value))
  {
  }

  /**
   * With an allow-list that names a site other than the local machine, an
   * origin is echoed only when it is on the list; any other request gets the
   * first entry (or "*").
   */
  lemma CorsOriginWithRemoteEntry(env: string, requestOrigin: Option<string>, j: nat)
    requires env != "" && env != "*"
    requires j < |AllowedOrigins(env)|
    requires !Contains(AllowedOrigins(env)[j], "localhost") && !Contains(AllowedOrigins(env)[j], "127.0.0.1")
    ensures var list := AllowedOrigins(env);
            CorsOrigin(Some(env), requestOrigin) ==
              if Truthy(requestOrigin) && requestOrigin.value in list then requestOrigin.value
              else if list[0] != "" then list[0] else "*"
  {
  }

  /** With only local entries, every origin starting with "https://" is echoed. */
  lemma CorsOriginLocalListAcceptsHttps(env: string, origin: string)
    requires env != "" && env != "*"
    requires HasOnlyLocalhost(AllowedOrigins(env))
    requires StartsWith(origin, "https://")
    ensures CorsOrigin(Some(env), Some(origin)) == origin
  {
    assert origin != "" && IsProductionDomain(origin);
    hide AllowedOrigins, HasOnlyLocalhost, Contains, StartsWith, IsProductionDomain;
  }

  // ---------------------------------------------------------------------------
  // Requests, replies and routing
  // ---------------------------------------------------------------------------

  /** The fields of a request body the handlers read; each may be absent. */
  datatype RequestBody = RequestBody(email: Option<string>, password: Option<string>, fullName: Option<string>,
                                     contactNumber: Option<string>, stallId: Option<string>,
                                     staffId: Option<string>)

  /** A request: `verb` is its method; `body` is `None` when `req.json()` would throw. */
  datatype Request = Request(verb: string, pathname: string, origin: Option<string>,
                             authorization: Option<string>, body: Option<RequestBody>)

  /** A response body: plain text, one of the JSON objects the function sends, or none. */
  datatype Body =
    | Text(text: string)
    | Created(userId: string, confirmationSent: bool)
    | Message(message: string)
    | AuthStatus(emailConfirmedAt: Option<string>, lastSignInAt: Option<string>)
    | NoBody

  /** Status and body, before the CORS header is attached. */
  datatype Reply = Reply(status: int, body: Body)

  /** Every response carries the CORS origin chosen for its request. */
  datatype Response = Response(status: int, body: Body, allowOrigin: string)

  /** `pathname.replace(/^\/|\/$/g, "")`: one leading and one trailing '/' removed. */
  function StripSlashes(path: string): (r: string)
    ensures |r| <= |path|
  {
    var a := if |path| > 0 && path[0] == '/' then path[1..] else path;
    if |a| > 0 && a[|a| - 1] == '/' then a[..|a| - 1] else a
  }

  /** The path split into segments; `segments[1]` is the resource, the rest follows it. */
  function Segments(path: string): (s: seq<string>)
    ensures |s| >= 1
  {
    Split(StripSlashes(path), '/')
  }

  /** The routed resource is "staff". */
  predicate IsStaffResource(path: string)
  {
    |Segments(path)| >= 2 && Segments(path)[1] == "staff"
  }

  /** The segments after the resource. */
  function Rest(path: string): (rest: seq<string>)
    ensures |rest| == if |Segments(path)| >= 2 then |Segments(path)| - 2 else 0
  {
    var s := Segments(path);
    if |s| >= 2 then s[2..] else []
  }

  /** `GET /staff/:id/auth`, the one endpoint open to non-admins. */
  predicate IsAuthEndpoint(req: Request)
  {
    req.verb == "GET" && |Rest(req.pathname)| == 2 && Rest(req.pathname)[1] == "auth"
  }

  // ---------------------------------------------------------------------------
  // The stores and the authorization gate (RFC 6750 section 2.1 bearer tokens)
  // ---------------------------------------------------------------------------

  /** An identity-provider user. */
  datatype AuthUser = AuthUser(email: string, emailConfirmedAt: Option<string>, lastSignInAt: Option<string>)

  /** A `profiles` row. */
  datatype ProfileRow = ProfileRow(fullName: string, email: string, contactNumber: Option<string>, role: string,
                                   status: string, stallId: Option<string>)

  datatype Store = Store(users: map<string, AuthUser>, profiles: map<string, ProfileRow>)

  /**
   * What the provider does: the user each access token belongs to, the id a
   * user creation returns (or its error), and the error, if any, of the
   * profile insert, the invite e-mail after creation, a resent invite, a
   * user lookup by id and a user deletion.
   */
  datatype Provider = Provider(tokens: map<string, string>, createResult: Result<string>,
                               insertError: Option<string>, inviteError: Option<string>,
                               resendError: Option<string>, lookupError: Option<string>,
                               deleteError: Option<string>)

  /** The signed-in caller: a user id and the role on their profile. */
  datatype Caller = Caller(id: string, role: string)

  /**
   * `getAuthenticatedUser(req)`: the token is the header with the first
   * "Bearer " removed; no token, a token the provider rejects, and a user
   * without a profile all give `None`.
   */
  function AuthenticatedUser(s: Store, authorization: Option<string>, p: Provider): (c: Option<Caller>)
    ensures c.Some? ==> c.value.id in s.profiles && c.value.role == s.profiles[c.value.id].role
    ensures authorization.None? ==> c.None?
  {
    if authorization.None? then None
    else
      var jwt := ReplaceFirst(authorization.value, "Bearer ", "");
      if jwt == "" || jwt !in p.tokens then None
      else
        var id := p.tokens[jwt];
        if id !in s.profiles then None else Some(Caller(id, s.profiles[id].role))
  }

  /** `requireAdmin(req)`: the caller is present and their role is 'admin'. */
  predicate IsAdmin(s: Store, authorization: Option<string>, p: Provider)
  {
    var c := AuthenticatedUser(s, authorization, p);
    c.Some? && c.value.role == "admin"
  }

  // ---------------------------------------------------------------------------
  // The handlers, as functions of the stores
  // ---------------------------------------------------------------------------

  const InternalError: Reply := Reply(500, Message("Internal Server Error"))

  /** `POST /staff`: create the user, then their profile, then send the invite. */
  function CreateStaff(s: Store, body: Option<RequestBody>, p: Provider): (r: (Reply, Store))
    ensures body.None? ==> r == (InternalError, s)
    ensures body.Some? && !(Truthy(body.value.email) && Truthy(body.value.password) && Truthy(body.value.fullName))
            ==> r == (Reply(400, Text("Missing required fields")), s)
    ensures r.0.status != 200 ==> r.1.profiles == s.profiles
    ensures r.0.status == 200 ==>
              p.createResult.Ok? && r.0.body == Created(p.createResult.value, true) &&
              p.createResult.value in r.1.users && p.createResult.value in r.1.profiles &&
              r.1.profiles[p.createResult.value].role == "staff" &&
              r.1.profiles[p.createResult.value].status == "inactive"
  {
    if body.None? then (InternalError, s)
    else
      var b := body.value;
      if !(Truthy(b.email) && Truthy(b.password) && Truthy(b.fullName)) then
        (Reply(400, Text("Missing required fields")), s)
      else
        match p.createResult
        case Failure(m) => (Reply(400, Text(m)), s)
        case Ok(id) =>
          var users := s.users[id := AuthUser(b.email.value, None, None)];
          if p.insertError.Some? then (Reply(400, Text(p.insertError.value)), Store(users, s.profiles))
          else
            var row := ProfileRow(b.fullName.value, b.email.value,
                                  if Truthy(b.contactNumber) then b.contactNumber else None,
                                  "staff", "inactive",
                                  if Truthy(b.stallId) then b.stallId else None);
            (Reply(200, Created(id, true)), Store(users, s.profiles[id := row]))
  }

  /**
   * The creation outcomes: a failed user creation changes nothing; a failed
   * profile insert leaves the new user without a profile; the invite e-mail's
   * outcome never matters.
   */
  lemma CreateStaffOutcomes(s: Store, b: RequestBody, p: Provider)
    requires Truthy(b.email) && Truthy(b.password) && Truthy(b.fullName)
    ensures var r := CreateStaff(s, Some(b), p);
            (p.createResult.Failure? ==> r == (Reply(400, Text(p.createResult.error)), s)) &&
            (p.createResult.Ok? && p.insertError.Some? ==>
               r.0.status == 400 && r.1.profiles == s.profiles &&
               r.1.users == s.users[p.createResult.value := AuthUser(b.email.value, None, None)]) &&
            (p.createResult.Ok? && p.insertError.None? ==> r.0 == Reply(200, Created(p.createResult.value, true)))
    ensures forall e :: CreateStaff(s, Some(b), p.(inviteError := e)) == CreateStaff(s, Some(b), p)
  {
  }

  /** The ids of the profiles with e-mail `email`. */
  function ProfilesWithEmail(profiles: map<string, ProfileRow>, email: string): (ids: set<string>)
    ensures forall id :: id in ids <==> id in profiles && profiles[id].email == email
  {
    set id | id in profiles && profiles[id].email == email
  }

  /** The provider's message for a failed resend, as the function rewords it. */
  function ResendErrorText(message: string): (t: string)
    ensures Contains(message, "already confirmed") ==> t == "User email is already confirmed"
    ensures !Contains(message, "already confirmed") && Contains(message, "not found") ==> t == "User not found"
  {
    if Contains(message, "already confirmed") then "User email is already confirmed"
    else if Contains(message, "not found") then "User not found"
    else "Failed to resend email: " + message
  }

  /** The user id is that of a user whose e-mail is already confirmed. */
  predicate IsConfirmed(s: Store, id: string)
  {
    id in s.users && s.users[id].emailConfirmedAt.Some? && s.users[id].emailConfirmedAt.value != ""
  }

  /**
   * Whether the resend is refused as already confirmed, given the target's
   * user id when one was found: by `staffId`, or the one profile with the
   * e-mail (`.single()` finds none when zero or several match). The refusal
   * needs the user lookup by id to succeed: when it fails (`lookupError`)
   * the resend goes ahead.
   */
  predicate KnownConfirmed(s: Store, userId: Option<string>, byEmail: bool, email: string,
                           lookupError: Option<string>)
  {
    lookupError.None? &&
    if byEmail then
      var ids := ProfilesWithEmail(s.profiles, email);
      |ids| == 1 && exists id | id in ids :: IsConfirmed(s, id)
    else userId.Some? && IsConfirmed(s, userId.value)
  }

  /** A one-element set is the set of any of its members. */
  lemma SingletonMember<T>(ids: set<T>, x: T)
    requires |ids| == 1 && x in ids
    ensures ids == {x}
  {
    var rest := ids - {x};
    assert |rest| == 0;
  }

  /** `POST /staff/resend-invite`: find the target e-mail, refuse confirmed users, resend. */
  function ResendInvite(s: Store, body: Option<RequestBody>, p: Provider): (r: Reply)
    ensures body.None? ==> r == InternalError
    ensures r.status in {200, 400, 404, 500}
    ensures r.status == 200 ==>
              body.Some? && p.resendError.None? &&
              (Truthy(body.value.email) ||
               (Truthy(body.value.staffId) && body.value.staffId.value in s.profiles &&
                s.profiles[body.value.staffId.value].email != ""))
    ensures r.status == 404 <==>
              body.Some? && !Truthy(body.value.email) && Truthy(body.value.staffId) &&
              (body.value.staffId.value !in s.profiles || s.profiles[body.value.staffId.value].email == "")
    ensures r == Reply(400, Text("User email is already confirmed")) && p.lookupError.Some? ==>
              p.resendError.Some?
  {
    if body.None? then InternalError
    else
      var b := body.value;
      if !Truthy(b.email) && Truthy(b.staffId) then
        var id := b.staffId.value;
        if id !in s.profiles || s.profiles[id].email == "" then Reply(404, Text("User not found"))
        else ResendTo(s, s.profiles[id].email, Some(id), false, p)
      else if Truthy(b.email) then ResendTo(s, b.email.value, None, true, p)
      else Reply(400, Text("Missing email"))
  }

  /** The part of the resend after the target is known. */
  function ResendTo(s: Store, email: string, userId: Option<string>, byEmail: bool, p: Provider): (r: Reply)
    ensures r.status in {200, 400}
    ensures r == Reply(200, Message("Email resent successfully")) <==>
              !KnownConfirmed(s, userId, byEmail, email, p.lookupError) && p.resendError.None?
    ensures p.lookupError.Some? ==>
              r == if p.resendError.Some? then Reply(400, Text(ResendErrorText(p.resendError.value)))
                   else Reply(200, Message("Email resent successfully"))
  {
    if KnownConfirmed(s, userId, byEmail, email, p.lookupError) then Reply(400, Text("User email is already confirmed"))
    else if p.resendError.Some? then Reply(400, Text(ResendErrorText(p.resendError.value)))
    else Reply(200, Message("Email resent successfully"))
  }

  /**
   * A present e-mail wins over `staffId`; a `staffId` without a profile
   * (or whose profile has no e-mail) is 404; neither is 400.
   */
  lemma ResendInviteTargets(s: Store, b: RequestBody, p: Provider)
    ensures Truthy(b.email) ==> ResendInvite(s, Some(b), p) == ResendInvite(s, Some(b.(staffId := None)), p)
    ensures !Truthy(b.email) && !Truthy(b.staffId) ==> ResendInvite(s, Some(b), p) == Reply(400, Text("Missing email"))
    ensures !Truthy(b.email) && Truthy(b.staffId) && b.staffId.value !in s.profiles ==>
              ResendInvite(s, Some(b), p) == Reply(404, Text("User not found"))
    ensures !Truthy(b.email) && Truthy(b.staffId) && IsConfirmed(s, b.staffId.value) && p.lookupError.None? &&
            b.staffId.value in s.profiles && s.profiles[b.staffId.value].email != "" ==>
              ResendInvite(s, Some(b), p) == Reply(400, Text("User email is already confirmed"))
    ensures !Truthy(b.email) && Truthy(b.staffId) && p.lookupError.Some? && p.resendError.None? &&
            b.staffId.value in s.profiles && s.profiles[b.staffId.value].email != "" ==>
              ResendInvite(s, Some(b), p) == Reply(200, Message("Email resent successfully"))
    ensures Truthy(b.email) && p.lookupError.Some? && p.resendError.None? ==>
              ResendInvite(s, Some(b), p) == Reply(200, Message("Email resent successfully"))
  {
  }

  /**
   * `GET /staff/:id/auth`: admins see anyone's status, other callers only
   * their own; `lookupError` is the message of the error the user lookup
   * returns, if any.
   */
  function AuthInfo(s: Store, caller: Option<Caller>, staffId: string, lookupError: Option<string>): (r: Reply)
    ensures caller.None? ==> r.status == 403
    ensures caller.Some? && caller.value.role != "admin" && caller.value.id != staffId ==> r.status == 403
    ensures r.status == 200 <==> (caller.Some? && (caller.value.role == "admin" || caller.value.id == staffId) &&
                                  lookupError.None? && staffId in s.users)
    ensures r.status == 200 ==>
              r.body == AuthStatus(s.users[staffId].emailConfirmedAt, s.users[staffId].lastSignInAt)
    ensures caller.Some? && (caller.value.role == "admin" || caller.value.id == staffId) && lookupError.Some? ==>
              r == Reply(404, Text(lookupError.value))
    ensures caller.Some? && (caller.value.role == "admin" || caller.value.id == staffId) && lookupError.None? &&
            staffId !in s.users ==>
              r == Reply(404, Text("User not found"))
  {
    if caller.None? then Reply(403, Text("Forbidden"))
    else if caller.value.role != "admin" && caller.value.id != staffId then
      Reply(403, Text("Forbidden - You can only access your own auth data"))
    else if lookupError.Some? then Reply(404, Text(lookupError.value))
    else if staffId !in s.users then Reply(404, Text("User not found"))
    else Reply(200, AuthStatus(s.users[staffId].emailConfirmedAt, s.users[staffId].lastSignInAt))
  }

  /** `DELETE /staff/:id`: the profile row goes first, whatever the user deletion then does. */
  function DeleteStaff(s: Store, staffId: string, p: Provider): (r: (Reply, Store))
    ensures r.1.profiles == s.profiles - {staffId}
    ensures p.deleteError.Some? ==> r.0 == Reply(400, Text(p.deleteError.value)) && r.1.users == s.users
    ensures p.deleteError.None? ==> r.0 == Reply(204, NoBody) && r.1.users == s.users - {staffId}
  {
    var profiles := s.profiles - {staffId};
    if p.deleteError.Some? then (Reply(400, Text(p.deleteError.value)), Store(s.users, profiles))
    else (Reply(204, NoBody), Store(s.users - {staffId}, profiles))
  }

  /** The routed handler, before the CORS origin is attached. */
  function Dispatch(s: Store, req: Request, p: Provider): (r: (Reply, Store))
  {
    if req.verb == "OPTIONS" then (Reply(200, Text("ok")), s)
    else if !IsStaffResource(req.pathname) then (Reply(404, Text("Not Found")), s)
    else if !IsAuthEndpoint(req) && !IsAdmin(s, req.authorization, p) then (Reply(403, Text("Forbidden")), s)
    else
      var rest := Rest(req.pathname);
      if req.verb == "POST" && |rest| == 0 then CreateStaff(s, req.body, p)
      else if req.verb == "POST" && rest[0] == "resend-invite" then (ResendInvite(s, req.body, p), s)
      else if IsAuthEndpoint(req) then (AuthInfo(s, AuthenticatedUser(s, req.authorization, p), rest[0], p.lookupError), s)
      else if req.verb == "DELETE" && |rest| == 1 then DeleteStaff(s, rest[0], p)
      else (Reply(404, Text("Not Found")), s)
  }

  /** The `serve` handler: the routed reply with the request's CORS origin, and the new stores. */
  function Serve(s: Store, allowedEnv: Option<string>, req: Request, p: Provider): (r: (Response, Store))
    ensures r.0.allowOrigin == CorsOrigin(allowedEnv, req.origin)
    ensures req.verb == "OPTIONS" ==> r.0.status == 200 && r.1 == s
    ensures req.verb != "OPTIONS" && !IsStaffResource(req.pathname) ==> r.0.status == 404 && r.1 == s
    ensures (req.verb != "OPTIONS" && IsStaffResource(req.pathname) && !IsAuthEndpoint(req) &&
             !IsAdmin(s, req.authorization, p)) ==> r.0.status == 403 && r.1 == s
    ensures r.0.status == 403 ==> r.1 == s
  {
    var (reply, s') := Dispatch(s, req, p);
    (Response(reply.status, reply.body, CorsOrigin(allowedEnv, req.origin)), s')
  }

  /** Only creation and deletion change the stores; the stores change only for an admin caller. */
  lemma ServeChangesOnlyForAdmins(s: Store, allowedEnv: Option<string>, req: Request, p: Provider)
    ensures var r := Serve(s, allowedEnv, req, p);
            r.1 != s ==> IsAdmin(s, req.authorization, p) && (req.verb == "POST" || req.verb == "DELETE")
  {
  }

  // ---------------------------------------------------------------------------
  // The function's state and handlers, step by step
  // ---------------------------------------------------------------------------

  /** The two stores the function updates, and its `ALLOWED_ORIGIN` setting. */
  class Gateway {
    var users: map<string, AuthUser>
    var profiles: map<string, ProfileRow>
    const allowedOrigin: Option<string>

    function State(): Store
      reads this
    {
      Store(users, profiles)
    }

    constructor(users: map<string, AuthUser>, profiles: map<string, ProfileRow>, allowedOrigin: Option<string>)
      ensures State() == Store(users, profiles) && this.allowedOrigin == allowedOrigin
    {
      this.users := users;
      this.profiles := profiles;
      this.allowedOrigin := allowedOrigin;
    }

    /** The one profile with e-mail `email`, if exactly one has it. */
    method SingleProfileWithEmail(email: string) returns (id: Option<string>)
      ensures id.Some? <==> |ProfilesWithEmail(profiles, email)| == 1
      ensures id.Some? ==> id.value in ProfilesWithEmail(profiles, email)
    {
      var left := profiles.Keys;
      var found: set<string> := {};
      id := None;
      while left != {}
        invariant left <= profiles.Keys
        invariant found == ProfilesWithEmail(profiles, email) - left
        invariant id.Some? ==> id.value in found
        invariant id.None? <==> found == {}
        decreases |left|
      {
        var k :| k in left;
        if profiles[k].email == email {
          found := found + {k};
          id := Some(k);
        }
        left := left - {k};
      }
      if |found| != 1 {
        id := None;
      }
    }

    /** `POST /staff`, one store call after another. */
    method Create(body: Option<RequestBody>, p: Provider) returns (reply: Reply)
      modifies this
      ensures (reply, State()) == CreateStaff(old(State()), body, p)
    {
      if body.None? {
        return InternalError;
      }
      var b := body.value;
      if !(Truthy(b.email) && Truthy(b.password) && Truthy(b.fullName)) {
        return Reply(400, Text("Missing required fields"));
      }
      if p.createResult.Failure? {
        return Reply(400, Text(p.createResult.error));
      }
      var id := p.createResult.value;
      users := users[id := AuthUser(b.email.value, None, None)];
      if p.insertError.Some? {
        return Reply(400, Text(p.insertError.value));
      }
      var contact := if Truthy(b.contactNumber) then b.contactNumber else None;
      var stall := if Truthy(b.stallId) then b.stallId else None;
      profiles := profiles[id := ProfileRow(b.fullName.value, b.email.value, contact, "staff", "inactive", stall)];
      reply := Reply(200, Created(id, true));
    }

    /** `POST /staff/resend-invite`: reads the stores, changes nothing. */
    method Resend(body: Option<RequestBody>, p: Provider) returns (reply: Reply)
      ensures reply == ResendInvite(State(), body, p)
    {
      if body.None? {
        return InternalError;
      }
      var b := body.value;
      var target: Option<string> := b.email;
      var userId: Option<string> := None;
      if !Truthy(target) && Truthy(b.staffId) {
        var sid := b.staffId.value;
        if sid !in profiles || profiles[sid].email == "" {
          return Reply(404, Text("User not found"));
        }
        target := Some(profiles[sid].email);
        userId := Some(sid);
      } else if Truthy(target) {
        userId := SingleProfileWithEmail(target.value);
        if userId.Some? {
          SingletonMember(ProfilesWithEmail(profiles, target.value), userId.value);
        }
      }
      if !Truthy(target) {
        return Reply(400, Text("Missing email"));
      }
      if userId.Some? && p.lookupError.None? && userId.value in users && Truthy(users[userId.value].emailConfirmedAt) {
        return Reply(400, Text("User email is already confirmed"));
      }
      if p.resendError.Some? {
        return Reply(400, Text(ResendErrorText(p.resendError.value)));
      }
      reply := Reply(200, Message("Email resent successfully"));
    }

    /** `DELETE /staff/:id`: the profile first, then the user. */
    method Delete(staffId: string, p: Provider) returns (reply: Reply)
      modifies this
      ensures (reply, State()) == DeleteStaff(old(State()), staffId, p)
    {
      profiles := profiles - {staffId};
      if p.deleteError.Some? {
        return Reply(400, Text(p.deleteError.value));
      }
      users := users - {staffId};
      reply := Reply(204, NoBody);
    }

    /** The `serve` handler. */
    method Handle(req: Request, p: Provider) returns (response: Response)
      modifies this
      ensures (response, State()) == Serve(old(State()), allowedOrigin, req, p)
    {
      var origin := CorsOrigin(allowedOrigin, req.origin);
      var reply: Reply;
      if req.verb == "OPTIONS" {
        reply := Reply(200, Text("ok"));
      } else if !IsStaffResource(req.pathname) {
        reply := Reply(404, Text("Not Found"));
      } else if !IsAuthEndpoint(req) && !IsAdmin(State(), req.authorization, p) {
        reply := Reply(403, Text("Forbidden"));
      } else {
        var rest := Rest(req.pathname);
        if req.verb == "POST" && |rest| == 0 {
          reply := Create(req.body, p);
        } else if req.verb == "POST" && rest[0] == "resend-invite" {
          reply := Resend(req.body, p);
        } else if IsAuthEndpoint(req) {
          reply := AuthInfo(State(), AuthenticatedUser(State(), req.authorization, p), rest[0], p.lookupError);
        } else if req.verb == "DELETE" && |rest| == 1 {
          reply := Delete(rest[0], p);
        } else {
          reply := Reply(404, Text("Not Found"));
        }
      }
      response := Response(reply.status, reply.body, origin);
    }
  }
}

=== FILE: audit_log_view.dfy ===
/**
 * The audit-log page (src/components/admin/AuditLog.jsx): the query its
 * filters build, the filter options it extracts from the loaded rows, how
 * it classifies a failed load, `clearFilters` and the export file name.
 */
module AuditLogView {
  import opened Wrappers
  import opened Text
  import opened Calendar
  import opened DateString
  import opened QueryBuilder
  import opened DateFilterUtils
  import opened AuditLogger
  import opened DateUtils
  import opened JsonValue

  // ---------------------------------------------------------------------------
  // The query
  // ---------------------------------------------------------------------------

  /** The five filters of the page. */
  datatype Filters = Filters(startDate: string, endDate: string, action: string, entity: string, user: string)

  /** `if (value) query = query.eq(column, value)`. */
  function EqIfSet(query: Query, column: string, value: string): (r: Query)
    ensures value == "" ==> r == query
    ensures value != "" ==> r == query + [Eq(column, value)]
  {
    if value == "" then query else query + [Eq(column, value)]
  }

  /** The equality filters of the set action, entity and user, in that order. */
  function EqFilters(f: Filters): (r: Query)
    ensures |r| <= 3
    ensures forall c :: c in r ==> c.Eq? && c.value != ""
    ensures Eq("action", f.action) in r <==> f.action != ""
    ensures Eq("entity", f.entity) in r <==> f.entity != ""
    ensures Eq("user_id", f.user) in r <==> f.user != ""
  {
    EqIfSet(EqIfSet(EqIfSet([], "action", f.action), "entity", f.entity), "user_id", f.user)
  }

  /**
   * The predicates `loadAuditLogs` adds to the ordered, limited select of
   * `audit_logs`: the date range in timestamp mode on `timestamp`, then the
   * equality filters; a bound whose conversion throws fails the load.
   */
  function LoadQuery(f: Filters, hostOffset: int): (r: Result<Query>)
    ensures r.Failure? <==> ApplyDateRangeFilter(Some([]), "timestamp", f.startDate, f.endDate, true, hostOffset).Failure?
    ensures r.Ok? ==> r.value == ApplyDateRangeFilter(Some([]), "timestamp", f.startDate, f.endDate, true, hostOffset).value.value
                                 + EqFilters(f)
  {
    match ApplyDateRangeFilter(Some([]), "timestamp", f.startDate, f.endDate, true, hostOffset)
    case Failure(e) => Failure(e)
    case Ok(q) =>
      Ok(q.value + EqFilters(f))
  }

  /** Without dates only the equality filters narrow the select. */
  lemma LoadQueryWithoutDates(f: Filters, hostOffset: int)
    requires f.startDate == "" && f.endDate == ""
    ensures LoadQuery(f, hostOffset) == Ok(EqFilters(f))
  {
    assert [] + EqFilters(f) == EqFilters(f);
  }

  /** With two real days the select is bounded by their host-local start and end instants. */
  lemma LoadQueryOfDates(a: Date, b: Date, action: string, entity: string, user: string, hostOffset: int)
    requires ValidDate(a) && FourDigitYear(a) && ConstructorSafe(a)
    requires ValidDate(b) && FourDigitYear(b) && ConstructorSafe(b)
    requires -MsPerDay <= hostOffset <= MsPerDay
    ensures var f := Filters(Format(a), Format(b), action, entity, user);
            LoadQuery(f, hostOffset)
            == Ok([Gte("timestamp", IsoString(DayNumber(a) * MsPerDay - hostOffset)),
                   Lte("timestamp", IsoString(DayNumber(b) * MsPerDay - hostOffset + EndOfDayMs))] + EqFilters(f))
  {
    var f := Filters(Format(a), Format(b), action, entity, user);
    ApplyDateRangeFilterTimestamps([], "timestamp", a, b, hostOffset);
    hide *;
    assert [] + [Gte("timestamp", IsoString(DayNumber(a) * MsPerDay - hostOffset)),
                 Lte("timestamp", IsoString(DayNumber(b) * MsPerDay - hostOffset + EndOfDayMs))]
        == [Gte("timestamp", IsoString(DayNumber(a) * MsPerDay - hostOffset)),
            Lte("timestamp", IsoString(DayNumber(b) * MsPerDay - hostOffset + EndOfDayMs))];
  }

  // ---------------------------------------------------------------------------
  // Filter options
  // ---------------------------------------------------------------------------

  /** The three columns of a loaded row that feed the filter options; `None` is null. */
  datatype LogRow = LogRow(action: Option<string>, entity: Option<string>, userId: Option<string>)

  /** `.filter(Boolean)` on optional strings: the non-empty ones, in order. */
  function Present(values: seq<Option<string>>): (r: seq<string>)
    ensures forall x :: x in r <==> x != "" && Some(x) in values
  {
    if values == [] then []
    else
      var r := Present(values[..|values| - 1]);
      var v := values[|values| - 1];
      assert values == values[..|values| - 1] + [v];
      if v.Some? && v.value != "" then r + [v.value] else r
  }

  function ActionsOf(rows: seq<LogRow>): (r: seq<Option<string>>)
    ensures |r| == |rows| && forall i :: 0 <= i < |rows| ==> r[i] == rows[i].action
  {
    seq(|rows|, i requires 0 <= i < |rows| => rows[i].action)
  }

  function EntitiesOf(rows: seq<LogRow>): (r: seq<Option<string>>)
    ensures |r| == |rows| && forall i :: 0 <= i < |rows| ==> r[i] == rows[i].entity
  {
    seq(|rows|, i requires 0 <= i < |rows| => rows[i].entity)
  }

  function UserIdsOf(rows: seq<LogRow>): (r: seq<Option<string>>)
    ensures |r| == |rows| && forall i :: 0 <= i < |rows| ==> r[i] == rows[i].userId
  {
    seq(|rows|, i requires 0 <= i < |rows| => rows[i].userId)
  }

  /** The option lists of the three select boxes. */
  datatype Options = Options(actions: seq<string>, entities: seq<string>, userIds: seq<string>)

  /** `[...new Set(values.filter(Boolean))].sort()`. */
  function SortedOptions(values: seq<Option<string>>): (r: seq<string>)
    ensures forall x :: x in r <==> x != "" && Some(x) in values
    ensures StrictlyAscending(r)
  {
    var d := Distinct(Present(values));
    SortDistinct(d);
    assert forall x :: x in Sort(d) <==> x in multiset(Sort(d));
    Sort(d)
  }

  /**
   * The options of a load whose `data` is `rows` (`None` for null): actions
   * and entities sorted, user ids in order of first appearance.
   */
  function FilterOptions(data: Option<seq<LogRow>>): (o: Options)
  {
    var rows := if data.Some? then data.value else [];
    Options(SortedOptions(ActionsOf(rows)), SortedOptions(EntitiesOf(rows)), Distinct(Present(UserIdsOf(rows))))
  }

  /** Does the load ask `profiles` for the names of the users? */
  predicate LooksUpUserNames(o: Options)
  {
    |o.userIds| > 0
  }

  /** A column holds a value exactly when some row holds it there. */
  lemma ColumnValues(rows: seq<LogRow>)
    ensures forall a :: Some(a) in ActionsOf(rows) <==> exists i :: 0 <= i < |rows| && rows[i].action == Some(a)
    ensures forall e :: Some(e) in EntitiesOf(rows) <==> exists i :: 0 <= i < |rows| && rows[i].entity == Some(e)
    ensures forall u :: Some(u) in UserIdsOf(rows) <==> exists i :: 0 <= i < |rows| && rows[i].userId == Some(u)
  {
    forall a | Some(a) in ActionsOf(rows) ensures exists i :: 0 <= i < |rows| && rows[i].action == Some(a) {
      var i :| 0 <= i < |rows| && ActionsOf(rows)[i] == Some(a);
    }
    forall e | Some(e) in EntitiesOf(rows) ensures exists i :: 0 <= i < |rows| && rows[i].entity == Some(e) {
      var i :| 0 <= i < |rows| && EntitiesOf(rows)[i] == Some(e);
    }
    forall u | Some(u) in UserIdsOf(rows) ensures exists i :: 0 <= i < |rows| && rows[i].userId == Some(u) {
      var i :| 0 <= i < |rows| && UserIdsOf(rows)[i] == Some(u);
    }
  }

  /**
   * Every option list holds exactly the non-empty values of its column, each
   * once; actions and entities are in ascending order.
   */
  lemma FilterOptionsContents(rows: seq<LogRow>)
    ensures var o := FilterOptions(Some(rows));
            && (forall a :: a in o.actions <==> a != "" && exists i :: 0 <= i < |rows| && rows[i].action == Some(a))
            && (forall e :: e in o.entities <==> e != "" && exists i :: 0 <= i < |rows| && rows[i].entity == Some(e))
            && (forall u :: u in o.userIds <==> u != "" && exists i :: 0 <= i < |rows| && rows[i].userId == Some(u))
            && StrictlyAscending(o.actions) && StrictlyAscending(o.entities)
            && (forall i, j :: 0 <= i < j < |o.userIds| ==> o.userIds[i] != o.userIds[j])
  {
    ColumnValues(rows);
  }

  /** User names are looked up exactly when some row names a user. */
  lemma LooksUpUserNamesIff(rows: seq<LogRow>)
    ensures LooksUpUserNames(FilterOptions(Some(rows)))
            <==> exists i :: 0 <= i < |rows| && rows[i].userId.Some? && rows[i].userId.value != ""
  {
    var o := FilterOptions(Some(rows));
    ColumnValues(rows);
    if |o.userIds| > 0 {
      var x := o.userIds[0];
      assert x in Present(UserIdsOf(rows));
      var i :| 0 <= i < |rows| && rows[i].userId == Some(x);
      assert rows[i].userId.Some? && rows[i].userId.value != "";
    }
    if exists i :: 0 <= i < |rows| && rows[i].userId.Some? && rows[i].userId.value != "" {
      var i :| 0 <= i < |rows| && rows[i].userId.Some? && rows[i].userId.value != "";
      assert UserIdsOf(rows)[i] == rows[i].userId;
      assert rows[i].userId.value in o.userIds;
    }
  }

  /** A null `data` loads no options and looks up no names. */
  lemma FilterOptionsOfNull()
    ensures FilterOptions(None) == Options([], [], [])
  {
  }

  // ---------------------------------------------------------------------------
  // A failed load
  // ---------------------------------------------------------------------------

  /** The page's own test for a missing `audit_logs` table, which also looks at the details. */
  predicate ViewTableMissing(e: DbError)
  {
    MissingTableCode(e) || Mentions(e.message, "does not exist") || Mentions(e.message, "relation") ||
    Mentions(e.message, "audit_logs") || Mentions(e.details, "does not exist")
  }

  /** The message of `new Error('TABLE_MISSING')`. */
  const TableMissingMessage: string := "TABLE_MISSING"

  /** The message shown when the error carries none. */
  const LoadFailedMessage: string := "Failed to load audit logs."

  /** What the `catch` receives: the replacement error for a missing table, the reply's error otherwise. */
  function Caught(e: DbError): (err: DbError)
    ensures ViewTableMissing(e) ==> err == DbError(None, None, Some(TableMissingMessage), None)
    ensures !ViewTableMissing(e) ==> err == e
  {
    if ViewTableMissing(e) then DbError(None, None, Some(TableMissingMessage), None) else e
  }

  /** The page's error area: setup instructions for a missing table, otherwise a message. */
  datatype ErrorView = SetupHelp | ErrorMessage(text: string)

  /** `err?.message || 'Failed to load audit logs.'`. */
  function MessageOf(err: DbError): (m: string)
    ensures m != ""
  {
    if err.message.Some? && err.message.value != "" then err.message.value else LoadFailedMessage
  }

  /** The `catch` block's choice between the setup help and the message. */
  function ErrorViewOf(err: DbError): (v: ErrorView)
  {
    var m := MessageOf(err);
    if m == TableMissingMessage || Contains(m, "does not exist") || Contains(m, "audit_logs table") ||
       MissingTableCode(err)
    then SetupHelp
    else ErrorMessage(m)
  }

  /** A string containing `"audit_logs table"` contains `"audit_logs"`. */
  lemma ContainsLonger(s: string)
    requires Contains(s, "audit_logs table")
    ensures Contains(s, "audit_logs")
  {
    var i := IndexOf(s, "audit_logs table");
    assert s[i..i + 10] == s[i..i + 16][..10];
    ContainsAt(s, "audit_logs", i);
  }

  /** The default message names no missing table. */
  lemma LoadFailedMessagePlain()
    ensures !Contains(LoadFailedMessage, "does not exist")
    ensures !Contains(LoadFailedMessage, "audit_logs table")
    ensures LoadFailedMessage != TableMissingMessage
  {
    hide Contains, IndexOf;
    assert "does not exist"[10] == 'x' && "audit_logs table"[5] == '_';
    assert forall i :: 0 <= i < |LoadFailedMessage| ==> LoadFailedMessage[i] != 'x' && LoadFailedMessage[i] != '_';
    MissingCharNotContained(LoadFailedMessage, "does not exist", 'x');
    MissingCharNotContained(LoadFailedMessage, "audit_logs table", '_');
    assert |LoadFailedMessage| != |TableMissingMessage|;
  }

  /**
   * A rejected load shows the setup help exactly when the page's classifier
   * reports a missing table, or when the error's own message is
   * `TABLE_MISSING`; any other error shows its message, or the default one.
   */
  lemma FailedLoadView(e: DbError)
    ensures ErrorViewOf(Caught(e)) == SetupHelp <==> ViewTableMissing(e) || e.message == Some(TableMissingMessage)
    ensures ErrorViewOf(Caught(e)) != SetupHelp ==> ErrorViewOf(Caught(e)) == ErrorMessage(MessageOf(e))
  {
    if !ViewTableMissing(e) {
      var m := MessageOf(e);
      LoadFailedMessagePlain();
      if Contains(m, "audit_logs table") {
        ContainsLonger(m);
      }
    }
  }

  /** The logger's classifier is the page's without the `audit_logs` and details checks. */
  lemma LoggerClassifierWeaker(e: DbError)
    ensures LoggerTableMissing(e) ==> ViewTableMissing(e)
  {
  }

  /** A message that only names the table is a missing table to the page but not to the logger. */
  lemma ClassifiersDisagree()
    ensures var e := DbError(None, None, Some("audit_logs"), None);
            ViewTableMissing(e) && !LoggerTableMissing(e)
  {
    hide Contains, IndexOf;
    MissingCharNotContained("audit_logs", "does not exist", 'x');
    MissingCharNotContained("audit_logs", "relation", 'r');
    assert Contains("audit_logs", "audit_logs") by {
      ContainsAt("audit_logs", "audit_logs", 0);
    }
  }

  // ---------------------------------------------------------------------------
  // Filter state
  // ---------------------------------------------------------------------------

  /** The five filter fields of the page. */
  class FilterState {
    var startDate: string
    var endDate: string
    var filterAction: string
    var filterEntity: string
    var filterUser: string

    function Current(): (f: Filters)
      reads this
      ensures f == Filters(startDate, endDate, filterAction, filterEntity, filterUser)
    {
      Filters(startDate, endDate, filterAction, filterEntity, filterUser)
    }

    constructor()
      ensures Current() == Filters("", "", "", "", "")
    {
      startDate, endDate := "", "";
      filterAction, filterEntity, filterUser := "", "", "";
    }

    /** `clearFilters`: every filter back to `''`, so the next load is the unfiltered select. */
    method ClearFilters()
      modifies this
      ensures Current() == Filters("", "", "", "", "")
      ensures forall h :: LoadQuery(Current(), h) == Ok([])
    {
      startDate, endDate := "", "";
      filterAction, filterEntity, filterUser := "", "", "";
      forall h ensures LoadQuery(Current(), h) == Ok([]) {
        LoadQueryWithoutDates(Current(), h);
      }
    }
  }

  // ---------------------------------------------------------------------------
  // Export
  // ---------------------------------------------------------------------------

  /** The file name of the Excel export, `now` being the clock. */
  function ExportFilename(startDate: string, endDate: string, now: int): (name: string)
    ensures StartsWith(name, "audit_log_") && EndsWith(name, ".xlsx")
  {
    var dateStr := if startDate != "" && endDate != "" then startDate + "_to_" + endDate
                   else Split(IsoString(now), 'T')[0];
    "audit_log_" + dateStr + ".xlsx"
  }

  /** With both dates set the name carries the range. */
  lemma ExportFilenameOfRange(startDate: string, endDate: string, now: int)
    requires startDate != "" && endDate != ""
    ensures ExportFilename(startDate, endDate, now) == "audit_log_" + startDate + "_to_" + endDate + ".xlsx"
  {
  }

  /** `Format` writes only digits and dashes. */
  lemma NoTInFormat(d: Date)
    requires ValidDate(d) && FourDigitYear(d)
    ensures 'T' !in Format(d)
  {
    FormatPieces(d);
    var s := Format(d);
    assert s == s[..4] + "-" + s[5..7] + "-" + s[8..];
  }

  /**
   * Otherwise the name carries the UTC calendar date of the clock, which in
   * Manila before 08:00 is the previous day.
   */
  lemma ExportFilenameOfToday(startDate: string, endDate: string, now: int)
    requires startDate == "" || endDate == ""
    requires FourDigitYear(FromDayNumber(now / MsPerDay))
    ensures ExportFilename(startDate, endDate, now) == "audit_log_" + Format(FromDayNumber(now / MsPerDay)) + ".xlsx"
  {
    var d := FromDayNumber(now / MsPerDay);
    var s := IsoString(now);
    assert s == IsoText(d, now % MsPerDay);
    assert s[10] == 'T';
    NoTInFormat(d);
    assert IndexOfChar(s, 'T') == 10;
  }
}

=== FILE: audit_logger.dfy ===
/**
 * `logActivity` (src/utils/auditLog.js): the audit row it inserts, and the
 * outcome of the insert, which it never lets escape.  The `audit_logs`
 * table, the browser console and the page-wide `_auditTableMissingLogged`
 * latch are the state of an `AuditTrail`; the reply of the insert and the
 * clock are inputs.
 */
module AuditLogger {
  import opened Wrappers
  import opened Text
  import opened JsonValue
  import opened DateString

  // ---------------------------------------------------------------------------
  // Database errors
  // ---------------------------------------------------------------------------

  /** The fields of a PostgREST error the dashboard inspects; absent ones are `None`. */
  datatype DbError = DbError(code: Option<string>, status: Option<int>, message: Option<string>,
                             details: Option<string>)

  /** `text?.includes(sub)`: false when the field is absent. */
  predicate Mentions(text: Option<string>, sub: string)
  {
    text.Some? && Contains(text.value, sub)
  }

  /** The codes and status of a missing table, which every classifier checks first. */
  predicate MissingTableCode(e: DbError)
  {
    e.code == Some("PGRST116") || e.code == Some("42P01") || e.status == Some(404)
  }

  /** The logger's test for a missing `audit_logs` table. */
  predicate LoggerTableMissing(e: DbError)
  {
    MissingTableCode(e) || Mentions(e.message, "does not exist") || Mentions(e.message, "relation")
  }

  /** A string that lacks one character of `sub` does not contain `sub`. */
  lemma MissingCharNotContained(s: string, sub: string, c: char)
    requires c in sub && c !in s
    ensures !Contains(s, sub)
  {
  }

  // ---------------------------------------------------------------------------
  // The inserted row
  // ---------------------------------------------------------------------------

  /**
   * The named arguments of `logActivity`: `None` is a property left
   * `undefined`, which takes the default of the parameter list.
   */
  datatype Params = Params(action: Option<Json>, entity: Option<Json>, entityId: Option<Json>,
                           userId: Option<Json>, userName: Option<Json>, details: Option<Json>,
                           ipAddress: Option<Json>, userAgent: Option<Json>,
                           oldValue: Option<Json>, newValue: Option<Json>, stallId: Option<Json>)

  /**
   * One row of `audit_logs`.  A column left `undefined` is `None` (the
   * insert omits it); `oldValue`/`newValue` hold `Some(v)` for the text
   * `JSON.stringify(v)` and `None` for SQL null.
   */
  datatype AuditRow = AuditRow(action: Option<Json>, entity: Option<Json>, entityId: Json,
                               userId: Option<Json>, userName: Option<Json>, details: Json,
                               ipAddress: Json, userAgent: Json,
                               oldValue: Option<Json>, newValue: Option<Json>, stallId: Json,
                               timestamp: string)

  /** A destructured parameter with a default: the default replaces only `undefined`. */
  function Default(v: Option<Json>, d: Json): (r: Json)
    ensures v.Some? ==> r == v.value
    ensures v.None? ==> r == d
  {
    if v.Some? then v.value else d
  }

  /** `x || fallback`. */
  function OrElse(v: Json, fallback: Json): (r: Json)
    ensures JsonValue.Truthy(v) ==> r == v
    ensures !JsonValue.Truthy(v) ==> r == fallback
  {
    if JsonValue.Truthy(v) then v else fallback
  }

  /** `value ? JSON.stringify(value) : null`. */
  function StoredValue(v: Json): (r: Option<Json>)
    ensures r.Some? <==> JsonValue.Truthy(v)
    ensures r.Some? ==> r.value == v
  {
    if JsonValue.Truthy(v) then Some(v) else None
  }

  /** `getClientIP()`: no address is ever known. */
  function ClientIP(): (ip: Json)
    ensures !JsonValue.Truthy(ip)
  {
    JNull
  }

  /**
   * The object `logActivity` inserts; `navigatorUserAgent` is
   * `navigator.userAgent` and `now` the clock.
   */
  function RowOf(p: Params, navigatorUserAgent: string, now: int): (row: AuditRow)
    ensures row.action == p.action && row.entity == p.entity
    ensures row.userId == p.userId && row.userName == p.userName
    ensures row.entityId == (if p.entityId.Some? then p.entityId.value else JNull)
    ensures row.details == (if p.details.Some? then p.details.value else JString(""))
    ensures row.stallId == (if p.stallId.Some? then p.stallId.value else JNull)
    ensures !JsonValue.Truthy(row.ipAddress) <==> p.ipAddress.None? || !JsonValue.Truthy(p.ipAddress.value)
    ensures JsonValue.Truthy(row.ipAddress) ==> row.ipAddress == p.ipAddress.value
    ensures row.oldValue.Some? <==> p.oldValue.Some? && JsonValue.Truthy(p.oldValue.value)
    ensures row.newValue.Some? <==> p.newValue.Some? && JsonValue.Truthy(p.newValue.value)
    ensures row.oldValue.Some? ==> row.oldValue == p.oldValue
    ensures row.newValue.Some? ==> row.newValue == p.newValue
    ensures row.timestamp == IsoString(now)
  {
    AuditRow(p.action, p.entity, Default(p.entityId, JNull), p.userId, p.userName,
             Default(p.details, JString("")),
             OrElse(Default(p.ipAddress, JNull), ClientIP()),
             OrElse(Default(p.userAgent, JNull), JString(navigatorUserAgent)),
             StoredValue(Default(p.oldValue, JNull)), StoredValue(Default(p.newValue, JNull)),
             Default(p.stallId, JNull), IsoString(now))
  }

  /** A call naming only who did what to which kind of entity gets every default. */
  lemma MinimalCallDefaults(action: Json, entity: Json, userId: Json, userName: Json,
                            navigatorUserAgent: string, now: int)
    ensures var row := RowOf(Params(Some(action), Some(entity), None, Some(userId), Some(userName),
                                    None, None, None, None, None, None), navigatorUserAgent, now);
            row == AuditRow(Some(action), Some(entity), JNull, Some(userId), Some(userName), JString(""),
                            JNull, JString(navigatorUserAgent), None, None, JNull, IsoString(now))
  {
    hide IsoString;
  }

  // ---------------------------------------------------------------------------
  // The insert and its outcome
  // ---------------------------------------------------------------------------

  /** What the awaited insert gives back: success, an `error` in the reply, or a thrown error. */
  datatype InsertOutcome = Inserted | Rejected(error: DbError) | Threw(thrown: DbError)

  /** The console lines `logActivity` writes. */
  datatype ConsoleLine =
    | MissingTableWarning
    | LoggingFailed(error: DbError)
    | UnexpectedFailure(thrown: DbError)

  /** The lines one call writes, given the latch as it was before the call. */
  function Reported(outcome: InsertOutcome, warned: bool): (lines: seq<ConsoleLine>)
    ensures |lines| <= 1
    ensures MissingTableWarning in lines <==> outcome.Rejected? && LoggerTableMissing(outcome.error) && !warned
  {
    match outcome
    case Inserted => []
    case Rejected(e) =>
      if LoggerTableMissing(e) then (if warned then [] else [MissingTableWarning])
      else [LoggingFailed(e)]
    case Threw(e) => if MissingTableCode(e) then [] else [UnexpectedFailure(e)]
  }

  /** The number of missing-table warnings among the console lines. */
  function Warnings(lines: seq<ConsoleLine>): (n: nat)
    ensures n <= |lines|
    ensures n == 0 <==> MissingTableWarning !in lines
  {
    if lines == [] then 0
    else Warnings(lines[..|lines| - 1]) + (if lines[|lines| - 1] == MissingTableWarning then 1 else 0)
  }

  lemma {:induction false} WarningsAppend(a: seq<ConsoleLine>, b: seq<ConsoleLine>)
    ensures Warnings(a + b) == Warnings(a) + Warnings(b)
    decreases |b|
  {
    if b == [] {
      assert a + b == a;
    } else {
      assert (a + b)[..|a + b| - 1] == a + b[..|b| - 1];
      WarningsAppend(a, b[..|b| - 1]);
    }
  }

  /** The audit trail as one page session sees it. */
  class AuditTrail {
    /** The rows of `audit_logs` this session inserted. */
    var rows: seq<AuditRow>
    /** `window._auditTableMissingLogged`. */
    var tableMissingLogged: bool
    var console: seq<ConsoleLine>

    /** The latch is set exactly when the one warning has been written. */
    predicate Valid()
      reads this
    {
      Warnings(console) == (if tableMissingLogged then 1 else 0)
    }

    constructor()
      ensures Valid()
      ensures rows == [] && !tableMissingLogged && console == []
    {
      rows := [];
      tableMissingLogged := false;
      console := [];
    }

    /**
     * `logActivity(p)`.  It has no precondition and no error result: every
     * outcome of the insert ends in a normal return.
     */
    method LogActivity(p: Params, navigatorUserAgent: string, now: int, outcome: InsertOutcome)
      requires Valid()
      modifies this
      ensures Valid()
      ensures rows == old(rows) + (if outcome.Inserted? then [RowOf(p, navigatorUserAgent, now)] else [])
      ensures console == old(console) + Reported(outcome, old(tableMissingLogged))
      ensures tableMissingLogged == (old(tableMissingLogged) ||
                                     (outcome.Rejected? && LoggerTableMissing(outcome.error)))
      ensures Warnings(console) <= 1
    {
      var row := RowOf(p, navigatorUserAgent, now);
      var lines := Reported(outcome, tableMissingLogged);
      WarningsAppend(console, lines);
      match outcome {
        case Inserted =>
          rows := rows + [row];
        case Rejected(e) =>
          if LoggerTableMissing(e) {
            if !tableMissingLogged {
              tableMissingLogged := true;
            }
          }
        case Threw(_) =>
      }
      console := console + lines;
    }
  }
}

=== FILE: calendar.dfy ===
/**
 * Proleptic Gregorian civil dates and the day numbering that JavaScript's Date
 * uses (day 0 is 1970-01-01).  Every calendar computation of the dashboard goes
 * through `DayNumber` and its inverse `FromDayNumber`, which are proved to be
 * mutually inverse on valid dates.
 */
module Calendar {

  datatype Date = Date(year: int, month: int, day: int)

  predicate IsLeapYear(y: int)
  {
    y % 4 == 0 && (y % 100 != 0 || y % 400 == 0)
  }

  function YearLength(y: int): int
  {
    if IsLeapYear(y) then 366 else 365
  }

  function DaysInMonth(y: int, m: int): (n: int)
    requires 1 <= m <= 12
    ensures 28 <= n <= 31
    ensures n == 29 <==> m == 2 && IsLeapYear(y)
    ensures n == 28 <==> m == 2 && !IsLeapYear(y)
  {
    MonthLengths[m - 1] + (if m == 2 && IsLeapYear(y) then 1 else 0)
  }

  /** Lengths of January to December in a common year. */
  const MonthLengths: seq<int> := [31, 28, 31, 30, 31, 30, 31, 31, 30, 31, 30, 31]

  /** Days of a common year before the first of January to December. */
  const MonthStarts: seq<int> := [0, 31, 59, 90, 120, 151, 181, 212, 243, 273, 304, 334]

  predicate ValidDate(d: Date)
  {
    1 <= d.month <= 12 && 1 <= d.day <= DaysInMonth(d.year, d.month)
  }

  /** Days from 1970-01-01 to the first of January of year `y`. */
  function DaysBeforeYear(y: int): int
  {
    var a := y - 1;
    365 * (y - 1970) + a / 4 - a / 100 + a / 400 - 477
  }

  // Stepping from `y - 1` to `y` raises `y / m` by one exactly when m divides y.

  lemma FloorStep4(y: int)
    ensures y / 4 - (y - 1) / 4 == if y % 4 == 0 then 1 else 0
  {
    var q, r := y / 4, y % 4;
    assert y - 1 == if r == 0 then (q - 1) * 4 + 3 else q * 4 + (r - 1);
  }

  lemma FloorStep100(y: int)
    ensures y / 100 - (y - 1) / 100 == if y % 100 == 0 then 1 else 0
  {
    var q, r := y / 100, y % 100;
    assert y - 1 == if r == 0 then (q - 1) * 100 + 99 else q * 100 + (r - 1);
  }

  lemma FloorStep400(y: int)
    ensures y / 400 - (y - 1) / 400 == if y % 400 == 0 then 1 else 0
  {
    var q, r := y / 400, y % 400;
    assert y - 1 == if r == 0 then (q - 1) * 400 + 399 else q * 400 + (r - 1);
  }

  lemma DaysBeforeNextYear(y: int)
    ensures DaysBeforeYear(y + 1) == DaysBeforeYear(y) + YearLength(y)
  {
    FloorStep4(y);
    FloorStep100(y);
    FloorStep400(y);
  }

  lemma {:induction false} DaysBeforeYearGrows(a: int, b: int)
    requires a <= b
    ensures DaysBeforeYear(b) - DaysBeforeYear(a) >= 365 * (b - a)
    ensures DaysBeforeYear(b) - DaysBeforeYear(a) <= 366 * (b - a)
    decreases b - a
  {
    if a < b {
      DaysBeforeYearGrows(a, b - 1);
      DaysBeforeNextYear(b - 1);
    }
  }

  /** Days from the first of January to the first day of month `m` of year `y`. */
  function DaysBeforeMonth(y: int, m: int): (n: int)
    requires 1 <= m <= 12
    ensures 0 <= n <= 335
  {
    MonthStarts[m - 1] + (if m > 2 && IsLeapYear(y) then 1 else 0)
  }

  lemma DaysBeforeNextMonth(y: int, m: int)
    requires 1 <= m <= 12
    ensures m < 12 ==> DaysBeforeMonth(y, m + 1) == DaysBeforeMonth(y, m) + DaysInMonth(y, m)
    ensures m == 12 ==> DaysBeforeMonth(y, m) + DaysInMonth(y, m) == YearLength(y)
  {
  }

  /** The JavaScript day number of a civil date: 1970-01-01 is day 0. */
  function DayNumber(d: Date): int
    requires 1 <= d.month <= 12
  {
    DaysBeforeYear(d.year) + DaysBeforeMonth(d.year, d.month) + d.day - 1
  }

  /** Within a month, day numbers count days. */
  lemma SameMonthDistance(a: Date, b: Date)
    requires a.year == b.year && a.month == b.month && 1 <= a.month <= 12
    ensures DayNumber(b) - DayNumber(a) == b.day - a.day
  {
    hide DaysBeforeYear, DaysBeforeMonth;
  }

  function YearSearch(z: int, y: int): (r: int)
    requires DaysBeforeYear(y) <= z
    ensures DaysBeforeYear(r) <= z < DaysBeforeYear(r + 1)
    decreases z - DaysBeforeYear(y)
  {
    DaysBeforeNextYear(y);
    if z < DaysBeforeYear(y + 1) then y else YearSearch(z, y + 1)
  }

  /** The year that contains day number `z`. */
  function YearOfDay(z: int): (y: int)
    ensures DaysBeforeYear(y) <= z < DaysBeforeYear(y + 1)
  {
    if z >= 0 then
      var start := 1970 + z / 366;
      DaysBeforeYearGrows(1970, start);
      YearSearch(z, start)
    else
      var start := 1970 + z / 365;
      DaysBeforeYearGrows(start, 1970);
      YearSearch(z, start)
  }

  function MonthSearch(y: int, doy: int, m: int): (r: int)
    requires 1 <= m <= 12 && 0 <= doy < YearLength(y)
    requires doy < DaysBeforeMonth(y, m) + DaysInMonth(y, m)
    ensures 1 <= r <= m
    ensures DaysBeforeMonth(y, r) <= doy < DaysBeforeMonth(y, r) + DaysInMonth(y, r)
  {
    if DaysBeforeMonth(y, m) <= doy || m == 1 then m
    else
      DaysBeforeNextMonth(y, m - 1);
      MonthSearch(y, doy, m - 1)
  }

  /** The civil date of day number `z`; the inverse of `DayNumber`. */
  function FromDayNumber(z: int): (d: Date)
    ensures ValidDate(d)
    ensures DayNumber(d) == z
  {
    var y := YearOfDay(z);
    DaysBeforeNextYear(y);
    var doy := z - DaysBeforeYear(y);
    DaysBeforeNextMonth(y, 12);
    var m := MonthSearch(y, doy, 12);
    Date(y, m, doy - DaysBeforeMonth(y, m) + 1)
  }

  lemma {:induction false} YearOfDayUnique(z: int, y: int)
    requires DaysBeforeYear(y) <= z < DaysBeforeYear(y + 1)
    ensures YearOfDay(z) == y
  {
    hide *;
    var r := YearOfDay(z);
    if r < y {
      DaysBeforeYearGrows(r + 1, y);
    } else if r > y {
      DaysBeforeYearGrows(y + 1, r);
    }
  }

  lemma {:induction false} MonthUnique(y: int, doy: int, m: int, m': int)
    requires 1 <= m <= 12 && 1 <= m' <= 12
    requires DaysBeforeMonth(y, m) <= doy < DaysBeforeMonth(y, m) + DaysInMonth(y, m)
    requires DaysBeforeMonth(y, m') <= doy < DaysBeforeMonth(y, m') + DaysInMonth(y, m')
    ensures m == m'
  {
    if m < m' {
      MonthStartsGrow(y, m + 1, m');
      DaysBeforeNextMonth(y, m);
    } else if m' < m {
      MonthStartsGrow(y, m' + 1, m);
      DaysBeforeNextMonth(y, m');
    }
  }

  lemma {:induction false} MonthStartsGrow(y: int, a: int, b: int)
    requires 1 <= a <= b <= 12
    ensures DaysBeforeMonth(y, a) <= DaysBeforeMonth(y, b)
  {
  }

  /** `FromDayNumber` undoes `DayNumber` on every valid date. */
  lemma FromDayNumberOfDate(d: Date)
    requires ValidDate(d)
    ensures FromDayNumber(DayNumber(d)) == d
  {
    var z := DayNumber(d);
    DaysBeforeNextMonth(d.year, d.month);
    MonthStartsGrow(d.year, d.month, 12);
    DaysBeforeNextMonth(d.year, 12);
    DaysBeforeNextYear(d.year);
    YearOfDayUnique(z, d.year);
    var r := FromDayNumber(z);
    var doy := z - DaysBeforeYear(d.year);
    MonthUnique(d.year, doy, r.month, d.month);
  }

  /** Distinct valid dates have distinct day numbers. */
  lemma DayNumberInjective(a: Date, b: Date)
    requires ValidDate(a) && ValidDate(b) && DayNumber(a) == DayNumber(b)
    ensures a == b
  {
    FromDayNumberOfDate(a);
    FromDayNumberOfDate(b);
  }

  /** Chronological order of valid dates is the lexicographic order of (year, month, day). */
  predicate DateBefore(a: Date, b: Date)
  {
    a.year < b.year || (a.year == b.year && (a.month < b.month || (a.month == b.month && a.day < b.day)))
  }

  /** A valid date's day number lies within its year. */
  lemma DayNumberInYear(d: Date)
    requires ValidDate(d)
    ensures DaysBeforeYear(d.year) <= DayNumber(d) < DaysBeforeYear(d.year + 1)
  {
    DaysBeforeNextYear(d.year);
    DaysBeforeNextMonth(d.year, d.month);
    MonthStartsGrow(d.year, d.month, 12);
    DaysBeforeNextMonth(d.year, 12);
    if d.month < 12 {
      MonthStartsGrow(d.year, d.month + 1, 12);
    }
  }

  /** Within one year, a valid date's day number lies within its month. */
  lemma DayNumberInMonth(d: Date, m: int)
    requires ValidDate(d) && d.month < m <= 12
    ensures DayNumber(d) < DaysBeforeYear(d.year) + DaysBeforeMonth(d.year, m)
  {
    DaysBeforeNextMonth(d.year, d.month);
    MonthStartsGrow(d.year, d.month + 1, m);
  }

  lemma DayNumberYearOrder(p: Date, q: Date)
    requires ValidDate(p) && ValidDate(q) && p.year < q.year
    ensures DayNumber(p) < DayNumber(q)
  {
    DayNumberInYear(p);
    DayNumberInYear(q);
    DaysBeforeYearGrows(p.year + 1, q.year);
  }

  lemma DayNumberMonthOrder(p: Date, q: Date)
    requires ValidDate(p) && ValidDate(q) && p.year == q.year && p.month < q.month
    ensures DayNumber(p) < DayNumber(q)
  {
    DayNumberInMonth(p, q.month);
  }

  lemma DayNumberOrder(a: Date, b: Date)
    requires ValidDate(a) && ValidDate(b)
    ensures DayNumber(a) < DayNumber(b) <==> DateBefore(a, b)
  {
    if a.year < b.year {
      DayNumberYearOrder(a, b);
    } else if b.year < a.year {
      DayNumberYearOrder(b, a);
    } else if a.month < b.month {
      DayNumberMonthOrder(a, b);
    } else if b.month < a.month {
      DayNumberMonthOrder(b, a);
    }
  }

  /** The day before a valid date: the same month, or the last day of the previous month. */
  function PrevDay(d: Date): (p: Date)
    requires ValidDate(d)
    ensures ValidDate(p)
  {
    if d.day > 1 then Date(d.year, d.month, d.day - 1)
    else if d.month > 1 then Date(d.year, d.month - 1, DaysInMonth(d.year, d.month - 1))
    else Date(d.year - 1, 12, 31)
  }

  lemma PrevDayNumber(d: Date)
    requires ValidDate(d)
    ensures DayNumber(PrevDay(d)) == DayNumber(d) - 1
    ensures FromDayNumber(DayNumber(d) - 1) == PrevDay(d)
  {
    PrevDayCount(d);
    FromDayNumberOfDate(PrevDay(d));
  }

  lemma PrevDayCount(d: Date)
    requires ValidDate(d)
    ensures DayNumber(PrevDay(d)) == DayNumber(d) - 1
  {
    if d.day == 1 && d.month > 1 {
      DaysBeforeNextMonth(d.year, d.month - 1);
    } else if d.day == 1 {
      DaysBeforeNextYear(d.year - 1);
      DaysBeforeNextMonth(d.year - 1, 12);
    }
  }

  /** The first day of the month before the one `d` lies in. */
  function PrevMonthStart(d: Date): (p: Date)
    requires 1 <= d.month <= 12
    ensures ValidDate(p) && p.day == 1
  {
    if d.month > 1 then Date(d.year, d.month - 1, 1) else Date(d.year - 1, 12, 1)
  }

  // ---------------------------------------------------------------------------
  // JavaScript Date arithmetic with a fixed host UTC offset.
  // ---------------------------------------------------------------------------

  const MsPerDay: int := 86_400_000
  const MsPerHour: int := 3_600_000

  /** MakeDay of ECMA-262 (section 21.4.1.28): month and day overflow roll over, day 0 is the
      last day of the previous month, negative months reach into earlier years. */
  function MakeDay(year: int, monthIndex: int, date: int): int
  {
    var y := year + monthIndex / 12;
    var m := monthIndex % 12;
    DayNumber(Date(y, m + 1, 1)) + date - 1
  }

  /** The year the `Date(year, monthIndex, day)` constructor actually uses: 0 to 99 mean 1900 to 1999. */
  function ConstructorYear(year: int): int
  {
    if 0 <= year <= 99 then 1900 + year else year
  }

  /** `new Date(year, monthIndex, day)`: host-local midnight as an instant (ms since the epoch). */
  function NewLocalDate(year: int, monthIndex: int, day: int, hostOffset: int): int
  {
    MakeDay(ConstructorYear(year), monthIndex, day) * MsPerDay - hostOffset
  }

  /** Host-local civil date of an instant (what getFullYear/getMonth/getDate report). */
  function LocalDate(t: int, hostOffset: int): (d: Date)
    ensures ValidDate(d)
  {
    FromDayNumber((t + hostOffset) / MsPerDay)
  }

  /** `setDate(day)`: keeps the local year, month and time of day. */
  function SetDate(t: int, day: int, hostOffset: int): int
  {
    var c := LocalDate(t, hostOffset);
    MakeDay(c.year, c.month - 1, day) * MsPerDay + (t + hostOffset) % MsPerDay - hostOffset
  }

  /** `setMonth(monthIndex)`: keeps the local year, day of month and time of day. */
  function SetMonth(t: int, monthIndex: int, hostOffset: int): int
  {
    var c := LocalDate(t, hostOffset);
    MakeDay(c.year, monthIndex, c.day) * MsPerDay + (t + hostOffset) % MsPerDay - hostOffset
  }

  /** `setHours(h, m, s, ms)` given as a millisecond of the day: keeps the local date. */
  function SetHours(t: int, msOfDay: int, hostOffset: int): int
  {
    (t + hostOffset) / MsPerDay * MsPerDay + msOfDay - hostOffset
  }

  /** Day `x` plus a time of day `r` splits back into `x` and `r`. */
  lemma DayDivision(x: int, r: int)
    requires 0 <= r < MsPerDay
    ensures (x * MsPerDay + r) / MsPerDay == x
    ensures (x * MsPerDay + r) % MsPerDay == r
  {
    var n := x * MsPerDay + r;
    var q, r' := n / MsPerDay, n % MsPerDay;
    assert n == q * MsPerDay + r' && 0 <= r' < MsPerDay;
    assert (q - x) * MsPerDay == r - r';
  }

  /**
   * Midnight of day `x` on a host at `offset`, seen from a zone at `viewOffset`,
   * falls on day `x + (viewOffset - offset) / MsPerDay`.
   */
  lemma LocalDateOfMidnight(x: int, offset: int, viewOffset: int)
    ensures LocalDate(x * MsPerDay - offset, viewOffset) == FromDayNumber(x + (viewOffset - offset) / MsPerDay)
    ensures (x * MsPerDay - offset + viewOffset) % MsPerDay == (viewOffset - offset) % MsPerDay
  {
    hide FromDayNumber, DayNumber;
    var a := viewOffset - offset;
    var q, r := a / MsPerDay, a % MsPerDay;
    assert a == q * MsPerDay + r;
    assert x * MsPerDay + q * MsPerDay == (x + q) * MsPerDay;
    assert x * MsPerDay - offset + viewOffset == (x + q) * MsPerDay + r;
    DayDivision(x + q, r);
  }

  /** Midnight of day `x` on a host, read back on the same host, is day `x`. */
  lemma LocalDateOfOwnMidnight(x: int, offset: int)
    ensures LocalDate(x * MsPerDay - offset, offset) == FromDayNumber(x)
    ensures (x * MsPerDay - offset + offset) % MsPerDay == 0
  {
    LocalDateOfMidnight(x, offset, offset);
  }

  lemma MakeDayOfValidDate(d: Date)
    requires ValidDate(d)
    ensures MakeDay(d.year, d.month - 1, d.day) == DayNumber(d)
  {
    hide DaysBeforeYear, DaysBeforeMonth, FromDayNumber;
    assert (d.month - 1) / 12 == 0 && (d.month - 1) % 12 == d.month - 1;
  }

  /** MakeDay within the month of a valid date counts days from that date. */
  lemma MakeDayBack(d: Date, n: int)
    requires ValidDate(d)
    ensures MakeDay(d.year, d.month - 1, d.day - n) == DayNumber(d) - n
  {
    assert (d.month - 1) / 12 == 0 && (d.month - 1) % 12 == d.month - 1;
  }

  /** An instant is its local day number in whole days plus its local time of day. */
  lemma LocalDateSplit(t: int, hostOffset: int)
    ensures DayNumber(LocalDate(t, hostOffset)) * MsPerDay + (t + hostOffset) % MsPerDay == t + hostOffset
  {
  }

  /** With a fixed offset, `setDate(getDate() - n)` moves an instant back by exactly n days. */
  lemma SetDateBack(t: int, n: int, hostOffset: int)
    ensures SetDate(t, LocalDate(t, hostOffset).day - n, hostOffset) == t - n * MsPerDay
  {
    hide FromDayNumber, DayNumber, MakeDay;
    var c := LocalDate(t, hostOffset);
    LocalDateSplit(t, hostOffset);
    MakeDayBack(c, n);
    assert (DayNumber(c) - n) * MsPerDay == DayNumber(c) * MsPerDay - n * MsPerDay;
  }

  lemma MakeDayDayZero(year: int, monthIndex: int)
    ensures FromDayNumber(MakeDay(year, monthIndex, 0)) ==
            PrevDay(Date(year + monthIndex / 12, monthIndex % 12 + 1, 1))
  {
    var first := Date(year + monthIndex / 12, monthIndex % 12 + 1, 1);
    assert 0 <= monthIndex % 12 < 12;
    assert ValidDate(first);
    assert MakeDay(year, monthIndex, 0) == DayNumber(first) - 1;
    hide *;
    PrevDayNumber(first);
  }

  /** `new Date(y, m - 2, 1)` for the current month m is the first day of the previous month. */
  lemma MakeDayPrevMonth(d: Date)
    requires ValidDate(d)
    ensures MakeDay(d.year, d.month - 2, 1) == DayNumber(PrevMonthStart(d))
  {
    hide DayNumber, FromDayNumber;
    if d.month == 1 {
      assert (d.month - 2) / 12 == -1 && (d.month - 2) % 12 == 11;
    } else {
      assert (d.month - 2) / 12 == 0 && (d.month - 2) % 12 == d.month - 2;
    }
  }

  /** `setHours` on a local midnight adds the time of day. */
  lemma SetHoursOfMidnight(x: int, msOfDay: int, hostOffset: int)
    requires 0 <= msOfDay < MsPerDay
    ensures SetHours(x * MsPerDay - hostOffset, msOfDay, hostOffset) == x * MsPerDay - hostOffset + msOfDay
  {
    DayDivision(x, 0);
    assert x * MsPerDay - hostOffset + hostOffset == x * MsPerDay + 0;
  }

  /** `setDate(day)` lands on the local day `MakeDay` names and keeps the local time of day. */
  lemma SetDateLocal(t: int, day: int, hostOffset: int)
    ensures var c := LocalDate(t, hostOffset);
            LocalDate(SetDate(t, day, hostOffset), hostOffset) == FromDayNumber(MakeDay(c.year, c.month - 1, day))
    ensures (SetDate(t, day, hostOffset) + hostOffset) % MsPerDay == (t + hostOffset) % MsPerDay
  {
    hide FromDayNumber, MakeDay;
    var c := LocalDate(t, hostOffset);
    var x, r := MakeDay(c.year, c.month - 1, day), (t + hostOffset) % MsPerDay;
    var s := SetDate(t, day, hostOffset);
    assert s + hostOffset == x * MsPerDay + r;
    DayDivision(x, r);
    assert LocalDate(s, hostOffset) == FromDayNumber((s + hostOffset) / MsPerDay);
  }

  /** `setMonth(monthIndex)` lands on the local day `MakeDay` names and keeps the local time of day. */
  lemma SetMonthLocal(t: int, monthIndex: int, hostOffset: int)
    ensures var c := LocalDate(t, hostOffset);
            LocalDate(SetMonth(t, monthIndex, hostOffset), hostOffset) == FromDayNumber(MakeDay(c.year, monthIndex, c.day))
    ensures (SetMonth(t, monthIndex, hostOffset) + hostOffset) % MsPerDay == (t + hostOffset) % MsPerDay
  {
    hide FromDayNumber, MakeDay;
    var c := LocalDate(t, hostOffset);
    var x, r := MakeDay(c.year, monthIndex, c.day), (t + hostOffset) % MsPerDay;
    var s := SetMonth(t, monthIndex, hostOffset);
    assert s + hostOffset == x * MsPerDay + r;
    DayDivision(x, r);
    assert LocalDate(s, hostOffset) == FromDayNumber((s + hostOffset) / MsPerDay);
  }

  /** An instant at local midnight is its local day's number of days, less the offset. */
  lemma MidnightOfLocalDate(t: int, hostOffset: int)
    requires (t + hostOffset) % MsPerDay == 0
    ensures t == DayNumber(LocalDate(t, hostOffset)) * MsPerDay - hostOffset
  {
    LocalDateSplit(t, hostOffset);
  }
}

=== FILE: changes_viewer.dfy ===
/**
 * The audit-log change viewer: the field-level diff of an old and a new
 * record, the short text each value is shown as, and which summary button a
 * log row gets.  Two values count as different when their
 * `JSON.stringify` serialisations differ, that is when their written-out
 * forms (`Serialised`) differ: the order in which the text listed the
 * members, and any value a repeated name overrode, do not count.
 */
module ChangesViewer {
  import opened Wrappers
  import opened Text
  import opened JsonValue
  import opened JsObject
  import opened Sorting

  datatype ChangeKind = Added | Removed | Modified

  /** One reported field: a missing side is `null`. */
  datatype Change = Change(field: string, kind: ChangeKind, oldValue: Json, newValue: Json)

  // ---------------------------------------------------------------------------
  // calculateChanges
  // ---------------------------------------------------------------------------

  /** The change one key contributes: none when both sides serialise alike (or neither holds a value). */
  function ChangeOf(key: string, oldEntries: seq<(string, Json)>, newEntries: seq<(string, Json)>): (r: seq<Change>)
  {
    var oldVal := Lookup(oldEntries, key);
    var newVal := Lookup(newEntries, key);
    if oldVal.None? && newVal.Some? then [Change(key, Added, JNull, newVal.value)]
    else if oldVal.Some? && newVal.None? then [Change(key, Removed, oldVal.value, JNull)]
    else if Stringified(oldVal) != Stringified(newVal) then [Change(key, Modified, oldVal.value, newVal.value)]
    else []
  }

  /** The changes of the keys, in key order. */
  function DiffKeys(keys: seq<string>, oldEntries: seq<(string, Json)>, newEntries: seq<(string, Json)>): (r: seq<Change>)
  {
    if keys == [] then []
    else DiffKeys(keys[..|keys| - 1], oldEntries, newEntries) + ChangeOf(keys[|keys| - 1], oldEntries, newEntries)
  }

  /** `new Set([...Object.keys(oldObj), ...Object.keys(newObj)])`. */
  function AllKeys(oldEntries: seq<(string, Json)>, newEntries: seq<(string, Json)>): (keys: seq<string>)
  {
    Distinct(Keys(oldEntries) + Keys(newEntries))
  }

  /** What `calculateChanges(oldObj, newObj, actionType)` returns. */
  function Changes(oldObj: Json, newObj: Json, actionType: string): (r: seq<Change>)
    ensures actionType == "CREATE" || actionType == "DELETE" || !IsPlainObject(oldObj) || !IsPlainObject(newObj)
            ==> r == []
  {
    if actionType == "CREATE" || actionType == "DELETE" || !oldObj.JObject? || !newObj.JObject? then []
    else DiffKeys(AllKeys(oldObj.entries, newObj.entries), oldObj.entries, newObj.entries)
  }

  /** `calculateChanges`: the loop over the key set, pushing one change per differing key. */
  method CalculateChanges(oldObj: Json, newObj: Json, actionType: string) returns (changes: seq<Change>)
    ensures changes == Changes(oldObj, newObj, actionType)
  {
    if !JsonValue.Truthy(oldObj) && !JsonValue.Truthy(newObj) {
      return [];
    }
    if actionType == "CREATE" || actionType == "DELETE" {
      return [];
    }
    if !JsonValue.Truthy(oldObj) || !JsonValue.Truthy(newObj) {
      return [];
    }
    if !oldObj.JObject? || !newObj.JObject? {
      return [];
    }
    changes := [];
    var oldEntries, newEntries := oldObj.entries, newObj.entries;
    var allKeys := Distinct(Keys(oldEntries) + Keys(newEntries));
    var i := 0;
    while i < |allKeys|
      invariant 0 <= i <= |allKeys|
      invariant changes == DiffKeys(allKeys[..i], oldEntries, newEntries)
    {
      var key := allKeys[i];
      var oldVal := Lookup(oldEntries, key);
      var newVal := Lookup(newEntries, key);
      if oldVal.None? && newVal.Some? {
        changes := changes + [Change(key, Added, JNull, newVal.value)];
      } else if oldVal.Some? && newVal.None? {
        changes := changes + [Change(key, Removed, oldVal.value, JNull)];
      } else if Stringified(oldVal) != Stringified(newVal) {
        changes := changes + [Change(key, Modified, oldVal.value, newVal.value)];
      }
      assert allKeys[..i + 1][..i] == allKeys[..i];
      i := i + 1;
    }
    assert allKeys[..i] == allKeys;
  }

  // ---------------------------------------------------------------------------
  // What the diff reports
  // ---------------------------------------------------------------------------

  /** The fields of a change list, in order. */
  function Fields(changes: seq<Change>): (fields: seq<string>)
    ensures |fields| == |changes|
    ensures forall i :: 0 <= i < |changes| ==> fields[i] == changes[i].field
  {
    seq(|changes|, i requires 0 <= i < |changes| => changes[i].field)
  }

  /** Each change describes its field truthfully: what each side holds, with `null` for a missing side. */
  predicate Describes(c: Change, oldEntries: seq<(string, Json)>, newEntries: seq<(string, Json)>)
  {
    var o := Lookup(oldEntries, c.field);
    var n := Lookup(newEntries, c.field);
    match c.kind
    case Added => o.None? && n == Some(c.newValue) && c.oldValue == JNull
    case Removed => o == Some(c.oldValue) && n.None? && c.newValue == JNull
    case Modified => o == Some(c.oldValue) && n == Some(c.newValue) && Serialised(c.oldValue) != Serialised(c.newValue)
  }

  /** The keys among `keys` whose two sides serialise differently, in order. */
  function Differing(keys: seq<string>, oldEntries: seq<(string, Json)>, newEntries: seq<(string, Json)>): (r: seq<string>)
    ensures forall k :: k in r <==> k in keys && Stringified(Lookup(oldEntries, k)) != Stringified(Lookup(newEntries, k))
  {
    if keys == [] then []
    else Differing(keys[..|keys| - 1], oldEntries, newEntries) + KeyIfDiffers(keys[|keys| - 1], oldEntries, newEntries)
  }

  /** `[k]` when the key's two sides serialise differently, else nothing. */
  function KeyIfDiffers(k: string, oldEntries: seq<(string, Json)>, newEntries: seq<(string, Json)>): (r: seq<string>)
    ensures r == [k] || r == []
    ensures k in r <==> Stringified(Lookup(oldEntries, k)) != Stringified(Lookup(newEntries, k))
  {
    if Stringified(Lookup(oldEntries, k)) != Stringified(Lookup(newEntries, k)) then [k] else []
  }

  lemma {:induction false} DifferingAppend(a: seq<string>, b: seq<string>, oldEntries: seq<(string, Json)>,
                                           newEntries: seq<(string, Json)>)
    ensures Differing(a + b, oldEntries, newEntries) == Differing(a, oldEntries, newEntries) + Differing(b, oldEntries, newEntries)
    decreases |b|
  {
    hide Stringified, Lookup, KeyIfDiffers;
    if b == [] {
      assert a + b == a;
    } else {
      var init, k := b[..|b| - 1], b[|b| - 1];
      assert (a + b)[..|a + b| - 1] == a + init;
      assert (a + b)[|a + b| - 1] == k;
      DifferingAppend(a, init, oldEntries, newEntries);
      assert Differing(a + b, oldEntries, newEntries) ==
             Differing(a + init, oldEntries, newEntries) + KeyIfDiffers(k, oldEntries, newEntries);
      assert Differing(b, oldEntries, newEntries) ==
             Differing(init, oldEntries, newEntries) + KeyIfDiffers(k, oldEntries, newEntries);
    }
  }

  /** One key's change: present exactly when the key's two sides serialise differently, and describing it truthfully. */
  lemma ChangeOfReports(key: string, oldEntries: seq<(string, Json)>, newEntries: seq<(string, Json)>)
    ensures var c := ChangeOf(key, oldEntries, newEntries);
            Fields(c) == (if Stringified(Lookup(oldEntries, key)) != Stringified(Lookup(newEntries, key)) then [key] else []) &&
            forall i :: 0 <= i < |c| ==> Describes(c[i], oldEntries, newEntries)
  {
  }

  /** The diff of a key list reports exactly the differing keys, in key order, each described truthfully. */
  lemma {:induction false} DiffKeysReports(keys: seq<string>, oldEntries: seq<(string, Json)>, newEntries: seq<(string, Json)>)
    ensures var r := DiffKeys(keys, oldEntries, newEntries);
            Fields(r) == Differing(keys, oldEntries, newEntries) &&
            forall i :: 0 <= i < |r| ==> Describes(r[i], oldEntries, newEntries)
    decreases |keys|
  {
    if keys != [] {
      var prefix, k := keys[..|keys| - 1], keys[|keys| - 1];
      DiffKeysReports(prefix, oldEntries, newEntries);
      ChangeOfReports(k, oldEntries, newEntries);
      var r', c := DiffKeys(prefix, oldEntries, newEntries), ChangeOf(k, oldEntries, newEntries);
      assert Differing(keys, oldEntries, newEntries) == Differing(prefix, oldEntries, newEntries) +
        KeyIfDiffers(k, oldEntries, newEntries);
      hide ChangeOf, Describes, Differing;
      assert DiffKeys(keys, oldEntries, newEntries) == r' + c;
      assert Fields(r' + c) == Fields(r') + Fields(c);
    }
  }

  /**
   * The diff of two objects: the differing keys of the old object in its key
   * order, then the differing keys only the new object has, in its order;
   * so each key is reported at most once, and every change describes its
   * field truthfully.
   */
  lemma ChangesReport(oldEntries: seq<(string, Json)>, newEntries: seq<(string, Json)>, actionType: string)
    requires actionType != "CREATE" && actionType != "DELETE"
    ensures var r := Changes(JObject(oldEntries), JObject(newEntries), actionType);
            var oldKeys := Keys(oldEntries);
            Fields(r) == Differing(oldKeys, oldEntries, newEntries) +
                         Differing(Without(Keys(newEntries), oldKeys), oldEntries, newEntries) &&
            (forall i :: 0 <= i < |r| ==> Describes(r[i], oldEntries, newEntries)) &&
            (forall i, j :: 0 <= i < j < |r| ==> r[i].field != r[j].field)
  {
    var oldKeys, newKeys := Keys(oldEntries), Keys(newEntries);
    DistinctAppend(oldKeys, newKeys);
    DistinctOfDistinct(oldKeys);
    DistinctOfDistinct(newKeys);
    var all := AllKeys(oldEntries, newEntries);
    DiffKeysReports(all, oldEntries, newEntries);
    DifferingAppend(oldKeys, Without(newKeys, oldKeys), oldEntries, newEntries);
    DifferingDistinct(all, oldEntries, newEntries);
  }

  predicate NoRepeats(s: seq<string>)
  {
    forall i, j :: 0 <= i < j < |s| ==> s[i] != s[j]
  }

  lemma {:induction false} DifferingDistinct(keys: seq<string>, oldEntries: seq<(string, Json)>, newEntries: seq<(string, Json)>)
    requires NoRepeats(keys)
    ensures NoRepeats(Differing(keys, oldEntries, newEntries))
    decreases |keys|
  {
    if keys != [] {
      var prefix := keys[..|keys| - 1];
      DifferingDistinct(prefix, oldEntries, newEntries);
      var k := keys[|keys| - 1];
      assert k !in prefix by {
        assert forall i :: 0 <= i < |prefix| ==> prefix[i] == keys[i];
      }
      var d' := Differing(prefix, oldEntries, newEntries);
      assert k !in d';
      var d := Differing(keys, oldEntries, newEntries);
      if d != d' {
        assert d == d' + [k];
        forall i, j | 0 <= i < j < |d|
          ensures d[i] != d[j]
        {
          if j == |d'| {
            assert d[i] == d'[i] && d'[i] in d';
          } else {
            assert d[i] == d'[i] && d[j] == d'[j];
          }
        }
      }
    }
  }

  /** A key is reported exactly when it is in either object and its two sides serialise differently. */
  lemma ChangedKeys(oldEntries: seq<(string, Json)>, newEntries: seq<(string, Json)>, actionType: string, key: string)
    requires actionType != "CREATE" && actionType != "DELETE"
    ensures key in Fields(Changes(JObject(oldEntries), JObject(newEntries), actionType)) <==>
            (key in Names(oldEntries) || key in Names(newEntries)) &&
            Stringified(Lookup(oldEntries, key)) != Stringified(Lookup(newEntries, key))
  {
    DiffKeysReports(AllKeys(oldEntries, newEntries), oldEntries, newEntries);
  }

  /** Diffing a record against itself reports nothing. */
  lemma {:induction false} DiffSelf(v: Json, actionType: string)
    ensures Changes(v, v, actionType) == []
  {
    if v.JObject? && actionType != "CREATE" && actionType != "DELETE" {
      DiffKeysSame(AllKeys(v.entries, v.entries), v.entries);
    }
  }

  lemma {:induction false} DiffKeysSame(keys: seq<string>, entries: seq<(string, Json)>)
    ensures DiffKeys(keys, entries, entries) == []
    decreases |keys|
  {
    if keys != [] {
      DiffKeysSame(keys[..|keys| - 1], entries);
    }
  }

  /**
   * Two records that serialise to the same text give no change.  The
   * converse fails: the top-level members are compared one by one, so a
   * record whose members were only listed in another order reports nothing
   * (`TopLevelOrderIgnored`), while the same reordering one level down is a
   * 'modified' field (`NestedOrderModified`).
   */
  lemma SameSerialisationNoChanges(oldEntries: seq<(string, Json)>, newEntries: seq<(string, Json)>, actionType: string)
    requires Serialised(JObject(oldEntries)) == Serialised(JObject(newEntries))
    ensures Changes(JObject(oldEntries), JObject(newEntries), actionType) == []
  {
    if actionType != "CREATE" && actionType != "DELETE" {
      forall k
        ensures Stringified(Lookup(oldEntries, k)) == Stringified(Lookup(newEntries, k))
      {
        SerialisedLookup(oldEntries, k);
        SerialisedLookup(newEntries, k);
      }
      NoChangesIffSameFields(oldEntries, newEntries, actionType);
    }
  }

  /** `"1"` is an array index and `"a"`, `"b"` are not. */
  lemma SampleKeyKinds()
    ensures IsArrayIndex("1") && !IsArrayIndex("a") && !IsArrayIndex("b")
  {
    assert DigitsValue("1") == 1;
    NonDigitKey("a", 0);
    NonDigitKey("b", 0);
  }

  /** `Object.keys` of `{"b": …, "1": …}` and of `{"1": …, "b": …}` is `["1", "b"]`. */
  lemma IndexKeyListedFirst(x: Json, y: Json)
    ensures Keys([("b", x), ("1", y)]) == ["1", "b"]
    ensures Keys([("1", y), ("b", x)]) == ["1", "b"]
  {
    assert Names([("b", x), ("1", y)]) == ["b", "1"];
    assert Names([("1", y), ("b", x)]) == ["1", "b"];
    DistinctOfDistinct(["b", "1"]);
    DistinctOfDistinct(["1", "b"]);
    IndexFirst(["b", "1"]);
    IndexFirst(["1", "b"]);
  }

  /** The enumeration order of the names "1" and "b", in either order of insertion. */
  lemma IndexFirst(names: seq<string>)
    requires names == ["b", "1"] || names == ["1", "b"]
    ensures EnumerationOrder(names) == ["1", "b"]
  {
    SampleKeyKinds();
    KindsOfPair(names, "1", "b");
    hide IsArrayIndex, IndexKeys, OtherKeys, SortBy;
    SortSingle("1");
  }

  /** An array index and another key, inserted in either order, split into the two kinds. */
  lemma KindsOfPair(names: seq<string>, index: string, other: string)
    requires IsArrayIndex(index) && !IsArrayIndex(other)
    requires names == [other, index] || names == [index, other]
    ensures IndexKeys(names) == [index] && OtherKeys(names) == [other]
  {
    hide IsArrayIndex;
    var first, second := names[0], names[1];
    assert names[..1] == [first] && [first][..0] == [];
    assert IndexKeys([first]) == (if IsArrayIndex(first) then [first] else []);
    assert OtherKeys([first]) == (if IsArrayIndex(first) then [] else [first]);
    assert IndexKeys(names) == IndexKeys([first]) + (if IsArrayIndex(second) then [second] else []);
    assert OtherKeys(names) == OtherKeys([first]) + (if IsArrayIndex(second) then [] else [second]);
  }

  lemma SortSingle(k: string)
    ensures SortBy([k], IndexValue) == [k]
  {
    assert [k][..0] == [];
  }

  /** `Object.keys` of `{"a": …, "b": …}` is `["a", "b"]`, and of `{"b": …, "a": …}` is `["b", "a"]`. */
  lemma NamesInOrder(x: Json, y: Json)
    ensures Keys([("a", x), ("b", y)]) == ["a", "b"]
    ensures Keys([("b", y), ("a", x)]) == ["b", "a"]
  {
    SampleKeyKinds();
    KeysOfNames("a", x, "b", y);
    KeysOfNames("b", y, "a", x);
  }

  /** Two distinct names that are not array indices are listed as given. */
  lemma KeysOfNames(k1: string, x: Json, k2: string, y: Json)
    requires k1 != k2 && !IsArrayIndex(k1) && !IsArrayIndex(k2)
    ensures Keys([(k1, x), (k2, y)]) == [k1, k2]
  {
    assert Names([(k1, x), (k2, y)]) == [k1, k2];
    DistinctOfDistinct([k1, k2]);
    EnumerationOrderOfNames([k1, k2]);
  }

  /** A two-member object of numbers whose keys list `k1` then `k2` is written out in that order. */
  lemma SerialisedNumberPair(entries: seq<(string, Json)>, k1: string, n1: int, k2: string, n2: int)
    requires Keys(entries) == [k1, k2]
    requires Lookup(entries, k1) == Some(JNumber(n1)) && Lookup(entries, k2) == Some(JNumber(n2))
    ensures Serialised(JObject(entries)) == JObject([(k1, JNumber(n1)), (k2, JNumber(n2))])
  {
    SerialisedObject(entries);
    hide Keys, Lookup;
  }

  /** `{"b":1,"1":2}` and `{"1":2,"b":1}` serialise alike: `{"1":2,"b":1}`. */
  lemma IndexKeySerialised()
    ensures Serialised(JObject([("b", JNumber(1)), ("1", JNumber(2))])) == JObject([("1", JNumber(2)), ("b", JNumber(1))])
    ensures Serialised(JObject([("1", JNumber(2)), ("b", JNumber(1))])) == JObject([("1", JNumber(2)), ("b", JNumber(1))])
  {
    hide *;
    IndexKeyListedFirst(JNumber(1), JNumber(2));
    LookupPair("b", JNumber(1), "1", JNumber(2));
    LookupPair("1", JNumber(2), "b", JNumber(1));
    SerialisedNumberPair([("b", JNumber(1)), ("1", JNumber(2))], "1", 2, "b", 1);
    SerialisedNumberPair([("1", JNumber(2)), ("b", JNumber(1))], "1", 2, "b", 1);
  }

  /** `{"price":{"b":1,"1":2}}` against `{"price":{"1":2,"b":1}}`: the prices serialise alike, so nothing changed. */
  lemma IndexKeyPositionIgnored()
    ensures Changes(JObject([("price", JObject([("b", JNumber(1)), ("1", JNumber(2))]))]),
                    JObject([("price", JObject([("1", JNumber(2)), ("b", JNumber(1))]))]), "UPDATE") == []
  {
    var inner1, inner2 := JObject([("b", JNumber(1)), ("1", JNumber(2))]), JObject([("1", JNumber(2)), ("b", JNumber(1))]);
    var a, b := [("price", inner1)], [("price", inner2)];
    hide Lookup, Serialised, Changes, Keys;
    IndexKeySerialised();
    forall k
      ensures Stringified(Lookup(a, k)) == Stringified(Lookup(b, k))
    {
      LookupSingle("price", inner1, k);
      LookupSingle("price", inner2, k);
    }
    NoChangesIffSameFields(a, b, "UPDATE");
  }

  /** Both keys of two number pairs with different numbers differ. */
  lemma DifferingNumberPair(a: seq<(string, Json)>, b: seq<(string, Json)>, k1: string, k2: string, m1: int, m2: int,
                            n1: int, n2: int)
    requires Lookup(a, k1) == Some(JNumber(m1)) && Lookup(a, k2) == Some(JNumber(m2))
    requires Lookup(b, k1) == Some(JNumber(n1)) && Lookup(b, k2) == Some(JNumber(n2))
    requires m1 != n1 && m2 != n2
    ensures Differing([k1, k2], a, b) == [k1, k2]
  {
    NumbersDiffer(a, b, k1, m1, n1);
    NumbersDiffer(a, b, k2, m2, n2);
    hide Lookup, KeyIfDiffers;
    assert [k1, k2][..1] == [k1];
    assert [k1][..0] == [];
    assert Differing([k1], a, b) == [k1];
  }

  lemma NumbersDiffer(a: seq<(string, Json)>, b: seq<(string, Json)>, k: string, m: int, n: int)
    requires Lookup(a, k) == Some(JNumber(m)) && Lookup(b, k) == Some(JNumber(n)) && m != n
    ensures KeyIfDiffers(k, a, b) == [k]
  {
    hide Lookup;
  }

  /** `{"b":1,"1":2}` against `{"b":3,"1":4}`: both fields are modified, field "1" listed first. */
  lemma IndexFieldReportedFirst()
    ensures Fields(Changes(JObject([("b", JNumber(1)), ("1", JNumber(2))]),
                           JObject([("b", JNumber(3)), ("1", JNumber(4))]), "UPDATE")) == ["1", "b"]
  {
    var a, b := [("b", JNumber(1)), ("1", JNumber(2))], [("b", JNumber(3)), ("1", JNumber(4))];
    hide *;
    IndexKeyListedFirst(JNumber(1), JNumber(2));
    IndexKeyListedFirst(JNumber(3), JNumber(4));
    ChangesReport(a, b, "UPDATE");
    LookupPair("b", JNumber(1), "1", JNumber(2));
    LookupPair("b", JNumber(3), "1", JNumber(4));
    DifferingNumberPair(a, b, "1", "b", 2, 1, 4, 3);
    WithoutSelf(["1", "b"]);
    DifferingNone(a, b);
  }

  /** A list without the elements of itself is empty. */
  lemma WithoutSelf(s: seq<string>)
    ensures Without(s, s) == []
  {
    WithoutCovered(s, s);
  }

  lemma {:induction false} WithoutCovered(s: seq<string>, a: seq<string>)
    requires forall i :: 0 <= i < |s| ==> s[i] in a
    ensures Without(s, a) == []
    decreases |s|
  {
    if s != [] {
      WithoutCovered(s[..|s| - 1], a);
    }
  }

  lemma DifferingNone(a: seq<(string, Json)>, b: seq<(string, Json)>)
    ensures Differing([], a, b) == []
  {
  }

  /** `{"a":1,"a":2}` against `{"a":2}`: a repeated name holds its last value, so nothing changed. */
  lemma RepeatedNameOverridden()
    ensures Changes(JObject([("a", JNumber(1)), ("a", JNumber(2))]), JObject([("a", JNumber(2))]), "UPDATE") == []
  {
    var a, b := [("a", JNumber(1)), ("a", JNumber(2))], [("a", JNumber(2))];
    forall k
      ensures Stringified(Lookup(a, k)) == Stringified(Lookup(b, k))
    {
      assert a[..1] == [("a", JNumber(1))] && b[..0] == [];
    }
    NoChangesIffSameFields(a, b, "UPDATE");
  }

  /** `{"a":1,"b":2}` against `{"b":2,"a":1}`: each field serialises alike, so nothing changed, though the records do not. */
  lemma TopLevelOrderIgnored()
    ensures Changes(JObject([("a", JNumber(1)), ("b", JNumber(2))]),
                    JObject([("b", JNumber(2)), ("a", JNumber(1))]), "UPDATE") == []
    ensures Serialised(JObject([("a", JNumber(1)), ("b", JNumber(2))])) !=
            Serialised(JObject([("b", JNumber(2)), ("a", JNumber(1))]))
  {
    var a, b := [("a", JNumber(1)), ("b", JNumber(2))], [("b", JNumber(2)), ("a", JNumber(1))];
    forall k
      ensures Stringified(Lookup(a, k)) == Stringified(Lookup(b, k))
    {
      assert a[..1] == [("a", JNumber(1))] && b[..1] == [("b", JNumber(2))];
      assert a[..0] == [] && b[..0] == [];
    }
    NoChangesIffSameFields(a, b, "UPDATE");
    OrderedPairsSerialised();
  }

  /** `{"a":1,"b":2}` is written out as is, and so is `{"b":2,"a":1}`. */
  lemma OrderedPairsSerialised()
    ensures Serialised(JObject([("a", JNumber(1)), ("b", JNumber(2))])) == JObject([("a", JNumber(1)), ("b", JNumber(2))])
    ensures Serialised(JObject([("b", JNumber(2)), ("a", JNumber(1))])) == JObject([("b", JNumber(2)), ("a", JNumber(1))])
  {
    hide *;
    NamesInOrder(JNumber(1), JNumber(2));
    LookupPair("a", JNumber(1), "b", JNumber(2));
    LookupPair("b", JNumber(2), "a", JNumber(1));
    SerialisedNumberPair([("a", JNumber(1)), ("b", JNumber(2))], "a", 1, "b", 2);
    SerialisedNumberPair([("b", JNumber(2)), ("a", JNumber(1))], "b", 2, "a", 1);
  }

  /** `{"x":{"a":1,"b":2}}` against `{"x":{"b":2,"a":1}}`: the nested objects serialise differently, so "x" is modified. */
  lemma NestedOrderModified()
    ensures Fields(Changes(JObject([("x", JObject([("a", JNumber(1)), ("b", JNumber(2))]))]),
                           JObject([("x", JObject([("b", JNumber(2)), ("a", JNumber(1))]))]), "UPDATE")) == ["x"]
  {
    var inner1, inner2 := JObject([("a", JNumber(1)), ("b", JNumber(2))]), JObject([("b", JNumber(2)), ("a", JNumber(1))]);
    var a, b := [("x", inner1)], [("x", inner2)];
    SingleKey(a, inner1);
    SingleKey(b, inner2);
    OrderedPairsSerialised();
    hide *;
    ChangesReport(a, b, "UPDATE");
    WithoutSelf(["x"]);
    DifferingNone(a, b);
    DifferingSingle(a, b, "x");
  }

  /** `{k: v}[key]`. */
  lemma LookupSingle(k: string, v: Json, key: string)
    ensures Lookup([(k, v)], key) == if key == k then Some(v) else None
  {
    assert [(k, v)][..0] == [];
  }

  /** `Object.keys` of `{"x": v}` is `["x"]`, and `x` reads `v`. */
  lemma SingleKey(a: seq<(string, Json)>, v: Json)
    requires a == [("x", v)]
    ensures Keys(a) == ["x"] && Lookup(a, "x") == Some(v)
  {
    assert a[..0] == [];
    assert Names(a) == ["x"];
    assert Distinct(["x"]) == ["x"];
    NonDigitKey("x", 0);
    EnumerationOrderOfNames(["x"]);
  }

  lemma DifferingSingle(a: seq<(string, Json)>, b: seq<(string, Json)>, k: string)
    requires Stringified(Lookup(a, k)) != Stringified(Lookup(b, k))
    ensures Differing([k], a, b) == [k]
  {
    hide Stringified, Lookup;
    assert [k][..0] == [];
  }

  // ---------------------------------------------------------------------------
  // formatValue
  // ---------------------------------------------------------------------------

  /**
   * What `formatValue` shows.  Locale formatting is outside the model: a
   * date-like string, a money amount and a plain number are returned as the
   * value the locale formatter would be given.
   */
  datatype Shown =
    | Plain(text: string)
    | LocaleDate(date: string)
    | Money(amount: int)
    | LocaleNumber(number: int)

  /** `/^\d{4}-\d{2}-\d{2}/`. */
  predicate LooksLikeDate(s: string)
  {
    |s| >= 10 && IsDigit(s[0]) && IsDigit(s[1]) && IsDigit(s[2]) && IsDigit(s[3]) && s[4] == '-' &&
    IsDigit(s[5]) && IsDigit(s[6]) && s[7] == '-' && IsDigit(s[8]) && IsDigit(s[9])
  }

  /** `toLowerCase` on ASCII letters. */
  function LowerAscii(s: string): (r: string)
    ensures |r| == |s|
    ensures forall i :: 0 <= i < |s| ==> r[i] == if 'A' <= s[i] <= 'Z' then (s[i] as int + 32) as char else s[i]
  {
    seq(|s|, i requires 0 <= i < |s| => if 'A' <= s[i] <= 'Z' then (s[i] as int + 32) as char else s[i])
  }

  predicate IsMoneyField(fieldName: string)
  {
    var f := LowerAscii(fieldName);
    Contains(f, "price") || Contains(f, "cost") || Contains(f, "amount") || Contains(f, "total")
  }

  /** `"<n> <word>"` with an "s" unless n is 1. */
  function Counted(n: nat, word: string): (t: string)
  {
    NatToString(n) + " " + word + (if n != 1 then "s" else "")
  }

  function FormatValue(value: Json, fieldName: string): (r: Shown)
    ensures value == JNull ==> r == Plain("null")
    ensures value.JBool? ==> r == Plain(if value.b then "Yes" else "No")
    ensures value.JArray? ==> r == Plain("[" + Counted(|value.items|, "item") + "]")
    ensures value.JObject? ==> r == Plain("{" + Counted(|Keys(value.entries)|, "field") + "}")
    ensures value.JString? ==> r == (if LooksLikeDate(value.s) then LocaleDate(value.s) else Plain(value.s))
    ensures value.JNumber? ==> r == (if IsMoneyField(fieldName) then Money(value.n) else LocaleNumber(value.n))
  {
    match value
    case JNull => Plain("null")
    case JString(s) => if LooksLikeDate(s) then LocaleDate(s) else Plain(s)
    case JNumber(n) => if IsMoneyField(fieldName) then Money(n) else LocaleNumber(n)
    case JBool(b) => Plain(if b then "Yes" else "No")
    case JArray(items) => Plain("[" + Counted(|items|, "item") + "]")
    case JObject(entries) => Plain("{" + Counted(|Keys(entries)|, "field") + "}")
  }

  /** A count label starts with the count, which reads back, and is plural exactly when the count is not 1. */
  lemma CountedReadsBack(n: nat, word: string)
    requires word != [] && word[|word| - 1] != 's'
    ensures var t := Counted(n, word);
            var d := NatToString(n);
            t[..|d|] == d && DigitsValue(d) == n && t[|d|] == ' ' &&
            (EndsWith(t, word + "s") <==> n != 1)
  {
    var t := Counted(n, word);
    var d := NatToString(n);
    NatToStringValue(n);
    assert t[..|d|] == d;
    if n != 1 {
      assert t[|t| - |word + "s"|..] == word + "s";
    } else {
      assert t == d + " " + word;
      assert t[|t| - 1] == word[|word| - 1];
      assert (word + "s")[|word|] == 's';
    }
  }

  // ---------------------------------------------------------------------------
  // Which button a log row shows
  // ---------------------------------------------------------------------------

  /** A stored value: empty (not parsed), parsed, or rejected by `JSON.parse` with a message. */
  datatype Stored = Absent | Parsed(value: Json) | Unparseable(message: string)

  function ValueOf(s: Stored): (v: Json)
  {
    if s.Parsed? then s.value else JNull
  }

  /** The combined parse-error text, if either side failed. */
  function ParseError(oldStored: Stored, newStored: Stored): (r: Option<string>)
    ensures r.Some? <==> oldStored.Unparseable? || newStored.Unparseable?
  {
    var oldError := if oldStored.Unparseable? then Some("Failed to parse old value: " + oldStored.message) else None;
    if newStored.Unparseable? then
      var newText := "Failed to parse new value: " + newStored.message;
      Some(if oldError.Some? then oldError.value + "; " + newText else newText)
    else oldError
  }

  datatype Button =
    | Dash
    | ErrorButton(tip: string)
    | CreateView(caption: string)
    | DeleteView(caption: string)
    | ChangeCount(caption: string)
    | PlainView

  /** `View (n fields)` for an object, `View (n items)` for an array, `View (1 item)` for anything else. */
  function ViewLabel(v: Json): (caption: string)
  {
    if v.JObject? then "View (" + Counted(|Keys(v.entries)|, "field") + ")"
    else if v.JArray? then "View (" + Counted(|v.items|, "item") + ")"
    else "View (" + Counted(1, "item") + ")"
  }

  /** The row's rendering, from its stored values and action. */
  function ButtonOf(oldStored: Stored, newStored: Stored, action: string): (b: Button)
  {
    var oldVal, newVal := ValueOf(oldStored), ValueOf(newStored);
    var error := ParseError(oldStored, newStored);
    var changes := Changes(oldVal, newVal, action);
    var hasChanges := |changes| > 0 || JsonValue.Truthy(oldVal) || JsonValue.Truthy(newVal);
    if !hasChanges && error.None? then Dash
    else if error.Some? then ErrorButton(error.value)
    else if action == "CREATE" && JsonValue.Truthy(newVal) then CreateView(ViewLabel(newVal))
    else if action == "DELETE" && JsonValue.Truthy(oldVal) then DeleteView(ViewLabel(oldVal))
    else if |changes| > 0 then ChangeCount(Counted(|changes|, "change"))
    else PlainView
  }

  /**
   * The display precedence: a parse error wins; a dash exactly when no value
   * is truthy and nothing failed to parse; then the CREATE and DELETE
   * summaries; then the change count of an update; then a plain View.
   */
  lemma ButtonPrecedence(oldStored: Stored, newStored: Stored, action: string)
    ensures var b := ButtonOf(oldStored, newStored, action);
            var oldVal, newVal := ValueOf(oldStored), ValueOf(newStored);
            var error := ParseError(oldStored, newStored);
            (error.Some? ==> b == ErrorButton(error.value)) &&
            (b == Dash <==> error.None? && !JsonValue.Truthy(oldVal) && !JsonValue.Truthy(newVal)) &&
            (error.None? && action == "CREATE" && JsonValue.Truthy(newVal) ==> b == CreateView(ViewLabel(newVal))) &&
            (error.None? && action == "DELETE" && JsonValue.Truthy(oldVal) ==> b == DeleteView(ViewLabel(oldVal))) &&
            (error.None? && action != "CREATE" && action != "DELETE" && oldVal.JObject? && newVal.JObject? ==>
               (b == PlainView <==> SameFields(oldVal.entries, newVal.entries)) &&
               (b != PlainView ==> b == ChangeCount(Counted(|Changes(oldVal, newVal, action)|, "change"))))
  {
    hide ViewLabel, Counted, ValueOf, ParseError, SameFields, DiffKeys, AllKeys;
    var oldVal, newVal := ValueOf(oldStored), ValueOf(newStored);
    if action != "CREATE" && action != "DELETE" && oldVal.JObject? && newVal.JObject? {
      NoChangesIffSameFields(oldVal.entries, newVal.entries, action);
    }
  }

  /** Every key is missing on both sides, or present on both with the same serialisation. */
  ghost predicate SameFields(oldEntries: seq<(string, Json)>, newEntries: seq<(string, Json)>)
  {
    forall k :: Stringified(Lookup(oldEntries, k)) == Stringified(Lookup(newEntries, k))
  }

  /** An update of two objects reports no change exactly when every key serialises alike on both sides. */
  lemma NoChangesIffSameFields(oldEntries: seq<(string, Json)>, newEntries: seq<(string, Json)>, actionType: string)
    requires actionType != "CREATE" && actionType != "DELETE"
    ensures Changes(JObject(oldEntries), JObject(newEntries), actionType) == [] <==> SameFields(oldEntries, newEntries)
  {
    var r := Changes(JObject(oldEntries), JObject(newEntries), actionType);
    if r == [] {
      forall k
        ensures Stringified(Lookup(oldEntries, k)) == Stringified(Lookup(newEntries, k))
      {
        ChangedKeys(oldEntries, newEntries, actionType, k);
      }
    } else {
      ChangedKeys(oldEntries, newEntries, actionType, r[0].field);
    }
  }
}

=== FILE: chicken_stocks.dfy ===
/**
 * The admin panel for chicken stocks and stall status
 * (src/components/admin/ChickenStocksAndStallStatus.jsx): the per-stall stock
 * map built on load, and the optimistic edits of a stall's stock level,
 * status and location, each rolled back for that stall when the write fails.
 */
module ChickenStocks {
  import opened Wrappers
  import opened Text
  import opened StaffReportsToday
  import opened JsNumber
  import Reports

  /** A `stalls` row as the panel holds it; a `null` location is `None`. */
  datatype Stall = Stall(stallId: string, stallName: string, location: Option<string>, status: string)

  /** The panel's `stocks[stallId]`: the `stall_stocks` row id, if any, and the quantity shown. */
  datatype StockEntry = StockEntry(stockUid: Option<string>, quantity: int)

  /** A `stall_stocks` row; a `null` quantity is `None`. */
  datatype StockRow = StockRow(stockUid: string, stallId: string, quantity: Option<int>)

  /** A stock input holds what was typed, or a number the panel put there. */
  datatype StockInput = Typed(text: string) | Shown(value: int)

  /** A `stalls` row as stored. */
  datatype StallRecord = StallRecord(location: Option<string>, status: string)

  /** A `stall_status_history` row written by the panel. */
  datatype StatusChange = StatusChange(stallId: string, status: string, changeSource: string)

  const AdminInventory: string := "admin_inventory"
  const InvalidStock: string := "Stock level must be a non-negative number."
  const StockFailed: string := "Failed to update stock level."
  const StockSaved: string := "Stock level updated successfully."
  const StatusFailed: string := "Failed to update stall status."
  const StatusSaved: string := "Stall status updated successfully."
  const LocationFailed: string := "Failed to update stall location."
  const LocationSaved: string := "Stall location updated successfully."

  // ---------------------------------------------------------------------------
  // getStatusBadgeColor
  // ---------------------------------------------------------------------------

  /** The status choices of the panel. */
  const StatusOptions: seq<string> := ["active", "inactive", "under maintenance"]

  /** The badge class of a stall status. */
  function StatusBadgeColor(status: string): (c: string)
    ensures status !in StatusOptions ==> c == "badge-neutral"
  {
    if status == "active" then "badge-success"
    else if status == "inactive" then "badge-error"
    else if status == "under maintenance" then "badge-warning"
    else "badge-neutral"
  }

  /** Each status choice has its own badge, and none of them the neutral one. */
  lemma StatusBadgesDistinct()
    ensures forall i, j :: 0 <= i < j < |StatusOptions| ==>
              StatusBadgeColor(StatusOptions[i]) != StatusBadgeColor(StatusOptions[j])
    ensures forall i :: 0 <= i < |StatusOptions| ==> StatusBadgeColor(StatusOptions[i]) != "badge-neutral"
  {
  }

  // ---------------------------------------------------------------------------
  // Lists of stalls
  // ---------------------------------------------------------------------------

  /** `stalls.find((s) => s.stall_id === stallId)`. */
  function FindStall(stalls: seq<Stall>, stallId: string): (r: Option<Stall>)
    ensures r.None? <==> forall k :: 0 <= k < |stalls| ==> stalls[k].stallId != stallId
    ensures r.Some? ==> r.value.stallId == stallId && r.value in stalls
    ensures r.Some? && DistinctIds(stalls) ==> forall k :: 0 <= k < |stalls| && stalls[k].stallId == stallId ==> stalls[k] == r.value
    decreases |stalls|
  {
    if stalls == [] then None
    else if stalls[0].stallId == stallId then Some(stalls[0])
    else
      assert forall k :: 1 <= k < |stalls| ==> stalls[k] == stalls[1..][k - 1];
      FindStall(stalls[1..], stallId)
  }

  predicate DistinctIds(stalls: seq<Stall>)
  {
    forall i, j :: 0 <= i < j < |stalls| ==> stalls[i].stallId != stalls[j].stallId
  }

  /** The stall ids, in order. */
  function StallIds(stalls: seq<Stall>): (ids: seq<string>)
    ensures |ids| == |stalls| && forall k :: 0 <= k < |stalls| ==> ids[k] == stalls[k].stallId
  {
    seq(|stalls|, k requires 0 <= k < |stalls| => stalls[k].stallId)
  }

  /** The `prev.map((s) => s.stall_id === stallId ? edit(s) : s)` of both stall edits. */
  function EditStalls(stalls: seq<Stall>, stallId: string, edit: Stall -> Stall): (r: seq<Stall>)
    ensures |r| == |stalls|
    ensures forall k :: 0 <= k < |stalls| ==> r[k] == (if stalls[k].stallId == stallId then edit(stalls[k]) else stalls[k])
  {
    seq(|stalls|, k requires 0 <= k < |stalls| => if stalls[k].stallId == stallId then edit(stalls[k]) else stalls[k])
  }

  /** The edit that gives every stall with that id the status `status`. */
  function SetStatus(stalls: seq<Stall>, stallId: string, status: string): (r: seq<Stall>)
    ensures |r| == |stalls|
    ensures forall k :: 0 <= k < |stalls| ==>
              r[k] == (if stalls[k].stallId == stallId then stalls[k].(status := status) else stalls[k])
  {
    EditStalls(stalls, stallId, (s: Stall) => s.(status := status))
  }

  /** The edit that gives every stall with that id the location `location`. */
  function SetLocation(stalls: seq<Stall>, stallId: string, location: Option<string>): (r: seq<Stall>)
    ensures |r| == |stalls|
    ensures forall k :: 0 <= k < |stalls| ==>
              r[k] == (if stalls[k].stallId == stallId then stalls[k].(location := location) else stalls[k])
  {
    EditStalls(stalls, stallId, (s: Stall) => s.(location := location))
  }

  /** With distinct ids, putting back the status found before a change restores the list. */
  lemma StatusRollbackRestores(stalls: seq<Stall>, stallId: string, status: string)
    requires DistinctIds(stalls)
    requires FindStall(stalls, stallId).Some?
    ensures SetStatus(SetStatus(stalls, stallId, status), stallId, FindStall(stalls, stallId).value.status) == stalls
  {
  }

  /** With distinct ids, putting back the location found before a change restores the list. */
  lemma LocationRollbackRestores(stalls: seq<Stall>, stallId: string, location: Option<string>)
    requires DistinctIds(stalls)
    requires FindStall(stalls, stallId).Some?
    ensures SetLocation(SetLocation(stalls, stallId, location), stallId, FindStall(stalls, stallId).value.location)
            == stalls
  {
  }

  // ---------------------------------------------------------------------------
  // loadStocks
  // ---------------------------------------------------------------------------

  /** `data?.find((s) => s.stall_id === stallId)`. */
  function FindStockRow(rows: seq<StockRow>, stallId: string): (r: Option<StockRow>)
    ensures r.None? <==> forall k :: 0 <= k < |rows| ==> rows[k].stallId != stallId
    ensures r.Some? ==> r.value.stallId == stallId && r.value in rows
    decreases |rows|
  {
    if rows == [] then None
    else if rows[0].stallId == stallId then Some(rows[0])
    else
      assert forall k :: 1 <= k < |rows| ==> rows[k] == rows[1..][k - 1];
      FindStockRow(rows[1..], stallId)
  }

  /** The entry a stall gets on load: its first row's id and quantity, or no id and 0 without a row. */
  function LoadedEntry(rows: seq<StockRow>, stallId: string): (e: StockEntry)
    ensures (forall k :: 0 <= k < |rows| ==> rows[k].stallId != stallId) ==> e == StockEntry(None, 0)
    ensures FindStockRow(rows, stallId).Some? ==>
              e == StockEntry(Some(FindStockRow(rows, stallId).value.stockUid),
                              Reports.Amount(FindStockRow(rows, stallId).value.quantity))
  {
    match FindStockRow(rows, stallId)
    case None => StockEntry(None, 0)
    case Some(row) => StockEntry(Some(row.stockUid), Reports.Amount(row.quantity))
  }

  // ---------------------------------------------------------------------------
  // The panel
  // ---------------------------------------------------------------------------

  /** Every listed stall has a stock entry. */
  predicate Covered(stalls: seq<Stall>, stocks: map<string, StockEntry>)
  {
    forall k :: 0 <= k < |stalls| ==> stalls[k].stallId in stocks
  }

  /** What `Number(input)` reads from a stock input (`None` when it is not finite). */
  function InputNumber(input: Option<StockInput>): (n: Option<int>)
    ensures input.Some? && input.value.Shown? ==> n == Some(input.value.value)
    ensures input.None? ==> n.None?
  {
    match input
    case None => None
    case Some(Typed(text)) => NumberOf(text)
    case Some(Shown(value)) => Some(value)
  }

  /** Wherever a typed stock level is read as a number, `Number` reads the same number. */
  lemma InputNumberAgreesWithNumber(text: string)
    requires InputNumber(Some(Typed(text))).Some?
    ensures ParseNumber(text) == Finite(InputNumber(Some(Typed(text))).value as real)
  {
    hide ParseNumber, NumberOf;
    ParseNumberAgreesWithNumberOf(text);
  }

  /** A cleared stock input reads as 0, so blurring it saves a stock level of 0. */
  lemma ClearedInputIsZero(text: string)
    requires Trim(text) == ""
    ensures InputNumber(Some(Typed(text))) == Some(0)
  {
    TrimIdempotent(text);
  }

  /** The state of the panel and of the tables it writes. */
  class StockPanel {
    var stalls: seq<Stall>
    var stocks: map<string, StockEntry>
    var stockInputs: map<string, StockInput>
    var locationInputs: map<string, string>
    var error: string
    var success: string
    /** `stall_stocks`, by `stallstock_id`. */
    var stockTable: map<string, StockRow>
    /** `stalls`, by `stall_id`. */
    var stallTable: map<string, StallRecord>
    /** `stall_status_history`, oldest first. */
    var statusHistory: seq<StatusChange>

    constructor(stalls: seq<Stall>, stockTable: map<string, StockRow>, stallTable: map<string, StallRecord>)
      ensures this.stalls == stalls && this.stocks == map[] && this.stockInputs == map[]
      ensures this.locationInputs == map[] && this.error == "" && this.success == ""
      ensures this.stockTable == stockTable && this.stallTable == stallTable && this.statusHistory == []
    {
      this.stalls := stalls;
      this.stocks := map[];
      this.stockInputs := map[];
      this.locationInputs := map[];
      this.error := "";
      this.success := "";
      this.stockTable := stockTable;
      this.stallTable := stallTable;
      this.statusHistory := [];
    }

    /**
     * `loadStalls` given the rows read (or the read's error message): the
     * list is replaced, every stock input starts empty and every location
     * input shows the stall's location ('' for none); with a repeated id the
     * later stall's location is the one shown.  A failed read only sets the
     * error.
     */
    method LoadStalls(read: Result<seq<Stall>>)
      modifies this`stalls, this`stockInputs, this`locationInputs, this`error
      ensures read.Failure? ==>
                stalls == old(stalls) && stockInputs == old(stockInputs) && locationInputs == old(locationInputs) &&
                error == MessageOr(read.error, "Failed to load stalls")
      ensures read.Ok? ==> stalls == read.value && error == ""
      ensures read.Ok? ==> stockInputs.Keys == locationInputs.Keys == IdsBefore(stalls, |stalls|)
      ensures read.Ok? ==> forall id :: id in stockInputs ==> stockInputs[id] == Typed("")
      ensures read.Ok? ==> forall k :: 0 <= k < |stalls| && LastWithId(stalls, k, |stalls|) ==>
                             locationInputs[stalls[k].stallId] == LocationText(stalls[k].location)
    {
      hide *;
      error := "";
      if read.Failure? {
        error := MessageOr(read.error, "Failed to load stalls");
        return;
      }
      stockInputs, locationInputs := InitialInputs(read.value);
      stalls := read.value;
    }

    /**
     * `loadStocks` given the rows read (or the read's error message): every
     * stall gets an entry and its input shows the quantity; a failed read
     * only sets the error.
     */
    method LoadStocks(read: Result<seq<StockRow>>)
      modifies this`stocks, this`stockInputs, this`error
      ensures old(stalls) == [] ==> stocks == old(stocks) && stockInputs == old(stockInputs) && error == old(error)
      ensures old(stalls) != [] && read.Failure? ==>
                stocks == old(stocks) && stockInputs == old(stockInputs) && error == MessageOr(read.error, "Failed to load stocks")
      ensures old(stalls) != [] && read.Ok? ==> error == ""
      ensures old(stalls) != [] && read.Ok? ==> stocks.Keys == stockInputs.Keys == IdsBefore(stalls, |stalls|)
      ensures old(stalls) != [] && read.Ok? ==> Covered(stalls, stocks)
      ensures old(stalls) != [] && read.Ok? ==>
                forall id :: id in stocks ==>
                  stocks[id] == LoadedEntry(read.value, id) && stockInputs[id] == Shown(stocks[id].quantity)
    {
      hide IdsBefore;
      if stalls == [] {
        return;
      }
      error := "";
      if read.Failure? {
        error := MessageOr(read.error, "Failed to load stocks");
        return;
      }
      var rows := read.value;
      var stocksMap: map<string, StockEntry> := map[];
      var inputsMap: map<string, StockInput> := map[];
      var i := 0;
      while i < |stalls|
        invariant 0 <= i <= |stalls|
        invariant stocksMap.Keys == inputsMap.Keys == IdsBefore(stalls, i)
        invariant forall id :: id in stocksMap ==>
                    stocksMap[id] == LoadedEntry(rows, id) && inputsMap[id] == Shown(stocksMap[id].quantity)
      {
        var id := stalls[i].stallId;
        var entry := LoadedEntry(rows, id);
        stocksMap := stocksMap[id := entry];
        inputsMap := inputsMap[id := Shown(entry.quantity)];
        assert IdsBefore(stalls, i + 1) == IdsBefore(stalls, i) + {id};
        i := i + 1;
      }
      stocks := stocksMap;
      stockInputs := inputsMap;
    }

    /**
     * `handleStockChange(stallId, value)` given `Number(value)` (`None` when
     * it is not finite): a negative or non-finite quantity only sets the
     * error; otherwise the quantity is shown at once and written, updating
     * the stall's `stall_stocks` row when it has one and inserting one (whose
     * new id `newUid` is then recorded) when it has none, and today's stock
     * level is saved with today's status kept.  When the write fails the
     * stall's quantity, row id and input go back to what they were.
     */
    method HandleStockChange(stallId: string, quantity: Option<int>, writeError: Option<string>, newUid: string,
                             history: StockStatusHistory, now: int, hostOffset: int, statusReadFails: bool,
                             statusWriteFails: bool)
      modifies this`stocks, this`stockInputs, this`stockTable, this`error, this`success, history
      ensures quantity.None? || quantity.value < 0 ==>
                error == InvalidStock && success == "" && stocks == old(stocks) && stockInputs == old(stockInputs) &&
                stockTable == old(stockTable) && history.rows == old(history.rows)
      ensures quantity.Some? && quantity.value >= 0 && writeError.Some? ==>
                error == MessageOr(writeError.value, StockFailed) && success == "" &&
                stocks == old(stocks)[stallId := StockEntry(PrevUid(old(stocks), stallId), PrevQuantity(old(stocks), stallId))] &&
                stockInputs == old(stockInputs)[stallId := Shown(PrevQuantity(old(stocks), stallId))] &&
                stockTable == old(stockTable) && history.rows == old(history.rows)
      ensures quantity.Some? && quantity.value >= 0 && writeError.None? ==>
                error == "" && success == StockSaved && stockInputs == old(stockInputs) &&
                stocks == old(stocks)[stallId := StockAfterWrite(old(stocks), stallId, quantity.value, newUid)] &&
                stockTable == StockTableAfterWrite(old(stockTable), old(stocks), stallId, quantity.value, newUid) &&
                history.rows == SavedLevel(old(history.rows), stallId, quantity.value, now, hostOffset,
                                           statusReadFails, statusWriteFails)
    {
      hide SetStatus, SetLocation, FindStall, FetchTodayStockStatus, TodayKey, BuildTodayRangePH, SavedLevel,
           StockAfterWrite, StockTableAfterWrite, UpdateQuantity, PrevLocation, PrevQuantity, PrevUid, StatusWritten,
           LocationWritten, KeptStatus, MessageOr, Trim, NormaliseRow;
      error := "";
      success := "";
      if quantity.None? || quantity.value < 0 {
        error := InvalidStock;
        return;
      }
      var q := quantity.value;
      var prevQuantity := PrevQuantity(stocks, stallId);
      var prevUid := PrevUid(stocks, stallId);
      ghost var stocks0, table0, rows0 := stocks, stockTable, history.rows;
      stocks := stocks[stallId := StockEntry(prevUid, q)];
      if writeError.Some? {
        stocks := stocks[stallId := StockEntry(prevUid, prevQuantity)];
        stockInputs := stockInputs[stallId := Shown(prevQuantity)];
        error := MessageOr(writeError.value, StockFailed);
        return;
      }
      if Truthy(prevUid) {
        stockTable := UpdateQuantity(stockTable, prevUid.value, q);
      } else {
        stockTable := stockTable[newUid := StockRow(newUid, stallId, Some(q))];
        stocks := stocks[stallId := StockEntry(Some(newUid), q)];
      }
      assert stocks == stocks0[stallId := StockAfterWrite(stocks0, stallId, q, newUid)];
      assert stockTable == StockTableAfterWrite(table0, stocks0, stallId, q, newUid);
      var existing := FetchTodayStockStatus(history.rows, stallId, now, hostOffset, statusReadFails);
      history.SaveTodayStockStatus(stallId, Some(q), KeptStatus(existing), now, hostOffset, statusWriteFails);
      assert history.rows == SavedLevel(rows0, stallId, q, now, hostOffset, statusReadFails, statusWriteFails);
      success := StockSaved;
    }

    /**
     * `handleStockInputBlur`: an input that reads as a finite non-negative
     * number is saved as in `HandleStockChange`; any other input is reset to
     * the stall's current quantity and nothing is written.
     */
    method HandleStockInputBlur(stallId: string, writeError: Option<string>, newUid: string,
                                history: StockStatusHistory, now: int, hostOffset: int, statusReadFails: bool,
                                statusWriteFails: bool)
      modifies this`stocks, this`stockInputs, this`stockTable, this`error, this`success, history
      ensures var n := InputNumber(if stallId in old(stockInputs) then Some(old(stockInputs)[stallId]) else None);
              (n.None? || n.value < 0) ==>
                stockInputs == old(stockInputs)[stallId := Shown(PrevQuantity(old(stocks), stallId))] &&
                stocks == old(stocks) && stockTable == old(stockTable) && history.rows == old(history.rows) &&
                error == old(error) && success == old(success)
      ensures var n := InputNumber(if stallId in old(stockInputs) then Some(old(stockInputs)[stallId]) else None);
              n.Some? && n.value >= 0 && writeError.Some? ==>
                error == MessageOr(writeError.value, StockFailed) && success == "" &&
                stocks == old(stocks)[stallId := StockEntry(PrevUid(old(stocks), stallId), PrevQuantity(old(stocks), stallId))] &&
                stockInputs == old(stockInputs)[stallId := Shown(PrevQuantity(old(stocks), stallId))] &&
                stockTable == old(stockTable) && history.rows == old(history.rows)
      ensures var n := InputNumber(if stallId in old(stockInputs) then Some(old(stockInputs)[stallId]) else None);
              n.Some? && n.value >= 0 && writeError.None? ==>
                error == "" && success == StockSaved && stockInputs == old(stockInputs) &&
                stocks == old(stocks)[stallId := StockAfterWrite(old(stocks), stallId, n.value, newUid)] &&
                stockTable == StockTableAfterWrite(old(stockTable), old(stocks), stallId, n.value, newUid) &&
                history.rows == SavedLevel(old(history.rows), stallId, n.value, now, hostOffset,
                                           statusReadFails, statusWriteFails)
    {
      var input := if stallId in stockInputs then Some(stockInputs[stallId]) else None;
      var n := InputNumber(input);
      if n.Some? && n.value >= 0 {
        HandleStockChange(stallId, n, writeError, newUid, history, now, hostOffset, statusReadFails, statusWriteFails);
      } else {
        stockInputs := stockInputs[stallId := Shown(PrevQuantity(stocks, stallId))];
      }
    }

    /** `handleStockInputChange`: the stall's input holds what was typed. */
    method HandleStockInputChange(stallId: string, value: string)
      modifies this`stockInputs
      ensures stockInputs == old(stockInputs)[stallId := Typed(value)]
    {
      stockInputs := stockInputs[stallId := Typed(value)];
    }

    /**
     * `handleStatusChange`: every stall with that id shows the new status at
     * once and the `stalls` row is written; on success a history row is
     * added unless that insert fails, which is not reported; when the write
     * fails the stall's status goes back to the one found before.
     */
    method HandleStatusChange(stallId: string, newStatus: string, writeError: Option<string>, historyInsertFails: bool)
      modifies this`stalls, this`stallTable, this`statusHistory, this`error, this`success
      ensures writeError.None? ==>
                stalls == SetStatus(old(stalls), stallId, newStatus) &&
                stallTable == StatusWritten(old(stallTable), stallId, newStatus) &&
                statusHistory == old(statusHistory) +
                                 (if historyInsertFails then [] else [StatusChange(stallId, newStatus, AdminInventory)]) &&
                error == "" && success == StatusSaved
      ensures writeError.Some? ==>
                stalls == (match FindStall(old(stalls), stallId)
                           case None => old(stalls)
                           case Some(prev) => SetStatus(SetStatus(old(stalls), stallId, newStatus), stallId, prev.status)) &&
                stallTable == old(stallTable) && statusHistory == old(statusHistory) &&
                error == MessageOr(writeError.value, StatusFailed) && success == ""
    {
      hide SetStatus, SetLocation, FindStall, FetchTodayStockStatus, TodayKey, BuildTodayRangePH, SavedLevel,
           StockAfterWrite, StockTableAfterWrite, UpdateQuantity, PrevLocation, PrevQuantity, PrevUid, StatusWritten,
           LocationWritten, KeptStatus, MessageOr, Trim, NormaliseRow;
      error := "";
      success := "";
      var prev := FindStall(stalls, stallId);
      var before := stalls;
      stalls := SetStatus(stalls, stallId, newStatus);
      if writeError.Some? {
        if prev.Some? {
          stalls := SetStatus(stalls, stallId, prev.value.status);
        } else {
          assert stalls == before;
        }
        error := MessageOr(writeError.value, StatusFailed);
        return;
      }
      stallTable := StatusWritten(stallTable, stallId, newStatus);
      if !historyInsertFails {
        statusHistory := statusHistory + [StatusChange(stallId, newStatus, AdminInventory)];
      }
      success := StatusSaved;
    }

    /**
     * `handleLocationChange`: the location is trimmed, shown at once and
     * stored, an empty one as `null`; when the write fails the stall's
     * location and its input go back to the location found before.
     */
    method HandleLocationChange(stallId: string, newLocation: string, writeError: Option<string>)
      modifies this`stalls, this`stallTable, this`locationInputs, this`error, this`success
      ensures writeError.None? ==>
                stalls == SetLocation(old(stalls), stallId, Some(Trim(newLocation))) &&
                stallTable == LocationWritten(old(stallTable), stallId, Trim(newLocation)) &&
                locationInputs == old(locationInputs) && error == "" && success == LocationSaved
      ensures writeError.Some? ==>
                var prev := PrevLocation(old(stalls), stallId);
                stalls == SetLocation(SetLocation(old(stalls), stallId, Some(Trim(newLocation))), stallId, prev) &&
                locationInputs == old(locationInputs)[stallId := if Truthy(prev) then prev.value else ""] &&
                stallTable == old(stallTable) && error == MessageOr(writeError.value, LocationFailed) && success == ""
    {
      hide SetStatus, SetLocation, FindStall, FetchTodayStockStatus, TodayKey, BuildTodayRangePH, SavedLevel,
           StockAfterWrite, StockTableAfterWrite, UpdateQuantity, PrevLocation, PrevQuantity, PrevUid, StatusWritten,
           LocationWritten, KeptStatus, MessageOr, Trim, NormaliseRow;
      error := "";
      success := "";
      var trimmed := Trim(newLocation);
      var prev := PrevLocation(stalls, stallId);
      stalls := SetLocation(stalls, stallId, Some(trimmed));
      if writeError.Some? {
        stalls := SetLocation(stalls, stallId, prev);
        locationInputs := locationInputs[stallId := if Truthy(prev) then prev.value else ""];
        error := MessageOr(writeError.value, LocationFailed);
        return;
      }
      stallTable := LocationWritten(stallTable, stallId, trimmed);
      success := LocationSaved;
    }

    /** `handleLocationInputChange`: the stall's location input holds what was typed. */
    method HandleLocationInputChange(stallId: string, value: string)
      modifies this`locationInputs
      ensures locationInputs == old(locationInputs)[stallId := value]
    {
      locationInputs := locationInputs[stallId := value];
    }

    /**
     * `handleLocationInputBlur`: the input's text (`''` when it has none) is
     * saved as in `HandleLocationChange`.
     */
    method HandleLocationInputBlur(stallId: string, writeError: Option<string>)
      modifies this`stalls, this`stallTable, this`locationInputs, this`error, this`success
      ensures var typed := LocationInput(old(locationInputs), stallId);
              writeError.None? ==>
                stalls == SetLocation(old(stalls), stallId, Some(Trim(typed))) &&
                stallTable == LocationWritten(old(stallTable), stallId, Trim(typed)) &&
                locationInputs == old(locationInputs) && error == "" && success == LocationSaved
      ensures var prev := PrevLocation(old(stalls), stallId);
              writeError.Some? ==>
                stalls == SetLocation(SetLocation(old(stalls), stallId, Some(Trim(LocationInput(old(locationInputs), stallId)))),
                                      stallId, prev) &&
                locationInputs == old(locationInputs)[stallId := if Truthy(prev) then prev.value else ""] &&
                stallTable == old(stallTable) && error == MessageOr(writeError.value, LocationFailed) && success == ""
    {
      HandleLocationChange(stallId, LocationInput(locationInputs, stallId), writeError);
    }
  }

  // ---------------------------------------------------------------------------
  // What the edits compute
  // ---------------------------------------------------------------------------

  /** `stall.location || ''`. */
  function LocationText(location: Option<string>): (t: string)
    ensures Truthy(location) ==> t == location.value
    ensures !Truthy(location) ==> t == ""
  {
    if Truthy(location) then location.value else ""
  }

  /** `locationInputs[stallId] || ''`. */
  function LocationInput(inputs: map<string, string>, stallId: string): (t: string)
    ensures stallId in inputs ==> t == inputs[stallId]
    ensures stallId !in inputs ==> t == ""
  {
    if stallId in inputs then inputs[stallId] else ""
  }

  /** No stall after `k` and before `n` has the id of stall `k`. */
  predicate LastWithId(stalls: seq<Stall>, k: int, n: int)
    requires 0 <= k < n <= |stalls|
  {
    forall l :: k < l < n ==> stalls[l].stallId != stalls[k].stallId
  }

  /** The ids of the first `n` stalls. */
  function IdsBefore(stalls: seq<Stall>, n: int): (ids: set<string>)
    requires 0 <= n <= |stalls|
    ensures forall k :: 0 <= k < n ==> stalls[k].stallId in ids
    ensures forall id :: id in ids ==> exists k :: 0 <= k < n && stalls[k].stallId == id
  {
    if n == 0 then {} else IdsBefore(stalls, n - 1) + {stalls[n - 1].stallId}
  }

  /** The `forEach` of `loadStalls` that fills the two input maps. */
  method InitialInputs(rows: seq<Stall>) returns (inputs: map<string, StockInput>, locations: map<string, string>)
    ensures inputs.Keys == locations.Keys == IdsBefore(rows, |rows|)
    ensures forall id :: id in inputs ==> inputs[id] == Typed("")
    ensures forall k :: 0 <= k < |rows| && LastWithId(rows, k, |rows|) ==>
                          locations[rows[k].stallId] == LocationText(rows[k].location)
  {
    hide LocationText, IdsBefore;
    inputs, locations := map[], map[];
    var i := 0;
    while i < |rows|
      invariant 0 <= i <= |rows|
      invariant inputs.Keys == locations.Keys == IdsBefore(rows, i)
      invariant forall id :: id in inputs ==> inputs[id] == Typed("")
      invariant forall k :: 0 <= k < i && LastWithId(rows, k, i) ==>
                  locations[rows[k].stallId] == LocationText(rows[k].location)
    {
      var id := rows[i].stallId;
      inputs := inputs[id := Typed("")];
      locations := locations[id := LocationText(rows[i].location)];
      assert IdsBefore(rows, i + 1) == IdsBefore(rows, i) + {id};
      i := i + 1;
    }
  }

  /** `stocks[stallId]?.quantity || 0`. */
  function PrevQuantity(stocks: map<string, StockEntry>, stallId: string): (q: int)
    ensures stallId in stocks ==> q == stocks[stallId].quantity
    ensures stallId !in stocks ==> q == 0
  {
    if stallId in stocks then stocks[stallId].quantity else 0
  }

  /** `stocks[stallId]?.stockUid`. */
  function PrevUid(stocks: map<string, StockEntry>, stallId: string): (u: Option<string>)
    ensures stallId in stocks ==> u == stocks[stallId].stockUid
    ensures stallId !in stocks ==> u == None
  {
    if stallId in stocks then stocks[stallId].stockUid else None
  }

  /** `stall?.location` of the first stall with that id. */
  function PrevLocation(stalls: seq<Stall>, stallId: string): (l: Option<string>)
    ensures FindStall(stalls, stallId).Some? ==> l == FindStall(stalls, stallId).value.location
    ensures FindStall(stalls, stallId).None? ==> l == None
  {
    match FindStall(stalls, stallId)
    case None => None
    case Some(s) => s.location
  }

  /** The stall's entry after a successful write: its row id, or the inserted row's, and the new quantity. */
  function StockAfterWrite(stocks: map<string, StockEntry>, stallId: string, q: int, newUid: string): (e: StockEntry)
    ensures e.quantity == q
    ensures Truthy(PrevUid(stocks, stallId)) ==> e.stockUid == PrevUid(stocks, stallId)
    ensures !Truthy(PrevUid(stocks, stallId)) ==> e.stockUid == Some(newUid)
  {
    var uid := PrevUid(stocks, stallId);
    if Truthy(uid) then StockEntry(uid, q) else StockEntry(Some(newUid), q)
  }

  /** `update({ quantity }).eq('stallstock_id', uid)`. */
  function UpdateQuantity(table: map<string, StockRow>, uid: string, q: int): (t: map<string, StockRow>)
    ensures t.Keys == table.Keys
    ensures uid in table ==> t[uid] == table[uid].(quantity := Some(q))
    ensures forall u :: u in table && u != uid ==> t[u] == table[u]
  {
    if uid in table then table[uid := table[uid].(quantity := Some(q))] else table
  }

  /** `stall_stocks` after a successful write: the stall's row updated, or a new row inserted. */
  function StockTableAfterWrite(table: map<string, StockRow>, stocks: map<string, StockEntry>, stallId: string, q: int,
                                newUid: string): (t: map<string, StockRow>)
    ensures Truthy(PrevUid(stocks, stallId)) ==> t == UpdateQuantity(table, PrevUid(stocks, stallId).value, q)
    ensures !Truthy(PrevUid(stocks, stallId)) ==> t == table[newUid := StockRow(newUid, stallId, Some(q))]
  {
    var uid := PrevUid(stocks, stallId);
    if Truthy(uid) then UpdateQuantity(table, uid.value, q) else table[newUid := StockRow(newUid, stallId, Some(q))]
  }

  /** `existingStatus?.stockStatus || 'not_sold_out'`. */
  function KeptStatus(existing: StockStatus): (s: string)
    ensures existing.stockStatus != "" ==> s == existing.stockStatus
    ensures existing.stockStatus == "" ==> s == NotSoldOut
  {
    if existing.stockStatus != "" then existing.stockStatus else NotSoldOut
  }

  /** `stock_status_history` after today's stock level is saved with the status read back. */
  function SavedLevel(rows: map<(string, string), StatusRow>, stallId: string, q: int, now: int, hostOffset: int,
                      readFails: bool, writeFails: bool): (r: map<(string, string), StatusRow>)
    ensures stallId == "" || writeFails ==> r == rows
    ensures stallId != "" && !writeFails ==>
              r == rows[TodayKey(stallId, now, hostOffset) :=
                          StatusRow(Some(q), KeptStatus(FetchTodayStockStatus(rows, stallId, now, hostOffset, readFails)))]
  {
    if stallId == "" || writeFails then rows
    else
      rows[TodayKey(stallId, now, hostOffset) :=
             StatusRow(Some(q), KeptStatus(FetchTodayStockStatus(rows, stallId, now, hostOffset, readFails)))]
  }

  /**
   * Recording a stock level keeps today's sold-out status: read back, today's
   * row has the new level and the status it had, 'not_sold_out' when it had
   * none or could not be read.
   */
  lemma SavedLevelKeepsStatus(rows: map<(string, string), StatusRow>, stallId: string, q: int, now: int,
                              hostOffset: int, readFails: bool)
    requires stallId != ""
    ensures var after := FetchTodayStockStatus(SavedLevel(rows, stallId, q, now, hostOffset, readFails, false),
                                               stallId, now, hostOffset, false);
            var key := TodayKey(stallId, now, hostOffset);
            after.stockLevel == Some(q) &&
            (!readFails && key in rows && rows[key].stockStatus != "" ==> after.stockStatus == rows[key].stockStatus) &&
            (readFails || key !in rows ==> after.stockStatus == NotSoldOut)
  {
    var status := KeptStatus(FetchTodayStockStatus(rows, stallId, now, hostOffset, readFails));
    SaveThenFetch(rows, stallId, Some(q), status, now, hostOffset);
  }

  /** `update({ status }).eq('stall_id', stallId)`. */
  function StatusWritten(table: map<string, StallRecord>, stallId: string, status: string): (t: map<string, StallRecord>)
    ensures t.Keys == table.Keys
    ensures stallId in table ==> t[stallId] == table[stallId].(status := status)
    ensures forall id :: id in table && id != stallId ==> t[id] == table[id]
  {
    if stallId in table then table[stallId := table[stallId].(status := status)] else table
  }

  /** `update({ location: trimmed || null }).eq('stall_id', stallId)`. */
  function LocationWritten(table: map<string, StallRecord>, stallId: string, trimmed: string): (t: map<string, StallRecord>)
    ensures t.Keys == table.Keys
    ensures stallId in table ==> (t[stallId].location.None? <==> trimmed == "")
    ensures stallId in table ==> t[stallId].status == table[stallId].status
    ensures stallId in table && trimmed != "" ==> t[stallId].location == Some(trimmed)
    ensures forall id :: id in table && id != stallId ==> t[id] == table[id]
  {
    if stallId in table then table[stallId := table[stallId].(location := if trimmed == "" then None else Some(trimmed))]
    else table
  }

  /** A stored location never has white space at either end. */
  lemma StoredLocationTrimmed(table: map<string, StallRecord>, stallId: string, newLocation: string)
    requires stallId in table
    ensures var l := LocationWritten(table, stallId, Trim(newLocation))[stallId].location;
            l.Some? ==> l.value != "" && !IsWhitespace(l.value[0]) && !IsWhitespace(l.value[|l.value| - 1])
  {
    hide IsWhitespace, TrimStart, TrimEnd;
  }

  /**
   * A stock edit on a covered panel keeps it covered, and a failed write on
   * a stall that had an entry leaves the stock map as it was.
   */
  lemma StockRollbackRestores(stocks: map<string, StockEntry>, stalls: seq<Stall>, stallId: string, q: int, newUid: string)
    requires Covered(stalls, stocks)
    ensures Covered(stalls, stocks[stallId := StockAfterWrite(stocks, stallId, q, newUid)])
    ensures stallId in stocks ==>
              stocks[stallId := StockEntry(PrevUid(stocks, stallId), PrevQuantity(stocks, stallId))] == stocks
  {
  }
}

=== FILE: dashboard.dfy ===
/**
 * The chart data of the admin dashboard (src/dashboard.jsx): stock per
 * stall, the best sellers, the time-based sales buckets and the sales and
 * expense totals.  A loader's rows are given as a sequence in the order the
 * query returned them; each `forEach` into an object is `Accumulate`, whose
 * result is `Grouped` of the rows' entries.
 */
module Dashboard {
  import opened Wrappers
  import opened Text
  import opened Sorting
  import opened JsObject
  import opened Grouping
  import opened StaffReportsToday
  import opened DateUtils
  import Reports

  /** The values `Number(x || 0)` is applied to, one per row. */
  function AmountsOf<R>(rows: seq<R>, amount: R -> Option<int>): (amounts: seq<Option<int>>)
    ensures |amounts| == |rows| && forall i :: 0 <= i < |rows| ==> amounts[i] == amount(rows[i])
  {
    seq(|rows|, i requires 0 <= i < |rows| => amount(rows[i]))
  }

  lemma AmountsOfPrefix<R>(rows: seq<R>, amount: R -> Option<int>)
    requires rows != []
    ensures AmountsOf(rows, amount) == AmountsOf(rows[..|rows| - 1], amount) + [amount(rows[|rows| - 1])]
  {
    assert AmountsOf(rows, amount)[..|rows| - 1] == AmountsOf(rows[..|rows| - 1], amount);
  }

  /**
   * When each row contributes `Number(x || 0)`, the sum of the entries is the
   * sum of the x with missing ones counted as 0.
   */
  lemma {:induction false} TotalOfAmounts<R>(rows: seq<R>, entry: R -> Entry, amount: R -> Option<int>)
    requires forall r :: entry(r).amount == Reports.Amount(amount(r))
    ensures Grouping.Total(EntriesOf(rows, entry)) == SumAmounts(AmountsOf(rows, amount))
    decreases |rows|
  {
    if rows != [] {
      var init := rows[..|rows| - 1];
      TotalOfAmounts(init, entry, amount);
      EntriesOfPrefix(rows, entry);
      AmountsOfPrefix(rows, amount);
      TotalAppend(EntriesOf(init, entry), entry(rows[|rows| - 1]));
    }
  }

  // ---------------------------------------------------------------------------
  // Stock per stall (loadStockByStall)
  // ---------------------------------------------------------------------------

  /** A `stall_stocks` row; `stalls.stall_name` is `""` when missing. */
  datatype StockRow = StockRow(stallId: string, stallName: string, quantity: Option<int>)

  /** What a stock row adds to its stall: its label and `Number(quantity || 0)`. */
  function StockEntry(row: StockRow): Entry
  {
    Entry(row.stallId, Reports.StallLabel(row.stallId, row.stallName), Reports.Amount(row.quantity), NullStamp)
  }

  function Quantity(row: StockRow): Option<int>
  {
    row.quantity
  }

  /** `Object.values(stallStock)`: `total_stock` is the tally's total. */
  function StockByStall(rows: seq<StockRow>): seq<Tally>
  {
    Grouped(EntriesOf(rows, StockEntry))
  }

  method LoadStockByStall(rows: seq<StockRow>) returns (stockByStall: seq<Tally>)
    ensures stockByStall == StockByStall(rows)
  {
    stockByStall := Accumulate(EntriesOf(rows, StockEntry));
  }

  /** A stall's entry: the label of its first row and the sum of its quantities. */
  ghost predicate StockSummaryOf(rows: seq<StockRow>, g: Tally)
  {
    var rs := RowsWithKey(rows, StockEntry, g.key);
    rs != [] && g.name == Reports.StallLabel(rs[0].stallId, rs[0].stallName) &&
    g.total == SumAmounts(AmountsOf(rs, Quantity))
  }

  /**
   * One entry per stall that has a stock row, holding the sum of that stall's
   * quantities (missing ones as 0) under the name of its first row; together
   * they account for every quantity.
   */
  lemma StockByStallSummary(rows: seq<StockRow>)
    ensures var gs := StockByStall(rows);
            (forall i, j :: 0 <= i < j < |gs| ==> gs[i].key != gs[j].key) &&
            (forall id :: RowsWithKey(rows, StockEntry, id) != [] <==> exists j :: 0 <= j < |gs| && gs[j].key == id)
    ensures var gs := StockByStall(rows);
            forall j :: 0 <= j < |gs| ==> StockSummaryOf(rows, gs[j])
    ensures GroupTotal(StockByStall(rows)) == SumAmounts(AmountsOf(rows, Quantity))
  {
    GroupedRows(rows, StockEntry);
    TotalOfAmounts(rows, StockEntry, Quantity);
    var gs := StockByStall(rows);
    forall j | 0 <= j < |gs| ensures StockSummaryOf(rows, gs[j]) {
      assert Summarises(rows, StockEntry, gs[j]);
      TotalOfAmounts(RowsWithKey(rows, StockEntry, gs[j].key), StockEntry, Quantity);
    }
  }

  /** With numeric stall ids the entries come out in ascending id order, whatever the row order. */
  lemma StockByStallNumericOrder(rows: seq<StockRow>)
    requires forall i :: 0 <= i < |rows| ==> IsArrayIndex(rows[i].stallId)
    ensures var gs := StockByStall(rows);
            forall i, j :: 0 <= i < j < |gs| ==> IndexValue(gs[i].key) <= IndexValue(gs[j].key)
  {
    var es := EntriesOf(rows, StockEntry);
    var keys := FirstSeen(es);
    forall i | 0 <= i < |keys| ensures IsArrayIndex(keys[i]) {
      assert keys[i] in KeysOf(es);
    }
    EnumerationOrderOfIndices(keys);
  }

  // ---------------------------------------------------------------------------
  // Best sellers (loadBestSellers)
  // ---------------------------------------------------------------------------

  /** A sales row of the best-sellers read; `menu_items.item_name` is `""` when missing. */
  datatype SellerRow = SellerRow(itemName: string, quantitySold: Option<int>)

  const UnknownItem: string := "Unknown Item"

  /** `sale.menu_items?.item_name || 'Unknown Item'`. */
  function ItemLabel(itemName: string): (s: string)
    ensures itemName != "" ==> s == itemName
    ensures itemName == "" ==> s == UnknownItem
  {
    if itemName != "" then itemName else UnknownItem
  }

  /** What a sale adds to its item: `Number(quantity_sold || 0)` units. */
  function SellerEntry(row: SellerRow): Entry
  {
    var name := ItemLabel(row.itemName);
    Entry(name, name, Reports.Amount(row.quantitySold), NullStamp)
  }

  function QuantitySold(row: SellerRow): Option<int>
  {
    row.quantitySold
  }

  /** `Object.values(itemSales)`: `units_sold` is the tally's total. */
  function ItemSales(rows: seq<SellerRow>): seq<Tally>
  {
    Grouped(EntriesOf(rows, SellerEntry))
  }

  /** `.sort((a, b) => b.units_sold - a.units_sold).slice(0, 4)`. */
  function BestSellers(items: seq<Tally>): (top: seq<Tally>)
  {
    var sorted := SortBy(items, Reports.NegatedTotal);
    sorted[..if |sorted| < 4 then |sorted| else 4]
  }

  method LoadBestSellers(rows: seq<SellerRow>) returns (top: seq<Tally>)
    ensures top == BestSellers(ItemSales(rows))
  {
    var items := Accumulate(EntriesOf(rows, SellerEntry));
    top := BestSellers(items);
  }

  /** An item's entry: named by its label and holding the sum of its units. */
  ghost predicate ItemSummaryOf(rows: seq<SellerRow>, g: Tally)
  {
    var rs := RowsWithKey(rows, SellerEntry, g.key);
    rs != [] && g.name == g.key && g.total == SumAmounts(AmountsOf(rs, QuantitySold))
  }

  /**
   * One entry per item label that some sale has ('Unknown Item' for a sale
   * without one), each holding the units of that label's sales.
   */
  lemma ItemSalesSummary(rows: seq<SellerRow>)
    ensures var gs := ItemSales(rows);
            (forall i, j :: 0 <= i < j < |gs| ==> gs[i].key != gs[j].key) &&
            (forall name :: RowsWithKey(rows, SellerEntry, name) != [] <==> exists j :: 0 <= j < |gs| && gs[j].key == name)
    ensures var gs := ItemSales(rows);
            forall j :: 0 <= j < |gs| ==> ItemSummaryOf(rows, gs[j])
    ensures GroupTotal(ItemSales(rows)) == SumAmounts(AmountsOf(rows, QuantitySold))
  {
    GroupedRows(rows, SellerEntry);
    TotalOfAmounts(rows, SellerEntry, QuantitySold);
    var gs := ItemSales(rows);
    forall j | 0 <= j < |gs| ensures ItemSummaryOf(rows, gs[j]) {
      assert Summarises(rows, SellerEntry, gs[j]);
      var rs := RowsWithKey(rows, SellerEntry, gs[j].key);
      RowsWithKeyOf(rows, SellerEntry, gs[j].key);
      assert rs[0] in rs;
      TotalOfAmounts(rs, SellerEntry, QuantitySold);
    }
  }

  /** Distinct keys, the shape every grouping has. */
  predicate DistinctKeys(gs: seq<Tally>)
  {
    forall i, j :: 0 <= i < j < |gs| ==> gs[i].key != gs[j].key
  }

  /** A rearrangement of groups with distinct keys has distinct keys. */
  lemma PermutationKeepsKeysDistinct(a: seq<Tally>, b: seq<Tally>)
    requires multiset(a) == multiset(b) && DistinctKeys(a)
    ensures DistinctKeys(b)
  {
    forall i, j | 0 <= i < j < |b| ensures b[i].key != b[j].key {
      if b[i].key == b[j].key {
        assert b[i] in multiset(a) && b[j] in multiset(a);
        var p :| 0 <= p < |a| && a[p] == b[i];
        var q :| 0 <= q < |a| && a[q] == b[j];
        assert p == q;
        TallyRepeatCounted(b, i, j);
        OnceInDistinctKeys(a, p);
      }
    }
  }

  /** Two equal groups at different places count twice. */
  lemma TallyRepeatCounted(b: seq<Tally>, i: int, j: int)
    requires 0 <= i < j < |b| && b[i] == b[j]
    ensures multiset(b)[b[i]] >= 2
  {
    assert b == b[..i] + [b[i]] + b[i + 1..j] + [b[j]] + b[j + 1..];
  }

  lemma OnceInDistinctKeys(a: seq<Tally>, p: int)
    requires DistinctKeys(a) && 0 <= p < |a|
    ensures multiset(a)[a[p]] == 1
  {
    var x := a[p];
    assert a == a[..p] + [x] + a[p + 1..];
    assert x !in a[..p] && x !in a[p + 1..] by {
      forall i | 0 <= i < |a| && i != p ensures a[i] != x {
        assert a[i].key != x.key;
      }
    }
    assert multiset(a[..p])[x] == 0 && multiset(a[p + 1..])[x] == 0;
  }

  /**
   * The best sellers are at most four of the items, largest first, and no
   * item left out sold more units than any item shown.
   */
  lemma BestSellersAreTop(items: seq<Tally>)
    requires DistinctKeys(items)
    ensures var top := BestSellers(items);
            |top| == (if |items| < 4 then |items| else 4) &&
            (forall i :: 0 <= i < |top| ==> top[i] in items) &&
            DistinctKeys(top) &&
            (forall i, j :: 0 <= i < j < |top| ==> top[i].total >= top[j].total)
    ensures var top := BestSellers(items);
            forall g, i :: g in items && g !in top && 0 <= i < |top| ==> g.total <= top[i].total
  {
    var sorted := SortBy(items, Reports.NegatedTotal);
    var top := BestSellers(items);
    assert top == sorted[..|top|];
    PermutationKeepsKeysDistinct(items, sorted);
    hide BestSellers, SortBy;
    PrefixOfSorted(items, sorted, |top|);
  }

  /** The first n of a descending rearrangement are the n largest, largest first. */
  lemma PrefixOfSorted(items: seq<Tally>, sorted: seq<Tally>, n: int)
    requires multiset(sorted) == multiset(items) && SortedBy(sorted, Reports.NegatedTotal)
    requires DistinctKeys(sorted) && 0 <= n <= |sorted|
    ensures var top := sorted[..n];
            (forall i :: 0 <= i < |top| ==> top[i] in items) &&
            DistinctKeys(top) &&
            (forall i, j :: 0 <= i < j < |top| ==> top[i].total >= top[j].total)
    ensures var top := sorted[..n];
            forall g, i :: g in items && g !in top && 0 <= i < |top| ==> g.total <= top[i].total
  {
    var top := sorted[..n];
    forall i | 0 <= i < |top| ensures top[i] in items {
      assert top[i] in multiset(sorted);
    }
    forall i, j | 0 <= i < j < |top| ensures top[i].total >= top[j].total {
      assert Reports.NegatedTotal(sorted[i]) <= Reports.NegatedTotal(sorted[j]);
    }
    assert forall q :: 0 <= q < n ==> sorted[q] in top;
    forall g, i | g in items && g !in top && 0 <= i < |top| ensures g.total <= top[i].total {
      assert g in multiset(sorted);
      var p :| 0 <= p < |sorted| && sorted[p] == g;
      assert Reports.NegatedTotal(sorted[i]) <= Reports.NegatedTotal(sorted[p]);
    }
  }

  // ---------------------------------------------------------------------------
  // Time-based sales (loadTimeBasedSales)
  // ---------------------------------------------------------------------------

  /** `groupBy`: 'day' or 'month'; `None` for a period without a grouping. */
  datatype GroupBy = ByDay | ByMonth

  /**
   * A sales row of the time-based read.  `saleDate` is `""` when null;
   * `parsed` is what `new Date(sale_date)` reads when the value does not
   * start like a date (`None` for an invalid date).
   */
  datatype TimeRow = TimeRow(saleDate: string, parsed: Option<int>, totalAmount: Option<int>)

  /** `const [year, month] = day.split('-'); \`${year}-${month}\``, a missing month being "undefined". */
  function MonthKeyOf(day: string): (k: string)
  {
    var parts := Split(day, '-');
    parts[0] + "-" + (if |parts| > 1 then parts[1] else "undefined")
  }

  /** The bucket of a sale: its date, its year and month, or "undefined" without a grouping. */
  function PeriodKey(groupBy: Option<GroupBy>, row: TimeRow): string
  {
    var day := ParseSaleDate(row.saleDate, row.parsed);
    match groupBy
    case Some(ByDay) => day
    case Some(ByMonth) => MonthKeyOf(day)
    case None => "undefined"
  }

  /** What a sale adds to its bucket: `period` is the key, `sales` the total, `transactions` the count. */
  function TimeEntry(groupBy: Option<GroupBy>): TimeRow -> Entry
  {
    row => var k := PeriodKey(groupBy, row); Entry(k, k, Reports.Amount(row.totalAmount), NullStamp)
  }

  function TotalAmount(row: TimeRow): Option<int>
  {
    row.totalAmount
  }

  /** Non-decreasing by period, in code-unit order. */
  predicate PeriodsAscending(s: seq<Tally>)
  {
    forall i, j :: 0 <= i < j < |s| ==> !LexLess(s[j].key, s[i].key)
  }

  /** A bucket whose period is not smaller than the last one's goes at the end. */
  lemma PeriodAfterLast(s: seq<Tally>, t: Tally)
    requires PeriodsAscending(s) && (s == [] || !LexLess(t.key, s[|s| - 1].key))
    ensures PeriodsAscending(s + [t])
  {
    hide LexLess;
    var r := s + [t];
    forall j | 0 <= j < |s| ensures !LexLess(t.key, s[j].key) {
      var last := s[|s| - 1];
      if LexLess(t.key, s[j].key) {
        LexLessTotal(s[j].key, last.key);
        if LexLess(s[j].key, last.key) {
          LexLessTransitive(t.key, s[j].key, last.key);
        }
      }
    }
    forall i, j | 0 <= i < j < |r| ensures !LexLess(r[j].key, r[i].key) {
      assert r[i] == s[i];
      if j < |s| {
        assert r[j] == s[j];
      }
    }
  }

  /** A bucket whose period is smaller than the last one's goes into the rest, before the last one. */
  lemma PeriodBeforeLast(s: seq<Tally>, t: Tally, r: seq<Tally>)
    requires s != [] && PeriodsAscending(s) && LexLess(t.key, s[|s| - 1].key)
    requires multiset(r) == multiset(s[..|s| - 1]) + multiset{t}
    requires forall y :: y in r ==> y in s[..|s| - 1] || y == t
    requires PeriodsAscending(r)
    ensures multiset(r + [s[|s| - 1]]) == multiset(s) + multiset{t}
    ensures forall y :: y in r + [s[|s| - 1]] ==> y in s || y == t
    ensures PeriodsAscending(r + [s[|s| - 1]])
  {
    hide LexLess;
    var init, last := s[..|s| - 1], s[|s| - 1];
    assert s == init + [last];
    LexLessAsymmetric(t.key, last.key);
    var r' := r + [last];
    forall i | 0 <= i < |r| ensures !LexLess(last.key, r[i].key) {
      assert r[i] in r;
      if r[i] != t {
        var k :| 0 <= k < |init| && init[k] == r[i];
        assert s[k] == r[i];
      }
    }
    forall i, j | 0 <= i < j < |r'| ensures !LexLess(r'[j].key, r'[i].key) {
      assert r'[i] == r[i];
      if j < |r| {
        assert r'[j] == r[j];
      }
    }
  }

  /** `t` placed after every bucket whose period is not larger. */
  function InsertPeriod(s: seq<Tally>, t: Tally): (r: seq<Tally>)
    requires PeriodsAscending(s)
    ensures multiset(r) == multiset(s) + multiset{t}
    ensures forall y :: y in r ==> y in s || y == t
    ensures PeriodsAscending(r)
  {
    if s == [] then [t]
    else if !LexLess(t.key, s[|s| - 1].key) then
      PeriodAfterLast(s, t);
      s + [t]
    else
      var r := InsertPeriod(s[..|s| - 1], t);
      PeriodBeforeLast(s, t, r);
      r + [s[|s| - 1]]
  }

  /** `.sort((a, b) => a.period.localeCompare(b.period))`, with code-unit order for the comparison. */
  function SortByPeriod(s: seq<Tally>): (r: seq<Tally>)
    ensures multiset(r) == multiset(s)
    ensures PeriodsAscending(r)
  {
    if s == [] then []
    else
      assert s == s[..|s| - 1] + [s[|s| - 1]];
      InsertPeriod(SortByPeriod(s[..|s| - 1]), s[|s| - 1])
  }

  /**
   * `Object.values(groupedData).sort(...)`: by period for a day or month
   * grouping; without one the comparator answers 0 and the stable sort keeps
   * the order.
   */
  function TimeBasedSales(groupBy: Option<GroupBy>, rows: seq<TimeRow>): seq<Tally>
  {
    var gs := Grouped(EntriesOf(rows, TimeEntry(groupBy)));
    if groupBy.Some? then SortByPeriod(gs) else gs
  }

  method LoadTimeBasedSales(groupBy: Option<GroupBy>, rows: seq<TimeRow>) returns (buckets: seq<Tally>)
    ensures buckets == TimeBasedSales(groupBy, rows)
  {
    var gs := Accumulate(EntriesOf(rows, TimeEntry(groupBy)));
    if groupBy.Some? {
      buckets := SortByPeriod(gs);
    } else {
      buckets := gs;
    }
  }

  /** A bucket: its `period` is its key, its `sales` the sum of its sales' amounts, its `transactions` their number. */
  ghost predicate BucketOf(groupBy: Option<GroupBy>, rows: seq<TimeRow>, b: Tally)
  {
    var rs := RowsWithKey(rows, TimeEntry(groupBy), b.key);
    rs != [] && b.name == b.key && b.total == SumAmounts(AmountsOf(rs, TotalAmount)) && b.count == |rs|
  }

  /** A group of the rows, as `Grouped` builds it, is a bucket. */
  lemma BucketOfSummary(groupBy: Option<GroupBy>, rows: seq<TimeRow>, g: Tally)
    requires Summarises(rows, TimeEntry(groupBy), g)
    ensures BucketOf(groupBy, rows, g)
  {
    var entry := TimeEntry(groupBy);
    var rs := RowsWithKey(rows, entry, g.key);
    RowsWithKeyOf(rows, entry, g.key);
    assert rs[0] in rs;
    TotalOfAmounts(rs, entry, TotalAmount);
  }

  /**
   * One bucket per period that some sale falls in, each summing that
   * period's sales and counting them; with a grouping the buckets are in
   * strictly ascending order of period.
   */
  lemma TimeBasedSalesBuckets(groupBy: Option<GroupBy>, rows: seq<TimeRow>)
    ensures var bs := TimeBasedSales(groupBy, rows);
            DistinctKeys(bs) &&
            (groupBy.Some? ==> forall i, j :: 0 <= i < j < |bs| ==> LexLess(bs[i].key, bs[j].key)) &&
            (forall k :: RowsWithKey(rows, TimeEntry(groupBy), k) != [] <==> exists j :: 0 <= j < |bs| && bs[j].key == k)
    ensures var bs := TimeBasedSales(groupBy, rows);
            forall j :: 0 <= j < |bs| ==> BucketOf(groupBy, rows, bs[j])
  {
    var entry := TimeEntry(groupBy);
    var gs := Grouped(EntriesOf(rows, entry));
    var bs := TimeBasedSales(groupBy, rows);
    GroupedRows(rows, entry);
    TimeBucketsPermute(groupBy, rows);
    PermutationKeepsKeysDistinct(gs, bs);
    if groupBy.Some? {
      StrictlyAscendingPeriods(bs);
    }
    hide *;
    BucketsOfGroups(groupBy, rows, gs, bs);
    forall k ensures RowsWithKey(rows, entry, k) != [] <==> exists j :: 0 <= j < |bs| && bs[j].key == k {
      SamePresence(gs, bs, k);
    }
  }

  /** Every rearrangement of the groups of the rows consists of buckets. */
  lemma BucketsOfGroups(groupBy: Option<GroupBy>, rows: seq<TimeRow>, gs: seq<Tally>, bs: seq<Tally>)
    requires multiset(gs) == multiset(bs)
    requires forall j :: 0 <= j < |gs| ==> Summarises(rows, TimeEntry(groupBy), gs[j])
    ensures forall j :: 0 <= j < |bs| ==> BucketOf(groupBy, rows, bs[j])
  {
    forall j | 0 <= j < |bs| ensures BucketOf(groupBy, rows, bs[j]) {
      assert bs[j] in multiset(gs);
      var p :| 0 <= p < |gs| && gs[p] == bs[j];
      BucketOfSummary(groupBy, rows, gs[p]);
    }
  }

  /** The buckets are the groups, reordered by period when there is a grouping. */
  lemma TimeBucketsPermute(groupBy: Option<GroupBy>, rows: seq<TimeRow>)
    ensures var bs := TimeBasedSales(groupBy, rows);
            multiset(bs) == multiset(Grouped(EntriesOf(rows, TimeEntry(groupBy)))) &&
            (groupBy.Some? ==> PeriodsAscending(bs))
  {
  }

  /** Two rearrangements of the same groups have the same keys. */
  lemma SamePresence(gs: seq<Tally>, bs: seq<Tally>, k: string)
    requires multiset(gs) == multiset(bs)
    ensures (exists j :: 0 <= j < |gs| && gs[j].key == k) <==> (exists j :: 0 <= j < |bs| && bs[j].key == k)
  {
    if exists j :: 0 <= j < |gs| && gs[j].key == k {
      var p :| 0 <= p < |gs| && gs[p].key == k;
      assert gs[p] in multiset(bs);
    }
    if exists j :: 0 <= j < |bs| && bs[j].key == k {
      var j :| 0 <= j < |bs| && bs[j].key == k;
      assert bs[j] in multiset(gs);
    }
  }

  /** Ascending periods without repeats are strictly ascending. */
  lemma StrictlyAscendingPeriods(bs: seq<Tally>)
    requires PeriodsAscending(bs) && DistinctKeys(bs)
    ensures forall i, j :: 0 <= i < j < |bs| ==> LexLess(bs[i].key, bs[j].key)
  {
    forall i, j | 0 <= i < j < |bs| ensures LexLess(bs[i].key, bs[j].key) {
      LexLessTotal(bs[i].key, bs[j].key);
    }
  }

  /** `timeBasedSales.find(item => item.period === key)`: its `sales`, or 0 when no bucket has that period. */
  function SalesFor(buckets: seq<Tally>, key: string): int
  {
    if buckets == [] then 0
    else if buckets[0].name == key then buckets[0].total
    else SalesFor(buckets[1..], key)
  }

  /** The point of a period is the sales of the first bucket of that period, 0 when no bucket has it. */
  lemma {:induction false} SalesForFinds(buckets: seq<Tally>, key: string)
    ensures (forall i :: 0 <= i < |buckets| ==> buckets[i].name != key) ==> SalesFor(buckets, key) == 0
    ensures forall i :: (0 <= i < |buckets| && buckets[i].name == key &&
                         forall j :: 0 <= j < i ==> buckets[j].name != key) ==> SalesFor(buckets, key) == buckets[i].total
  {
    if buckets != [] && buckets[0].name != key {
      var rest := buckets[1..];
      assert SalesFor(buckets, key) == SalesFor(rest, key);
      hide SalesFor;
      SalesForFinds(rest, key);
      forall i | 1 <= i < |buckets| ensures buckets[i] == rest[i - 1] {
      }
      forall i | 0 <= i < |buckets| && buckets[i].name == key && (forall j :: 0 <= j < i ==> buckets[j].name != key)
        ensures SalesFor(buckets, key) == buckets[i].total
      {
        assert i >= 1 && rest[i - 1] == buckets[i];
        assert forall j :: 0 <= j < i - 1 ==> rest[j].name != key by {
          forall j | 0 <= j < i - 1 ensures rest[j].name != key {
            assert rest[j] == buckets[j + 1];
          }
        }
      }
    }
  }

  /** The point the chart draws for a period is the sum of the amounts of that period's sales, 0 for none. */
  lemma SalesForRows(groupBy: Option<GroupBy>, rows: seq<TimeRow>, key: string)
    ensures SalesFor(TimeBasedSales(groupBy, rows), key) ==
            SumAmounts(AmountsOf(RowsWithKey(rows, TimeEntry(groupBy), key), TotalAmount))
  {
    var bs := TimeBasedSales(groupBy, rows);
    var rs := RowsWithKey(rows, TimeEntry(groupBy), key);
    TimeBasedSalesBuckets(groupBy, rows);
    SalesForFinds(bs, key);
    if rs == [] {
      assert AmountsOf(rs, TotalAmount) == [];
      forall i | 0 <= i < |bs| ensures bs[i].name != key {
        assert BucketOf(groupBy, rows, bs[i]);
      }
    } else {
      var j :| 0 <= j < |bs| && bs[j].key == key;
      assert BucketOf(groupBy, rows, bs[j]);
      forall i | 0 <= i < j ensures bs[i].name != key {
        assert BucketOf(groupBy, rows, bs[i]);
      }
    }
  }
}

=== FILE: dashboard_series.dfy ===
/**
 * The time-based view of the admin dashboard (src/dashboard.jsx): the date
 * window of the time-based query, the points of the line chart built from
 * the buckets, and the twelve-month bound of the sales-vs-expenses and
 * best-sellers reads.  "Today" is `getPHDate()`: host-local midnight of the
 * Manila date, moved with host-local `setDate` and `setMonth` and rendered
 * back in Manila time.
 */
module DashboardSeries {
  import opened Wrappers
  import opened Text
  import opened Calendar
  import opened DateString
  import opened DateUtils
  import opened QueryBuilder
  import opened Grouping
  import opened StaffReportsToday
  import opened Dashboard

  /** `timePeriod`; any other value has no window and no series. */
  datatype TimePeriod = Yesterday | Week | Month | OtherPeriod

  // ---------------------------------------------------------------------------
  // Months
  // ---------------------------------------------------------------------------

  /** The months since year 0 at a date's month. */
  function MonthIndex(d: Date): int
  {
    d.year * 12 + d.month - 1
  }

  /** The first day of the month `n` months before the month of `d`. */
  function MonthsBack(d: Date, n: int): (r: Date)
    ensures ValidDate(r) && r.day == 1
    ensures MonthIndex(r) == MonthIndex(d) - n
  {
    var mi := d.month - 1 - n;
    Date(d.year + mi / 12, mi % 12 + 1, 1)
  }

  /** `${date.getFullYear()}-${String(date.getMonth() + 1).padStart(2, '0')}`. */
  function YearMonthKey(d: Date): string
    requires 1 <= d.month <= 12
  {
    IntToString(d.year) + "-" + Digits(d.month, 2)
  }

  /** Distinct months of four-digit years have distinct keys. */
  lemma YearMonthKeyInjective(a: Date, b: Date)
    requires 1 <= a.month <= 12 && 1 <= b.month <= 12
    requires 1000 <= a.year <= 9999 && 1000 <= b.year <= 9999
    ensures YearMonthKey(a) == YearMonthKey(b) <==> a.year == b.year && a.month == b.month
  {
    assert Pow10(3) == 1000 && Pow10(4) == 10000;
    NatToStringDigits(a.year, 4);
    NatToStringDigits(b.year, 4);
    var ka, kb := YearMonthKey(a), YearMonthKey(b);
    if ka == kb {
      assert ka[..4] == Digits(a.year, 4) && kb[..4] == Digits(b.year, 4);
      assert ka[5..] == Digits(a.month, 2) && kb[5..] == Digits(b.month, 2);
      DigitsValueOfDigits(a.year, 4);
      DigitsValueOfDigits(b.year, 4);
      DigitsValueOfDigits(a.month, 2);
      DigitsValueOfDigits(b.month, 2);
    }
  }

  /**
   * A sale stored on date `d` falls in the day bucket `Format(d)` and, for a
   * four-digit year from 1000, in the month bucket the line chart looks up
   * for `d`'s month.
   */
  lemma BucketsOfSale(d: Date, parsed: Option<int>, amount: Option<int>)
    requires ValidDate(d) && 1000 <= d.year <= 9999
    ensures PeriodKey(Some(ByDay), TimeRow(Format(d), parsed, amount)) == Format(d)
    ensures PeriodKey(Some(ByMonth), TimeRow(Format(d), parsed, amount)) == YearMonthKey(d)
  {
    var s := Format(d);
    FormatPieces(d);
    assert StartsLikeDate(s) by {
      assert s[..4] == Digits(d.year, 4) && s[5..7] == Digits(d.month, 2) && s[8..10] == Digits(d.day, 2);
      assert forall i :: 0 <= i < 4 ==> s[i] == s[..4][i];
      assert forall i :: 5 <= i < 7 ==> s[i] == s[5..7][i - 5];
      assert forall i :: 8 <= i < 10 ==> s[i] == s[8..10][i - 8];
    }
    assert ParseSaleDate(s, parsed) == s;
    SplitFormat(d);
    NatToStringDigits(d.year, 4);
  }

  // ---------------------------------------------------------------------------
  // Moving today with setDate and setMonth
  // ---------------------------------------------------------------------------

  /** `setDate(1)` then `setMonth(getMonth() - n)`: the first of the month n months back. */
  lemma MonthsBackFromFirst(t: int, n: int, hostOffset: int)
    ensures var first := SetDate(t, 1, hostOffset);
            var date := SetMonth(first, LocalDate(first, hostOffset).month - 1 - n, hostOffset);
            LocalDate(date, hostOffset) == MonthsBack(LocalDate(t, hostOffset), n)
  {
    hide FromDayNumber, DayNumber, LocalDate, SetDate, SetMonth, GetPHDateString, GetPHDate, PHDateOf, Format, AddDays, HostShift;
    var c := LocalDate(t, hostOffset);
    var f := Date(c.year, c.month, 1);
    assert ValidDate(f);
    var first := SetDate(t, 1, hostOffset);
    SetDateLocal(t, 1, hostOffset);
    MakeDayOfValidDate(f);
    FromDayNumberOfDate(f);
    assert LocalDate(first, hostOffset) == f;
    var date := SetMonth(first, c.month - 1 - n, hostOffset);
    SetMonthLocal(first, c.month - 1 - n, hostOffset);
    var m := MonthsBack(c, n);
    assert MakeDay(c.year, c.month - 1 - n, 1) == DayNumber(m);
    FromDayNumberOfDate(m);
  }

  /** Today in Manila, `n` days back, rendered from host-local midnight: moved by the host shift. */
  lemma DaysBackKey(now: int, n: int, hostOffset: int)
    requires ConstructorSafe(PHDateOf(now))
    ensures GetPHDateString(GetPHDate(now, hostOffset) - n * MsPerDay) ==
            Format(AddDays(PHDateOf(now), HostShift(hostOffset) - n))
  {
    hide FromDayNumber, DayNumber, MakeDay, LocalDate, SetDate, SetMonth, GetPHDateString, GetPHDate, PHDateOf, Format, AddDays, HostShift;
    var d := PHDateOf(now);
    GetPHDateIsHostMidnight(now, hostOffset);
    assert GetPHDate(now, hostOffset) - n * MsPerDay == DayNumber(AddDays(d, -n)) * MsPerDay - hostOffset;
    HostMidnightString(AddDays(d, -n), hostOffset);
    AddDaysAdd(d, -n, HostShift(hostOffset));
    assert -n + HostShift(hostOffset) == HostShift(hostOffset) - n;
  }

  // ---------------------------------------------------------------------------
  // The line chart (timeBasedLine)
  // ---------------------------------------------------------------------------

  /**
   * The seven points of a day view ending at `end`: point k is the sales of
   * the Manila date of `end` moved back 6 - k days with `setDate`.
   */
  method DaySeries(buckets: seq<Tally>, end: int, hostOffset: int) returns (data: seq<int>)
    ensures |data| == 7
    ensures forall k :: 0 <= k < 7 ==> data[k] == SalesFor(buckets, GetPHDateString(end - (6 - k) * MsPerDay))
  {
    hide FromDayNumber, DayNumber, MakeDay, LocalDate, SetDate, SetMonth, GetPHDateString, GetPHDate, PHDateOf, Format, AddDays, HostShift;
    data := [];
    var i := 6;
    while i >= 0
      invariant -1 <= i <= 6 && |data| == 6 - i
      invariant forall k :: 0 <= k < |data| ==> data[k] == SalesFor(buckets, GetPHDateString(end - (6 - k) * MsPerDay))
    {
      var date := SetDate(end, LocalDate(end, hostOffset).day - i, hostOffset);
      SetDateBack(end, i, hostOffset);
      data := data + [SalesFor(buckets, GetPHDateString(date))];
      i := i - 1;
    }
  }

  /**
   * The twelve points of the month view from `base`: point k is the sales of
   * the month 11 - k months back, found by moving to the first of the month
   * before changing the month (see the findings for the code as written).
   */
  method MonthSeries(buckets: seq<Tally>, base: int, hostOffset: int) returns (data: seq<int>)
    ensures |data| == 12
    ensures forall k :: 0 <= k < 12 ==> data[k] == SalesFor(buckets, YearMonthKey(MonthsBack(LocalDate(base, hostOffset), 11 - k)))
  {
    hide FromDayNumber, DayNumber, MakeDay, LocalDate, SetDate, SetMonth, GetPHDateString, GetPHDate, PHDateOf, Format, AddDays, HostShift, MonthsBack, YearMonthKey, SalesFor;
    var first := SetDate(base, 1, hostOffset);
    var month := LocalDate(first, hostOffset).month;
    ghost var today := LocalDate(base, hostOffset);
    data := [];
    var i := 11;
    while i >= 0
      invariant -1 <= i <= 11 && |data| == 11 - i
      invariant forall k :: 0 <= k < |data| ==> data[k] == SalesFor(buckets, YearMonthKey(MonthsBack(today, 11 - k)))
    {
      var date := SetMonth(first, month - 1 - i, hostOffset);
      MonthsBackFromFirst(base, i, hostOffset);
      var d := LocalDate(date, hostOffset);
      assert d == MonthsBack(today, 11 - |data|);
      data := data + [SalesFor(buckets, YearMonthKey(d))];
      i := i - 1;
    }
  }

  /**
   * `timeBasedLine`'s data: the seven days ending yesterday or today, the
   * twelve months ending with the current one, or nothing for another period.
   */
  method TimeBasedLine(period: TimePeriod, buckets: seq<Tally>, now: int, hostOffset: int) returns (data: seq<int>)
    ensures period == Yesterday ==>
              (|data| == 7 &&
               forall k :: 0 <= k < 7 ==>
                 data[k] == SalesFor(buckets, GetPHDateString(GetPHDate(now, hostOffset) - (7 - k) * MsPerDay)))
    ensures period == Week ==>
              (|data| == 7 &&
               forall k :: 0 <= k < 7 ==>
                 data[k] == SalesFor(buckets, GetPHDateString(GetPHDate(now, hostOffset) - (6 - k) * MsPerDay)))
    ensures period == Month ==>
              (|data| == 12 &&
               forall k :: 0 <= k < 12 ==>
                 data[k] == SalesFor(buckets, YearMonthKey(MonthsBack(LocalDate(GetPHDate(now, hostOffset), hostOffset), 11 - k))))
    ensures period == OtherPeriod ==> data == []
  {
    hide FromDayNumber, DayNumber, MakeDay, LocalDate, SetDate, SetMonth, GetPHDateString, GetPHDate, PHDateOf, Format, AddDays, HostShift;
    var base := GetPHDate(now, hostOffset);
    match period
    case Yesterday =>
      var yesterday := SetDate(base, LocalDate(base, hostOffset).day - 1, hostOffset);
      SetDateBack(base, 1, hostOffset);
      data := DaySeries(buckets, yesterday, hostOffset);
    case Week =>
      data := DaySeries(buckets, base, hostOffset);
    case Month =>
      data := MonthSeries(buckets, base, hostOffset);
    case OtherPeriod =>
      data := [];
  }

  /**
   * The day views draw consecutive Manila days, moved by the host shift:
   * the week view today and the six days before, the yesterday view the
   * seven days before today.  The month view draws twelve consecutive months
   * ending with the current Manila month, each under its own key.
   */
  lemma TimeBasedLineDays(now: int, hostOffset: int, k: int)
    requires ConstructorSafe(PHDateOf(now)) && 0 <= k < 12
    ensures var d, s := PHDateOf(now), HostShift(hostOffset);
            var base := GetPHDate(now, hostOffset);
            k < 7 ==> GetPHDateString(base - (6 - k) * MsPerDay) == Format(AddDays(d, s - (6 - k))) &&
                      GetPHDateString(base - (7 - k) * MsPerDay) == Format(AddDays(d, s - (7 - k)))
    ensures var d := PHDateOf(now);
            var m := MonthsBack(LocalDate(GetPHDate(now, hostOffset), hostOffset), 11 - k);
            m == MonthsBack(d, 11 - k) && MonthIndex(m) == MonthIndex(d) - 11 + k
  {
    hide FromDayNumber, DayNumber, MakeDay, LocalDate, SetDate, SetMonth, GetPHDateString, GetPHDate, PHDateOf, Format, AddDays, HostShift;
    GetPHDateIsHostMidnight(now, hostOffset);
    if k < 7 {
      DaysBackKey(now, 6 - k, hostOffset);
      DaysBackKey(now, 7 - k, hostOffset);
    }
  }

  // ---------------------------------------------------------------------------
  // The window of the time-based query (loadTimeBasedSales)
  // ---------------------------------------------------------------------------

  /** The bounds and grouping `loadTimeBasedSales` computes. */
  datatype Window = Window(startDate: string, endDate: string, groupBy: Option<GroupBy>)

  /**
   * The window of a period.  For the month view the start is the first of
   * the month eleven months back, found by moving to the first of the month
   * before changing the month (see the findings for the code as written).
   * Another period leaves both dates undefined, which `getPHDateString`
   * replaces by the current instant.
   */
  function TimeWindow(period: TimePeriod, now: int, hostOffset: int): (w: Window)
    ensures w.groupBy.None? <==> period == OtherPeriod
    ensures w.groupBy == Some(ByMonth) <==> period == Month
    ensures period == OtherPeriod ==> w.startDate == w.endDate
    ensures period == Week || period == Month ==> w.endDate == GetPHDateString(GetPHDate(now, hostOffset))
  {
    var base := GetPHDate(now, hostOffset);
    match period
    case Yesterday =>
      var yesterday := SetDate(base, LocalDate(base, hostOffset).day - 1, hostOffset);
      var start := SetDate(yesterday, LocalDate(yesterday, hostOffset).day - 6, hostOffset);
      Window(GetPHDateString(start), GetPHDateString(yesterday), Some(ByDay))
    case Week =>
      var start := SetDate(base, LocalDate(base, hostOffset).day - 6, hostOffset);
      Window(GetPHDateString(start), GetPHDateString(base), Some(ByDay))
    case Month =>
      var first := SetDate(base, 1, hostOffset);
      var start := SetMonth(first, LocalDate(first, hostOffset).month - 1 - 11, hostOffset);
      Window(GetPHDateString(start), GetPHDateString(base), Some(ByMonth))
    case OtherPeriod =>
      Window(GetPHDateString(now), GetPHDateString(now), None)
  }

  /** The filters of the time-based query: the window on `sale_date`, then the stall unless it is 'all'. */
  function TimeQuery(w: Window, selectedStall: string): (q: Query)
    ensures |q| == (if selectedStall == "all" then 2 else 3)
    ensures q[0] == Gte("sale_date", w.startDate) && q[1] == Lte("sale_date", w.endDate)
    ensures selectedStall != "all" ==> q[2] == Eq("stall_id", selectedStall)
  {
    [Gte("sale_date", w.startDate), Lte("sale_date", w.endDate)] +
    (if selectedStall != "all" then [Eq("stall_id", selectedStall)] else [])
  }

  /** The month window's start is local midnight of the first of the month eleven months back. */
  lemma MonthWindowStart(now: int, hostOffset: int)
    requires ConstructorSafe(PHDateOf(now))
    ensures var base := GetPHDate(now, hostOffset);
            var first := SetDate(base, 1, hostOffset);
            var start := SetMonth(first, LocalDate(first, hostOffset).month - 1 - 11, hostOffset);
            start == DayNumber(MonthsBack(PHDateOf(now), 11)) * MsPerDay - hostOffset
  {
    hide FromDayNumber, DayNumber, MakeDay, LocalDate, SetDate, SetMonth, GetPHDateString, GetPHDate, PHDateOf, Format, AddDays, HostShift;
    var base := GetPHDate(now, hostOffset);
    var first := SetDate(base, 1, hostOffset);
    var start := SetMonth(first, LocalDate(first, hostOffset).month - 1 - 11, hostOffset);
    GetPHDateIsHostMidnight(now, hostOffset);
    MonthsBackFromFirst(base, 11, hostOffset);
    SetDateLocal(base, 1, hostOffset);
    SetMonthLocal(first, LocalDate(first, hostOffset).month - 1 - 11, hostOffset);
    LocalDateOfOwnMidnight(DayNumber(PHDateOf(now)), hostOffset);
    MidnightOfLocalDate(start, hostOffset);
  }

  /** The yesterday window: the seven days ending the day before today. */
  lemma YesterdayWindow(now: int, hostOffset: int)
    requires ConstructorSafe(PHDateOf(now))
    ensures var d, s := PHDateOf(now), HostShift(hostOffset);
            TimeWindow(Yesterday, now, hostOffset) ==
              Window(Format(AddDays(d, s - 7)), Format(AddDays(d, s - 1)), Some(ByDay))
  {
    hide FromDayNumber, DayNumber, MakeDay, LocalDate, SetDate, SetMonth, GetPHDateString, GetPHDate, PHDateOf, Format, AddDays, HostShift;
    var base := GetPHDate(now, hostOffset);
    var yesterday := SetDate(base, LocalDate(base, hostOffset).day - 1, hostOffset);
    var start := SetDate(yesterday, LocalDate(yesterday, hostOffset).day - 6, hostOffset);
    assert TimeWindow(Yesterday, now, hostOffset) == Window(GetPHDateString(start), GetPHDateString(yesterday), Some(ByDay));
    SetDateBack(base, 1, hostOffset);
    SetDateBack(yesterday, 6, hostOffset);
    assert start == base - 7 * MsPerDay;
    DaysBackKey(now, 1, hostOffset);
    DaysBackKey(now, 7, hostOffset);
  }

  /** The week window: today and the six days before. */
  lemma WeekWindow(now: int, hostOffset: int)
    requires ConstructorSafe(PHDateOf(now))
    ensures var d, s := PHDateOf(now), HostShift(hostOffset);
            TimeWindow(Week, now, hostOffset) ==
              Window(Format(AddDays(d, s - 6)), Format(AddDays(d, s)), Some(ByDay))
  {
    hide FromDayNumber, DayNumber, MakeDay, LocalDate, SetDate, SetMonth, GetPHDateString, GetPHDate, PHDateOf, Format, AddDays, HostShift;
    var base := GetPHDate(now, hostOffset);
    var start := SetDate(base, LocalDate(base, hostOffset).day - 6, hostOffset);
    assert TimeWindow(Week, now, hostOffset) == Window(GetPHDateString(start), GetPHDateString(base), Some(ByDay));
    SetDateBack(base, 6, hostOffset);
    DaysBackKey(now, 6, hostOffset);
    DaysBackKey(now, 0, hostOffset);
    assert base - 0 * MsPerDay == base;
  }

  /** The month window: from the first of the month eleven months back to today. */
  lemma MonthWindow(now: int, hostOffset: int)
    requires ConstructorSafe(PHDateOf(now))
    ensures var d, s := PHDateOf(now), HostShift(hostOffset);
            TimeWindow(Month, now, hostOffset) ==
              Window(Format(AddDays(MonthsBack(d, 11), s)), Format(AddDays(d, s)), Some(ByMonth))
  {
    hide FromDayNumber, DayNumber, MakeDay, LocalDate, SetDate, SetMonth, GetPHDateString, GetPHDate, PHDateOf, Format, AddDays, HostShift;
    var base := GetPHDate(now, hostOffset);
    var first := SetDate(base, 1, hostOffset);
    var start := SetMonth(first, LocalDate(first, hostOffset).month - 1 - 11, hostOffset);
    assert TimeWindow(Month, now, hostOffset) == Window(GetPHDateString(start), GetPHDateString(base), Some(ByMonth));
    MonthWindowStart(now, hostOffset);
    HostMidnightString(MonthsBack(PHDateOf(now), 11), hostOffset);
    DaysBackKey(now, 0, hostOffset);
    assert base - 0 * MsPerDay == base;
  }

  /**
   * Each window covers exactly the Manila days its series draws, moved by
   * the host shift; without a period both bounds are today in Manila.
   */
  lemma TimeWindowDates(period: TimePeriod, now: int, hostOffset: int)
    requires ConstructorSafe(PHDateOf(now))
    ensures var d, s := PHDateOf(now), HostShift(hostOffset);
            TimeWindow(period, now, hostOffset) ==
              match period
              case Yesterday => Window(Format(AddDays(d, s - 7)), Format(AddDays(d, s - 1)), Some(ByDay))
              case Week => Window(Format(AddDays(d, s - 6)), Format(AddDays(d, s)), Some(ByDay))
              case Month => Window(Format(AddDays(MonthsBack(d, 11), s)), Format(AddDays(d, s)), Some(ByMonth))
              case OtherPeriod => Window(Format(d), Format(d), None)
  {
    match period
    case Yesterday => YesterdayWindow(now, hostOffset);
    case Week => WeekWindow(now, hostOffset);
    case Month => MonthWindow(now, hostOffset);
    case OtherPeriod =>
  }

  /** The corrected month view never repeats a key: its twelve months are distinct. */
  lemma MonthKeysDistinct(c: Date, a: int, b: int)
    requires ValidDate(c) && 1001 <= c.year <= 9999
    requires 0 <= a < b <= 11
    ensures YearMonthKey(MonthsBack(c, a)) != YearMonthKey(MonthsBack(c, b))
  {
    var p, q := MonthsBack(c, a), MonthsBack(c, b);
    assert MonthIndex(p) != MonthIndex(q);
    assert p.year >= c.year - 1 && q.year >= c.year - 1 by {
      assert (c.month - 1 - a) / 12 >= -1 && (c.month - 1 - b) / 12 >= -1;
    }
    assert p.year <= c.year && q.year <= c.year;
    YearMonthKeyInjective(p, q);
  }

  // ---------------------------------------------------------------------------
  // The month view as written
  // ---------------------------------------------------------------------------

  /** The local date of point `11 - i` of the month view as written: `setMonth(getMonth() - i)` on today. */
  function AsWrittenSeriesMonth(base: int, i: int, hostOffset: int): Date
  {
    var c := LocalDate(base, hostOffset);
    LocalDate(SetMonth(base, c.month - 1 - i, hostOffset), hostOffset)
  }

  /** The local date of the month window's start as written: `setMonth(getMonth() - 11)`, then `setDate(1)`. */
  function AsWrittenMonthWindowStart(base: int, hostOffset: int): Date
  {
    var c := LocalDate(base, hostOffset);
    var moved := SetMonth(base, c.month - 1 - 11, hostOffset);
    LocalDate(SetDate(moved, 1, hostOffset), hostOffset)
  }

  /** `setMonth(getMonth() - i)` on host-local midnight of a day: the day `MakeDay` names in that month. */
  lemma AsWrittenSeriesMonthOf(today: Date, i: int, hostOffset: int)
    requires ValidDate(today)
    ensures AsWrittenSeriesMonth(DayNumber(today) * MsPerDay - hostOffset, i, hostOffset) ==
            FromDayNumber(MakeDay(today.year, today.month - 1 - i, today.day))
  {
    hide FromDayNumber, DayNumber, MakeDay, LocalDate, SetMonth, DaysInMonth;
    var base := DayNumber(today) * MsPerDay - hostOffset;
    LocalDateOfOwnMidnight(DayNumber(today), hostOffset);
    FromDayNumberOfDate(today);
    SetMonthLocal(base, today.month - 1 - i, hostOffset);
  }

  /** "31 February" is the day in March that many days past the end of February. */
  lemma FebruaryOverflow(y: int)
    ensures var k := 31 - DaysInMonth(y, 2);
            (k == 2 || k == 3) && MakeDay(y, 1, 31) == DayNumber(Date(y, 3, k))
  {
    var k := 31 - DaysInMonth(y, 2);
    hide DaysBeforeYear, DaysBeforeMonth;
    NextMonthStart(y, 2);
    SameMonthDistance(Date(y, 3, 1), Date(y, 3, k));
  }

  /** "31 April" is 1 May. */
  lemma AprilOverflow(y: int)
    ensures MakeDay(y + 1, -9, 31) == DayNumber(Date(y, 5, 1))
    ensures MakeDay(y, 4, 1) == DayNumber(Date(y, 5, 1))
  {
    hide DaysBeforeYear, DaysBeforeMonth;
    NextMonthStart(y, 4);
  }

  /**
   * On 31 March, one month back lands on 2 or 3 March: the last two points
   * of the month view both carry that March's key and February is never
   * drawn, where the corrected view has two distinct keys.
   */
  lemma AsWrittenSeriesRepeatsMarch(today: Date, hostOffset: int)
    requires ValidDate(today) && today.month == 3 && today.day == 31
    ensures var base := DayNumber(today) * MsPerDay - hostOffset;
            var last, previous := AsWrittenSeriesMonth(base, 0, hostOffset), AsWrittenSeriesMonth(base, 1, hostOffset);
            last == today && previous.year == today.year && previous.month == 3 &&
            YearMonthKey(previous) == YearMonthKey(last)
    ensures 1001 <= today.year <= 9999 ==> YearMonthKey(MonthsBack(today, 1)) != YearMonthKey(MonthsBack(today, 0))
  {
    var y := today.year;
    var k := 31 - DaysInMonth(y, 2);
    FebruaryOverflow(y);
    var previous := Date(y, 3, k);
    assert ValidDate(previous);
    assert MakeDay(y, 2, 31) == DayNumber(today) by {
      MakeDayOfValidDate(today);
    }
    hide FromDayNumber, DayNumber, MakeDay, LocalDate, SetMonth, DaysInMonth, AsWrittenSeriesMonth, IntToString, Digits,
         MonthsBack, IsLeapYear;
    AsWrittenSeriesMonthOf(today, 0, hostOffset);
    AsWrittenSeriesMonthOf(today, 1, hostOffset);
    FromDayNumberOfDate(today);
    FromDayNumberOfDate(previous);
    assert YearMonthKey(previous) == YearMonthKey(today);
    if 1001 <= y <= 9999 {
      MonthKeysDistinct(today, 0, 1);
    }
  }

  /** The month window's start as written, from host-local midnight of a day: two `MakeDay` steps. */
  lemma AsWrittenWindowStartOf(today: Date, hostOffset: int)
    requires ValidDate(today)
    ensures var moved := FromDayNumber(MakeDay(today.year, today.month - 12, today.day));
            AsWrittenMonthWindowStart(DayNumber(today) * MsPerDay - hostOffset, hostOffset) ==
              FromDayNumber(MakeDay(moved.year, moved.month - 1, 1))
  {
    hide FromDayNumber, DayNumber, MakeDay, LocalDate, SetMonth, SetDate, DaysInMonth;
    var base := DayNumber(today) * MsPerDay - hostOffset;
    LocalDateOfOwnMidnight(DayNumber(today), hostOffset);
    FromDayNumberOfDate(today);
    var moved := SetMonth(base, today.month - 12, hostOffset);
    SetMonthLocal(base, today.month - 12, hostOffset);
    SetDateLocal(moved, 1, hostOffset);
  }

  /**
   * On 31 March the month window as written starts on 1 May of the year
   * before, so April, the first month the series should draw, is not read.
   */
  lemma AsWrittenWindowSkipsApril(today: Date, hostOffset: int)
    requires ValidDate(today) && today.month == 3 && today.day == 31
    ensures var base := DayNumber(today) * MsPerDay - hostOffset;
            AsWrittenMonthWindowStart(base, hostOffset) == Date(today.year - 1, 5, 1)
    ensures MonthsBack(today, 11) == Date(today.year - 1, 4, 1)
  {
    var may := Date(today.year - 1, 5, 1);
    assert ValidDate(may);
    assert MonthsBack(today, 11) == Date(today.year - 1, 4, 1) by {
      assert (today.month - 1 - 11) / 12 == -1 && (today.month - 1 - 11) % 12 == 3;
    }
    hide FromDayNumber, DayNumber, MakeDay, LocalDate, SetMonth, SetDate, DaysInMonth, AsWrittenMonthWindowStart,
         MonthsBack, ValidDate;
    AprilOverflow(today.year - 1);
    AsWrittenWindowStartOf(today, hostOffset);
    FromDayNumberOfDate(may);
    assert FromDayNumber(MakeDay(today.year, today.month - 12, today.day)) == may;
  }

  /** The first of the next month is the first of this month plus its length. */
  lemma NextMonthStart(y: int, m: int)
    requires 1 <= m < 12
    ensures DayNumber(Date(y, m + 1, 1)) == DayNumber(Date(y, m, 1)) + DaysInMonth(y, m)
  {
    DaysBeforeNextMonth(y, m);
  }

  // ---------------------------------------------------------------------------
  // Twelve months back (loadSalesVsExpense, loadBestSellers)
  // ---------------------------------------------------------------------------

  /** `getPHDateString` of today moved with `setMonth(getMonth() - 12)`. */
  function TwelveMonthsAgo(now: int, hostOffset: int): string
  {
    var base := GetPHDate(now, hostOffset);
    GetPHDateString(SetMonth(base, LocalDate(base, hostOffset).month - 1 - 12, hostOffset))
  }

  /** The sales and expense reads: every row dated on or after the bound. */
  function SalesVsExpenseQueries(now: int, hostOffset: int): (q: (Query, Query))
    ensures q.0 == [Gte("sale_date", TwelveMonthsAgo(now, hostOffset))]
    ensures q.1 == [Gte("date", TwelveMonthsAgo(now, hostOffset))]
  {
    var bound := TwelveMonthsAgo(now, hostOffset);
    ([Gte("sale_date", bound)], [Gte("date", bound)])
  }

  /** The best-sellers read: sales dated on or after the same bound. */
  function BestSellersQuery(now: int, hostOffset: int): (q: Query)
    ensures q == SalesVsExpenseQueries(now, hostOffset).0
  {
    [Gte("sale_date", TwelveMonthsAgo(now, hostOffset))]
  }

  /**
   * The sales and expense totals, missing amounts as 0; a failed read leaves
   * the card as it was (`None`).
   */
  function SalesVsExpense(sales: Result<seq<Option<int>>>, expenses: Result<seq<Option<int>>>): (r: Option<(int, int)>)
    ensures r.Some? <==> sales.Ok? && expenses.Ok?
    ensures r.Some? ==> r.value.0 == SumAmounts(sales.value) && r.value.1 == SumAmounts(expenses.value)
  {
    if sales.Failure? || expenses.Failure? then None
    else Some((SumAmounts(sales.value), SumAmounts(expenses.value)))
  }

  /**
   * On hosts from just east of UTC-16 to UTC+8 the bound is the same day a
   * year earlier in Manila; from 29 February it rolls over to 1 March.
   */
  lemma TwelveMonthsAgoDate(now: int, hostOffset: int)
    requires ConstructorSafe(PHDateOf(now))
    requires -16 * MsPerHour < hostOffset <= PHOffset
    ensures var d := PHDateOf(now);
            (d.month == 2 && d.day == 29 ==> TwelveMonthsAgo(now, hostOffset) == Format(Date(d.year - 1, 3, 1))) &&
            (!(d.month == 2 && d.day == 29) ==>
               (ValidDate(Date(d.year - 1, d.month, d.day)) &&
                TwelveMonthsAgo(now, hostOffset) == Format(Date(d.year - 1, d.month, d.day))))
  {
    hide FromDayNumber, DayNumber, MakeDay, LocalDate, SetDate, SetMonth, GetPHDateString, GetPHDate, PHDateOf, Format, AddDays, HostShift;
    var d := PHDateOf(now);
    var base := GetPHDate(now, hostOffset);
    assert TwelveMonthsAgo(now, hostOffset) == GetPHDateString(SetMonth(base, LocalDate(base, hostOffset).month - 1 - 12, hostOffset));
    GetPHDateIsHostMidnight(now, hostOffset);
    var e := YearBefore(d);
    var date := SetMonth(base, d.month - 1 - 12, hostOffset);
    SetMonthLocal(base, d.month - 1 - 12, hostOffset);
    LocalDateOfOwnMidnight(DayNumber(d), hostOffset);
    MidnightOfLocalDate(date, hostOffset);
    FromDayNumberOfDate(e);
    HostMidnightString(e, hostOffset);
    AddDaysZero(e);
  }

  /** The day `MakeDay` names for the same month and day a year earlier. */
  function YearBefore(d: Date): (e: Date)
    requires ValidDate(d)
    ensures ValidDate(e)
    ensures DayNumber(e) == MakeDay(d.year, d.month - 1 - 12, d.day)
    ensures d.month == 2 && d.day == 29 ==> e == Date(d.year - 1, 3, 1)
    ensures !(d.month == 2 && d.day == 29) ==> e == Date(d.year - 1, d.month, d.day)
  {
    assert (d.month - 13) / 12 == -1 && (d.month - 13) % 12 == d.month - 1;
    if d.month == 2 && d.day == 29 then
      assert (d.year - 1) % 4 != 0;
      DaysBeforeNextMonth(d.year - 1, 2);
      Date(d.year - 1, 3, 1)
    else
      var e := Date(d.year - 1, d.month, d.day);
      assert d.month != 2 ==> DaysInMonth(d.year - 1, d.month) == DaysInMonth(d.year, d.month);
      SameMonthDistance(Date(d.year - 1, d.month, 1), e);
      e
  }
}

=== FILE: dashboard_staff.dfy ===
/**
 * The stall-status card of the admin dashboard and the staff cards
 * (src/dashboard.jsx): today's stock status merged into the list of stalls,
 * the staff statistics, and the sold-out toggle that saves today's status.
 */
module DashboardStaff {
  import opened Wrappers
  import opened StaffReportsToday

  const SoldOut: string := "sold_out"

  // ---------------------------------------------------------------------------
  // loadStallsStatus
  // ---------------------------------------------------------------------------

  /** A `stalls` row as read for the card. */
  datatype StallInfo = StallInfo(stallId: string, stallName: string, location: string, status: string)

  /** A stall with today's stock status attached. */
  datatype StallStatus = StallStatus(stall: StallInfo, stock: StockStatus)

  /** A `stock_status_history` row of today: its stall and its values. */
  type TodayRow = (string, StatusRow)

  /**
   * The lookup built from today's rows: each row, normalised, under its
   * stall id, a later row for the same stall replacing an earlier one.
   */
  function StatusLookup(rows: seq<TodayRow>): map<string, StockStatus>
  {
    if rows == [] then map[]
    else
      var last := rows[|rows| - 1];
      StatusLookup(rows[..|rows| - 1])[last.0 := NormaliseRow(last.1)]
  }

  /** The `forEach` that fills the lookup object. */
  method BuildStatusLookup(rows: seq<TodayRow>) returns (lookup: map<string, StockStatus>)
    ensures lookup == StatusLookup(rows)
  {
    lookup := map[];
    var i := 0;
    while i < |rows|
      invariant 0 <= i <= |rows|
      invariant lookup == StatusLookup(rows[..i])
    {
      assert rows[..i + 1][..i] == rows[..i];
      lookup := lookup[rows[i].0 := NormaliseRow(rows[i].1)];
      i := i + 1;
    }
    assert rows[..i] == rows;
  }

  /** The index of the last row for `id`, or -1 when no row names it. */
  function LastRowOf(rows: seq<TodayRow>, id: string): (j: int)
    ensures -1 <= j < |rows|
    ensures j >= 0 ==> rows[j].0 == id
    ensures forall l :: j < l < |rows| ==> rows[l].0 != id
    decreases |rows|
  {
    if rows == [] then -1
    else if rows[|rows| - 1].0 == id then |rows| - 1
    else LastRowOf(rows[..|rows| - 1], id)
  }

  /**
   * A stall is in the lookup exactly when some row names it, and then it
   * holds the normalised values of the last such row.
   */
  lemma {:induction false} StatusLookupLastRow(rows: seq<TodayRow>, id: string)
    ensures id in StatusLookup(rows) <==> LastRowOf(rows, id) >= 0
    ensures id in StatusLookup(rows) ==> StatusLookup(rows)[id] == NormaliseRow(rows[LastRowOf(rows, id)].1)
    decreases |rows|
  {
    if rows != [] {
      var n := |rows| - 1;
      var init := rows[..n];
      assert StatusLookup(rows) == StatusLookup(init)[rows[n].0 := NormaliseRow(rows[n].1)];
      if rows[n].0 != id {
        StatusLookupLastRow(init, id);
        assert LastRowOf(rows, id) == LastRowOf(init, id);
        if LastRowOf(init, id) >= 0 {
          assert init[LastRowOf(init, id)] == rows[LastRowOf(init, id)];
        }
      }
    }
  }

  /** Each stall with the lookup's status, or 'not_sold_out' and no level when it has no row today. */
  function MergeStatus(stalls: seq<StallInfo>, lookup: map<string, StockStatus>): (merged: seq<StallStatus>)
    ensures |merged| == |stalls|
    ensures forall i :: 0 <= i < |stalls| ==> merged[i].stall == stalls[i]
    ensures forall i :: 0 <= i < |stalls| ==>
              merged[i].stock == (if stalls[i].stallId in lookup then lookup[stalls[i].stallId] else DefaultStockStatus)
  {
    seq(|stalls|, i requires 0 <= i < |stalls| =>
      StallStatus(stalls[i], if stalls[i].stallId in lookup then lookup[stalls[i].stallId] else DefaultStockStatus))
  }

  /**
   * `loadStallsStatus`: a failed read of the stalls or of today's rows
   * leaves the card as it was (`None`); no stalls gives an empty list
   * without reading the rows; otherwise every stall in order with today's
   * status.
   */
  function LoadStallsStatus(stalls: Result<seq<StallInfo>>, todayRows: Result<seq<TodayRow>>): (r: Option<seq<StallStatus>>)
    ensures stalls.Failure? ==> r.None?
    ensures stalls.Ok? && stalls.value == [] ==> r == Some([])
    ensures stalls.Ok? && stalls.value != [] ==>
              (r.Some? <==> todayRows.Ok?) &&
              (r.Some? ==> r.value == MergeStatus(stalls.value, StatusLookup(todayRows.value)))
  {
    match stalls
    case Failure(_) => None
    case Ok(list) =>
      if list == [] then Some([])
      else
        match todayRows
        case Failure(_) => None
        case Ok(rows) => Some(MergeStatus(list, StatusLookup(rows)))
  }

  /**
   * When the rows read are today's rows of the table and include the row of
   * stall `stallId` if it has one, the status the card merges in for that
   * stall is what `fetchTodayStockStatus` returns for it.
   */
  lemma LookupAgreesWithFetch(table: map<(string, string), StatusRow>, rows: seq<TodayRow>, stallId: string,
                              now: int, hostOffset: int)
    requires forall j :: 0 <= j < |rows| ==>
               TodayKey(rows[j].0, now, hostOffset) in table && table[TodayKey(rows[j].0, now, hostOffset)] == rows[j].1
    requires TodayKey(stallId, now, hostOffset) in table ==> LastRowOf(rows, stallId) >= 0
    requires stallId != ""
    ensures var lookup := StatusLookup(rows);
            (if stallId in lookup then lookup[stallId] else DefaultStockStatus)
              == FetchTodayStockStatus(table, stallId, now, hostOffset, false)
  {
    hide BuildTodayRangePH, TodayKey, FetchTodayStockStatus, StatusLookup, LastRowOf, NormaliseRow;
    StatusLookupLastRow(rows, stallId);
  }

  // ---------------------------------------------------------------------------
  // Staff statistics and the sold-out toggle
  // ---------------------------------------------------------------------------

  /** `staffStatistics`. */
  datatype StaffStatistics = StaffStatistics(totalSales: int, stockDistributed: int, stockStatus: string)

  const InitialStatistics: StaffStatistics := StaffStatistics(0, 0, NotSoldOut)

  /**
   * `loadStaffStatistics`: nothing without a profile; otherwise the three
   * reads, each of which handles its own failure, replace the card.
   */
  function LoadStaffStatistics(current: StaffStatistics, profile: Option<Profile>, stockRead: Result<Option<int>>,
                               salesRead: Result<seq<Option<int>>>, table: map<(string, string), StatusRow>,
                               now: int, hostOffset: int, statusReadFails: bool): (r: StaffStatistics)
    ensures profile.None? ==> r == current
    ensures profile.Some? ==>
              r.totalSales == TodaySalesTotal(profile, salesRead) &&
              r.stockDistributed == CurrentStallStock(profile, stockRead) &&
              r.stockStatus == FetchTodayStockStatus(table, profile.value.stallId, now, hostOffset, statusReadFails).stockStatus
  {
    if profile.None? then current
    else
      var p := profile.value;
      var status := FetchTodayStockStatus(table, p.stallId, now, hostOffset, statusReadFails);
      StaffStatistics(TodaySalesTotal(profile, salesRead), CurrentStallStock(profile, stockRead),
                      if status.stockStatus != "" then status.stockStatus else NotSoldOut)
  }

  /** The status the toggle saves: 'sold_out' becomes 'not_sold_out', anything else 'sold_out'. */
  function NextStatus(status: string): (next: string)
    ensures next == SoldOut <==> status != SoldOut
    ensures next == NotSoldOut <==> status == SoldOut
  {
    if status == SoldOut then NotSoldOut else SoldOut
  }

  /** Toggling twice from either saved status comes back to it. */
  lemma NextStatusTwice(status: string)
    requires status == SoldOut || status == NotSoldOut
    ensures NextStatus(NextStatus(status)) == status
  {
  }

  /**
   * `handleToggleStockStatus`: nothing without a profile; otherwise today's
   * row for the stall is saved with the shown stock and the next status, and
   * the card shows the next status.  The save reports no failure to its
   * caller, so the card changes even when the write is lost.
   */
  method ToggleStockStatus(stats: StaffStatistics, profile: Option<Profile>, history: StockStatusHistory,
                           now: int, hostOffset: int, writeFails: bool) returns (next: StaffStatistics)
    modifies history
    ensures profile.None? ==> next == stats && history.rows == old(history.rows)
    ensures profile.Some? ==> next == stats.(stockStatus := NextStatus(stats.stockStatus))
    ensures profile.Some? && profile.value.stallId != "" && !writeFails ==>
              history.rows == old(history.rows)[TodayKey(profile.value.stallId, now, hostOffset) :=
                                                  StatusRow(Some(stats.stockDistributed), next.stockStatus)]
    ensures profile.Some? && (profile.value.stallId == "" || writeFails) ==> history.rows == old(history.rows)
  {
    if profile.None? {
      return stats;
    }
    var status := NextStatus(stats.stockStatus);
    history.SaveTodayStockStatus(profile.value.stallId, Some(stats.stockDistributed), status, now, hostOffset, writeFails);
    next := stats.(stockStatus := status);
  }

  /**
   * After a toggle whose save went through, loading the statistics again
   * shows the status the card already shows.
   */
  lemma ToggleThenLoad(rows: map<(string, string), StatusRow>, stats: StaffStatistics, profile: Profile,
                       stockRead: Result<Option<int>>, salesRead: Result<seq<Option<int>>>, now: int, hostOffset: int)
    requires profile.stallId != ""
    ensures var next := stats.(stockStatus := NextStatus(stats.stockStatus));
            var saved := rows[TodayKey(profile.stallId, now, hostOffset) := StatusRow(Some(stats.stockDistributed), next.stockStatus)];
            LoadStaffStatistics(next, Some(profile), stockRead, salesRead, saved, now, hostOffset, false).stockStatus
              == next.stockStatus
  {
    SaveThenFetch(rows, profile.stallId, Some(stats.stockDistributed), NextStatus(stats.stockStatus), now, hostOffset);
  }
}

=== FILE: date_filter_utils.dfy ===
/**
 * Date filter utilities (src/utils/dateFilterUtils.js): the preset ranges of
 * the date pickers, range validation, the conversion of a calendar date into
 * the UTC instants that bound a host-local day, and the translation of a
 * range into query predicates.
 *
 * Two readings of the presets are modelled.  `PresetDates`/`PresetRange` say
 * what a preset denotes for the Manila date `today`; `GetPresetDateRange`
 * follows the code, which starts from `getPHDate()` (host-local midnight) and
 * renders every bound in Manila time.  `GetPresetDateRangeShift` relates the
 * two: every bound is moved by `HostShift(hostOffset)` days, which is zero on
 * hosts from just east of UTC-16 to UTC+8 and minus one further east.
 */
module DateFilterUtils {
  import opened Wrappers
  import opened Text
  import opened Calendar
  import opened DateString
  import opened DateUtils
  import opened QueryBuilder

  const Today: string := "today"
  const Yesterday: string := "yesterday"
  const Last7Days: string := "last_7_days"
  const Last30Days: string := "last_30_days"
  const ThisMonth: string := "this_month"
  const LastMonth: string := "last_month"
  const Custom: string := "custom"

  /** The presets other than `custom`, in declaration order. */
  const RangePresets: seq<string> := [Today, Yesterday, Last7Days, Last30Days, ThisMonth, LastMonth]

  /** A `{startDate, endDate}` pair of `YYYY-MM-DD` strings; `""` means no bound. */
  datatype Range = Range(startDate: string, endDate: string)

  // ---------------------------------------------------------------------------
  // What the presets denote
  // ---------------------------------------------------------------------------

  /** First and last calendar day of a preset's range when Manila's date is `today`. */
  function PresetDates(preset: string, today: Date): (r: Option<(Date, Date)>)
    requires ValidDate(today)
    ensures r.Some? <==> preset in RangePresets
    ensures r.Some? ==> ValidDate(r.value.0) && ValidDate(r.value.1)
  {
    var first := Date(today.year, today.month, 1);
    if preset == Today then Some((today, today))
    else if preset == Yesterday then Some((AddDays(today, -1), AddDays(today, -1)))
    else if preset == Last7Days then Some((AddDays(today, -6), today))
    else if preset == Last30Days then Some((AddDays(today, -29), today))
    else if preset == ThisMonth then Some((first, today))
    else if preset == LastMonth then Some((PrevMonthStart(today), PrevDay(first)))
    else None
  }

  /** Renders a pair of dates as a range; no pair is the empty range. */
  function RangeOf(dates: Option<(Date, Date)>): (r: Range)
    requires dates.Some? ==> ValidDate(dates.value.0) && ValidDate(dates.value.1)
    ensures dates.None? <==> r == Range("", "")
  {
    match dates
    case None => Range("", "")
    case Some((a, b)) =>
      assert |Format(a)| > 0;
      Range(Format(a), Format(b))
  }

  /** The range `getPresetDateRange(preset)` is meant to return when Manila's date is `today`. */
  function PresetRange(preset: string, today: Date): (r: Range)
    requires ValidDate(today)
    ensures preset !in RangePresets <==> r == Range("", "")
  {
    RangeOf(PresetDates(preset, today))
  }

  /** Both days of a pair moved by `k` days. */
  function ShiftDates(dates: Option<(Date, Date)>, k: int): (r: Option<(Date, Date)>)
    requires dates.Some? ==> ValidDate(dates.value.0) && ValidDate(dates.value.1)
    ensures r.Some? <==> dates.Some?
    ensures r.Some? ==> ValidDate(r.value.0) && ValidDate(r.value.1)
    ensures r.Some? ==> DayNumber(r.value.0) == DayNumber(dates.value.0) + k
    ensures r.Some? ==> DayNumber(r.value.1) == DayNumber(dates.value.1) + k
  {
    match dates
    case None => None
    case Some((a, b)) => Some((AddDays(a, k), AddDays(b, k)))
  }

  lemma ShiftDatesZero(dates: Option<(Date, Date)>)
    requires dates.Some? ==> ValidDate(dates.value.0) && ValidDate(dates.value.1)
    ensures ShiftDates(dates, 0) == dates
  {
    if dates.Some? {
      AddDaysZero(dates.value.0);
      AddDaysZero(dates.value.1);
    }
  }

  /** 'today' and 'yesterday' are single days; 'yesterday' crosses month and year ends. */
  lemma PresetSingleDays(today: Date)
    requires ValidDate(today)
    ensures PresetDates(Today, today) == Some((today, today))
    ensures PresetDates(Yesterday, today) == Some((PrevDay(today), PrevDay(today)))
    ensures today.month == 1 && today.day == 1 ==> PrevDay(today) == Date(today.year - 1, 12, 31)
  {
    AddDaysMinusOne(today);
  }

  /** 'last_7_days' and 'last_30_days' end today and span exactly 7 and 30 inclusive days. */
  lemma PresetSpans(today: Date)
    requires ValidDate(today)
    ensures PresetDates(Last7Days, today).value.1 == today
    ensures DayNumber(today) - DayNumber(PresetDates(Last7Days, today).value.0) + 1 == 7
    ensures PresetDates(Last30Days, today).value.1 == today
    ensures DayNumber(today) - DayNumber(PresetDates(Last30Days, today).value.0) + 1 == 30
  {
  }

  /** 'this_month' runs from the first of the current month to today. */
  lemma PresetThisMonth(today: Date)
    requires ValidDate(today)
    ensures PresetDates(ThisMonth, today).value.0 == Date(today.year, today.month, 1)
    ensures PresetDates(ThisMonth, today).value.1 == today
    ensures DayNumber(today) - DayNumber(PresetDates(ThisMonth, today).value.0) == today.day - 1
  {
  }

  /**
   * 'last_month' is the whole previous month: from its first to its last day,
   * which is the day before the first of the current month.
   */
  lemma PresetLastMonth(today: Date)
    requires ValidDate(today)
    ensures var (a, b) := PresetDates(LastMonth, today).value;
            a.day == 1 && b.year == a.year && b.month == a.month &&
            b.day == DaysInMonth(a.year, a.month) &&
            DayNumber(b) + 1 == DayNumber(Date(today.year, today.month, 1))
    ensures today.month == 1 ==>
              PresetDates(LastMonth, today) == Some((Date(today.year - 1, 12, 1), Date(today.year - 1, 12, 31)))
    ensures today.month == 3 ==>
              PresetDates(LastMonth, today).value.1 == Date(today.year, 2, if IsLeapYear(today.year) then 29 else 28)
  {
    var first := Date(today.year, today.month, 1);
    PrevDayCount(first);
  }

  /** Every preset range is ordered and ends no later than today. */
  lemma PresetOrdered(preset: string, today: Date)
    requires ValidDate(today) && preset in RangePresets
    ensures var (a, b) := PresetDates(preset, today).value;
            DayNumber(a) <= DayNumber(b) <= DayNumber(today)
  {
    var first := Date(today.year, today.month, 1);
    if preset == LastMonth {
      PrevDayCount(first);
      PresetLastMonth(today);
    }
  }

  // ---------------------------------------------------------------------------
  // getPresetDateRange as written
  // ---------------------------------------------------------------------------

  /**
   * `getPresetDateRange(preset)` at instant `now` on a host whose UTC offset
   * is `hostOffset`: `now` becomes `getPHDate()`, the host-local midnight of
   * the Manila date; each bound is that Date moved with host-local `setDate`
   * or rebuilt with the host-local constructor, then rendered in Manila time.
   */
  function GetPresetDateRange(preset: string, now: int, hostOffset: int): (r: Range)
  {
    var phNow := GetPHDate(now, hostOffset);
    var today := GetPHDateString(phNow);
    var c := LocalDate(phNow, hostOffset);
    if preset == Today then Range(today, today)
    else if preset == Yesterday then
      var yesterday := GetPHDateString(SetDate(phNow, c.day - 1, hostOffset));
      Range(yesterday, yesterday)
    else if preset == Last7Days then
      Range(GetPHDateString(SetDate(phNow, c.day - 6, hostOffset)), today)
    else if preset == Last30Days then
      Range(GetPHDateString(SetDate(phNow, c.day - 29, hostOffset)), today)
    else if preset == ThisMonth then
      Range(GetPHDateString(NewLocalDate(c.year, c.month - 1, 1, hostOffset)), today)
    else if preset == LastMonth then
      Range(GetPHDateString(NewLocalDate(c.year, c.month - 2, 1, hostOffset)),
            GetPHDateString(NewLocalDate(c.year, c.month - 1, 0, hostOffset)))
    else Range("", "")
  }

  /** `getPHDateString(getPHDate())`: today in Manila, moved by the host shift. */
  lemma TodayString(now: int, hostOffset: int)
    requires ConstructorSafe(PHDateOf(now))
    ensures GetPHDateString(GetPHDate(now, hostOffset)) == Format(AddDays(PHDateOf(now), HostShift(hostOffset)))
  {
    hide FromDayNumber, DayNumber, PHDateOf, Format, AddDays, GetPHDateString, GetPHDate, LocalDate;
    GetPHDateIsHostMidnight(now, hostOffset);
    HostMidnightString(PHDateOf(now), hostOffset);
  }

  /** A bound built with `setDate(getDate() - n)` names the day n days back, moved by the host shift. */
  lemma DaysBackString(now: int, n: int, hostOffset: int)
    requires ConstructorSafe(PHDateOf(now))
    ensures var phNow := GetPHDate(now, hostOffset);
            GetPHDateString(SetDate(phNow, LocalDate(phNow, hostOffset).day - n, hostOffset))
            == Format(AddDays(AddDays(PHDateOf(now), -n), HostShift(hostOffset)))
  {
    hide FromDayNumber, DayNumber, PHDateOf, Format, AddDays, GetPHDateString, GetPHDate, LocalDate, SetDate;
    GetPHDateDaysAgoIsShift(now, n, hostOffset);
    AddDaysAdd(PHDateOf(now), -n, HostShift(hostOffset));
    assert -n + HostShift(hostOffset) == HostShift(hostOffset) - n;
  }

  /** A bound built with the host-local constructor names the day it denotes, moved by the host shift. */
  lemma ConstructedString(d: Date, year: int, monthIndex: int, day: int, hostOffset: int)
    requires ValidDate(d) && !(0 <= year <= 99)
    requires MakeDay(year, monthIndex, day) == DayNumber(d)
    ensures GetPHDateString(NewLocalDate(year, monthIndex, day, hostOffset)) == Format(AddDays(d, HostShift(hostOffset)))
  {
    hide FromDayNumber, DayNumber, PHDateOf, Format, AddDays, GetPHDateString, MakeDay;
    assert NewLocalDate(year, monthIndex, day, hostOffset) == DayNumber(d) * MsPerDay - hostOffset;
    HostMidnightString(d, hostOffset);
  }

  /**
   * As written, every bound of every preset is the intended day moved by
   * `HostShift(hostOffset)` days.
   */
  lemma GetPresetDateRangeShift(preset: string, now: int, hostOffset: int)
    requires ConstructorSafe(PHDateOf(now))
    ensures GetPresetDateRange(preset, now, hostOffset) ==
            RangeOf(ShiftDates(PresetDates(preset, PHDateOf(now)), HostShift(hostOffset)))
  {
    var d := PHDateOf(now);
    var k := HostShift(hostOffset);
    var first := Date(d.year, d.month, 1);
    hide FromDayNumber, DayNumber, PHDateOf, Format, AddDays, GetPHDateString, MakeDay, SetDate, NewLocalDate, HostShift;
    hide LocalDate, GetPHDate, PrevDay, PrevMonthStart, DaysInMonth;
    GetPHDateIsHostMidnight(now, hostOffset);
    TodayString(now, hostOffset);
    if preset == Yesterday {
      DaysBackString(now, 1, hostOffset);
    } else if preset == Last7Days {
      DaysBackString(now, 6, hostOffset);
    } else if preset == Last30Days {
      DaysBackString(now, 29, hostOffset);
    } else if preset == ThisMonth {
      MakeDayOfValidDate(first);
      ConstructedString(first, d.year, d.month - 1, 1, hostOffset);
    } else if preset == LastMonth {
      MakeDayPrevMonth(d);
      ConstructedString(PrevMonthStart(d), d.year, d.month - 2, 1, hostOffset);
      MakeDayBack(first, 1);
      PrevDayCount(first);
      assert MakeDay(d.year, d.month - 1, 0) == DayNumber(PrevDay(first));
      ConstructedString(PrevDay(first), d.year, d.month - 1, 0, hostOffset);
    }
  }

  /** On hosts from just east of UTC-16 to UTC+8 the code returns the intended ranges. */
  lemma GetPresetDateRangeWestOfManila(preset: string, now: int, hostOffset: int)
    requires ConstructorSafe(PHDateOf(now))
    requires -16 * MsPerHour < hostOffset <= PHOffset
    ensures GetPresetDateRange(preset, now, hostOffset) == PresetRange(preset, PHDateOf(now))
  {
    GetPresetDateRangeShift(preset, now, hostOffset);
    ShiftDatesZero(PresetDates(preset, PHDateOf(now)));
  }

  /** East of UTC+8 even 'today' names the day before today in Manila. */
  lemma GetPresetDateRangeEastOfManila(now: int, hostOffset: int)
    requires 100 <= PHDateOf(now).year <= 9999
    requires PHOffset < hostOffset <= PHOffset + MsPerDay
    ensures GetPresetDateRange(Today, now, hostOffset) ==
            Range(Format(PrevDay(PHDateOf(now))), Format(PrevDay(PHDateOf(now))))
    ensures GetPresetDateRange(Today, now, hostOffset) != PresetRange(Today, PHDateOf(now))
  {
    var d := PHDateOf(now);
    assert d.year - 1 <= PrevDay(d).year <= d.year;
    hide FromDayNumber, DayNumber, PHDateOf, Format, AddDays, GetPHDateString, GetPresetDateRange, PrevDay;
    GetPresetDateRangeShift(Today, now, hostOffset);
    assert HostShift(hostOffset) == -1;
    AddDaysMinusOne(d);
    PrevDayCount(d);
    FormatInjective(PrevDay(d), d);
  }

  // ---------------------------------------------------------------------------
  // getPresetLabel
  // ---------------------------------------------------------------------------

  /** `getPresetLabel(preset)`: the display name, 'Custom Range' for anything unknown. */
  function PresetLabel(preset: string): (name: string)
    ensures preset !in RangePresets ==> name == "Custom Range"
  {
    if preset == Today then "Today"
    else if preset == Yesterday then "Yesterday"
    else if preset == Last7Days then "Last 7 Days"
    else if preset == Last30Days then "Last 30 Days"
    else if preset == ThisMonth then "This Month"
    else if preset == LastMonth then "Last Month"
    else "Custom Range"
  }

  /** Distinct presets (including 'custom') have distinct labels. */
  lemma PresetLabelInjective(p: string, q: string)
    requires p in RangePresets + [Custom] && q in RangePresets + [Custom]
    requires PresetLabel(p) == PresetLabel(q)
    ensures p == q
  {
  }

  // ---------------------------------------------------------------------------
  // validateDateRange
  // ---------------------------------------------------------------------------

  /** `{valid, error}`; `error` is `null` (`None`) exactly when the range is valid. */
  datatype Validation = Validation(valid: bool, error: Option<string>)

  const StartAfterEndError: string := "Start date must be before or equal to end date"
  const FutureDateError: string := "Future dates are not allowed"

  function MaxDaysError(maxDays: int): string
  {
    "Date range cannot exceed " + IntToString(maxDays) + " days"
  }

  /** `new Date(s)` for a date-only string: UTC midnight of that day, `None` for an invalid Date. */
  function UtcMidnight(s: string): (r: Option<int>)
    ensures Parse(s).Some? <==> r.Some?
    ensures r.Some? ==> r.value == DayNumber(Parse(s).value) * MsPerDay
  {
    match Parse(s)
    case Some(d) => Some(DayNumber(d) * MsPerDay)
    case None => None
  }

  function Abs(x: int): (r: nat)
    ensures r == x || r == -x
  {
    if x < 0 then -x else x
  }

  /** `Math.ceil(Math.abs(end - start) / 86400000) + 1`: the inclusive number of days. */
  function SpanDays(start: int, end: int): int
  {
    (Abs(end - start) + MsPerDay - 1) / MsPerDay + 1
  }

  lemma SpanDaysOfMidnights(x: int, y: int)
    requires x <= y
    ensures SpanDays(x * MsPerDay, y * MsPerDay) == y - x + 1
  {
    assert y * MsPerDay - x * MsPerDay == (y - x) * MsPerDay;
    DayDivision(y - x, MsPerDay - 1);
  }

  /**
   * `validateDateRange(startDate, endDate, {maxDays, allowFuture})`, where
   * `todayText` is the `getPHDateString(getPHDate())` the source compares
   * against.  `maxDays` is `None` when the option is absent; the value 0 is
   * falsy and disables the check as well.  A bound that is not a valid date
   * is NaN: every comparison with it is false, so it passes the order and
   * length checks.
   */
  function ValidateDateRange(startDate: string, endDate: string, maxDays: Option<int>, allowFuture: bool,
                             todayText: string): (r: Validation)
    ensures startDate == "" || endDate == "" ==> r == Validation(true, None)
    ensures r.valid <==> r.error.None?
    ensures UtcMidnight(startDate).None? && UtcMidnight(endDate).None? && allowFuture ==> r.valid
  {
    if startDate == "" && endDate == "" then Validation(true, None)
    else if startDate == "" || endDate == "" then Validation(true, None)
    else
      var start, end := UtcMidnight(startDate), UtcMidnight(endDate);
      if start.Some? && end.Some? && start.value > end.value then
        Validation(false, Some(StartAfterEndError))
      else if maxDays.Some? && maxDays.value != 0 && start.Some? && end.Some? &&
              SpanDays(start.value, end.value) > maxDays.value then
        Validation(false, Some(MaxDaysError(maxDays.value)))
      else if !allowFuture && (LexLess(todayText, startDate) || LexLess(todayText, endDate)) then
        Validation(false, Some(FutureDateError))
      else Validation(true, None)
  }

  /**
   * For two real dates the checks are, in order: the start is not after the
   * end, the inclusive span is at most `maxDays` (when given and non-zero),
   * and neither date is after today (unless future dates are allowed); the
   * first check that fails names the error.
   */
  lemma ValidateDateRangeOfDates(a: Date, b: Date, maxDays: Option<int>, allowFuture: bool, today: Date)
    requires ValidDate(a) && FourDigitYear(a) && ValidDate(b) && FourDigitYear(b)
    requires ValidDate(today) && FourDigitYear(today)
    ensures var r := ValidateDateRange(Format(a), Format(b), maxDays, allowFuture, Format(today));
            (r.valid <==>
               !DateBefore(b, a) &&
               (maxDays.None? || maxDays.value == 0 || DayNumber(b) - DayNumber(a) + 1 <= maxDays.value) &&
               (allowFuture || (!DateBefore(today, a) && !DateBefore(today, b)))) &&
            (DateBefore(b, a) ==> r.error == Some(StartAfterEndError)) &&
            ((!DateBefore(b, a) && maxDays.Some? && maxDays.value != 0 &&
              DayNumber(b) - DayNumber(a) + 1 > maxDays.value) ==>
               r.error == Some(MaxDaysError(maxDays.value))) &&
            ((!DateBefore(b, a) &&
              (maxDays.None? || maxDays.value == 0 || DayNumber(b) - DayNumber(a) + 1 <= maxDays.value) &&
              !allowFuture && (DateBefore(today, a) || DateBefore(today, b))) ==>
               r.error == Some(FutureDateError))
  {
    ParseFormat(a);
    ParseFormat(b);
    DayNumberOrder(b, a);
    if !DateBefore(b, a) {
      SpanDaysOfMidnights(DayNumber(a), DayNumber(b));
    }
    FormatOrder(today, a);
    FormatOrder(today, b);
    assert Format(a) != "" && Format(b) != "";
  }

  /** Every preset range is accepted by the validator when today is the preset's own today. */
  lemma PresetRangeValidates(preset: string, today: Date)
    requires ValidDate(today) && FourDigitYear(today) && preset in RangePresets
    requires FourDigitYear(PresetDates(preset, today).value.0) && FourDigitYear(PresetDates(preset, today).value.1)
    ensures ValidateDateRange(PresetRange(preset, today).startDate, PresetRange(preset, today).endDate,
                              None, false, Format(today)).valid
  {
    var (a, b) := PresetDates(preset, today).value;
    PresetOrdered(preset, today);
    DayNumberOrder(b, a);
    DayNumberOrder(today, a);
    DayNumberOrder(today, b);
    ValidateDateRangeOfDates(a, b, None, false, today);
  }

  // ---------------------------------------------------------------------------
  // dateToUTCTimestamp
  // ---------------------------------------------------------------------------

  /** `setHours(23, 59, 59, 999)` as a millisecond of the day. */
  const EndOfDayMs: int := 86_399_999

  /** The message of the RangeError `toISOString` throws for an invalid Date. */
  const InvalidTimeValue: string := "Invalid time value"

  /**
   * The instant `dateToUTCTimestamp(dateStr, isEndDate)` converts:
   * `new Date(year, month - 1, day)` in host-local time, then `setHours`.
   * `None` is an invalid Date (a missing or non-numeric field, or a time
   * value beyond the range TimeClip allows).
   */
  function DayBoundInstant(dateStr: string, isEndDate: bool, hostOffset: int): (r: Option<int>)
    ensures r.Some? ==> InTimeRange(r.value)
  {
    match DateFields(dateStr)
    case None => None
    case Some((year, month, day)) =>
      var t := NewLocalDate(year, month - 1, day, hostOffset);
      if !InTimeRange(t) then None
      else
        var u := SetHours(t, if isEndDate then EndOfDayMs else 0, hostOffset);
        if InTimeRange(u) then Some(u) else None
  }

  /**
   * `dateToUTCTimestamp(dateStr, isEndDate)`: `null` (`Ok(None)`) for an empty
   * string, the `toISOString` text of the bound otherwise; an invalid Date
   * makes `toISOString` throw.
   */
  function DateToUTCTimestamp(dateStr: string, isEndDate: bool, hostOffset: int): (r: Result<Option<string>>)
    ensures dateStr == "" <==> r == Ok(None)
    ensures r.Failure? <==> dateStr != "" && DayBoundInstant(dateStr, isEndDate, hostOffset).None?
    ensures r.Failure? ==> r.error == InvalidTimeValue
  {
    if dateStr == "" then Ok(None)
    else
      match DayBoundInstant(dateStr, isEndDate, hostOffset)
      case None => Failure(InvalidTimeValue)
      case Some(t) => Ok(Some(IsoString(t)))
  }

  /** Day numbers of dates with four-digit years. */
  lemma FourDigitDayNumber(d: Date)
    requires ValidDate(d) && FourDigitYear(d)
    ensures -719_528 <= DayNumber(d) < 2_932_897
  {
    DayNumberInYear(d);
    DaysBeforeYearGrows(0, d.year);
    DaysBeforeYearGrows(d.year + 1, 10000);
  }

  /** Dates whose day numbers lie in years 1 to 9999 have four-digit years. */
  lemma DayNumberFourDigit(d: Date)
    requires ValidDate(d) && DaysBeforeYear(1) <= DayNumber(d) < DaysBeforeYear(10000)
    ensures 1 <= d.year <= 9999
  {
    DayNumberInYear(d);
    if d.year < 1 {
      DaysBeforeYearGrows(d.year + 1, 1);
    } else if d.year > 9999 {
      DaysBeforeYearGrows(10000, d.year);
    }
  }

  /**
   * For a formatted date the bounds are host-local midnight and
   * 23:59:59.999 of that date, 86,399,999 ms apart.
   */
  lemma DayBoundsOfDate(d: Date, hostOffset: int)
    requires ValidDate(d) && FourDigitYear(d) && ConstructorSafe(d)
    requires -MsPerDay <= hostOffset <= MsPerDay
    ensures DayBoundInstant(Format(d), false, hostOffset) == Some(DayNumber(d) * MsPerDay - hostOffset)
    ensures DayBoundInstant(Format(d), true, hostOffset) == Some(DayNumber(d) * MsPerDay - hostOffset + EndOfDayMs)
  {
    hide DateFields, DayNumber, FromDayNumber, Format, MakeDay, SetHours, IsoString;
    var x := DayNumber(d);
    DateFieldsOfFormat(d);
    MakeDayOfValidDate(d);
    FourDigitDayNumber(d);
    SetHoursOfMidnight(x, 0, hostOffset);
    SetHoursOfMidnight(x, EndOfDayMs, hostOffset);
    assert NewLocalDate(d.year, d.month - 1, d.day, hostOffset) == x * MsPerDay - hostOffset;
  }

  /** The instants from the start bound to the end bound are exactly those of the host-local day. */
  lemma HostDayWindow(d: Date, u: int, hostOffset: int)
    requires ValidDate(d)
    ensures DayNumber(d) * MsPerDay - hostOffset <= u <= DayNumber(d) * MsPerDay - hostOffset + EndOfDayMs
            <==> LocalDate(u, hostOffset) == d
  {
    var x := DayNumber(d);
    var z, r := (u + hostOffset) / MsPerDay, (u + hostOffset) % MsPerDay;
    assert u + hostOffset == z * MsPerDay + r;
    FromDayNumberOfDate(d);
    hide DayNumber, FromDayNumber;
    if LocalDate(u, hostOffset) == d {
      assert z == x;
    }
    if x * MsPerDay - hostOffset <= u <= x * MsPerDay - hostOffset + EndOfDayMs {
      DayDivision(x, u + hostOffset - x * MsPerDay);
    }
  }

  /**
   * The bounds the code builds for a day on a host at UTC+8, which is what it
   * means by a Manila day.
   */
  function PHDayTimestamp(dateStr: string, isEndDate: bool): (r: Result<Option<string>>)
    ensures dateStr == "" <==> r == Ok(None)
  {
    DateToUTCTimestamp(dateStr, isEndDate, PHOffset)
  }

  /** With the Manila offset the bounds enclose exactly the instants of that Manila day. */
  lemma PHDayWindow(d: Date, u: int)
    requires ValidDate(d) && FourDigitYear(d) && ConstructorSafe(d)
    ensures DayBoundInstant(Format(d), false, PHOffset).Some? && DayBoundInstant(Format(d), true, PHOffset).Some?
    ensures DayBoundInstant(Format(d), false, PHOffset).value <= u <= DayBoundInstant(Format(d), true, PHOffset).value
            <==> PHDateOf(u) == d
  {
    DayBoundsOfDate(d, PHOffset);
    HostDayWindow(d, u, PHOffset);
  }

  /**
   * On a host at UTC the start bound is 08:00 in Manila: the first eight
   * hours of the Manila day, such as the instant just before the bound, fall
   * outside the range.
   */
  lemma UtcHostMissesManilaMorning(d: Date)
    requires ValidDate(d) && FourDigitYear(d) && ConstructorSafe(d)
    ensures DayBoundInstant(Format(d), false, 0) == Some(DayNumber(d) * MsPerDay)
    ensures PHDateOf(DayNumber(d) * MsPerDay - 1) == d
  {
    hide DayNumber, FromDayNumber, Format, DayBoundInstant, DateFields;
    var x := DayNumber(d);
    DayBoundsOfDate(d, 0);
    DayDivision(x, PHOffset - 1);
    assert x * MsPerDay - 1 + PHOffset == x * MsPerDay + (PHOffset - 1);
    FromDayNumberOfDate(d);
  }

  lemma HourDigits()
    ensures Digits(16, 2) == "16" && Digits(15, 2) == "15"
  {
  }

  lemma ZeroDigits()
    ensures Digits(0, 2) == "00" && Digits(0, 3) == "000"
  {
  }

  lemma NineDigits()
    ensures Digits(59, 2) == "59" && Digits(999, 3) == "999"
  {
  }

  lemma DateDigits()
    ensures Digits(2024, 4) == "2024" && Digits(1, 2) == "01"
  {
  }

  lemma DayDigits()
    ensures Digits(4, 2) == "04" && Digits(5, 2) == "05"
  {
  }

  lemma EndFields()
    ensures 57_599_999 / MsPerHour == 15 && 57_599_999 / 60_000 % 60 == 59
    ensures 57_599_999 / 1000 % 60 == 59 && 57_599_999 % 1000 == 999
  {
    assert 57_599_999 / 60_000 == 959;
    assert 57_599_999 / 1000 == 57_599;
  }

  /** The time halves of the example below. */
  lemma IsoTimeStartExample()
    ensures IsoTime(16 * MsPerHour) == "16:00:00.000"
  {
    assert 16 * MsPerHour / MsPerHour == 16 && 16 * MsPerHour / 60_000 % 60 == 0;
    assert 16 * MsPerHour / 1000 % 60 == 0 && 16 * MsPerHour % 1000 == 0;
    HourDigits();
    ZeroDigits();
    hide Digits;
  }

  lemma IsoTimeEndExample()
    ensures IsoTime(16 * MsPerHour - 1) == "15:59:59.999"
  {
    EndFields();
    HourDigits();
    NineDigits();
    hide Digits;
    assert 16 * MsPerHour - 1 == 57_599_999;
  }

  /** The date halves of the example below. */
  lemma IsoDateExamples()
    ensures IsoDate(Date(2024, 1, 4)) == "2024-01-04" && IsoDate(Date(2024, 1, 5)) == "2024-01-05"
  {
    DateDigits();
    DayDigits();
    hide Digits, DayNumber, FromDayNumber, Format, YearText;
  }

  lemma IsoStartExample()
    ensures IsoText(Date(2024, 1, 4), 16 * MsPerHour) == "2024-01-04T16:00:00.000Z"
  {
    IsoTimeStartExample();
    IsoDateExamples();
    hide IsoTime, IsoDate, Digits, DayNumber, FromDayNumber, Format;
  }

  lemma IsoEndExample()
    ensures IsoText(Date(2024, 1, 5), 16 * MsPerHour - 1) == "2024-01-05T15:59:59.999Z"
  {
    IsoTimeEndExample();
    IsoDateExamples();
    hide IsoTime, IsoDate, Digits, DayNumber, FromDayNumber, Format;
  }

  lemma DayNumberExamples()
    ensures DayNumber(Date(2024, 1, 4)) == 19726 && DayNumber(Date(2024, 1, 5)) == 19727
  {
    assert DaysBeforeYear(2024) == 19723;
    assert DaysBeforeMonth(2024, 1) == 0;
  }

  /** The instants of the example below: midnight and 23:59:59.999 at UTC+8. */
  lemma DayBoundExample()
    ensures DayBoundInstant("2024-01-05", false, PHOffset) == Some(19727 * MsPerDay - PHOffset)
    ensures DayBoundInstant("2024-01-05", true, PHOffset) == Some(19727 * MsPerDay - PHOffset + EndOfDayMs)
  {
    var d := Date(2024, 1, 5);
    DayNumberExamples();
    IsoDateExamples();
    hide DayNumber, FromDayNumber, Format, DayBoundInstant, DateFields, IsoDate, Digits;
    assert Format(d) == "2024-01-05";
    DayBoundsOfDate(d, PHOffset);
  }

  lemma BoundFields()
    ensures (19727 * MsPerDay - PHOffset) / MsPerDay == 19726
    ensures (19727 * MsPerDay - PHOffset) % MsPerDay == 16 * MsPerHour
    ensures (19727 * MsPerDay - PHOffset + EndOfDayMs) / MsPerDay == 19727
    ensures (19727 * MsPerDay - PHOffset + EndOfDayMs) % MsPerDay == 16 * MsPerHour - 1
  {
    DayDivision(19726, 16 * MsPerHour);
    DayDivision(19727, 16 * MsPerHour - 1);
  }

  /** The texts of the example below. */
  lemma IsoStringStartExample()
    ensures IsoString(19727 * MsPerDay - PHOffset) == "2024-01-04T16:00:00.000Z"
  {
    DayNumberExamples();
    FromDayNumberOfDate(Date(2024, 1, 4));
    BoundFields();
    IsoStartExample();
    hide DayNumber, FromDayNumber, IsoText;
  }

  lemma IsoStringEndExample()
    ensures IsoString(19727 * MsPerDay - PHOffset + EndOfDayMs) == "2024-01-05T15:59:59.999Z"
  {
    DayNumberExamples();
    FromDayNumberOfDate(Date(2024, 1, 5));
    BoundFields();
    IsoEndExample();
    hide DayNumber, FromDayNumber, IsoText;
  }

  /** The example of the source's comments: '2024-01-05' on a host at UTC+8. */
  lemma DateToUTCTimestampExample()
    ensures DateToUTCTimestamp("2024-01-05", false, PHOffset) == Ok(Some("2024-01-04T16:00:00.000Z"))
    ensures DateToUTCTimestamp("2024-01-05", true, PHOffset) == Ok(Some("2024-01-05T15:59:59.999Z"))
  {
    DayBoundExample();
    IsoStringStartExample();
    IsoStringEndExample();
    hide DayBoundInstant, IsoString;
  }

  // ---------------------------------------------------------------------------
  // applyDateRangeFilter
  // ---------------------------------------------------------------------------

  /** A `gte` (start) or `lte` (end) predicate on `dateColumn`. */
  predicate IsBound(f: Filter, dateColumn: string, isEndDate: bool)
  {
    (if isEndDate then f.Lte? else f.Gte?) && f.column == dateColumn
  }

  function BoundFilter(dateColumn: string, value: string, isEndDate: bool): (f: Filter)
    ensures IsBound(f, dateColumn, isEndDate)
  {
    if isEndDate then Lte(dateColumn, value) else Gte(dateColumn, value)
  }

  /** One bound of `applyDateRangeFilter`: `gte` for the start, `lte` for the end. */
  function AddBound(query: Query, dateColumn: string, value: string, isEndDate: bool, isTimestamp: bool,
                    hostOffset: int): (r: Result<Query>)
    ensures value == "" ==> r == Ok(query)
    ensures r.Ok? ==> query <= r.value && |r.value| <= |query| + 1
    ensures r.Ok? && |r.value| == |query| + 1 ==> IsBound(r.value[|query|], dateColumn, isEndDate)
  {
    if value == "" then Ok(query)
    else if !isTimestamp then Ok(query + [BoundFilter(dateColumn, value, isEndDate)])
    else
      match DateToUTCTimestamp(value, isEndDate, hostOffset)
      case Failure(e) => Failure(e)
      case Ok(None) => Ok(query)
      case Ok(Some(ts)) => Ok(query + [BoundFilter(dateColumn, ts, isEndDate)])
  }

  /**
   * `applyDateRangeFilter(query, dateColumn, startDate, endDate, isTimestamp)`.
   * A missing query is `None`; an error thrown while converting a bound is a
   * `Failure`.
   */
  function ApplyDateRangeFilter(query: Option<Query>, dateColumn: string, startDate: string, endDate: string,
                                isTimestamp: bool, hostOffset: int): (r: Result<Option<Query>>)
    ensures query.None? || dateColumn == "" || (startDate == "" && endDate == "") ==> r == Ok(query)
    ensures r.Ok? ==> r.value.Some? == query.Some?
    ensures r.Ok? && query.Some? ==> query.value <= r.value.value && |r.value.value| <= |query.value| + 2
  {
    if query.None? || dateColumn == "" then Ok(query)
    else
      match AddBound(query.value, dateColumn, startDate, false, isTimestamp, hostOffset)
      case Failure(e) => Failure(e)
      case Ok(q) =>
        match AddBound(q, dateColumn, endDate, true, isTimestamp, hostOffset)
        case Failure(e) => Failure(e)
        case Ok(q') => Ok(Some(q'))
  }

  /** Plain date columns get the strings themselves, the start before the end. */
  lemma ApplyDateRangeFilterPlain(query: Query, dateColumn: string, startDate: string, endDate: string,
                                  hostOffset: int)
    requires dateColumn != "" && startDate != "" && endDate != ""
    ensures ApplyDateRangeFilter(Some(query), dateColumn, startDate, endDate, false, hostOffset)
            == Ok(Some(query + [Gte(dateColumn, startDate), Lte(dateColumn, endDate)]))
  {
    assert query + [Gte(dateColumn, startDate)] + [Lte(dateColumn, endDate)]
        == query + [Gte(dateColumn, startDate), Lte(dateColumn, endDate)];
  }

  lemma TimestampOfInstant(dateStr: string, isEndDate: bool, hostOffset: int, t: int)
    requires dateStr != "" && DayBoundInstant(dateStr, isEndDate, hostOffset) == Some(t)
    ensures DateToUTCTimestamp(dateStr, isEndDate, hostOffset) == Ok(Some(IsoString(t)))
  {
  }

  /** The converted bounds of a real date: host-local midnight and the last millisecond of its day. */
  lemma TimestampsOfDate(d: Date, hostOffset: int)
    requires ValidDate(d) && FourDigitYear(d) && ConstructorSafe(d)
    requires -MsPerDay <= hostOffset <= MsPerDay
    ensures DateToUTCTimestamp(Format(d), false, hostOffset) == Ok(Some(IsoString(DayNumber(d) * MsPerDay - hostOffset)))
    ensures DateToUTCTimestamp(Format(d), true, hostOffset)
            == Ok(Some(IsoString(DayNumber(d) * MsPerDay - hostOffset + EndOfDayMs)))
  {
    hide DayNumber, FromDayNumber, Format, DateFields, IsoString, DayBoundInstant, DateToUTCTimestamp;
    assert |Format(d)| == 10;
    DayBoundsOfDate(d, hostOffset);
    var start := DayNumber(d) * MsPerDay - hostOffset;
    TimestampOfInstant(Format(d), true, hostOffset, start + EndOfDayMs);
    TimestampOfInstant(Format(d), false, hostOffset, start);
  }

  /** A bound whose conversion succeeds adds one predicate on the converted text. */
  lemma AddBoundConverted(query: Query, dateColumn: string, value: string, isEndDate: bool, hostOffset: int,
                          ts: string)
    requires value != "" && DateToUTCTimestamp(value, isEndDate, hostOffset) == Ok(Some(ts))
    ensures AddBound(query, dateColumn, value, isEndDate, true, hostOffset)
            == Ok(query + [BoundFilter(dateColumn, ts, isEndDate)])
  {
    hide DateToUTCTimestamp, BoundFilter;
  }

  /** Both bounds added: the query `applyDateRangeFilter` returns. */
  lemma ApplyDateRangeFilterSteps(query: Query, dateColumn: string, startDate: string, endDate: string,
                                  isTimestamp: bool, hostOffset: int, q: Query, q': Query)
    requires dateColumn != ""
    requires AddBound(query, dateColumn, startDate, false, isTimestamp, hostOffset) == Ok(q)
    requires AddBound(q, dateColumn, endDate, true, isTimestamp, hostOffset) == Ok(q')
    ensures ApplyDateRangeFilter(Some(query), dateColumn, startDate, endDate, isTimestamp, hostOffset) == Ok(Some(q'))
  {
    hide AddBound;
  }

  /** Bounds whose conversions succeed become a `gte` and an `lte` on the converted texts, in that order. */
  lemma ApplyDateRangeFilterConverted(query: Query, dateColumn: string, startDate: string, endDate: string,
                                      hostOffset: int, ts: string, te: string)
    requires dateColumn != "" && startDate != "" && endDate != ""
    requires DateToUTCTimestamp(startDate, false, hostOffset) == Ok(Some(ts))
    requires DateToUTCTimestamp(endDate, true, hostOffset) == Ok(Some(te))
    ensures ApplyDateRangeFilter(Some(query), dateColumn, startDate, endDate, true, hostOffset)
            == Ok(Some(query + [Gte(dateColumn, ts), Lte(dateColumn, te)]))
  {
    hide DayBoundInstant, IsoString, DateFields;
    var q := query + [Gte(dateColumn, ts)];
    AddBoundConverted(query, dateColumn, startDate, false, hostOffset, ts);
    AddBoundConverted(q, dateColumn, endDate, true, hostOffset, te);
    hide DateToUTCTimestamp, AddBound, ApplyDateRangeFilter;
    ApplyDateRangeFilterSteps(query, dateColumn, startDate, endDate, true, hostOffset, q, q + [Lte(dateColumn, te)]);
    assert q + [Lte(dateColumn, te)] == query + [Gte(dateColumn, ts), Lte(dateColumn, te)];
  }

  /** Timestamp columns get the converted bounds of real dates, the start before the end. */
  lemma ApplyDateRangeFilterTimestamps(query: Query, dateColumn: string, a: Date, b: Date, hostOffset: int)
    requires dateColumn != ""
    requires ValidDate(a) && FourDigitYear(a) && ConstructorSafe(a)
    requires ValidDate(b) && FourDigitYear(b) && ConstructorSafe(b)
    requires -MsPerDay <= hostOffset <= MsPerDay
    ensures ApplyDateRangeFilter(Some(query), dateColumn, Format(a), Format(b), true, hostOffset)
            == Ok(Some(query + [Gte(dateColumn, IsoString(DayNumber(a) * MsPerDay - hostOffset)),
                                Lte(dateColumn, IsoString(DayNumber(b) * MsPerDay - hostOffset + EndOfDayMs))]))
  {
    TimestampsOfDate(a, hostOffset);
    TimestampsOfDate(b, hostOffset);
    hide DayNumber, FromDayNumber, Format, IsoString, DateToUTCTimestamp, ApplyDateRangeFilter;
    ApplyDateRangeFilterConverted(query, dateColumn, Format(a), Format(b), hostOffset,
                                  IsoString(DayNumber(a) * MsPerDay - hostOffset),
                                  IsoString(DayNumber(b) * MsPerDay - hostOffset + EndOfDayMs));
  }
}

=== FILE: date_range_filter.dfy ===
/**
 * The date-range picker (src/components/common/DateRangeFilter.jsx): a
 * preset drop-down and two date inputs whose state is the pair of local
 * dates, the selected preset and the validation message.  Every change the
 * parent is told about goes through `onChange`, recorded here as the
 * sequence `notified`.
 *
 * `detectPreset` maps a pair of dates back to a preset: the first preset, in
 * declaration order, whose range is that pair.  Choosing a preset and
 * detecting it again gives the preset back except where an earlier preset
 * has the same range that day: 'this_month' is shown as 'today' on the 1st,
 * as 'last_7_days' on the 7th and as 'last_30_days' on the 30th.
 */
module DateRangeFilter {
  import opened Wrappers
  import opened Calendar
  import opened DateString
  import opened DateUtils
  import opened DateFilterUtils

  // ---------------------------------------------------------------------------
  // detectPreset
  // ---------------------------------------------------------------------------

  /** The ranges of the non-custom presets at `now`, in declaration order. */
  function PresetRanges(now: int, hostOffset: int): (rs: seq<Range>)
    ensures |rs| == |RangePresets|
    ensures forall i :: 0 <= i < |rs| ==> rs[i] == GetPresetDateRange(RangePresets[i], now, hostOffset)
  {
    hide GetPresetDateRange;
    seq(|RangePresets|, i requires 0 <= i < |RangePresets| => GetPresetDateRange(RangePresets[i], now, hostOffset))
  }

  /** The index of the first of `ranges` equal to `range`. */
  function FirstMatch(ranges: seq<Range>, range: Range): (r: Option<nat>)
    ensures r.Some? ==> r.value < |ranges| && ranges[r.value] == range
    ensures r.Some? ==> forall j :: 0 <= j < r.value ==> ranges[j] != range
    ensures r.None? <==> range !in ranges
  {
    if ranges == [] then None
    else if ranges[0] == range then Some(0)
    else
      match FirstMatch(ranges[1..], range)
      case None => None
      case Some(i) => Some(i + 1)
  }

  /**
   * `detectPreset(start, end)`: '' when both dates are empty, otherwise the
   * first non-custom preset whose range is the pair, otherwise 'custom'.
   */
  function DetectedPreset(start: string, end: string, now: int, hostOffset: int): (p: string)
    ensures start == "" && end == "" ==> p == ""
    ensures p != "" ==> p in RangePresets || p == Custom
    ensures p in RangePresets ==> GetPresetDateRange(p, now, hostOffset) == Range(start, end)
    ensures p == Custom ==> forall q :: q in RangePresets ==> GetPresetDateRange(q, now, hostOffset) != Range(start, end)
  {
    hide GetPresetDateRange;
    if start == "" && end == "" then ""
    else
      match FirstMatch(PresetRanges(now, hostOffset), Range(start, end))
      case Some(i) => RangePresets[i]
      case None => Custom
  }

  /** The search loop of `detectPreset`, returning at the first match. */
  method DetectPreset(start: string, end: string, now: int, hostOffset: int) returns (p: string)
    ensures p == DetectedPreset(start, end, now, hostOffset)
  {
    hide GetPresetDateRange;
    if start == "" && end == "" {
      return "";
    }
    ghost var ranges := PresetRanges(now, hostOffset);
    var presets := RangePresets + [Custom];
    var i := 0;
    while i < |presets|
      invariant 0 <= i <= |presets|
      invariant forall j :: 0 <= j < i && j < |ranges| ==> ranges[j] != Range(start, end)
    {
      if presets[i] == Custom {
        i := i + 1;
        continue;
      }
      var range := GetPresetDateRange(presets[i], now, hostOffset);
      if range.startDate == start && range.endDate == end {
        assert ranges[i] == range;
        return presets[i];
      }
      i := i + 1;
    }
    return Custom;
  }

  // ---------------------------------------------------------------------------
  // When two presets have the same range
  // ---------------------------------------------------------------------------

  /**
   * The first and last day of the `i`-th preset, as offsets from today, on
   * day `day` of a month that follows a month of `prevLength` days.
   */
  function BoundOffsets(i: nat, day: int, prevLength: int): (int, int)
    requires i < |RangePresets|
  {
    [(0, 0), (-1, -1), (-6, 0), (-29, 0), (1 - day, 0), (1 - day - prevLength, -day)][i]
  }

  /** The number of days in the month before `today`'s. */
  function PrevLength(today: Date): (n: int)
    requires 1 <= today.month <= 12
    ensures 28 <= n <= 31
  {
    var p := PrevMonthStart(today);
    DaysInMonth(p.year, p.month)
  }

  lemma LastMonthStart(today: Date)
    requires ValidDate(today)
    ensures PresetDates(LastMonth, today).value.0 == PrevMonthStart(today)
  {
    hide FromDayNumber, DayNumber, AddDays, PrevDay, PrevMonthStart;
  }

  lemma LastMonthOffsets(today: Date)
    requires ValidDate(today)
    ensures DayNumber(PresetDates(LastMonth, today).value.0) == DayNumber(today) + 1 - today.day - PrevLength(today)
    ensures DayNumber(PresetDates(LastMonth, today).value.1) == DayNumber(today) - today.day
  {
    var (a, b) := PresetDates(LastMonth, today).value;
    LastMonthStart(today);
    hide PresetDates, FromDayNumber, DayNumber, AddDays, PrevDay, PrevMonthStart;
    PresetLastMonth(today);
    SameMonthDistance(a, b);
  }

  lemma PresetOffsets(today: Date, i: nat)
    requires ValidDate(today) && i < |RangePresets|
    ensures DayNumber(PresetDates(RangePresets[i], today).value.0)
            == DayNumber(today) + BoundOffsets(i, today.day, PrevLength(today)).0
    ensures DayNumber(PresetDates(RangePresets[i], today).value.1)
            == DayNumber(today) + BoundOffsets(i, today.day, PrevLength(today)).1
  {
    hide PresetDates, FromDayNumber, DayNumber, AddDays, PrevDay, PrevMonthStart;
    if i == 5 {
      LastMonthOffsets(today);
    } else if i == 4 {
      PresetThisMonth(today);
    } else if i == 0 || i == 1 {
      PresetSingleDays(today);
      PrevDayCount(today);
    } else {
      PresetSpans(today);
    }
  }

  /** `j` comes after `i` and is 'this_month', whose range on day `day` is that of `i`. */
  predicate Alias(i: nat, j: nat, day: int)
  {
    j == 4 && ((i == 0 && day == 1) || (i == 2 && day == 7) || (i == 3 && day == 30))
  }

  lemma OffsetsEqual(i: nat, j: nat, day: int, prevLength: int)
    requires i < |RangePresets| && j < |RangePresets|
    requires 1 <= day <= 31 && 28 <= prevLength
    ensures var oi, oj := BoundOffsets(i, day, prevLength), BoundOffsets(j, day, prevLength);
            oi.0 == oj.0 && oi.1 == oj.1 <==> i == j || Alias(i, j, day) || Alias(j, i, day)
  {
  }

  /** Pairs of valid dates are equal exactly when their day numbers are. */
  lemma PairsEqual(P: (Date, Date), Q: (Date, Date))
    requires ValidDate(P.0) && ValidDate(P.1) && ValidDate(Q.0) && ValidDate(Q.1)
    ensures P == Q <==> DayNumber(P.0) == DayNumber(Q.0) && DayNumber(P.1) == DayNumber(Q.1)
  {
    hide DayNumber, FromDayNumber;
    if DayNumber(P.0) == DayNumber(Q.0) && DayNumber(P.1) == DayNumber(Q.1) {
      DayNumberInjective(P.0, Q.0);
      DayNumberInjective(P.1, Q.1);
    }
  }

  lemma PresetDatesEqualOffsets(i: nat, j: nat, today: Date)
    requires ValidDate(today) && i < |RangePresets| && j < |RangePresets|
    ensures var oi, oj := BoundOffsets(i, today.day, PrevLength(today)), BoundOffsets(j, today.day, PrevLength(today));
            PresetDates(RangePresets[i], today) == PresetDates(RangePresets[j], today)
            <==> oi.0 == oj.0 && oi.1 == oj.1
  {
    var P, Q := PresetDates(RangePresets[i], today), PresetDates(RangePresets[j], today);
    assert P.Some? && Q.Some?;
    hide PresetDates, FromDayNumber, DayNumber, AddDays, PrevDay, PrevMonthStart, BoundOffsets, PrevLength;
    PresetOffsets(today, i);
    PresetOffsets(today, j);
    PairsEqual(P.value, Q.value);
  }

  /** Two presets have the same dates exactly when they are the same preset or one aliases the other. */
  lemma PresetDatesEqual(i: nat, j: nat, today: Date)
    requires ValidDate(today) && i < |RangePresets| && j < |RangePresets|
    ensures PresetDates(RangePresets[i], today) == PresetDates(RangePresets[j], today)
            <==> i == j || Alias(i, j, today.day) || Alias(j, i, today.day)
  {
    PresetDatesEqualOffsets(i, j, today);
    hide PresetDates, BoundOffsets, PrevLength;
    OffsetsEqual(i, j, today.day, PrevLength(today));
  }

  /** The earliest preset bound is at most 61 days back. */
  lemma OffsetsBounds(i: nat, day: int, prevLength: int)
    requires i < |RangePresets| && 1 <= day <= 31 && 28 <= prevLength <= 31
    ensures -61 <= BoundOffsets(i, day, prevLength).0 <= BoundOffsets(i, day, prevLength).1 <= 0
  {
  }

  /** A date at most 62 days before a day of years 100 to 9999 has a four-digit year. */
  lemma NearFourDigit(d: Date, today: Date)
    requires ValidDate(d) && ValidDate(today) && 100 <= today.year <= 9999
    requires DayNumber(today) - 62 <= DayNumber(d) <= DayNumber(today)
    ensures FourDigitYear(d)
  {
    DayNumberInYear(today);
    DaysBeforeYearGrows(1, 100);
    DaysBeforeYearGrows(100, today.year);
    DaysBeforeYearGrows(today.year + 1, 10000);
    hide DayNumber, FromDayNumber;
    DayNumberFourDigit(d);
  }

  /** In years 100 to 9999 every preset bound, moved back by at most a day, has a four-digit year. */
  lemma ShiftedFourDigit(i: nat, today: Date, k: int)
    requires ValidDate(today) && 100 <= today.year <= 9999 && -1 <= k <= 0 && i < |RangePresets|
    ensures var S := ShiftDates(PresetDates(RangePresets[i], today), k).value;
            FourDigitYear(S.0) && FourDigitYear(S.1)
  {
    var S := ShiftDates(PresetDates(RangePresets[i], today), k).value;
    hide PresetDates, ShiftDates, FromDayNumber, DayNumber, AddDays, PrevDay, PrevMonthStart, BoundOffsets, PrevLength;
    PresetOffsets(today, i);
    OffsetsBounds(i, today.day, PrevLength(today));
    NearFourDigit(S.0, today);
    NearFourDigit(S.1, today);
  }

  /** Two pairs of four-digit dates render as the same range exactly when they are equal. */
  lemma RangeOfEqual(P: (Date, Date), Q: (Date, Date))
    requires ValidDate(P.0) && ValidDate(P.1) && ValidDate(Q.0) && ValidDate(Q.1)
    requires FourDigitYear(P.0) && FourDigitYear(P.1) && FourDigitYear(Q.0) && FourDigitYear(Q.1)
    ensures RangeOf(Some(P)) == RangeOf(Some(Q)) <==> P.0 == Q.0 && P.1 == Q.1
  {
    FormatInjective(P.0, Q.0);
    FormatInjective(P.1, Q.1);
  }

  /** Moving both pairs by the same number of days keeps them equal or unequal. */
  lemma ShiftedEqual(P: (Date, Date), Q: (Date, Date), k: int)
    requires ValidDate(P.0) && ValidDate(P.1) && ValidDate(Q.0) && ValidDate(Q.1)
    ensures var SP, SQ := ShiftDates(Some(P), k).value, ShiftDates(Some(Q), k).value;
            SP.0 == SQ.0 && SP.1 == SQ.1 <==> P.0 == Q.0 && P.1 == Q.1
  {
    var SP, SQ := ShiftDates(Some(P), k).value, ShiftDates(Some(Q), k).value;
    hide ShiftDates, DayNumber, FromDayNumber, AddDays;
    PairsEqual(SP, SQ);
    PairsEqual(P, Q);
  }

  /**
   * For Manila dates in years 100 to 9999 and host offsets the model covers,
   * two presets return the same range exactly when they stand for the same
   * pair of days.
   */
  lemma PresetRangesEqual(i: nat, j: nat, now: int, hostOffset: int)
    requires i < |RangePresets| && j < |RangePresets|
    requires 100 <= PHDateOf(now).year <= 9999
    requires -16 * MsPerHour < hostOffset <= PHOffset + MsPerDay
    ensures GetPresetDateRange(RangePresets[i], now, hostOffset) == GetPresetDateRange(RangePresets[j], now, hostOffset)
            <==> PresetDates(RangePresets[i], PHDateOf(now)) == PresetDates(RangePresets[j], PHDateOf(now))
  {
    var today, k := PHDateOf(now), HostShift(hostOffset);
    var P, Q := PresetDates(RangePresets[i], today), PresetDates(RangePresets[j], today);
    assert P.Some? && Q.Some?;
    assert -1 <= k <= 0;
    hide GetPresetDateRange, PHDateOf, HostShift, PresetDates, ShiftDates, RangeOf, DayNumber, FromDayNumber, AddDays, Format;
    GetPresetDateRangeShift(RangePresets[i], now, hostOffset);
    GetPresetDateRangeShift(RangePresets[j], now, hostOffset);
    ShiftedFourDigit(i, today, k);
    ShiftedFourDigit(j, today, k);
    RangeOfEqual(ShiftDates(P, k).value, ShiftDates(Q, k).value);
    ShiftedEqual(P.value, Q.value, k);
  }

  /**
   * Two presets return the same range exactly when they are the same preset
   * or one is 'this_month' on the day it coincides with the other.
   */
  lemma PresetRangesCollide(i: nat, j: nat, now: int, hostOffset: int)
    requires i < |RangePresets| && j < |RangePresets|
    requires 100 <= PHDateOf(now).year <= 9999
    requires -16 * MsPerHour < hostOffset <= PHOffset + MsPerDay
    ensures GetPresetDateRange(RangePresets[i], now, hostOffset) == GetPresetDateRange(RangePresets[j], now, hostOffset)
            <==> i == j || Alias(i, j, PHDateOf(now).day) || Alias(j, i, PHDateOf(now).day)
  {
    PresetRangesEqual(i, j, now, hostOffset);
    hide GetPresetDateRange, PHDateOf, PresetDates;
    PresetDatesEqual(i, j, PHDateOf(now));
  }

  /**
   * The preset `detectPreset` reports for the range of the `i`-th preset on
   * day `day` of the month: the earlier preset 'this_month' collides with.
   */
  function ShownIndex(i: nat, day: int): (j: nat)
    requires i < |RangePresets|
    ensures j <= i && (j == i || Alias(j, i, day))
  {
    if i == 4 && day == 1 then 0
    else if i == 4 && day == 7 then 2
    else if i == 4 && day == 30 then 3
    else i
  }

  /** Every non-custom preset has a range. */
  lemma PresetRangeNonEmpty(i: nat, now: int, hostOffset: int)
    requires i < |RangePresets| && ConstructorSafe(PHDateOf(now))
    ensures GetPresetDateRange(RangePresets[i], now, hostOffset) != Range("", "")
  {
    var P := PresetDates(RangePresets[i], PHDateOf(now));
    assert P.Some?;
    hide GetPresetDateRange, PHDateOf, PresetDates, ShiftDates, HostShift;
    GetPresetDateRangeShift(RangePresets[i], now, hostOffset);
  }

  /** An earlier match than `s` is `s` itself when `s` is the index shown for `i`. */
  lemma ShownIsFirst(k: nat, i: nat, day: int)
    requires i < |RangePresets| && k <= ShownIndex(i, day)
    requires k == i || Alias(k, i, day) || Alias(i, k, day)
    ensures k == ShownIndex(i, day)
  {
  }

  /** The first match comes no later than any index that matches. */
  lemma FirstMatchBefore(ranges: seq<Range>, range: Range, s: nat)
    requires s < |ranges| && ranges[s] == range
    ensures FirstMatch(ranges, range).Some? && FirstMatch(ranges, range).value <= s
  {
  }

  /** `detectPreset` reports the preset of the first matching range. */
  lemma DetectedOfMatch(r: Range, now: int, hostOffset: int, k: nat)
    requires r != Range("", "")
    requires FirstMatch(PresetRanges(now, hostOffset), r) == Some(k)
    ensures DetectedPreset(r.startDate, r.endDate, now, hostOffset) == RangePresets[k]
  {
    hide GetPresetDateRange, PresetRanges, FirstMatch;
  }

  /**
   * Choosing a preset and detecting it from its range gives the preset back,
   * except that 'this_month' shows as the earlier preset with the same range.
   */
  lemma DetectPresetRoundTrip(i: nat, now: int, hostOffset: int)
    requires i < |RangePresets|
    requires 100 <= PHDateOf(now).year <= 9999
    requires -16 * MsPerHour < hostOffset <= PHOffset + MsPerDay
    ensures var r := GetPresetDateRange(RangePresets[i], now, hostOffset);
            DetectedPreset(r.startDate, r.endDate, now, hostOffset) == RangePresets[ShownIndex(i, PHDateOf(now).day)]
  {
    var today := PHDateOf(now);
    var r := GetPresetDateRange(RangePresets[i], now, hostOffset);
    var s := ShownIndex(i, today.day);
    var ranges := PresetRanges(now, hostOffset);
    hide GetPresetDateRange, PHDateOf, PresetDates, PresetRanges, ShownIndex, DetectedPreset, RangeOf, ShiftDates, HostShift;
    PresetRangeNonEmpty(i, now, hostOffset);
    PresetRangesCollide(s, i, now, hostOffset);
    assert ranges[s] == r;
    FirstMatchBefore(ranges, r, s);
    hide FirstMatch;
    var k := FirstMatch(ranges, r).value;
    PresetRangesCollide(k, i, now, hostOffset);
    ShownIsFirst(k, i, today.day);
    DetectedOfMatch(r, now, hostOffset, k);
  }

  // ---------------------------------------------------------------------------
  // The component's state and handlers
  // ---------------------------------------------------------------------------

  /**
   * The pair `handleDateChange(kind, value)` validates: `value` replaces the
   * start when `kind` is 'start' and the end when it is 'end'.
   */
  function EditedPair(kind: string, value: string, start: string, end: string): (r: Range)
    ensures r.startDate == (if kind == "start" then value else start)
    ensures r.endDate == (if kind == "end" then value else end)
  {
    Range(if kind == "start" then value else start, if kind == "end" then value else end)
  }

  /** The check `handleDateChange` runs: `validateDateRange` against Manila's today at `now`. */
  function PickerValidation(r: Range, maxDays: Option<int>, allowFuture: bool, now: int, hostOffset: int): (v: Validation)
    ensures v.valid <==> v.error.None?
  {
    ValidateDateRange(r.startDate, r.endDate, maxDays, allowFuture, GetPHDateString(GetPHDate(now, hostOffset)))
  }

  /**
   * The picker's local state.  `notified` lists, oldest first, the ranges
   * passed to `onChange`; without an `onChange` prop nothing is recorded.
   */
  class DateRangePicker {
    var localStart: string
    var localEnd: string
    var preset: string
    var error: Option<string>
    var notified: seq<Range>
    const maxDays: Option<int>
    const allowFuture: bool
    const hasOnChange: bool

    /** What one call of `onChange(range)` adds to `notified`. */
    function Notice(range: Range): (n: seq<Range>)
      ensures hasOnChange ==> n == [range]
      ensures !hasOnChange ==> n == []
    {
      if hasOnChange then [range] else []
    }

    /** First render: the props' dates, no preset and no error. */
    constructor(startDate: string, endDate: string, maxDays: Option<int>, allowFuture: bool, hasOnChange: bool)
      ensures localStart == startDate && localEnd == endDate
      ensures preset == "" && error == None && notified == []
      ensures this.maxDays == maxDays && this.allowFuture == allowFuture && this.hasOnChange == hasOnChange
    {
      localStart := startDate;
      localEnd := endDate;
      preset := "";
      error := None;
      notified := [];
      this.maxDays := maxDays;
      this.allowFuture := allowFuture;
      this.hasOnChange := hasOnChange;
    }

    /** The effect run when the `startDate`/`endDate` props change. */
    method SyncProps(startDate: string, endDate: string, now: int, hostOffset: int)
      modifies this
      ensures localStart == startDate && localEnd == endDate
      ensures preset == DetectedPreset(startDate, endDate, now, hostOffset)
      ensures error == old(error) && notified == old(notified)
    {
      localStart := startDate;
      localEnd := endDate;
      if startDate != "" || endDate != "" {
        preset := DetectPreset(startDate, endDate, now, hostOffset);
      } else {
        preset := "";
      }
    }

    /**
     * `handlePresetChange`: the empty choice clears both dates and reports
     * the empty range, 'custom' keeps the dates, any other value takes the
     * range `getPresetDateRange` gives it and reports it.
     */
    method ChoosePreset(choice: string, now: int, hostOffset: int)
      modifies this
      ensures preset == choice && error == None
      ensures choice == "" ==>
                localStart == "" && localEnd == "" && notified == old(notified) + Notice(Range("", ""))
      ensures choice == Custom ==>
                localStart == old(localStart) && localEnd == old(localEnd) && notified == old(notified)
      ensures choice != "" && choice != Custom ==>
                var r := GetPresetDateRange(choice, now, hostOffset);
                localStart == r.startDate && localEnd == r.endDate && notified == old(notified) + Notice(r)
    {
      preset := choice;
      error := None;
      if choice == "" {
        localStart, localEnd := "", "";
        notified := notified + Notice(Range("", ""));
        return;
      }
      if choice == Custom {
        return;
      }
      var r := GetPresetDateRange(choice, now, hostOffset);
      localStart, localEnd := r.startDate, r.endDate;
      notified := notified + Notice(r);
    }

    /**
     * `handleDateChange(kind, value)`: the input named by `kind` takes the
     * value at once ('start' the start, anything else the end); the pair is
     * then validated against Manila's today.  An invalid pair only records
     * the message; a valid one clears it, switches the preset to 'custom'
     * and is reported.  The pair validated takes `value` only in the bound
     * `kind` names exactly.
     */
    method ChangeDate(kind: string, value: string, now: int, hostOffset: int)
      modifies this
      ensures kind == "start" ==> localStart == value && localEnd == old(localEnd)
      ensures kind != "start" ==> localStart == old(localStart) && localEnd == value
      ensures var r := EditedPair(kind, value, old(localStart), old(localEnd));
              var v := PickerValidation(r, maxDays, allowFuture, now, hostOffset);
              (!v.valid ==> error == v.error && preset == old(preset) && notified == old(notified)) &&
              (v.valid ==> error == None && preset == Custom && notified == old(notified) + Notice(r))
    {
      hide PickerValidation;
      var r := EditedPair(kind, value, localStart, localEnd);
      if kind == "start" {
        localStart := value;
      } else {
        localEnd := value;
      }
      var v := PickerValidation(r, maxDays, allowFuture, now, hostOffset);
      if !v.valid {
        error := v.error;
        return;
      }
      error := None;
      preset := Custom;
      notified := notified + Notice(r);
    }

    /** `handleClear`: no dates, no preset, no error, and the empty range reported. */
    method Clear()
      modifies this
      ensures localStart == "" && localEnd == "" && preset == "" && error == None
      ensures notified == old(notified) + Notice(Range("", ""))
    {
      localStart, localEnd, preset, error := "", "", "", None;
      notified := notified + Notice(Range("", ""));
    }
  }
}

=== FILE: date_string.dfy ===
/**
 * Calendar dates as text.  Dates travel through the dashboard as RFC 3339
 * `full-date` strings (section 5.6: `date-fullyear "-" date-month "-" date-mday`,
 * four, two and two digits), and timestamp bounds as the strings that
 * `Date.prototype.toISOString` produces.  The two central facts proved here:
 * parsing and formatting are mutually inverse, and comparing two formatted
 * dates as strings (which the source does with `<` and `>`) is the same as
 * comparing the dates.
 */
module DateString {
  import opened Wrappers
  import opened Text
  import opened Calendar

  /** Years 0 to 9999 have the four-digit form that `full-date` requires. */
  predicate FourDigitYear(d: Date)
  {
    0 <= d.year <= 9999
  }

  function YearText(y: int): (s: string)
    ensures 0 <= y <= 9999 ==> |s| == 4 && AllDigits(s)
  {
    if 0 <= y <= 9999 then Digits(y, 4)
    else if y > 9999 then NatToString(y)
    else "-" + NatToString(-y)
  }

  /** `YYYY-MM-DD`, zero-padded. */
  function Format(d: Date): (s: string)
    requires ValidDate(d)
    ensures FourDigitYear(d) ==> |s| == 10 && s[4] == '-' && s[7] == '-'
  {
    YearText(d.year) + "-" + Digits(d.month, 2) + "-" + Digits(d.day, 2)
  }

  /** Strict `full-date` parsing: exactly `DDDD-DD-DD` naming a real calendar day. */
  function Parse(s: string): (r: Option<Date>)
    ensures r.Some? ==> ValidDate(r.value) && FourDigitYear(r.value)
  {
    if |s| == 10 && s[4] == '-' && s[7] == '-' &&
       AllDigits(s[..4]) && AllDigits(s[5..7]) && AllDigits(s[8..])
    then
      var d := Date(DigitsValue(s[..4]), DigitsValue(s[5..7]), DigitsValue(s[8..]));
      if ValidDate(d) then Some(d) else None
    else None
  }

  lemma FormatPieces(d: Date)
    requires ValidDate(d) && FourDigitYear(d)
    ensures Format(d)[..4] == Digits(d.year, 4)
    ensures Format(d)[5..7] == Digits(d.month, 2)
    ensures Format(d)[8..] == Digits(d.day, 2)
  {
  }

  /** Every representable date survives formatting followed by parsing. */
  lemma ParseFormat(d: Date)
    requires ValidDate(d) && FourDigitYear(d)
    ensures Parse(Format(d)) == Some(d)
  {
    var s := Format(d);
    FormatPieces(d);
    DigitsValueOfDigits(d.year, 4);
    DigitsValueOfDigits(d.month, 2);
    DigitsValueOfDigits(d.day, 2);
  }

  /** A string that parses is exactly the canonical text of the date it denotes. */
  lemma FormatParse(s: string)
    requires Parse(s).Some?
    ensures Format(Parse(s).value) == s
  {
    var d := Parse(s).value;
    DigitsOfDigitsValue(s[..4]);
    DigitsOfDigitsValue(s[5..7]);
    DigitsOfDigitsValue(s[8..]);
    FormatPieces(d);
    var f := Format(d);
    assert f[..4] == s[..4] && f[5..7] == s[5..7] && f[8..] == s[8..];
    assert forall i :: 0 <= i < 10 ==> f[i] == s[i] by {
      forall i | 0 <= i < 10
        ensures f[i] == s[i]
      {
        if i < 4 {
          assert f[i] == f[..4][i];
        } else if 5 <= i < 7 {
          assert f[i] == f[5..7][i - 5] && s[i] == s[5..7][i - 5];
        } else if 8 <= i {
          assert f[i] == f[8..][i - 8] && s[i] == s[8..][i - 8];
        }
      }
    }
  }

  /** Comparing two `full-date` strings with `<` is comparing the dates. */
  lemma FormatOrder(a: Date, b: Date)
    requires ValidDate(a) && FourDigitYear(a)
    requires ValidDate(b) && FourDigitYear(b)
    ensures LexLess(Format(a), Format(b)) <==> DateBefore(a, b)
  {
    hide Digits, LexLess, DigitsValue, DaysInMonth;
    var ya, yb := Digits(a.year, 4), Digits(b.year, 4);
    var ma, mb := Digits(a.month, 2), Digits(b.month, 2);
    var da, db := Digits(a.day, 2), Digits(b.day, 2);
    assert Format(a) == ya + ("-" + (ma + ("-" + da)));
    assert Format(b) == yb + ("-" + (mb + ("-" + db)));
    LexLessConcat(ya, yb, "-" + (ma + ("-" + da)), "-" + (mb + ("-" + db)));
    LexLessConcat("-", "-", ma + ("-" + da), mb + ("-" + db));
    LexLessConcat(ma, mb, "-" + da, "-" + db);
    LexLessConcat("-", "-", da, db);
    LexLessIrreflexive("-");
    DigitsOrder(a.year, b.year, 4);
    DigitsOrder(a.month, b.month, 2);
    DigitsOrder(a.day, b.day, 2);
    if ya == yb {
      DigitsValueOfDigits(a.year, 4);
      DigitsValueOfDigits(b.year, 4);
    }
    if ma == mb {
      DigitsValueOfDigits(a.month, 2);
      DigitsValueOfDigits(b.month, 2);
    }
  }

  /** Equal representable dates, and only those, have equal text. */
  lemma FormatInjective(a: Date, b: Date)
    requires ValidDate(a) && FourDigitYear(a)
    requires ValidDate(b) && FourDigitYear(b)
    ensures Format(a) == Format(b) <==> a == b
  {
    if Format(a) == Format(b) {
      ParseFormat(a);
      ParseFormat(b);
    }
  }

  // ---------------------------------------------------------------------------
  // Date.prototype.toISOString
  // ---------------------------------------------------------------------------

  /** Largest magnitude of a JavaScript time value (ECMA-262 TimeClip). */
  const MaxTime: int := 8_640_000_000_000_000

  predicate InTimeRange(t: int)
  {
    -MaxTime <= t <= MaxTime
  }

  /** The year of `toISOString`: four digits, or a sign and six digits outside 0 to 9999. */
  function IsoYear(y: int): (s: string)
    ensures 0 <= y <= 9999 ==> s == Digits(y, 4)
  {
    if 0 <= y <= 9999 then Digits(y, 4)
    else if y > 9999 then "+" + Digits(y, 6)
    else "-" + Digits(-y, 6)
  }

  /** The date half of `toISOString`; it is the `full-date` text for four-digit years. */
  function IsoDate(d: Date): (s: string)
    requires ValidDate(d)
    ensures FourDigitYear(d) ==> s == Format(d)
  {
    IsoYear(d.year) + "-" + Digits(d.month, 2) + "-" + Digits(d.day, 2)
  }

  /** The time half of `toISOString`, `HH:mm:ss.sss`, for a millisecond of the day. */
  function IsoTime(ms: int): (s: string)
    requires 0 <= ms < MsPerDay
    ensures |s| == 12
  {
    Digits(ms / MsPerHour, 2) + ":" + Digits(ms / 60_000 % 60, 2) + ":" +
    Digits(ms / 1000 % 60, 2) + "." + Digits(ms % 1000, 3)
  }

  /** The full ISO text of a calendar day and a millisecond within it. */
  function IsoText(d: Date, ms: int): (s: string)
    requires ValidDate(d) && 0 <= ms < MsPerDay
    ensures FourDigitYear(d) ==> |s| == 24 && s[..10] == Format(d)
  {
    var f := IsoDate(d);
    var tail := "T" + IsoTime(ms) + "Z";
    assert f + tail == IsoDate(d) + "T" + IsoTime(ms) + "Z";
    f + tail
  }

  /** `new Date(t).toISOString()`: `YYYY-MM-DDTHH:mm:ss.sssZ` in UTC, for a time value in range. */
  function IsoString(t: int): (s: string)
    ensures FourDigitYear(FromDayNumber(t / MsPerDay)) ==>
              |s| == 24 && s[..10] == Format(FromDayNumber(t / MsPerDay))
  {
    IsoText(FromDayNumber(t / MsPerDay), t % MsPerDay)
  }
}

=== FILE: date_utils.dfy ===
/**
 * Philippine-time helpers (src/utils/dateUtils.js).  Asia/Manila is UTC+8 all
 * year, so "the PH calendar date of an instant" is the civil date of
 * `t + 8 h`.  `getPHDate` however rebuilds that date with the three-argument
 * `Date` constructor, which works in the HOST's time zone; the host's offset
 * from UTC is therefore a parameter (`hostOffset`, in milliseconds, east
 * positive) of everything built on it.
 */
module DateUtils {
  import opened Wrappers
  import opened Text
  import opened Calendar
  import opened DateString

  const PHOffset: int := 8 * MsPerHour

  /** The calendar date in Manila at instant `t` (ms since the epoch). */
  function PHDateOf(t: int): (d: Date)
    ensures ValidDate(d)
  {
    LocalDate(t, PHOffset)
  }

  /** Instant `t` lies within the Manila day `PHDateOf(t)`. */
  lemma PHDateOfBounds(t: int)
    ensures DayNumber(PHDateOf(t)) * MsPerDay - PHOffset <= t < (DayNumber(PHDateOf(t)) + 1) * MsPerDay - PHOffset
  {
    var z := (t + PHOffset) / MsPerDay;
    assert z * MsPerDay <= t + PHOffset < z * MsPerDay + MsPerDay;
  }

  /** `getPHDateString(date)`: the Manila calendar date of an instant as `YYYY-MM-DD`. */
  function GetPHDateString(t: int): (s: string)
    ensures FourDigitYear(PHDateOf(t)) ==> Parse(s) == Some(PHDateOf(t))
  {
    var d := PHDateOf(t);
    if FourDigitYear(d) then
      ParseFormat(d);
      Format(d)
    else Format(d)
  }

  /**
   * `s.split('-').map(Number)` destructured into `[year, month, day]`: a
   * missing part is `undefined` and a non-numeric one NaN, both `None`.
   */
  function DateFields(s: string): (r: Option<(int, int, int)>)
  {
    var parts := Split(s, '-');
    if |parts| < 3 then None
    else
      match (NumberOf(parts[0]), NumberOf(parts[1]), NumberOf(parts[2]))
      case (Some(y), Some(m), Some(d)) => Some((y, m, d))
      case _ => None
  }

  /** Splitting a formatted date on '-' gives its three digit groups. */
  lemma SplitFormat(d: Date)
    requires ValidDate(d) && FourDigitYear(d)
    ensures Split(Format(d), '-') == [Digits(d.year, 4), Digits(d.month, 2), Digits(d.day, 2)]
  {
    hide Digits, Split, DaysInMonth;
    var y, m, dd := Digits(d.year, 4), Digits(d.month, 2), Digits(d.day, 2);
    assert '-' !in y && '-' !in m && '-' !in dd by {
      assert forall i :: 0 <= i < |y| ==> IsDigit(y[i]);
      assert forall i :: 0 <= i < |m| ==> IsDigit(m[i]);
      assert forall i :: 0 <= i < |dd| ==> IsDigit(dd[i]);
    }
    var parts := [y, m, dd];
    assert Join(parts, '-') == Format(d) by {
      assert Join(parts[2..], '-') == dd;
      assert Join(parts[1..], '-') == m + "-" + dd;
    }
    SplitJoin(parts, '-');
  }

  /** Splitting a formatted date on '-' gives back its year, month and day. */
  lemma DateFieldsOfFormat(d: Date)
    requires ValidDate(d) && FourDigitYear(d)
    ensures DateFields(Format(d)) == Some((d.year, d.month, d.day))
  {
    SplitFormat(d);
    DigitsValueOfDigits(d.year, 4);
    DigitsValueOfDigits(d.month, 2);
    DigitsValueOfDigits(d.day, 2);
    hide Split, Format, Digits, DigitsValue, Trim, AllDigits;
  }

  /**
   * `getPHDate(date)`: host-local midnight of the Manila calendar date of `t`.
   * The source formats that date and splits the text again; `DateFieldsOfFormat`
   * shows the round trip returns the same year, month and day.
   */
  function GetPHDate(t: int, hostOffset: int): (r: int)
  {
    var d := PHDateOf(t);
    NewLocalDate(d.year, d.month - 1, d.day, hostOffset)
  }

  /** Outside years 0 to 99 (which the `Date` constructor reads as 1900 to 1999). */
  predicate ConstructorSafe(d: Date)
  {
    !(0 <= d.year <= 99)
  }

  /** The instant `getPHDate` builds is host-local midnight of the Manila date. */
  lemma GetPHDateIsHostMidnight(t: int, hostOffset: int)
    requires ConstructorSafe(PHDateOf(t))
    ensures GetPHDate(t, hostOffset) == DayNumber(PHDateOf(t)) * MsPerDay - hostOffset
    ensures LocalDate(GetPHDate(t, hostOffset), hostOffset) == PHDateOf(t)
  {
    var d := PHDateOf(t);
    var x := DayNumber(d);
    MakeDayOfValidDate(d);
    assert ConstructorYear(d.year) == d.year;
    assert GetPHDate(t, hostOffset) == NewLocalDate(d.year, d.month - 1, d.day, hostOffset);
    assert NewLocalDate(d.year, d.month - 1, d.day, hostOffset) == x * MsPerDay - hostOffset;
    LocalDateOfOwnMidnight(x, hostOffset);
    FromDayNumberOfDate(d);
  }

  /**
   * How many days the Manila date of host-local midnight lies after the
   * host date: 0 for offsets from just above UTC-16 up to UTC+8, -1 east of
   * UTC+8.
   */
  function HostShift(hostOffset: int): (k: int)
    ensures -16 * MsPerHour < hostOffset <= PHOffset ==> k == 0
    ensures PHOffset < hostOffset <= PHOffset + MsPerDay ==> k == -1
  {
    (PHOffset - hostOffset) / MsPerDay
  }

  /** The Manila date of host-local midnight of day `x` is day `x + HostShift(hostOffset)`. */
  lemma PHDateOfHostMidnight(x: int, hostOffset: int)
    ensures PHDateOf(x * MsPerDay - hostOffset) == FromDayNumber(x + HostShift(hostOffset))
  {
    hide FromDayNumber, DayNumber, LocalDate;
    LocalDateOfMidnight(x, hostOffset, PHOffset);
    assert HostShift(hostOffset) == (PHOffset - hostOffset) / MsPerDay;
    assert PHDateOf(x * MsPerDay - hostOffset) == LocalDate(x * MsPerDay - hostOffset, PHOffset);
  }

  /** Shift a date by `n` calendar days (negative: into the past). */
  function AddDays(d: Date, n: int): (r: Date)
    requires ValidDate(d)
    ensures ValidDate(r) && DayNumber(r) == DayNumber(d) + n
  {
    FromDayNumber(DayNumber(d) + n)
  }

  lemma AddDaysZero(d: Date)
    requires ValidDate(d)
    ensures AddDays(d, 0) == d
  {
    FromDayNumberOfDate(d);
  }

  lemma AddDaysMinusOne(d: Date)
    requires ValidDate(d)
    ensures AddDays(d, -1) == PrevDay(d)
  {
    hide FromDayNumber, DayNumber, PrevDay;
    PrevDayNumber(d);
  }

  /** Moving by `a` days and then by `b` days is moving by `a + b` days. */
  lemma AddDaysAdd(d: Date, a: int, b: int)
    requires ValidDate(d)
    ensures AddDays(AddDays(d, a), b) == AddDays(d, a + b)
  {
    hide FromDayNumber, ValidDate;
    DayNumberInjective(AddDays(AddDays(d, a), b), AddDays(d, a + b));
  }

  /** `getPHDateString` of host-local midnight of date `d` names `d` shifted by `HostShift`. */
  lemma HostMidnightString(d: Date, hostOffset: int)
    requires ValidDate(d)
    ensures GetPHDateString(DayNumber(d) * MsPerDay - hostOffset) == Format(AddDays(d, HostShift(hostOffset)))
  {
    hide FromDayNumber, DayNumber, PHDateOf, Format, HostShift;
    PHDateOfHostMidnight(DayNumber(d), hostOffset);
  }

  /** `setDate(getDate() - n)` on host-local midnight of day `x` gives host-local midnight of day `x - n`. */
  lemma SetDateBackFromMidnight(x: int, n: int, hostOffset: int)
    ensures SetDate(x * MsPerDay - hostOffset, LocalDate(x * MsPerDay - hostOffset, hostOffset).day - n, hostOffset)
            == (x - n) * MsPerDay - hostOffset
  {
    hide *;
    var t := x * MsPerDay - hostOffset;
    var r := (x - n) * MsPerDay - hostOffset;
    assert t - n * MsPerDay == r by {
      assert x * MsPerDay - n * MsPerDay == (x - n) * MsPerDay;
    }
    SetDateBack(t, n, hostOffset);
  }

  /** The instant `getPHDateDaysAgo(n)` renders is host-local midnight n days before today. */
  lemma DaysAgoInstant(now: int, n: int, hostOffset: int)
    requires ConstructorSafe(PHDateOf(now))
    ensures SetDate(GetPHDate(now, hostOffset), LocalDate(GetPHDate(now, hostOffset), hostOffset).day - n, hostOffset)
            == (DayNumber(PHDateOf(now)) - n) * MsPerDay - hostOffset
  {
    hide FromDayNumber, DayNumber, SetDate, LocalDate, GetPHDate, PHDateOf;
    GetPHDateIsHostMidnight(now, hostOffset);
    SetDateBackFromMidnight(DayNumber(PHDateOf(now)), n, hostOffset);
  }

  /** `getPHDateDaysAgo(n)` at instant `now` on a host with the given offset. */
  function GetPHDateDaysAgo(now: int, n: int, hostOffset: int): string
  {
    var phDate := GetPHDate(now, hostOffset);
    var moved := SetDate(phDate, LocalDate(phDate, hostOffset).day - n, hostOffset);
    GetPHDateString(moved)
  }

  /**
   * `getPHDateDaysAgo(n)` names the Manila date n days before today, shifted by
   * `HostShift`; with a host at or west of UTC+8 that is exactly n days back,
   * and n = 0 is today.
   */
  lemma GetPHDateDaysAgoIsShift(now: int, n: int, hostOffset: int)
    requires ConstructorSafe(PHDateOf(now))
    ensures GetPHDateDaysAgo(now, n, hostOffset) == Format(AddDays(PHDateOf(now), HostShift(hostOffset) - n))
    ensures -16 * MsPerHour < hostOffset <= PHOffset ==>
              GetPHDateDaysAgo(now, n, hostOffset) == Format(AddDays(PHDateOf(now), -n))
  {
    hide DayNumber, FromDayNumber, PHDateOf, SetDate, LocalDate, GetPHDate, Format;
    var x := DayNumber(PHDateOf(now));
    var k := HostShift(hostOffset);
    DaysAgoInstant(now, n, hostOffset);
    PHDateOfHostMidnight(x - n, hostOffset);
    assert x - n + k == x + (k - n);
  }

  /** `formatPHDate(s, options)`: the empty string stays empty; otherwise the locale text. */
  function FormatPHDate(dateString: string, localeText: string): (r: string)
    ensures dateString == "" ==> r == ""
    ensures dateString != "" ==> r == localeText
  {
    if dateString == "" then "" else localeText
  }

  /** The regular expression `^\d{4}-\d{2}-\d{2}`. */
  predicate StartsLikeDate(s: string)
  {
    |s| >= 10 && AllDigits(s[..4]) && s[4] == '-' && AllDigits(s[5..7]) && s[7] == '-' && AllDigits(s[8..10])
  }

  /** A string that starts like a date has no 'T' among its first ten characters. */
  lemma StartsLikeDateFirstT(s: string)
    requires StartsLikeDate(s)
    ensures IndexOfChar(s, 'T') == -1 || IndexOfChar(s, 'T') >= 10
  {
    var i := IndexOfChar(s, 'T');
    assert forall j :: 0 <= j < 4 ==> s[j] == s[..4][j];
    assert forall j :: 5 <= j < 7 ==> s[j] == s[5..7][j - 5];
    assert forall j :: 8 <= j < 10 ==> s[j] == s[8..10][j - 8];
  }

  /**
   * `parseSaleDate(s)`: a string starting with `YYYY-MM-DD` is cut at its first
   * 'T'; anything else is read by the host's `Date` parser (`parsed`, `None`
   * for an invalid date, which renders as "Invalid Date").
   */
  function ParseSaleDate(s: string, parsed: Option<int>): (r: string)
    ensures s == "" ==> r == ""
    ensures StartsLikeDate(s) ==> StartsWith(s, r) && 'T' !in r && |r| >= 10
    ensures StartsLikeDate(s) ==> r == s || (|r| < |s| && s[|r|] == 'T')
    ensures StartsLikeDate(s) && 'T' !in s ==> r == s
  {
    if s == "" then ""
    else if StartsLikeDate(s) then
      StartsLikeDateFirstT(s);
      Split(s, 'T')[0]
    else
      match parsed
      case None => "Invalid Date"
      case Some(t) => GetPHDateString(t)
  }

  /** The date part of a stored timestamp is its first ten characters. */
  lemma ParseSaleDateOfTimestamp(d: Date, rest: string)
    requires ValidDate(d) && FourDigitYear(d)
    ensures ParseSaleDate(Format(d) + "T" + rest, None) == Format(d)
  {
    var s := Format(d) + "T" + rest;
    FormatPieces(d);
    assert s[..10] == Format(d);
    assert s[..4] == Format(d)[..4] && s[5..7] == Format(d)[5..7] && s[8..10] == Format(d)[8..];
    assert 'T' !in Format(d) by {
      forall i | 0 <= i < 10
        ensures Format(d)[i] != 'T'
      {
        if i < 4 { assert Format(d)[..4][i] == Format(d)[i]; }
        else if 5 <= i < 7 { assert Format(d)[5..7][i - 5] == Format(d)[i]; }
        else if 8 <= i { assert Format(d)[8..][i - 8] == Format(d)[i]; }
      }
    }
    assert s[10] == 'T' && s[..10] == Format(d);
    assert IndexOfChar(s, 'T') == 10;
  }

  /** Applying `parseSaleDate` to its own result changes nothing. */
  lemma ParseSaleDateIdempotent(s: string, parsed: Option<int>)
    requires StartsLikeDate(s)
    ensures ParseSaleDate(ParseSaleDate(s, parsed), parsed) == ParseSaleDate(s, parsed)
  {
    var r := ParseSaleDate(s, parsed);
    assert r[..10] == s[..10];
    assert r[..4] == s[..4] && r[5..7] == s[5..7] && r[8..10] == s[8..10];
  }
}

=== FILE: edit_menu_prices.dfy ===
/**
 * The menu price editor (src/components/admin/EditMenuPrices.jsx): edits of
 * one field of one listed item, and the save of an item, which checks the
 * trimmed name and the price read by `Number`, writes them to `menu_items`
 * and hands the old and new values to the audit log.
 */
module EditMenuPrices {
  import opened Wrappers
  import opened Text
  import opened JsNumber

  const NameEmpty: string := "Item name cannot be empty."
  const PriceInvalid: string := "Price must be a non-negative number."
  const SaveFailed: string := "Failed to update menu item."
  const Saved: string := "Menu item updated."

  /** A listed price: `null`, a number read from the table, or the text typed in the price input. */
  datatype Price = NoPrice | Stored(amount: real) | Typed(text: string)

  /** A listed `menu_items` row; a `null` name is `None`. */
  datatype MenuItem = MenuItem(itemId: string, itemName: Option<string>, price: Price)

  /** The two fields the inputs edit. */
  datatype Field = ItemName | PriceField

  /** A `menu_items` row as stored by a save. */
  datatype StoredItem = StoredItem(itemName: string, price: real)

  /** What a save hands to the audit log: the listed values before the save, if listed, and the saved ones. */
  datatype PriceAudit = PriceAudit(itemId: string, oldValue: Option<(Option<string>, Price)>, newValue: StoredItem)

  // ---------------------------------------------------------------------------
  // handleItemFieldChange
  // ---------------------------------------------------------------------------

  /** `{ ...it, [field]: value }`: the input's text replaces one field and nothing else. */
  function WithField(item: MenuItem, field: Field, value: string): (r: MenuItem)
    ensures r.itemId == item.itemId
    ensures field == ItemName ==> r.itemName == Some(value) && r.price == item.price
    ensures field == PriceField ==> r.price == Typed(value) && r.itemName == item.itemName
  {
    match field
    case ItemName => item.(itemName := Some(value))
    case PriceField => item.(price := Typed(value))
  }

  /** The `map` over the list: every item with the id gets the edit, every other item is kept. */
  function ChangeField(items: seq<MenuItem>, itemId: string, field: Field, value: string): (r: seq<MenuItem>)
    ensures |r| == |items|
    ensures forall i :: 0 <= i < |items| && items[i].itemId != itemId ==> r[i] == items[i]
    ensures forall i :: 0 <= i < |items| && items[i].itemId == itemId ==> r[i] == WithField(items[i], field, value)
  {
    seq(|items|, i requires 0 <= i < |items| =>
      if items[i].itemId == itemId then WithField(items[i], field, value) else items[i])
  }

  /** `menuItems.find(mi => mi.item_id === itemId)`. */
  function FindMenuItem(items: seq<MenuItem>, itemId: string): (r: Option<MenuItem>)
    ensures r.None? <==> forall i :: 0 <= i < |items| ==> items[i].itemId != itemId
    ensures r.Some? ==> exists i :: 0 <= i < |items| && items[i] == r.value && r.value.itemId == itemId &&
                                    forall j :: 0 <= j < i ==> items[j].itemId != itemId
  {
    if items == [] then None
    else if items[0].itemId == itemId then Some(items[0])
    else
      var r := FindMenuItem(items[1..], itemId);
      if r.Some? then
        var i :| 0 <= i < |items[1..]| && items[1..][i] == r.value && r.value.itemId == itemId &&
                 forall j :: 0 <= j < i ==> items[1..][j].itemId != itemId;
        assert items[i + 1] == r.value && forall j :: 0 <= j < i + 1 ==> items[j].itemId != itemId;
        r
      else r
  }

  /**
   * An edit is seen by a later lookup: after editing the item with the id,
   * the first listed item with that id is the edited one.  This is why the
   * audit's old value of a save is the edited value, not the stored one.
   */
  lemma {:induction false} FindAfterChange(items: seq<MenuItem>, itemId: string, field: Field, value: string)
    ensures var found := FindMenuItem(items, itemId);
            FindMenuItem(ChangeField(items, itemId, field, value), itemId)
              == if found.Some? then Some(WithField(found.value, field, value)) else None
  {
    hide WithField;
    var changed := ChangeField(items, itemId, field, value);
    if items != [] {
      assert changed[1..] == ChangeField(items[1..], itemId, field, value);
      if items[0].itemId != itemId {
        FindAfterChange(items[1..], itemId, field, value);
      }
    }
  }

  // ---------------------------------------------------------------------------
  // saveMenuItem
  // ---------------------------------------------------------------------------

  /** `String(item.item_name || '')`. */
  function NameText(name: Option<string>): (s: string)
    ensures name.None? ==> s == ""
    ensures name.Some? ==> s == name.value
  {
    match name
    case None => ""
    case Some(n) => n
  }

  /** `Number(item.price)`: `null` is 0, a stored number is itself, typed text is parsed. */
  function PriceNumber(price: Price): (n: Number)
    ensures price.NoPrice? ==> n == Finite(0.0)
    ensures price.Stored? ==> n == Finite(price.amount)
    ensures price.Typed? ==> n == ParseNumber(price.text)
  {
    match price
    case NoPrice => Finite(0.0)
    case Stored(amount) => Finite(amount)
    case Typed(text) => ParseNumber(text)
  }

  /** A row a save may store: a trimmed, non-empty name and a non-negative price. */
  predicate ValidStored(row: StoredItem)
  {
    row.itemName != "" && Trim(row.itemName) == row.itemName && row.price >= 0.0
  }

  /**
   * The checks of a save, in order: the trimmed name must not be empty, then
   * the price must be a finite number not below zero; the row to store is
   * the trimmed name and that number.
   */
  function Validate(item: MenuItem): (r: Result<StoredItem>)
    ensures r.Failure? ==> r.error == NameEmpty || r.error == PriceInvalid
    ensures r.Failure? && r.error == NameEmpty <==> Trim(NameText(item.itemName)) == ""
    ensures r.Ok? <==> Trim(NameText(item.itemName)) != "" && IsFinite(PriceNumber(item.price)) &&
                       PriceNumber(item.price).value >= 0.0
    ensures r.Ok? ==> r.value == StoredItem(Trim(NameText(item.itemName)), PriceNumber(item.price).value)
    ensures r.Ok? ==> ValidStored(r.value)
  {
    hide Trim, ParseNumber, NameText, PriceNumber, TrimStart, TrimEnd, IsWhitespace;
    var trimmedName := Trim(NameText(item.itemName));
    var priceNum := PriceNumber(item.price);
    if trimmedName == "" then Failure(NameEmpty)
    else if !IsFinite(priceNum) || LessThanZero(priceNum) then Failure(PriceInvalid)
    else
      TrimIdempotent(NameText(item.itemName));
      assert priceNum.value >= 0.0;
      Ok(StoredItem(trimmedName, priceNum.value))
  }

  /** A typed price `whole.fraction` next to a non-blank name passes the checks with its decimal value. */
  lemma TypedDecimalSaves(item: MenuItem, whole: nat, fraction: nat, w: nat)
    requires fraction < Pow10(w)
    requires item.price == Typed(NatToString(whole) + "." + Digits(fraction, w))
    requires Trim(NameText(item.itemName)) != ""
    ensures Validate(item) == Ok(StoredItem(Trim(NameText(item.itemName)), whole as real + fraction as real / Pow10(w) as real))
  {
    hide Validate, ParseNumber, NatToString, Digits, Trim, Pow10;
    ParseDecimal(whole, fraction, w);
    assert fraction as real / Pow10(w) as real >= 0.0;
  }

  /** A typed negative whole price is refused. */
  lemma TypedNegativeRefused(item: MenuItem, amount: int)
    requires amount < 0
    requires item.price == Typed(IntToString(amount))
    requires Trim(NameText(item.itemName)) != ""
    ensures Validate(item) == Failure(PriceInvalid)
  {
    hide Validate, ParseNumber, IntToString, Trim;
    ParseIntToString(amount);
  }

  /** `.update(...).eq('item_id', id)`: the row with the id is replaced; without one nothing changes. */
  function UpdateRow(table: map<string, StoredItem>, itemId: string, row: StoredItem): (t: map<string, StoredItem>)
    ensures t.Keys == table.Keys
    ensures forall id :: id in table && id != itemId ==> t[id] == table[id]
    ensures itemId in table ==> t[itemId] == row
  {
    if itemId in table then table[itemId := row] else table
  }

  /** Every stored row is one a save may store. */
  predicate TableValid(table: map<string, StoredItem>)
  {
    forall id :: id in table ==> ValidStored(table[id])
  }

  /** A save of a checked row keeps every stored row valid. */
  lemma UpdateKeepsValid(table: map<string, StoredItem>, item: MenuItem)
    requires TableValid(table) && Validate(item).Ok?
    ensures TableValid(UpdateRow(table, item.itemId, Validate(item).value))
  {
  }

  /** The menu editor's list, flags and messages, and the `menu_items` table it writes. */
  class MenuEditor {
    var menuItems: seq<MenuItem>
    var loading: bool
    var error: string
    var success: string
    var table: map<string, StoredItem>

    constructor(menuItems: seq<MenuItem>, table: map<string, StoredItem>)
      ensures this.menuItems == menuItems && this.table == table
      ensures !loading && error == "" && success == ""
    {
      this.menuItems := menuItems;
      this.table := table;
      loading := false;
      error := "";
      success := "";
    }

    /** `handleItemFieldChange`. */
    method HandleItemFieldChange(itemId: string, field: Field, value: string)
      modifies this`menuItems
      ensures menuItems == ChangeField(old(menuItems), itemId, field, value)
    {
      menuItems := ChangeField(menuItems, itemId, field, value);
    }

    /**
     * `saveMenuItem` with the write's error, if any, and whether a profile
     * is loaded (the audit entry is written only then).  A refused save and
     * a failed write leave the table as it was; a successful one stores the
     * checked row and reports the listed values as the old ones.  The
     * loading flag is clear again on every path.
     */
    method SaveMenuItem(item: MenuItem, writeError: Option<string>, signedIn: bool) returns (audit: Option<PriceAudit>)
      modifies this`loading, this`error, this`success, this`table
      ensures !loading
      ensures Validate(item).Failure? ==>
                error == Validate(item).error && success == "" && table == old(table) && audit.None?
      ensures Validate(item).Ok? && writeError.Some? ==>
                error == MessageOr(writeError.value, SaveFailed) && success == "" && table == old(table) && audit.None?
      ensures Validate(item).Ok? && writeError.None? ==>
                error == "" && success == Saved && table == UpdateRow(old(table), item.itemId, Validate(item).value)
      ensures audit.Some? <==> Validate(item).Ok? && writeError.None? && signedIn
      ensures audit.Some? ==>
                var found := FindMenuItem(menuItems, item.itemId);
                audit.value == PriceAudit(item.itemId,
                                          if found.Some? then Some((found.value.itemName, found.value.price)) else None,
                                          Validate(item).value)
      ensures TableValid(old(table)) ==> TableValid(table)
    {
      hide Validate, FindMenuItem, UpdateRow, MessageOr, Trim, ParseNumber, TableValid, ValidStored;
      loading := true;
      error := "";
      success := "";
      audit := None;
      var checked := Validate(item);
      if checked.Failure? {
        error := checked.error;
      } else {
        var oldItem := FindMenuItem(menuItems, item.itemId);
        var oldValue := if oldItem.Some? then Some((oldItem.value.itemName, oldItem.value.price)) else None;
        if writeError.Some? {
          error := MessageOr(writeError.value, SaveFailed);
        } else {
          if TableValid(table) {
            UpdateKeepsValid(table, item);
          }
          table := UpdateRow(table, item.itemId, checked.value);
          if signedIn {
            audit := Some(PriceAudit(item.itemId, oldValue, checked.value));
          }
          success := Saved;
        }
      }
      loading := false;
    }
  }

  /**
   * Editing an item's price and saving the listed item records as the old
   * price the text just typed: the audit's old and new values come from the
   * same edit, never from the stored row.
   */
  lemma EditedPriceIsOldValue(items: seq<MenuItem>, itemId: string, text: string)
    requires FindMenuItem(items, itemId).Some?
    ensures var found := FindMenuItem(ChangeField(items, itemId, PriceField, text), itemId);
            found.Some? && found.value.price == Typed(text) &&
            found.value.itemName == FindMenuItem(items, itemId).value.itemName
  {
    FindAfterChange(items, itemId, PriceField, text);
  }
}

=== FILE: expenses_overview.dfy ===
/**
 * The expense form of the admin panel
 * (src/components/admin/ExpensesOverview.jsx): `addExpense` checks the name
 * and the cost, builds the row to insert, and on success puts the inserted
 * row at the head of the list and clears the six inputs.
 */
module ExpensesOverview {
  import opened Wrappers
  import opened Text
  import opened JsNumber
  import opened Calendar
  import opened DateString
  import opened DateUtils

  const NameRequired: string := "Expense name required"
  const CostInvalid: string := "Cost must be a non-negative number"
  const AddFailed: string := "Failed to add expense."
  const Added: string := "Expense added."

  /** The six inputs of the form, as typed. */
  datatype ExpenseForm = ExpenseForm(expenseName: string, quantity: string, cost: string, date: string,
                                     supplier: string, stallId: string)

  const EmptyForm: ExpenseForm := ExpenseForm("", "", "", "", "", "")

  /** The `expenses` row inserted; an empty input is stored as `null`. */
  datatype Payload = Payload(expenseName: string, quantity: Option<string>, cost: Number, date: string,
                             supplierName: Option<string>, stallId: Option<string>)

  /**
   * The row as the table stores it and the insert returns it. The client
   * sends the payload through `JSON.stringify`, which writes NaN and the
   * infinities as `null`, so the cost is `None` for those.
   */
  datatype StoredRow = StoredRow(expenseName: string, quantity: Option<string>, cost: Option<real>, date: string,
                                 supplierName: Option<string>, stallId: Option<string>)

  /** A listed expense: the row the insert returns, with the id and creation time the table gave it. */
  datatype Expense = Expense(expenseId: string, createdAt: string, fields: StoredRow)

  /** How `JSON.stringify` writes a number: a finite one as itself, NaN and the infinities as `null`. */
  function JsonNumber(n: Number): (r: Option<real>)
    ensures r.Some? <==> n.Finite?
    ensures n.Finite? ==> r == Some(n.value)
  {
    if n.Finite? then Some(n.value) else None
  }

  /** The row the payload becomes once sent: every field as typed, the cost as `JSON.stringify` writes it. */
  function StoredRowOf(p: Payload): (r: StoredRow)
    ensures r.expenseName == p.expenseName && r.quantity == p.quantity && r.date == p.date
    ensures r.supplierName == p.supplierName && r.stallId == p.stallId
    ensures r.cost == JsonNumber(p.cost)
  {
    StoredRow(p.expenseName, p.quantity, JsonNumber(p.cost), p.date, p.supplierName, p.stallId)
  }

  /**
   * A cost that reads as NaN or an infinity passes the checks and is
   * listed as `null`; one that reads as a finite number is listed as that
   * number, never below zero.
   */
  lemma AcceptedCostStored(form: ExpenseForm, now: int)
    requires CheckForm(form).None?
    ensures var c := StoredRowOf(PayloadOf(form, now)).cost;
            (c.None? <==> !ParseNumber(form.cost).Finite?) &&
            (c.Some? ==> c.value == ParseNumber(form.cost).value && c.value >= 0.0)
  {
    hide GetPHDateString;
    AcceptedCostNotNegative(form, now);
  }

  /**
   * The two checks, in order: a name is required, then a cost that is not
   * empty and not below zero (a cost that is not a number passes, as
   * `NaN < 0` is false).
   */
  function CheckForm(form: ExpenseForm): (r: Option<string>)
    ensures r == Some(NameRequired) <==> form.expenseName == ""
    ensures r == Some(CostInvalid) <==> form.expenseName != "" && (form.cost == "" || LessThanZero(ParseNumber(form.cost)))
    ensures r.None? <==> form.expenseName != "" && form.cost != "" && !LessThanZero(ParseNumber(form.cost))
  {
    if form.expenseName == "" then Some(NameRequired)
    else if form.cost == "" || LessThanZero(ParseNumber(form.cost)) then Some(CostInvalid)
    else None
  }

  /** The payload: the typed values, today's Manila date when none is chosen, `null` for the empty optional inputs. */
  function PayloadOf(form: ExpenseForm, now: int): (p: Payload)
    ensures p.expenseName == form.expenseName && p.cost == ParseNumber(form.cost)
    ensures p.quantity == NullIfEmpty(form.quantity) && p.supplierName == NullIfEmpty(form.supplier) &&
            p.stallId == NullIfEmpty(form.stallId)
    ensures p.date == if form.date != "" then form.date else GetPHDateString(now)
  {
    Payload(form.expenseName, NullIfEmpty(form.quantity), ParseNumber(form.cost),
            if form.date != "" then form.date else GetPHDateString(now),
            NullIfEmpty(form.supplier), NullIfEmpty(form.stallId))
  }

  /** An accepted form never stores a negative cost. */
  lemma AcceptedCostNotNegative(form: ExpenseForm, now: int)
    requires CheckForm(form).None?
    ensures !LessThanZero(PayloadOf(form, now).cost)
  {
    hide ParseNumber, GetPHDateString;
  }

  /** Without a chosen date the row is dated with the Manila calendar day of the moment it is added. */
  lemma DefaultDateIsManilaToday(form: ExpenseForm, now: int)
    requires form.date == "" && FourDigitYear(PHDateOf(now))
    ensures Parse(PayloadOf(form, now).date) == Some(PHDateOf(now))
  {
    hide ParseNumber, GetPHDateString, Parse;
  }

  /** With a name, a whole-number cost is accepted exactly when it is not below zero. */
  lemma WholeCostAccepted(form: ExpenseForm, cost: int)
    requires form.expenseName != "" && form.cost == IntToString(cost)
    ensures CheckForm(form).None? <==> cost >= 0
  {
    hide ParseNumber, IntToString;
    ParseIntToString(cost);
  }

  /** The expense panel's inputs, flags, messages and list. */
  class ExpensePanel {
    var expenseName: string
    var quantity: string
    var cost: string
    var date: string
    var supplier: string
    var stallId: string
    var loading: bool
    var error: string
    var success: string
    var expenses: seq<Expense>

    constructor(expenses: seq<Expense>)
      ensures Form() == EmptyForm && this.expenses == expenses
      ensures !loading && error == "" && success == ""
    {
      expenseName, quantity, cost, date, supplier, stallId := "", "", "", "", "", "";
      this.expenses := expenses;
      loading := false;
      error := "";
      success := "";
    }

    /** The six inputs. */
    function Form(): ExpenseForm
      reads this`expenseName, this`quantity, this`cost, this`date, this`supplier, this`stallId
    {
      ExpenseForm(expenseName, quantity, cost, date, supplier, stallId)
    }

    /** The six `set...('')` calls after a successful insert. */
    method ClearForm()
      modifies this`expenseName, this`quantity, this`cost, this`date, this`supplier, this`stallId
      ensures Form() == EmptyForm
    {
      expenseName := "";
      quantity := "";
      cost := "";
      date := "";
      supplier := "";
      stallId := "";
    }

    /**
     * `addExpense` at instant `now`, given the insert's reply (the id and
     * creation time of the new row, or the error thrown) and whether a
     * profile is loaded.  A refused form and a failed insert leave the inputs
     * and the list as they were; a successful insert puts the new row first
     * and clears every input, and for a signed-in user hands the audit log
     * the new row's id and the inserted values.  The loading flag is clear
     * again on every path.
     */
    method AddExpense(now: int, reply: Result<(string, string)>, signedIn: bool) returns (audit: Option<(string, Payload)>)
      modifies this`expenseName, this`quantity, this`cost, this`date, this`supplier, this`stallId
      modifies this`loading, this`error, this`success, this`expenses
      ensures !loading
      ensures CheckForm(old(Form())).Some? ==>
                error == CheckForm(old(Form())).value && success == "" &&
                expenses == old(expenses) && Form() == old(Form())
      ensures CheckForm(old(Form())).None? && reply.Failure? ==>
                error == MessageOr(reply.error, AddFailed) && success == "" &&
                expenses == old(expenses) && Form() == old(Form())
      ensures CheckForm(old(Form())).None? && reply.Ok? ==>
                error == "" && success == Added && Form() == EmptyForm &&
                expenses == [Expense(reply.value.0, reply.value.1, StoredRowOf(PayloadOf(old(Form()), now)))] + old(expenses)
      ensures audit.Some? <==> CheckForm(old(Form())).None? && reply.Ok? && signedIn
      ensures audit.Some? ==> audit.value == (reply.value.0, PayloadOf(old(Form()), now))
    {
      hide CheckForm, PayloadOf, StoredRowOf, MessageOr, ParseNumber, GetPHDateString, Trim, LessThanZero, NullIfEmpty;
      loading := true;
      error := "";
      success := "";
      audit := None;
      var refusal := CheckForm(Form());
      if refusal.Some? {
        error := refusal.value;
      } else {
        var payload := PayloadOf(Form(), now);
        match reply
        case Failure(message) =>
          error := MessageOr(message, AddFailed);
        case Ok((expenseId, createdAt)) =>
          if signedIn {
            audit := Some((expenseId, payload));
          }
          expenses := [Expense(expenseId, createdAt, StoredRowOf(payload))] + expenses;
          ClearForm();
          success := Added;
      }
      loading := false;
    }
  }
}

=== FILE: grouping.dfy ===
/**
 * The accumulation the dashboard pages write out by hand several times:
 * `rows.forEach(r => { if (!acc[key]) acc[key] = {…, total: 0, count: 0};
 * acc[key].total += amount; acc[key].count += 1; … })` followed by
 * `Object.values(acc)`.  Each use reduces a row to an `Entry`: its key, the
 * display name the group takes from its first row, the amount it adds and
 * (for sales) the date it was made.
 */
module Grouping {
  import opened Wrappers
  import opened JsonValue
  import opened JsObject

  /** A stored date (`None` for null) with the time `new Date(date)` reads from it (`None` for NaN). */
  datatype Stamp = Stamp(date: Option<string>, time: Option<int>)

  /** The `null` a group's latest date starts from. */
  const NullStamp: Stamp := Stamp(None, Some(0))

  /** What one row contributes to its group. */
  datatype Entry = Entry(key: string, name: string, amount: int, stamp: Stamp)

  /** The accumulated object of one key. */
  datatype Tally = Tally(key: string, name: string, total: int, count: nat, latest: Stamp)

  /**
   * `!acc.latest || new Date(s) > new Date(acc.latest)`: a null or empty
   * latest date is always replaced; otherwise only a strictly later valid
   * time replaces it (any comparison with NaN is false).
   */
  predicate Replaces(s: Stamp, latest: Stamp)
  {
    latest.date.None? || latest.date.value == "" ||
    (s.time.Some? && latest.time.Some? && s.time.value > latest.time.value)
  }

  /** The object created for the first row of a key. */
  function Fresh(e: Entry): (t: Tally)
    ensures t.key == e.key && t.name == e.name && t.total == 0 && t.count == 0 && t.latest == NullStamp
  {
    Tally(e.key, e.name, 0, 0, NullStamp)
  }

  /** The updates one row makes to the object of its key. */
  function Add(t: Tally, e: Entry): (t': Tally)
    ensures t'.key == t.key && t'.name == t.name
    ensures t'.total == t.total + e.amount && t'.count == t.count + 1
    ensures t'.latest == (if Replaces(e.stamp, t.latest) then e.stamp else t.latest)
  {
    Tally(t.key, t.name, t.total + e.amount, t.count + 1,
          if Replaces(e.stamp, t.latest) then e.stamp else t.latest)
  }

  // ---------------------------------------------------------------------------
  // What each group should hold
  // ---------------------------------------------------------------------------

  function KeysOf(es: seq<Entry>): (ks: seq<string>)
    ensures |ks| == |es| && forall i :: 0 <= i < |es| ==> ks[i] == es[i].key
  {
    seq(|es|, i requires 0 <= i < |es| => es[i].key)
  }

  /** The keys in the order the rows first mention them. */
  function FirstSeen(es: seq<Entry>): seq<string>
  {
    Distinct(KeysOf(es))
  }

  /** The rows of key `k`, in order. */
  function RowsOf(es: seq<Entry>, k: string): (r: seq<Entry>)
    ensures |r| <= |es|
  {
    if es == [] then []
    else
      var r := RowsOf(es[..|es| - 1], k);
      if es[|es| - 1].key == k then r + [es[|es| - 1]] else r
  }

  /** The sum of the amounts. */
  function Total(es: seq<Entry>): int
  {
    if es == [] then 0 else Total(es[..|es| - 1]) + es[|es| - 1].amount
  }

  /** The date kept as the latest after the rows, in order. */
  function Latest(es: seq<Entry>): Stamp
  {
    if es == [] then NullStamp
    else
      var l := Latest(es[..|es| - 1]);
      if Replaces(es[|es| - 1].stamp, l) then es[|es| - 1].stamp else l
  }

  /** The group of key `k`: the first row's name, the sum and number of its rows, their latest date. */
  function TallyOf(es: seq<Entry>, k: string): Tally
  {
    var rows := RowsOf(es, k);
    Tally(k, if rows == [] then "" else rows[0].name, Total(rows), |rows|, Latest(rows))
  }

  /** `Object.values(acc)`: the groups in the enumeration order of their keys. */
  function Grouped(es: seq<Entry>): (gs: seq<Tally>)
  {
    var order := EnumerationOrder(FirstSeen(es));
    seq(|order|, i requires 0 <= i < |order| => TallyOf(es, order[i]))
  }

  // ---------------------------------------------------------------------------
  // The accumulation
  // ---------------------------------------------------------------------------

  lemma KeysOfAppend(es: seq<Entry>, e: Entry)
    ensures KeysOf(es + [e]) == KeysOf(es) + [e.key]
  {
  }

  /** A key has rows exactly when some row mentions it. */
  lemma {:induction false} RowsOfEmpty(es: seq<Entry>, k: string)
    ensures RowsOf(es, k) == [] <==> k !in FirstSeen(es)
    decreases |es|
  {
    if es != [] {
      var init := es[..|es| - 1];
      RowsOfEmpty(init, k);
      assert es == init + [es[|es| - 1]];
      KeysOfAppend(init, es[|es| - 1]);
    }
  }

  lemma RowsOfAppend(es: seq<Entry>, e: Entry, k: string)
    ensures RowsOf(es + [e], k) == RowsOf(es, k) + (if e.key == k then [e] else [])
  {
    assert (es + [e])[..|es|] == es;
  }

  lemma TotalAppend(rows: seq<Entry>, e: Entry)
    ensures Total(rows + [e]) == Total(rows) + e.amount
  {
    assert (rows + [e])[..|rows|] == rows;
  }

  lemma LatestAppend(rows: seq<Entry>, e: Entry)
    ensures Latest(rows + [e]) == (if Replaces(e.stamp, Latest(rows)) then e.stamp else Latest(rows))
  {
    assert (rows + [e])[..|rows|] == rows;
  }

  lemma TallyOfOtherKey(es: seq<Entry>, e: Entry, k: string)
    requires e.key != k
    ensures TallyOf(es + [e], k) == TallyOf(es, k)
  {
    hide Total, Latest;
    RowsOfAppend(es, e, k);
  }

  lemma TallyOfNewKey(es: seq<Entry>, e: Entry)
    requires e.key !in FirstSeen(es)
    ensures TallyOf(es + [e], e.key) == Add(Fresh(e), e)
  {
    hide FirstSeen, Replaces;
    RowsOfEmpty(es, e.key);
    RowsOfAppend(es, e, e.key);
    assert RowsOf(es + [e], e.key) == [] + [e];
    TotalAppend([], e);
    LatestAppend([], e);
  }

  lemma TallyOfSeenKey(es: seq<Entry>, e: Entry)
    requires e.key in FirstSeen(es)
    ensures TallyOf(es + [e], e.key) == Add(TallyOf(es, e.key), e)
  {
    hide FirstSeen, Replaces, Total, Latest;
    RowsOfEmpty(es, e.key);
    RowsOfAppend(es, e, e.key);
    var rows := RowsOf(es, e.key);
    TotalAppend(rows, e);
    LatestAppend(rows, e);
    assert (rows + [e])[0] == rows[0];
  }

  /** One more row changes only the group of its own key, by `Fresh` and `Add`. */
  lemma TallyStep(es: seq<Entry>, e: Entry, k: string)
    ensures e.key != k ==> TallyOf(es + [e], k) == TallyOf(es, k)
    ensures e.key == k && k !in FirstSeen(es) ==> TallyOf(es + [e], k) == Add(Fresh(e), e)
    ensures e.key == k && k in FirstSeen(es) ==> TallyOf(es + [e], k) == Add(TallyOf(es, k), e)
  {
    hide TallyOf, FirstSeen, Add, Fresh;
    if e.key != k {
      TallyOfOtherKey(es, e, k);
    } else if k !in FirstSeen(es) {
      TallyOfNewKey(es, e);
    } else {
      TallyOfSeenKey(es, e);
    }
  }

  lemma FirstSeenStep(es: seq<Entry>, e: Entry)
    ensures FirstSeen(es + [e]) == FirstSeen(es) + (if e.key in FirstSeen(es) then [] else [e.key])
  {
    KeysOfAppend(es, e);
    assert (KeysOf(es) + [e.key])[..|es|] == KeysOf(es);
  }

  /** The object after the rows `es`: one member per key seen, holding that key's group. */
  ghost predicate Holds(acc: map<string, Tally>, order: seq<string>, es: seq<Entry>)
  {
    order == FirstSeen(es) &&
    (forall k :: k in acc <==> k in order) &&
    (forall k :: k in acc ==> acc[k] == TallyOf(es, k))
  }

  /** One turn of the `forEach` keeps `Holds`. */
  lemma AccumulateStep(acc: map<string, Tally>, order: seq<string>, es: seq<Entry>, e: Entry)
    requires Holds(acc, order, es)
    ensures var acc1 := if e.key in acc then acc else acc[e.key := Fresh(e)];
            var order1 := if e.key in acc then order else order + [e.key];
            Holds(acc1[e.key := Add(acc1[e.key], e)], order1, es + [e])
  {
    FirstSeenStep(es, e);
    hide FirstSeen, RowsOf, Total, Latest, Replaces;
    forall k {
      TallyStep(es, e, k);
    }
  }

  /** Reading the object back with `Object.values` gives the groups. */
  lemma ValuesOf(acc: map<string, Tally>, order: seq<string>, es: seq<Entry>)
    requires Holds(acc, order, es)
    ensures var keys := EnumerationOrder(order);
            (forall j :: 0 <= j < |keys| ==> keys[j] in acc) &&
            seq(|keys|, j requires 0 <= j < |keys| && keys[j] in acc => acc[keys[j]]) == Grouped(es)
  {
    var keys := EnumerationOrder(order);
    assert multiset(keys) == multiset(order) by {
      EnumerationOrderShape(order);
    }
    assert forall k :: k in acc <==> k in order;
    assert forall k :: k in acc ==> acc[k] == TallyOf(es, k);
    var g := Grouped(es);
    assert |g| == |keys| && forall j :: 0 <= j < |keys| ==> g[j] == TallyOf(es, keys[j]);
    hide *;
    KeysInAcc(acc, order, keys);
    var lhs := seq(|keys|, j requires 0 <= j < |keys| && keys[j] in acc => acc[keys[j]]);
    assert forall j :: 0 <= j < |keys| ==> lhs[j] == g[j];
  }

  /** Every key of a rearranged key list has an object when every listed key has one. */
  lemma KeysInAcc(acc: map<string, Tally>, order: seq<string>, keys: seq<string>)
    requires forall k :: k in acc <==> k in order
    requires multiset(keys) == multiset(order)
    ensures forall j :: 0 <= j < |keys| ==> keys[j] in acc
  {
    forall j | 0 <= j < |keys| ensures keys[j] in acc {
      assert keys[j] in multiset(order);
    }
  }

  /** The `forEach` that fills the object, then `Object.values`. */
  method Accumulate(es: seq<Entry>) returns (groups: seq<Tally>)
    ensures groups == Grouped(es)
  {
    var acc: map<string, Tally> := map[];
    var order: seq<string> := [];
    var i := 0;
    assert es[..0] == [] && KeysOf([]) == [];
    hide *;
    while i < |es|
      invariant 0 <= i <= |es|
      invariant Holds(acc, order, es[..i])
    {
      var e := es[i];
      assert es[..i + 1] == es[..i] + [e];
      AccumulateStep(acc, order, es[..i], e);
      if e.key !in acc {
        acc := acc[e.key := Fresh(e)];
        order := order + [e.key];
      }
      acc := acc[e.key := Add(acc[e.key], e)];
      i := i + 1;
    }
    assert es[..i] == es;
    ValuesOf(acc, order, es);
    var keys := EnumerationOrder(order);
    groups := seq(|keys|, j requires 0 <= j < |keys| && keys[j] in acc => acc[keys[j]]);
  }

  /** A date that is set and that `new Date` reads as a valid time. */
  predicate ValidStamp(s: Stamp)
  {
    s.date.Some? && s.date.value != "" && s.time.Some?
  }

  /** The time a row's date denotes (0 when it is NaN). */
  function TimeOf(e: Entry): int
  {
    if e.stamp.time.Some? then e.stamp.time.value else 0
  }

  /**
   * When every row has a valid date, the latest kept is the date of the row
   * with the largest time, the first such row when several tie.
   */
  lemma {:induction false} LatestIsFirstMaximum(rows: seq<Entry>)
    requires rows != []
    requires forall i :: 0 <= i < |rows| ==> ValidStamp(rows[i].stamp)
    ensures ValidStamp(Latest(rows))
    ensures forall i :: 0 <= i < |rows| ==> TimeOf(rows[i]) <= Latest(rows).time.value
    ensures exists j :: 0 <= j < |rows| && rows[j].stamp == Latest(rows) &&
                        forall i :: 0 <= i < j ==> TimeOf(rows[i]) < Latest(rows).time.value
    decreases |rows|
  {
    var init, e := rows[..|rows| - 1], rows[|rows| - 1];
    if init == [] {
      assert Latest(rows) == e.stamp;
      assert rows[0] == e;
    } else {
      LatestIsFirstMaximum(init);
      var l := Latest(init);
      var j :| 0 <= j < |init| && init[j].stamp == l &&
               forall i :: 0 <= i < j ==> TimeOf(init[i]) < l.time.value;
      assert Latest(rows) == (if Replaces(e.stamp, l) then e.stamp else l);
      if Replaces(e.stamp, l) {
        assert rows[|rows| - 1].stamp == Latest(rows);
      } else {
        assert rows[j].stamp == Latest(rows);
      }
    }
  }

  // ---------------------------------------------------------------------------
  // The groups partition the rows
  // ---------------------------------------------------------------------------

  /** The sum, over a list of keys, of the totals of their rows. */
  function KeyTotals(es: seq<Entry>, keys: seq<string>): int
  {
    if keys == [] then 0 else KeyTotals(es, keys[..|keys| - 1]) + Total(RowsOf(es, keys[|keys| - 1]))
  }

  lemma {:induction false} KeyTotalsAppend(es: seq<Entry>, a: seq<string>, b: seq<string>)
    ensures KeyTotals(es, a + b) == KeyTotals(es, a) + KeyTotals(es, b)
    decreases |b|
  {
    if b == [] {
      assert a + b == a;
    } else {
      assert (a + b)[..|a + b| - 1] == a + b[..|b| - 1];
      KeyTotalsAppend(es, a, b[..|b| - 1]);
    }
  }

  /** The last key of `a` sits somewhere in its rearrangement `b`; the rest of both still match. */
  lemma MatchLast(a: seq<string>, b: seq<string>) returns (j: int)
    requires multiset(a) == multiset(b) && a != []
    ensures 0 <= j < |b| && b[j] == a[|a| - 1]
    ensures multiset(a[..|a| - 1]) == multiset(b[..j] + b[j + 1..])
  {
    var a', x := a[..|a| - 1], a[|a| - 1];
    assert a == a' + [x];
    assert x in multiset(b);
    j :| 0 <= j < |b| && b[j] == x;
    assert b == b[..j] + [x] + b[j + 1..];
    assert multiset(b) == multiset(b[..j] + b[j + 1..]) + multiset{x};
    assert multiset(a') == multiset(a) - multiset{x};
    assert multiset(b[..j] + b[j + 1..]) == multiset(b) - multiset{x};
  }

  /** Summing over a rearrangement of the keys gives the same sum. */
  lemma {:induction false} KeyTotalsPermutation(es: seq<Entry>, a: seq<string>, b: seq<string>)
    requires multiset(a) == multiset(b)
    ensures KeyTotals(es, a) == KeyTotals(es, b)
    decreases |a|
  {
    if a == [] {
      assert |multiset(b)| == 0;
    } else {
      var a', x := a[..|a| - 1], a[|a| - 1];
      assert KeyTotals(es, a) == KeyTotals(es, a') + Total(RowsOf(es, x));
      KeyTotalsSingle(es, x);
      var j := MatchLast(a, b);
      var b' := b[..j] + b[j + 1..];
      assert b == b[..j] + [x] + b[j + 1..];
      hide *;
      KeyTotalsPermutation(es, a', b');
      KeyTotalsAppend(es, b[..j] + [x], b[j + 1..]);
      KeyTotalsAppend(es, b[..j], [x]);
      KeyTotalsAppend(es, b[..j], b[j + 1..]);
    }
  }

  lemma KeyTotalsSingle(es: seq<Entry>, k: string)
    ensures KeyTotals(es, [k]) == Total(RowsOf(es, k))
  {
    assert [k][..0] == [];
  }

  /** One more row adds its amount to the sum over any list of distinct keys that has its key. */
  lemma {:induction false} KeyTotalsStep(es: seq<Entry>, e: Entry, keys: seq<string>)
    requires forall i, j :: 0 <= i < j < |keys| ==> keys[i] != keys[j]
    ensures KeyTotals(es + [e], keys) == KeyTotals(es, keys) + (if e.key in keys then e.amount else 0)
    decreases |keys|
  {
    if keys != [] {
      var init, k := keys[..|keys| - 1], keys[|keys| - 1];
      KeyTotalsStep(es, e, init);
      RowsOfAppend(es, e, k);
      if e.key == k {
        TotalAppend(RowsOf(es, k), e);
        assert k !in init;
      }
      assert e.key in keys <==> e.key in init || e.key == k;
    }
  }

  lemma FirstSeenDistinct(es: seq<Entry>)
    ensures forall i, j :: 0 <= i < j < |FirstSeen(es)| ==> FirstSeen(es)[i] != FirstSeen(es)[j]
  {
  }

  /** Summed over the keys in first-seen order, the groups' totals are the total of all rows. */
  lemma {:induction false} FirstSeenConserves(es: seq<Entry>)
    ensures KeyTotals(es, FirstSeen(es)) == Total(es)
    decreases |es|
  {
    if es == [] {
      assert KeysOf(es) == [];
      assert FirstSeen(es) == [];
      assert KeyTotals(es, FirstSeen(es)) == 0;
    } else {
      var init, e := es[..|es| - 1], es[|es| - 1];
      assert es == init + [e];
      assert Total(es) == Total(init) + e.amount;
      var seen := FirstSeen(init);
      hide *;
      FirstSeenConserves(init);
      KeyTotalsOfLastRow(init, e);
      FirstSeenStep(init, e);
      if e.key !in seen {
        KeyTotalsOfNewKey(init, e.key);
        assert KeyTotals(init, FirstSeen(es)) == KeyTotals(init, seen + [e.key]);
      } else {
        assert seen + [] == seen;
        assert FirstSeen(es) == seen;
      }
      assert KeyTotals(init, FirstSeen(es)) == Total(init);
    }
  }

  /** The last row adds its amount to the sum over the keys first seen in all rows. */
  lemma KeyTotalsOfLastRow(init: seq<Entry>, e: Entry)
    ensures KeyTotals(init + [e], FirstSeen(init + [e])) == KeyTotals(init, FirstSeen(init + [e])) + e.amount
  {
    var keys := FirstSeen(init + [e]);
    FirstSeenDistinct(init + [e]);
    hide FirstSeen, KeyTotals;
    FirstSeenStep(init, e);
    assert e.key in keys;
    KeyTotalsStep(init, e, keys);
  }

  /** A key no row has adds nothing to the sum over the rows' keys. */
  lemma KeyTotalsOfNewKey(es: seq<Entry>, k: string)
    requires k !in FirstSeen(es)
    ensures KeyTotals(es, FirstSeen(es) + [k]) == KeyTotals(es, FirstSeen(es))
  {
    assert Total([]) == 0;
    hide *;
    KeyTotalsAppend(es, FirstSeen(es), [k]);
    RowsOfEmpty(es, k);
    KeyTotalsSingle(es, k);
  }

  function GroupTotal(gs: seq<Tally>): int
  {
    if gs == [] then 0 else GroupTotal(gs[..|gs| - 1]) + gs[|gs| - 1].total
  }

  lemma {:induction false} GroupTotalOfKeys(es: seq<Entry>, keys: seq<string>)
    ensures GroupTotal(seq(|keys|, i requires 0 <= i < |keys| => TallyOf(es, keys[i]))) == KeyTotals(es, keys)
    decreases |keys|
  {
    if keys != [] {
      var init := keys[..|keys| - 1];
      GroupTotalOfKeys(es, init);
      var gs := seq(|keys|, i requires 0 <= i < |keys| => TallyOf(es, keys[i]));
      assert gs[..|gs| - 1] == seq(|init|, i requires 0 <= i < |init| => TallyOf(es, init[i]));
    }
  }

  /** The groups list each key that some row has, once each. */
  lemma GroupedKeys(es: seq<Entry>)
    ensures var gs := Grouped(es);
            (forall i, j :: 0 <= i < j < |gs| ==> gs[i].key != gs[j].key) &&
            (forall k :: k in FirstSeen(es) <==> exists i :: 0 <= i < |gs| && gs[i].key == k)
  {
    var order := EnumerationOrder(FirstSeen(es));
    EnumerationOrderShape(FirstSeen(es));
    EnumerationOrderDistinct(FirstSeen(es));
    var gs := Grouped(es);
    assert forall i :: 0 <= i < |gs| ==> gs[i].key == order[i];
    forall k ensures k in FirstSeen(es) <==> exists i :: 0 <= i < |gs| && gs[i].key == k {
      if k in FirstSeen(es) {
        assert k in multiset(order);
        var i :| 0 <= i < |order| && order[i] == k;
        assert gs[i].key == k;
      }
      if exists i :: 0 <= i < |gs| && gs[i].key == k {
        var i :| 0 <= i < |gs| && gs[i].key == k;
        assert order[i] in multiset(FirstSeen(es));
      }
    }
  }

  /** Every row lands in exactly one group: the groups' totals add up to the total of all rows. */
  lemma GroupedConserves(es: seq<Entry>)
    ensures GroupTotal(Grouped(es)) == Total(es)
  {
    var order := EnumerationOrder(FirstSeen(es));
    EnumerationOrderShape(FirstSeen(es));
    GroupTotalOfKeys(es, order);
    KeyTotalsPermutation(es, order, FirstSeen(es));
    FirstSeenConserves(es);
  }

  // ---------------------------------------------------------------------------
  // Grouping rows of any kind
  // ---------------------------------------------------------------------------

  /** The entries a list of rows contributes, row by row. */
  function EntriesOf<R>(rows: seq<R>, entry: R -> Entry): (es: seq<Entry>)
    ensures |es| == |rows| && forall i :: 0 <= i < |rows| ==> es[i] == entry(rows[i])
  {
    seq(|rows|, i requires 0 <= i < |rows| => entry(rows[i]))
  }

  /** The rows whose entry has key `k`, in order. */
  function RowsWithKey<R>(rows: seq<R>, entry: R -> Entry, k: string): (r: seq<R>)
    ensures |r| <= |rows|
  {
    if rows == [] then []
    else
      var r := RowsWithKey(rows[..|rows| - 1], entry, k);
      if entry(rows[|rows| - 1]).key == k then r + [rows[|rows| - 1]] else r
  }

  lemma EntriesOfPrefix<R>(rows: seq<R>, entry: R -> Entry)
    requires rows != []
    ensures EntriesOf(rows, entry) == EntriesOf(rows[..|rows| - 1], entry) + [entry(rows[|rows| - 1])]
  {
    assert EntriesOf(rows, entry)[..|rows| - 1] == EntriesOf(rows[..|rows| - 1], entry);
  }

  /** Every row kept for key `k` is a row of the list with that key. */
  lemma {:induction false} RowsWithKeyOf<R>(rows: seq<R>, entry: R -> Entry, k: string)
    ensures forall x :: x in RowsWithKey(rows, entry, k) ==> x in rows && entry(x).key == k
    decreases |rows|
  {
    if rows != [] {
      RowsWithKeyOf(rows[..|rows| - 1], entry, k);
    }
  }

  /** The entries grouped under `k` are the entries of the rows with that key. */
  lemma {:induction false} RowsOfEntries<R>(rows: seq<R>, entry: R -> Entry, k: string)
    ensures RowsOf(EntriesOf(rows, entry), k) == EntriesOf(RowsWithKey(rows, entry, k), entry)
    decreases |rows|
  {
    if rows != [] {
      var init, row := rows[..|rows| - 1], rows[|rows| - 1];
      RowsOfEntries(init, entry, k);
      EntriesOfPrefix(rows, entry);
      RowsOfAppend(EntriesOf(init, entry), entry(row), k);
      if entry(row).key == k {
        EntriesOfPrefix(RowsWithKey(rows, entry, k), entry);
      }
    }
  }

  /**
   * `g` summarises the rows of its key: it has the first such row's name,
   * the sum of their amounts, their number and the latest of their dates.
   */
  ghost predicate Summarises<R>(rows: seq<R>, entry: R -> Entry, g: Tally)
  {
    var rs := RowsWithKey(rows, entry, g.key);
    rs != [] && g.name == entry(rs[0]).name && g.total == Total(EntriesOf(rs, entry)) &&
    g.count == |rs| && g.latest == Latest(EntriesOf(rs, entry))
  }

  lemma SummaryOfKey<R>(rows: seq<R>, entry: R -> Entry, k: string)
    requires k in FirstSeen(EntriesOf(rows, entry))
    ensures Summarises(rows, entry, TallyOf(EntriesOf(rows, entry), k))
  {
    RowsOfEntries(rows, entry, k);
    RowsOfEmpty(EntriesOf(rows, entry), k);
  }

  /**
   * Grouping rows: one group per key that some row has, each summarising
   * exactly the rows of its key, and together accounting for every amount.
   */
  lemma GroupedRows<R>(rows: seq<R>, entry: R -> Entry)
    ensures var gs := Grouped(EntriesOf(rows, entry));
            (forall i, j :: 0 <= i < j < |gs| ==> gs[i].key != gs[j].key) &&
            (forall k :: RowsWithKey(rows, entry, k) != [] <==> exists j :: 0 <= j < |gs| && gs[j].key == k) &&
            (forall j :: 0 <= j < |gs| ==> Summarises(rows, entry, gs[j]))
    ensures GroupTotal(Grouped(EntriesOf(rows, entry))) == Total(EntriesOf(rows, entry))
  {
    var es := EntriesOf(rows, entry);
    var gs := Grouped(es);
    GroupedKeys(es);
    GroupedConserves(es);
    var order := EnumerationOrder(FirstSeen(es));
    EnumerationOrderShape(FirstSeen(es));
    assert |gs| == |order| && forall j :: 0 <= j < |gs| ==> gs[j] == TallyOf(es, order[j]);
    hide *;
    forall k ensures RowsWithKey(rows, entry, k) != [] <==> exists j :: 0 <= j < |gs| && gs[j].key == k {
      RowsOfEntries(rows, entry, k);
      RowsOfEmpty(es, k);
    }
    forall j | 0 <= j < |gs| ensures Summarises(rows, entry, gs[j]) {
      assert order[j] in multiset(FirstSeen(es));
      SummaryOfKey(rows, entry, order[j]);
    }
  }
}

=== FILE: js_number.dfy ===
/**
 * JavaScript's `Number(s)` on the strings the admin forms hold: surrounding
 * white space is ignored, the empty string is 0, an optional sign is
 * followed by `Infinity` or by a decimal literal (digits with an optional
 * fraction, at least one digit in all, and an optional exponent), and
 * anything else is NaN.  Finite values are kept as exact reals.
 */
module JsNumber {
  import opened Wrappers
  import opened Text

  /** A JavaScript number: NaN, an infinity, or a finite value. */
  datatype Number = NaN | Infinity(negative: bool) | Finite(value: real)

  /** `n < 0`: false for NaN, as every comparison with NaN is. */
  predicate LessThanZero(n: Number)
  {
    match n
    case NaN => false
    case Infinity(negative) => negative
    case Finite(v) => v < 0.0
  }

  /** `-n`. */
  function Negate(n: Number): Number
  {
    match n
    case NaN => NaN
    case Infinity(negative) => Infinity(!negative)
    case Finite(v) => Finite(-v)
  }

  /** `v * 10^e` for a whole exponent `e`. */
  function Scale(v: real, e: int): (r: real)
    ensures v >= 0.0 ==> r >= 0.0
  {
    if e >= 0 then v * Pow10(e) as real else v / Pow10(-e) as real
  }

  /** The value of the digits `whole`, a point, and the digits `fraction`. */
  function DecimalValue(whole: string, fraction: string): (v: real)
    requires AllDigits(whole) && AllDigits(fraction)
    ensures v >= 0.0
  {
    DigitsValue(whole) as real + DigitsValue(fraction) as real / Pow10(|fraction|) as real
  }

  /** A decimal literal without exponent: digits with an optional point and fraction, one digit at least. */
  function Mantissa(s: string): (r: Option<real>)
    ensures r.Some? ==> r.value >= 0.0
  {
    var dot := IndexOfChar(s, '.');
    if dot < 0 then
      if s != [] && AllDigits(s) then Some(DigitsValue(s) as real) else None
    else
      var whole, fraction := s[..dot], s[dot + 1..];
      if AllDigits(whole) && AllDigits(fraction) && |whole| + |fraction| > 0 then Some(DecimalValue(whole, fraction))
      else None
  }

  /** The exponent after `e` or `E`: an optional sign and one digit at least. */
  function Exponent(s: string): (r: Option<int>)
  {
    var negative := s != [] && s[0] == '-';
    var digits := if s != [] && (s[0] == '-' || s[0] == '+') then s[1..] else s;
    if digits != [] && AllDigits(digits) then
      var v: int := DigitsValue(digits);
      Some(if negative then -v else v)
    else None
  }

  /** An unsigned decimal literal with an optional exponent. */
  function UnsignedDecimal(s: string): (r: Option<real>)
    ensures r.Some? ==> r.value >= 0.0
  {
    var e := if IndexOfChar(s, 'e') >= 0 then IndexOfChar(s, 'e') else IndexOfChar(s, 'E');
    if e < 0 then Mantissa(s)
    else
      match (Mantissa(s[..e]), Exponent(s[e + 1..]))
      case (Some(m), Some(x)) => Some(Scale(m, x))
      case _ => None
  }

  /** A trimmed, non-empty string: an optional sign, then `Infinity` or an unsigned literal. */
  function Signed(t: string): (n: Number)
    requires t != []
    ensures LessThanZero(n) ==> t[0] == '-'
  {
    var negative := t[0] == '-';
    var body := if t[0] == '-' || t[0] == '+' then t[1..] else t;
    if body == "Infinity" then Infinity(negative)
    else
      match UnsignedDecimal(body)
      case None => NaN
      case Some(v) => Finite(if negative then -v else v)
  }

  /**
   * `Number(s)`.  Only a string whose trimmed text starts with a minus sign
   * is negative, and a blank string is 0.
   */
  function ParseNumber(s: string): (n: Number)
    ensures Trim(s) == "" ==> n == Finite(0.0)
    ensures LessThanZero(n) ==> Trim(s) != "" && Trim(s)[0] == '-'
  {
    var t := Trim(s);
    if t == "" then Finite(0.0) else Signed(t)
  }

  /** `Number.isFinite(n)`. */
  predicate IsFinite(n: Number)
  {
    n.Finite?
  }

  /** A string without white space trims to itself. */
  lemma TrimNoWhitespace(s: string)
    requires forall i :: 0 <= i < |s| ==> !IsWhitespace(s[i])
    ensures Trim(s) == s
  {
    assert TrimStart(s) == s;
    assert TrimEnd(s) == s;
  }

  /** A digit is not white space. */
  lemma DigitsNoWhitespace(s: string)
    requires AllDigits(s)
    ensures forall i :: 0 <= i < |s| ==> !IsWhitespace(s[i])
  {
  }

  /** A character that is not in a digit string. */
  lemma NotInDigits(s: string, c: char)
    requires AllDigits(s) && !IsDigit(c)
    ensures IndexOfChar(s, c) == -1
  {
  }

  /** A non-blank string without white space is read by `Signed` as it stands. */
  lemma ParseUntrimmed(s: string)
    requires s != []
    requires forall i :: 0 <= i < |s| ==> !IsWhitespace(s[i])
    ensures ParseNumber(s) == Signed(s)
  {
    hide Signed, IsWhitespace;
    TrimNoWhitespace(s);
  }

  /** Without an `e` or `E`, an unsigned literal is its mantissa. */
  lemma NoExponent(s: string)
    requires 'e' !in s && 'E' !in s
    ensures UnsignedDecimal(s) == Mantissa(s)
  {
    hide Mantissa, Exponent, Scale;
  }

  /** A digit string is its own unsigned literal. */
  lemma UnsignedDigits(s: string)
    requires s != [] && AllDigits(s)
    ensures UnsignedDecimal(s) == Some(DigitsValue(s) as real)
  {
    hide Exponent, Scale;
    NotInDigits(s, 'e');
    NotInDigits(s, 'E');
    NotInDigits(s, '.');
    NoExponent(s);
  }

  /** A literal that starts with a digit carries no sign. */
  lemma SignedDigitFirst(t: string)
    requires t != [] && IsDigit(t[0])
    ensures Signed(t) == (if UnsignedDecimal(t).Some? then Finite(UnsignedDecimal(t).value) else NaN)
  {
    hide UnsignedDecimal;
    assert t != "Infinity";
  }

  /** A run of decimal digits reads as its value. */
  lemma {:induction false} ParseDigits(s: string)
    requires s != [] && AllDigits(s)
    ensures ParseNumber(s) == Finite(DigitsValue(s) as real)
  {
    hide Signed, UnsignedDecimal, IsWhitespace;
    DigitsNoWhitespace(s);
    ParseUntrimmed(s);
    UnsignedDigits(s);
    SignedDigitFirst(s);
  }

  /** Wherever the stock inputs' digits-only reading gives a number, `Number` gives the same one. */
  lemma {:induction false} ParseNumberAgreesWithNumberOf(s: string)
    requires NumberOf(s).Some?
    ensures ParseNumber(s) == Finite(NumberOf(s).value as real)
  {
    hide Signed;
    var t := Trim(s);
    if AllDigits(s) && s != [] {
      ParseDigits(s);
    } else if t != [] {
      TrimIdempotent(s);
      ParseDigits(t);
      assert ParseNumber(t) == ParseNumber(s);
    }
  }

  /** A string of digits and points holds no white space. */
  lemma LiteralNoWhitespace(s: string)
    requires forall i :: 0 <= i < |s| ==> IsDigit(s[i]) || s[i] == '.'
    ensures forall i :: 0 <= i < |s| ==> !IsWhitespace(s[i])
  {
  }

  /** A minus sign in front of a string without white space adds none. */
  lemma SignNoWhitespace(s: string)
    requires forall i :: 0 <= i < |s| ==> !IsWhitespace(s[i])
    ensures forall i :: 0 <= i < |"-" + s| ==> !IsWhitespace(("-" + s)[i])
  {
    var m := "-" + s;
    assert m[0] == '-';
    assert forall i :: 1 <= i < |m| ==> m[i] == s[i - 1];
  }

  /** A minus sign in front of an unsigned literal negates its value. */
  lemma {:induction false} ParseNegated(s: string)
    requires s != [] && s[0] != '-' && s[0] != '+'
    requires forall i :: 0 <= i < |s| ==> !IsWhitespace(s[i])
    ensures ParseNumber("-" + s) == Negate(ParseNumber(s))
  {
    hide UnsignedDecimal, IsWhitespace, Trim;
    var m := "-" + s;
    SignNoWhitespace(s);
    ParseUntrimmed(s);
    ParseUntrimmed(m);
    assert m[1..] == s;
  }

  /** `Number(String(n))` gives back the natural number `n`. */
  lemma ParseNatToString(n: nat)
    ensures ParseNumber(NatToString(n)) == Finite(n as real)
  {
    hide ParseNumber, NatToString, Trim, TrimStart, TrimEnd;
    NatToStringValue(n);
    ParseDigits(NatToString(n));
  }

  /** A minus sign in front of the digits of `n` reads as `-n`. */
  lemma ParseNegatedNat(n: nat)
    ensures ParseNumber("-" + NatToString(n)) == Finite(-(n as real))
  {
    hide ParseNumber, NatToString, AllDigits, IsWhitespace, Trim, TrimStart, TrimEnd;
    var d := NatToString(n);
    NatToStringPlain(n);
    ParseNatToString(n);
    ParseNegated(d);
  }

  /** The digits of a natural number start with a digit and hold no white space. */
  lemma NatToStringPlain(n: nat)
    ensures var d := NatToString(n);
            d != [] && d[0] != '-' && d[0] != '+' && forall i :: 0 <= i < |d| ==> !IsWhitespace(d[i])
  {
    var d := NatToString(n);
    assert IsDigit(d[0]);
    DigitsNoWhitespace(d);
  }

  /** `Number(String(i))` gives back the integer `i`. */
  lemma {:induction false} ParseIntToString(i: int)
    ensures ParseNumber(IntToString(i)) == Finite(i as real)
  {
    hide ParseNumber, NatToString, Trim, TrimStart, TrimEnd;
    if i < 0 {
      ParseNegatedNat(-i);
    } else {
      ParseNatToString(i);
    }
  }

  /** The point after a run of digits is the first one. */
  lemma PointIndex(a: string, b: string)
    requires AllDigits(a)
    ensures IndexOfChar(a + "." + b, '.') == |a|
  {
    var s := a + "." + b;
    NotInDigits(a, '.');
    assert s[|a|] == '.';
    assert forall k :: 0 <= k < |a| ==> s[k] == a[k];
  }

  /** Digits, a point and digits form a mantissa worth their decimal value. */
  lemma MantissaWithPoint(a: string, b: string)
    requires a != [] && AllDigits(a) && AllDigits(b)
    ensures Mantissa(a + "." + b) == Some(DecimalValue(a, b))
  {
    hide DecimalValue, AllDigits;
    var s := a + "." + b;
    PointIndex(a, b);
    assert s[..|a|] == a && s[|a| + 1..] == b;
  }

  /** A literal made of digits and points has no exponent. */
  lemma NoExponentLetter(s: string)
    requires forall i :: 0 <= i < |s| ==> IsDigit(s[i]) || s[i] == '.'
    ensures 'e' !in s && 'E' !in s
  {
  }

  /** The decimal value of `whole` and the `w` digits of `fraction`. */
  lemma DecimalValueOf(whole: nat, fraction: nat, w: nat)
    requires fraction < Pow10(w)
    ensures AllDigits(NatToString(whole)) && AllDigits(Digits(fraction, w))
    ensures DecimalValue(NatToString(whole), Digits(fraction, w)) == whole as real + fraction as real / Pow10(w) as real
  {
    NatToStringValue(whole);
    DigitsValueOfDigits(fraction, w);
  }

  /** A price or cost written with a fraction, `whole.fraction`, reads as `whole + fraction / 10^w`. */
  lemma {:induction false} ParseDecimal(whole: nat, fraction: nat, w: nat)
    requires fraction < Pow10(w)
    ensures ParseNumber(NatToString(whole) + "." + Digits(fraction, w))
              == Finite(whole as real + fraction as real / Pow10(w) as real)
  {
    hide Signed, UnsignedDecimal, IsWhitespace, ParseNumber, Mantissa, DecimalValue, NatToString, Digits;
    var a, b := NatToString(whole), Digits(fraction, w);
    var s := a + "." + b;
    DecimalValueOf(whole, fraction, w);
    assert |a| >= 1 && AllDigits(a) && AllDigits(b);
    assert forall i :: 0 <= i < |s| ==> IsDigit(s[i]) || s[i] == '.';
    LiteralNoWhitespace(s);
    ParseUntrimmed(s);
    MantissaWithPoint(a, b);
    NoExponentLetter(s);
    NoExponent(s);
    assert IsDigit(s[0]);
    SignedDigitFirst(s);
  }
}

=== FILE: js_object.dfy ===
/**
 * The order in which `Object.keys` and `Object.values` list the properties of
 * an ordinary object (ECMA-262, section 10.1.11.1, OrdinaryOwnPropertyKeys):
 * first the keys that are array indices, in ascending numeric order, then the
 * other string keys in the order they were first added.  The dashboard builds
 * its groupings as plain objects keyed by stall id, item name or period and
 * reads them back with `Object.values`.
 */
module JsObject {
  import opened Text
  import opened Sorting

  /** 2^32 - 2, the largest array index. */
  const MaxArrayIndex: nat := 4_294_967_294

  /** The canonical decimal numeral of an array index: no sign, no leading zero, below 2^32 - 1. */
  predicate IsArrayIndex(k: string)
  {
    k != [] && AllDigits(k) && (k[0] == '0' ==> |k| == 1) && DigitsValue(k) <= MaxArrayIndex
  }

  /** The numeric value of a key made of digits (0 for any other key). */
  function IndexValue(k: string): int
  {
    if AllDigits(k) then DigitsValue(k) else 0
  }

  /** The array-index keys, in the given order. */
  function IndexKeys(keys: seq<string>): (r: seq<string>)
    ensures forall k :: k in r ==> IsArrayIndex(k)
  {
    if keys == [] then []
    else
      var r := IndexKeys(keys[..|keys| - 1]);
      if IsArrayIndex(keys[|keys| - 1]) then r + [keys[|keys| - 1]] else r
  }

  /** The other keys, in the given order. */
  function OtherKeys(keys: seq<string>): (r: seq<string>)
    ensures forall k :: k in r ==> !IsArrayIndex(k)
  {
    if keys == [] then []
    else
      var r := OtherKeys(keys[..|keys| - 1]);
      if IsArrayIndex(keys[|keys| - 1]) then r else r + [keys[|keys| - 1]]
  }

  /**
   * The enumeration order of an object whose keys were first added in the
   * order `keys`.
   */
  function EnumerationOrder(keys: seq<string>): (r: seq<string>)
  {
    SortBy(IndexKeys(keys), IndexValue) + OtherKeys(keys)
  }

  /** Splitting the keys into the two kinds loses and invents none. */
  lemma {:induction false} PartitionKeys(keys: seq<string>)
    ensures multiset(IndexKeys(keys)) + multiset(OtherKeys(keys)) == multiset(keys)
    decreases |keys|
  {
    if keys != [] {
      var init := keys[..|keys| - 1];
      PartitionKeys(init);
      assert keys == init + [keys[|keys| - 1]];
    }
  }

  /**
   * Enumeration lists every key as often as it was given; array indices come
   * first, ascending by value, and every other key follows in its own order.
   */
  lemma EnumerationOrderShape(keys: seq<string>)
    ensures multiset(EnumerationOrder(keys)) == multiset(keys)
    ensures |EnumerationOrder(keys)| == |keys|
    ensures var n := |IndexKeys(keys)|;
            var r := EnumerationOrder(keys);
            (forall i :: 0 <= i < n ==> IsArrayIndex(r[i])) &&
            (forall i, j :: 0 <= i < j < n ==> IndexValue(r[i]) <= IndexValue(r[j])) &&
            r[n..] == OtherKeys(keys)
  {
    PartitionKeys(keys);
    var s := SortBy(IndexKeys(keys), IndexValue);
    assert |multiset(keys)| == |keys|;
    forall i | 0 <= i < |s| ensures IsArrayIndex(s[i]) {
      assert s[i] in multiset(IndexKeys(keys));
    }
  }

  /** Distinct keys stay distinct in enumeration order. */
  lemma EnumerationOrderDistinct(keys: seq<string>)
    requires forall i, j :: 0 <= i < j < |keys| ==> keys[i] != keys[j]
    ensures var r := EnumerationOrder(keys);
            forall i, j :: 0 <= i < j < |r| ==> r[i] != r[j]
  {
    var r := EnumerationOrder(keys);
    EnumerationOrderShape(keys);
    forall i, j | 0 <= i < j < |r| ensures r[i] != r[j] {
      DistinctCount(keys, r[i]);
      if r[i] == r[j] {
        TwoOccurrences(r, i, j);
      }
    }
  }

  lemma TwoOccurrences(r: seq<string>, i: int, j: int)
    requires 0 <= i < j < |r| && r[i] == r[j]
    ensures multiset(r)[r[i]] >= 2
  {
    assert r == r[..i] + [r[i]] + r[i + 1..j] + [r[j]] + r[j + 1..];
  }

  lemma {:induction false} DistinctCount(keys: seq<string>, x: string)
    requires forall i, j :: 0 <= i < j < |keys| ==> keys[i] != keys[j]
    ensures multiset(keys)[x] <= 1
    decreases |keys|
  {
    if keys != [] {
      var init := keys[..|keys| - 1];
      DistinctCount(init, x);
      assert keys == init + [keys[|keys| - 1]];
      assert keys[|keys| - 1] !in init;
    }
  }

  /** A key containing anything but digits (a dash, say) is never an array index. */
  lemma NonDigitKey(k: string, i: int)
    requires 0 <= i < |k| && !IsDigit(k[i])
    ensures !IsArrayIndex(k)
  {
  }

  /** Without array-index keys every key is an other key. */
  lemma {:induction false} PartitionOfNames(keys: seq<string>)
    requires forall i :: 0 <= i < |keys| ==> !IsArrayIndex(keys[i])
    ensures IndexKeys(keys) == [] && OtherKeys(keys) == keys
    decreases |keys|
  {
    hide IsArrayIndex;
    if keys != [] {
      var init := keys[..|keys| - 1];
      PartitionOfNames(init);
      assert keys == init + [keys[|keys| - 1]];
    }
  }

  /** When no key is an array index, enumeration is insertion order. */
  lemma EnumerationOrderOfNames(keys: seq<string>)
    requires forall i :: 0 <= i < |keys| ==> !IsArrayIndex(keys[i])
    ensures EnumerationOrder(keys) == keys
  {
    hide IsArrayIndex, IndexKeys, OtherKeys;
    PartitionOfNames(keys);
    assert SortBy([], IndexValue) == [];
  }

  /** With only array-index keys there is no other key. */
  lemma {:induction false} OtherKeysOfIndices(keys: seq<string>)
    requires forall i :: 0 <= i < |keys| ==> IsArrayIndex(keys[i])
    ensures OtherKeys(keys) == []
    decreases |keys|
  {
    if keys != [] {
      OtherKeysOfIndices(keys[..|keys| - 1]);
    }
  }

  /** When every key is an array index, enumeration lists them in ascending numeric order. */
  lemma EnumerationOrderOfIndices(keys: seq<string>)
    requires forall i :: 0 <= i < |keys| ==> IsArrayIndex(keys[i])
    ensures var r := EnumerationOrder(keys);
            forall i, j :: 0 <= i < j < |r| ==> IndexValue(r[i]) <= IndexValue(r[j])
  {
    OtherKeysOfIndices(keys);
    assert EnumerationOrder(keys) == SortBy(IndexKeys(keys), IndexValue);
  }
}

=== FILE: json_value.dfy ===
/**
 * The JSON values the audit trail stores and compares.  Numbers are
 * integers.  An object is its members as the text lists them; read as
 * `JSON.parse` builds it, a repeated member name is one property holding the
 * last value given, and `Object.keys` lists the properties in the order of
 * ECMA-262, section 10.1.11.1: array indices first, ascending, then the
 * other names in the order they first appear.
 */
module JsonValue {
  import opened Wrappers
  import opened JsObject

  datatype Json =
    | JNull
    | JBool(b: bool)
    | JNumber(n: int)
    | JString(s: string)
    | JArray(items: seq<Json>)
    | JObject(entries: seq<(string, Json)>)

  /** JavaScript truthiness of a parsed value. */
  predicate Truthy(v: Json)
  {
    match v
    case JNull => false
    case JBool(b) => b
    case JNumber(n) => n != 0
    case JString(s) => s != ""
    case _ => true
  }

  /** `typeof v === 'object' && !Array.isArray(v)` for a truthy value. */
  predicate IsPlainObject(v: Json)
  {
    v.JObject?
  }

  // ---------------------------------------------------------------------------
  // Insertion-ordered sets, as `new Set(xs)` iterates them
  // ---------------------------------------------------------------------------

  /** `[...new Set(s)]`: the first occurrence of each element, in order. */
  function Distinct(s: seq<string>): (d: seq<string>)
    ensures forall x :: x in d <==> x in s
    ensures forall i, j :: 0 <= i < j < |d| ==> d[i] != d[j]
    ensures |d| <= |s|
  {
    if s == [] then []
    else
      var d := Distinct(s[..|s| - 1]);
      if s[|s| - 1] in d then d else d + [s[|s| - 1]]
  }

  /** A list without repetitions is its own set. */
  lemma {:induction false} DistinctOfDistinct(s: seq<string>)
    requires forall i, j :: 0 <= i < j < |s| ==> s[i] != s[j]
    ensures Distinct(s) == s
    decreases |s|
  {
    if s != [] {
      var prefix := s[..|s| - 1];
      DistinctOfDistinct(prefix);
      assert s[|s| - 1] !in prefix by {
        assert forall i :: 0 <= i < |prefix| ==> prefix[i] == s[i];
      }
      assert s == prefix + [s[|s| - 1]];
    }
  }

  /** The elements of `s` that are not in `a`, in order. */
  function Without(s: seq<string>, a: seq<string>): (r: seq<string>)
    ensures forall x :: x in r <==> x in s && x !in a
  {
    if s == [] then []
    else
      var r := Without(s[..|s| - 1], a);
      if s[|s| - 1] in a then r else r + [s[|s| - 1]]
  }

  /** The set of `a ++ b` lists `a`'s elements first, then those only `b` has. */
  lemma {:induction false} DistinctAppend(a: seq<string>, b: seq<string>)
    ensures Distinct(a + b) == Distinct(a) + Without(Distinct(b), a)
    decreases |b|
  {
    if b == [] {
      assert a + b == a;
    } else {
      var b' := b[..|b| - 1];
      var x := b[|b| - 1];
      assert (a + b)[..|a + b| - 1] == a + b';
      assert (a + b)[|a + b| - 1] == x;
      DistinctAppend(a, b');
      if x !in b' {
        assert Distinct(b)[..|Distinct(b)| - 1] == Distinct(b');
      }
    }
  }

  // ---------------------------------------------------------------------------
  // Objects
  // ---------------------------------------------------------------------------

  function Names(entries: seq<(string, Json)>): (names: seq<string>)
    ensures |names| == |entries|
    ensures forall i :: 0 <= i < |entries| ==> names[i] == entries[i].0
  {
    seq(|entries|, i requires 0 <= i < |entries| => entries[i].0)
  }

  /** `Object.keys(obj)`: each property once. */
  function Keys(entries: seq<(string, Json)>): (keys: seq<string>)
    ensures forall k :: k in keys <==> k in Names(entries)
    ensures forall i, j :: 0 <= i < j < |keys| ==> keys[i] != keys[j]
  {
    var names := Distinct(Names(entries));
    EnumerationOrderShape(names);
    EnumerationOrderDistinct(names);
    assert forall k :: k in EnumerationOrder(names) <==> k in multiset(names);
    EnumerationOrder(names)
  }

  /**
   * The order of `Object.keys`: the names that are array indices first, in
   * ascending numeric order, then the other names in the order of their
   * first appearance in the text.
   */
  lemma KeysOrder(entries: seq<(string, Json)>)
    ensures var keys, names := Keys(entries), Distinct(Names(entries));
            var n := |IndexKeys(names)|;
            n <= |keys| &&
            (forall i :: 0 <= i < n ==> IsArrayIndex(keys[i])) &&
            (forall i, j :: 0 <= i < j < n ==> IndexValue(keys[i]) <= IndexValue(keys[j])) &&
            keys[n..] == OtherKeys(names)
  {
    EnumerationOrderShape(Distinct(Names(entries)));
  }

  /** `obj[key]`: the last value given for the key, `None` for `undefined`. */
  function Lookup(entries: seq<(string, Json)>, key: string): (r: Option<Json>)
    ensures r.Some? <==> key in Names(entries)
  {
    if entries == [] then None
    else if entries[|entries| - 1].0 == key then Some(entries[|entries| - 1].1)
    else
      var r := Lookup(entries[..|entries| - 1], key);
      assert Names(entries[..|entries| - 1]) == Names(entries)[..|entries| - 1];
      r
  }

  // ---------------------------------------------------------------------------
  // What JSON.stringify writes
  // ---------------------------------------------------------------------------

  /**
   * The value as `JSON.stringify` writes it out: each object as its
   * `Object.keys`, in that order, each with its value written out the same
   * way, and each array element written out in turn.  The text of the
   * serialisation is not modelled: two values serialise to the same text
   * exactly when their written-out forms are equal.
   */
  function Serialised(v: Json): (r: Json)
    decreases v, 1
  {
    match v
    case JArray(items) => JArray(seq(|items|, i requires 0 <= i < |items| => Serialised(items[i])))
    case JObject(entries) =>
      var written := Written(entries);
      var keys := Keys(entries);
      assert Names(written) == Names(entries);
      JObject(seq(|keys|, i requires 0 <= i < |keys| => (keys[i], Lookup(written, keys[i]).value)))
    case _ => v
  }

  /** The members of an object, each with its value written out. */
  function Written(entries: seq<(string, Json)>): (w: seq<(string, Json)>)
    ensures |w| == |entries|
    ensures forall i :: 0 <= i < |entries| ==> w[i] == (entries[i].0, Serialised(entries[i].1))
    decreases JObject(entries), 0
  {
    seq(|entries|, i requires 0 <= i < |entries| => (entries[i].0, Serialised(entries[i].1)))
  }

  /** `JSON.stringify(obj[key])`: `undefined` for a missing key. */
  function Stringified(v: Option<Json>): (r: Option<Json>)
    ensures r.None? <==> v.None?
    ensures r.Some? ==> r.value == Serialised(v.value)
  {
    if v.Some? then Some(Serialised(v.value)) else None
  }

  /** A written-out object lists `Object.keys` of the original, and each key holds its value written out. */
  lemma SerialisedLookup(entries: seq<(string, Json)>, key: string)
    ensures var w := Serialised(JObject(entries));
            w.JObject? && Names(w.entries) == Keys(entries) &&
            Lookup(w.entries, key) == Stringified(Lookup(entries, key))
  {
    var written := Written(entries);
    var keys := Keys(entries);
    var w := Serialised(JObject(entries));
    assert Names(written) == Names(entries);
    assert w.entries == seq(|keys|, i requires 0 <= i < |keys| => (keys[i], Lookup(written, keys[i]).value));
    LookupWritten(entries, key);
    assert Names(w.entries) == keys;
    if key in keys {
      var i :| 0 <= i < |keys| && keys[i] == key;
      LookupUnique(w.entries, i);
    }
  }

  /** A written-out object: `Object.keys` in order, each with its value written out. */
  lemma SerialisedObject(entries: seq<(string, Json)>)
    ensures var keys := Keys(entries);
            Serialised(JObject(entries)) ==
            JObject(seq(|keys|, i requires 0 <= i < |keys| => (keys[i], Serialised(Lookup(entries, keys[i]).value))))
  {
    var keys := Keys(entries);
    var written := Written(entries);
    assert Names(written) == Names(entries);
    forall i | 0 <= i < |keys|
      ensures Lookup(written, keys[i]).value == Serialised(Lookup(entries, keys[i]).value)
    {
      LookupWritten(entries, keys[i]);
    }
  }

  /** Reading either name of a two-member object with distinct names. */
  lemma LookupPair(k1: string, v1: Json, k2: string, v2: Json)
    requires k1 != k2
    ensures Lookup([(k1, v1), (k2, v2)], k1) == Some(v1)
    ensures Lookup([(k1, v1), (k2, v2)], k2) == Some(v2)
  {
    assert [(k1, v1), (k2, v2)][..1] == [(k1, v1)];
  }

  /** Writing out every member's value commutes with reading a key. */
  lemma {:induction false} LookupWritten(entries: seq<(string, Json)>, key: string)
    ensures Lookup(Written(entries), key) == Stringified(Lookup(entries, key))
    decreases |entries|
  {
    if entries != [] {
      var n := |entries|;
      var init, w := entries[..n - 1], Written(entries);
      assert w[..n - 1] == Written(init);
      hide *;
      LookupWritten(init, key);
      LookupLast(w, key);
      LookupLast(entries, key);
    }
  }

  /** `Lookup` reads the last member first. */
  lemma LookupLast(entries: seq<(string, Json)>, key: string)
    requires entries != []
    ensures var n := |entries|;
            Lookup(entries, key) ==
            if entries[n - 1].0 == key then Some(entries[n - 1].1) else Lookup(entries[..n - 1], key)
  {
  }

  /** In a member list without repeated names, a key reads the one member it names. */
  lemma {:induction false} LookupUnique(entries: seq<(string, Json)>, i: int)
    requires forall a, b :: 0 <= a < b < |entries| ==> entries[a].0 != entries[b].0
    requires 0 <= i < |entries|
    ensures Lookup(entries, entries[i].0) == Some(entries[i].1)
    decreases |entries|
  {
    if i < |entries| - 1 {
      LookupUnique(entries[..|entries| - 1], i);
    }
  }
}

=== FILE: manage_staff.dfy ===
/**
 * The staff management page (src/ManageStaff.jsx): the verification pass
 * that decides each staff member's shown status and promotes confirmed
 * accounts, the checks and records of creating, updating and deleting a
 * staff member, and the grouping of staff by stall.
 */
module ManageStaff {
  import opened Wrappers
  import opened Text

  const Active: string := "active"
  const Inactive: string := "inactive"
  const Unverified: string := "unverified"
  const StaffRole: string := "staff"
  const AdminRole: string := "admin"

  /** A `profiles` row as the page reads it; a `null` column is `None`. */
  datatype StaffRow = StaffRow(id: string, fullName: string, email: string, contactNumber: Option<string>,
                               role: string, status: string, stallId: Option<string>)

  /** What `fetchUserAuthStatus` gives for one account: its answer, or a thrown error. */
  datatype AuthLookup = LookupThrew | AuthStatus(emailConfirmedAt: Option<string>, lastSignInAt: Option<string>)

  /** A listed staff member: the row, the status shown and the last sign-in. */
  datatype StaffView = StaffView(row: StaffRow, displayStatus: string, lastSignInAt: Option<string>)

  /** `!!authInfo?.emailConfirmedAt`. */
  predicate EmailConfirmed(lookup: AuthLookup)
  {
    lookup.AuthStatus? && Truthy(lookup.emailConfirmedAt)
  }

  /**
   * The lookup for one staff id in the accounts the gateway knows:
   * `fetchUserAuthStatus` throws before any request for an empty id, and
   * the gateway's 404 for an unknown account makes the request throw.
   */
  function LookupOf(auth: map<string, AuthLookup>, id: string): (l: AuthLookup)
    ensures id == "" || id !in auth ==> l == LookupThrew
    ensures id != "" && id in auth ==> l == auth[id]
  {
    if id == "" || id !in auth then LookupThrew else auth[id]
  }

  // ---------------------------------------------------------------------------
  // fetchStaffWithVerification
  // ---------------------------------------------------------------------------

  /** A confirmed account whose stored status is 'inactive' is promoted. */
  predicate NeedsPromotion(row: StaffRow, lookup: AuthLookup)
  {
    EmailConfirmed(lookup) && row.status == Inactive
  }

  /**
   * The row after the promotion rule: only the status may change, and only
   * from 'inactive' to 'active' for a confirmed account.
   */
  function PromotedRow(row: StaffRow, lookup: AuthLookup): (r: StaffRow)
    ensures r == row.(status := r.status)
    ensures NeedsPromotion(row, lookup) ==> r.status == Active
    ensures !NeedsPromotion(row, lookup) ==> r == row
  {
    if NeedsPromotion(row, lookup) then row.(status := Active) else row
  }

  /**
   * One staff member after the verification pass: with an answer, the shown
   * status is 'active' exactly for a confirmed account and 'unverified'
   * otherwise; when the lookup throws, the stored status is shown and the
   * row is untouched.
   */
  function VerifyStaff(row: StaffRow, lookup: AuthLookup): (v: StaffView)
    ensures lookup.LookupThrew? ==> v == StaffView(row, row.status, None)
    ensures lookup.AuthStatus? ==> v.row == PromotedRow(row, lookup)
    ensures lookup.AuthStatus? ==> (v.displayStatus == Active <==> EmailConfirmed(lookup))
    ensures lookup.AuthStatus? ==> (v.displayStatus == Unverified <==> !EmailConfirmed(lookup))
    ensures lookup.AuthStatus? && Truthy(lookup.lastSignInAt) ==> v.lastSignInAt == lookup.lastSignInAt
    ensures !Truthy(v.lastSignInAt) ==> v.lastSignInAt == None
  {
    match lookup
    case LookupThrew => StaffView(row, row.status, None)
    case AuthStatus(confirmedAt, lastSignIn) =>
      StaffView(PromotedRow(row, lookup), if Truthy(confirmedAt) then Active else Unverified,
                if Truthy(lastSignIn) then lastSignIn else None)
  }

  /**
   * The `profiles` table after the promotion writes of a pass over `staff`;
   * a write in `lost` fails without being reported, and an update of an id
   * the table does not hold changes nothing.
   */
  function PromoteAll(profiles: map<string, StaffRow>, staff: seq<StaffRow>, auth: map<string, AuthLookup>,
                      lost: set<string>): map<string, StaffRow>
    decreases |staff|
  {
    if staff == [] then profiles
    else
      var p := PromoteAll(profiles, staff[..|staff| - 1], auth, lost);
      var last := staff[|staff| - 1];
      if NeedsPromotion(last, LookupOf(auth, last.id)) && last.id !in lost && last.id in p
      then p[last.id := p[last.id].(status := Active)]
      else p
  }

  /**
   * The promotion writes keep every row and change nothing but a status to
   * 'active'; every confirmed 'inactive' member whose write went through
   * ends up 'active'.
   */
  lemma {:induction false} PromoteAllOnlyActivates(profiles: map<string, StaffRow>, staff: seq<StaffRow>,
                                                   auth: map<string, AuthLookup>, lost: set<string>)
    ensures PromoteAll(profiles, staff, auth, lost).Keys == profiles.Keys
    ensures forall id :: id in profiles ==>
              PromoteAll(profiles, staff, auth, lost)[id] in {profiles[id], profiles[id].(status := Active)}
    ensures forall k :: 0 <= k < |staff| && NeedsPromotion(staff[k], LookupOf(auth, staff[k].id)) &&
                        staff[k].id !in lost && staff[k].id in profiles ==>
              PromoteAll(profiles, staff, auth, lost)[staff[k].id].status == Active
    decreases |staff|
  {
    if staff != [] {
      var n := |staff| - 1;
      var init := staff[..n];
      PromoteAllOnlyActivates(profiles, init, auth, lost);
      assert forall k :: 0 <= k < n ==> init[k] == staff[k];
    }
  }

  /** The profiles table and the gateway's accounts, as the page changes them. */
  class StaffStore {
    var profiles: map<string, StaffRow>
    var accounts: set<string>

    constructor(profiles: map<string, StaffRow>, accounts: set<string>)
      ensures this.profiles == profiles && this.accounts == accounts
    {
      this.profiles := profiles;
      this.accounts := accounts;
    }

    /**
     * `fetchStaffWithVerification`: every staff row, in order, verified
     * against its account, the confirmed 'inactive' ones promoted in the
     * table as well.
     */
    method FetchStaffWithVerification(staff: seq<StaffRow>, auth: map<string, AuthLookup>, lost: set<string>)
      returns (views: seq<StaffView>)
      modifies this`profiles
      ensures |views| == |staff|
      ensures forall k :: 0 <= k < |staff| ==> views[k] == VerifyStaff(staff[k], LookupOf(auth, staff[k].id))
      ensures profiles == PromoteAll(old(profiles), staff, auth, lost)
    {
      hide VerifyStaff, PromotedRow;
      views := [];
      var i := 0;
      while i < |staff|
        invariant 0 <= i <= |staff|
        invariant |views| == i
        invariant forall k :: 0 <= k < i ==> views[k] == VerifyStaff(staff[k], LookupOf(auth, staff[k].id))
        invariant profiles == PromoteAll(old(profiles), staff[..i], auth, lost)
      {
        var row := staff[i];
        var lookup := LookupOf(auth, row.id);
        assert staff[..i + 1][..i] == staff[..i];
        ghost var prev := views;
        if NeedsPromotion(row, lookup) && row.id !in lost && row.id in profiles {
          profiles := profiles[row.id := profiles[row.id].(status := Active)];
        }
        views := views + [VerifyStaff(row, lookup)];
        assert forall k :: 0 <= k < i ==> views[k] == prev[k];
        i := i + 1;
      }
      assert staff[..i] == staff;
    }

    /**
     * `handleUpdateStaff`: nothing without a member on view; refused when
     * the full name is empty; otherwise the four editable columns are
     * written, and the audit records keep the member's email.
     */
    method UpdateStaff(viewing: Option<StaffRow>, edit: EditForm, writeError: Option<string>) returns (r: UpdateOutcome)
      modifies this`profiles
      ensures viewing.None? ==> r == NothingToUpdate
      ensures viewing.Some? && edit.fullName == "" ==> r == UpdateRefused(FullNameMissing)
      ensures viewing.Some? && edit.fullName != "" && writeError.Some? ==>
                r == UpdateFailed(UpdateErrorPrefix + writeError.value)
      ensures viewing.Some? && edit.fullName != "" && writeError.None? ==>
                r == Updated(AuditOf(viewing.value), AuditOf(UpdatedRow(viewing.value, edit)))
      ensures viewing.Some? && edit.fullName != "" && writeError.None? && viewing.value.id in old(profiles) ==>
                profiles == old(profiles)[viewing.value.id := UpdatedRow(old(profiles)[viewing.value.id], edit)]
      ensures viewing.None? || edit.fullName == "" || writeError.Some? || viewing.value.id !in old(profiles) ==>
                profiles == old(profiles)
    {
      if viewing.None? {
        return NothingToUpdate;
      }
      var staff := viewing.value;
      if edit.fullName == "" {
        return UpdateRefused(FullNameMissing);
      }
      if writeError.Some? {
        return UpdateFailed(UpdateErrorPrefix + writeError.value);
      }
      if staff.id in profiles {
        profiles := profiles[staff.id := UpdatedRow(profiles[staff.id], edit)];
      }
      r := Updated(AuditOf(staff), AuditOf(UpdatedRow(staff, edit)));
    }

    /**
     * `confirmDeleteStaff`: nothing without a staff id; the profile is
     * deleted first and a failure there stops everything; a failure of the
     * account deletion that follows is only logged, so the deletion still
     * reports success, and the audit carries the listed row when there is one.
     */
    method ConfirmDeleteStaff(staffId: string, staffList: seq<StaffView>, profileError: Option<string>,
                              accountDeleteFails: bool) returns (r: DeleteOutcome)
      modifies this
      ensures staffId == "" ==> r == NothingToDelete && profiles == old(profiles) && accounts == old(accounts)
      ensures staffId != "" && profileError.Some? ==>
                r == DeleteFailed(DeleteErrorPrefix + profileError.value) &&
                profiles == old(profiles) && accounts == old(accounts)
      ensures staffId != "" && profileError.None? ==>
                r == Deleted(FindStaff(staffList, staffId)) &&
                profiles == old(profiles) - {staffId} &&
                accounts == (if accountDeleteFails then old(accounts) else old(accounts) - {staffId})
    {
      if staffId == "" {
        return NothingToDelete;
      }
      var staffToDelete := FindStaff(staffList, staffId);
      if profileError.Some? {
        return DeleteFailed(DeleteErrorPrefix + profileError.value);
      }
      profiles := profiles - {staffId};
      if !accountDeleteFails {
        accounts := accounts - {staffId};
      }
      r := Deleted(staffToDelete);
    }
  }

  // ---------------------------------------------------------------------------
  // handleCreateStaff
  // ---------------------------------------------------------------------------

  /** The creation form and the stall chosen in it. */
  datatype CreateForm = CreateForm(email: string, password: string, fullName: string, contactNumber: string,
                                   selectedStall: string)

  datatype CreateOutcome = CreateRefused(message: string) | CreateFailed(message: string) | Created(profile: StaffRow)

  const MissingCredentials: string := "Please fill in email and password."
  const NotAdmin: string := "Only admins can create staff accounts."
  const CreateErrorPrefix: string := "Error creating staff account: "
  const NoUserId: string := "Admin API did not return a userId for the new staff member."

  /** The profile recorded in the audit log for a new account. */
  function NewProfile(userId: string, form: CreateForm): (p: StaffRow)
    ensures p.id == userId && p.fullName == form.fullName && p.email == form.email
    ensures p.role == StaffRole && p.status == Inactive
    ensures p.contactNumber.None? <==> form.contactNumber == ""
    ensures p.stallId.None? <==> form.selectedStall == ""
    ensures p.contactNumber.Some? ==> p.contactNumber.value == form.contactNumber
    ensures p.stallId.Some? ==> p.stallId.value == form.selectedStall
  {
    StaffRow(userId, form.fullName, form.email, NullIfEmpty(form.contactNumber), StaffRole, Inactive,
             NullIfEmpty(form.selectedStall))
  }

  /**
   * `handleCreateStaff` given the caller's role and the gateway's reply:
   * refused before any call without email or password or for a caller who
   * is not an admin (the full name is not checked); a failed call, or an
   * answer without a user id, is an error; otherwise the new profile.
   */
  function CreateStaff(form: CreateForm, callerRole: string, reply: Result<string>): (r: CreateOutcome)
    ensures r.CreateRefused? <==> form.email == "" || form.password == "" || callerRole != AdminRole
    ensures (form.email == "" || form.password == "") ==> r == CreateRefused(MissingCredentials)
    ensures r.Created? <==> !r.CreateRefused? && reply.Ok? && reply.value != ""
    ensures r.Created? ==> r.profile == NewProfile(reply.value, form)
    ensures !r.CreateRefused? && reply.Ok? && reply.value == "" ==> r == CreateFailed(CreateErrorPrefix + NoUserId)
    ensures form.email != "" && form.password != "" && callerRole != AdminRole ==> r == CreateRefused(NotAdmin)
    ensures !r.CreateRefused? && reply.Failure? ==> r == CreateFailed(CreateErrorPrefix + reply.error)
  {
    if form.email == "" || form.password == "" then CreateRefused(MissingCredentials)
    else if callerRole != AdminRole then CreateRefused(NotAdmin)
    else
      match reply
      case Failure(message) => CreateFailed(CreateErrorPrefix + message)
      case Ok(userId) =>
        if userId == "" then CreateFailed(CreateErrorPrefix + NoUserId)
        else Created(NewProfile(userId, form))
  }

  // ---------------------------------------------------------------------------
  // handleViewStaff / handleUpdateStaff
  // ---------------------------------------------------------------------------

  /** The edit form's fields. */
  datatype EditForm = EditForm(fullName: string, email: string, contactNumber: string, status: string, stallId: string)

  /** The columns the audit log records for an update. */
  datatype AuditRecord = AuditRecord(fullName: string, email: string, contactNumber: Option<string>, status: string,
                                     stallId: Option<string>)

  datatype UpdateOutcome = NothingToUpdate | UpdateRefused(message: string) | UpdateFailed(message: string)
                         | Updated(oldValue: AuditRecord, newValue: AuditRecord)

  const FullNameMissing: string := "Please fill in full name."
  const UpdateErrorPrefix: string := "Error updating staff member: "

  /** `handleViewStaff`: the form opened on a member, empty for a missing value and 'active' for a missing status. */
  function FormOf(row: StaffRow): (f: EditForm)
    ensures f.fullName == row.fullName && f.email == row.email
    ensures f.status == (if row.status == "" then Active else row.status)
    ensures Truthy(row.contactNumber) ==> f.contactNumber == row.contactNumber.value
    ensures !Truthy(row.contactNumber) ==> f.contactNumber == ""
    ensures Truthy(row.stallId) ==> f.stallId == row.stallId.value
    ensures !Truthy(row.stallId) ==> f.stallId == ""
  {
    EditForm(row.fullName, row.email, if Truthy(row.contactNumber) then row.contactNumber.value else "",
             if row.status == "" then Active else row.status,
             if Truthy(row.stallId) then row.stallId.value else "")
  }

  /**
   * The row after an update from the form: name, contact, status and stall
   * from the form (empty contact and stall as `null`); id, email and role kept.
   */
  function UpdatedRow(row: StaffRow, edit: EditForm): (r: StaffRow)
    ensures r.id == row.id && r.email == row.email && r.role == row.role
    ensures r.fullName == edit.fullName && r.status == edit.status
    ensures r.contactNumber == NullIfEmpty(edit.contactNumber) && r.stallId == NullIfEmpty(edit.stallId)
  {
    row.(fullName := edit.fullName, contactNumber := NullIfEmpty(edit.contactNumber), status := edit.status,
         stallId := NullIfEmpty(edit.stallId))
  }

  function AuditOf(row: StaffRow): (a: AuditRecord)
    ensures a.fullName == row.fullName && a.email == row.email && a.status == row.status
    ensures a.contactNumber == row.contactNumber && a.stallId == row.stallId
  {
    AuditRecord(row.fullName, row.email, row.contactNumber, row.status, row.stallId)
  }

  /**
   * Opening a member and saving the form unchanged writes the row back as
   * it was, when its status is set and its contact and stall are not empty
   * strings.
   */
  lemma SaveUnchangedForm(row: StaffRow)
    requires row.status != "" && row.contactNumber != Some("") && row.stallId != Some("")
    ensures UpdatedRow(row, FormOf(row)) == row
  {
    var f := FormOf(row);
    assert row.contactNumber.Some? ==> Truthy(row.contactNumber);
    assert row.stallId.Some? ==> Truthy(row.stallId);
    assert NullIfEmpty(f.contactNumber) == row.contactNumber;
  }

  /**
   * Setting a confirmed member to 'inactive' does not last: the refresh
   * after the update promotes the written row back to 'active', in the table
   * and in the list.
   */
  lemma DeactivateIsUndoneByRefresh(profiles: map<string, StaffRow>, row: StaffRow, edit: EditForm,
                                    auth: map<string, AuthLookup>, lost: set<string>)
    requires edit.status == Inactive && row.id in profiles && row.id !in lost
    requires EmailConfirmed(LookupOf(auth, row.id))
    ensures var written := profiles[row.id := UpdatedRow(profiles[row.id], edit)];
            var updated := UpdatedRow(row, edit);
            var refreshed := PromoteAll(written, [updated], auth, lost);
            VerifyStaff(updated, LookupOf(auth, row.id)).row.status == Active &&
            VerifyStaff(updated, LookupOf(auth, row.id)).displayStatus == Active &&
            row.id in refreshed && refreshed[row.id].status == Active
  {
    var written := profiles[row.id := UpdatedRow(profiles[row.id], edit)];
    var updated := UpdatedRow(row, edit);
    PromoteAllOnlyActivates(written, [updated], auth, lost);
  }

  // ---------------------------------------------------------------------------
  // confirmDeleteStaff
  // ---------------------------------------------------------------------------

  datatype DeleteOutcome = NothingToDelete | DeleteFailed(message: string) | Deleted(removed: Option<StaffRow>)

  const DeleteErrorPrefix: string := "Error deleting staff member: "

  /** `staffList.find(staff => staff.id === staffId)`, the row of the first match. */
  function FindStaff(list: seq<StaffView>, id: string): (r: Option<StaffRow>)
    ensures r.None? <==> forall k :: 0 <= k < |list| ==> list[k].row.id != id
    ensures r.Some? ==> r.value.id == id
    ensures r.Some? ==> exists k :: 0 <= k < |list| && list[k].row == r.value &&
                          forall l :: 0 <= l < k ==> list[l].row.id != id
    decreases |list|
  {
    if list == [] then None
    else if list[0].row.id == id then Some(list[0].row)
    else
      var r := FindStaff(list[1..], id);
      assert forall k :: 1 <= k < |list| ==> list[k] == list[1..][k - 1];
      r
  }

  // ---------------------------------------------------------------------------
  // staffByStall
  // ---------------------------------------------------------------------------

  /** `staffList.filter(staff => staff.stall_id === stallId)`. */
  function StaffOfStall(staff: seq<StaffView>, stallId: string): (r: seq<StaffView>)
    ensures |r| <= |staff|
    ensures forall v :: v in r <==> v in staff && v.row.stallId == Some(stallId)
    ensures forall v :: multiset(r)[v] == if v.row.stallId == Some(stallId) then multiset(staff)[v] else 0
    decreases |staff|
  {
    if staff == [] then []
    else
      var r := StaffOfStall(staff[..|staff| - 1], stallId);
      var last := staff[|staff| - 1];
      assert staff == staff[..|staff| - 1] + [last];
      if last.row.stallId == Some(stallId) then r + [last] else r
  }

  /**
   * Filtering distributes over concatenation, so the kept members keep the
   * order they have in the list.
   */
  lemma {:induction false} StaffOfStallAppend(a: seq<StaffView>, b: seq<StaffView>, stallId: string)
    ensures StaffOfStall(a + b, stallId) == StaffOfStall(a, stallId) + StaffOfStall(b, stallId)
    decreases |b|
  {
    if b == [] {
      assert a + b == a;
      StaffOfStallEmpty(stallId);
    } else {
      var b' := b[..|b| - 1];
      assert (a + b)[..|a + b| - 1] == a + b';
      assert (a + b)[|a + b| - 1] == b[|b| - 1];
      hide *;
      StaffOfStallAppend(a, b', stallId);
      StaffOfStallStep(a + b, stallId);
      StaffOfStallStep(b, stallId);
    }
  }

  lemma StaffOfStallEmpty(stallId: string)
    ensures StaffOfStall([], stallId) == []
  {
  }

  /** One step of the filter: the members before the last, then the last one when it is kept. */
  lemma StaffOfStallStep(staff: seq<StaffView>, stallId: string)
    requires staff != []
    ensures var last := staff[|staff| - 1];
            StaffOfStall(staff, stallId) ==
              StaffOfStall(staff[..|staff| - 1], stallId) + (if last.row.stallId == Some(stallId) then [last] else [])
  {
  }

  /** The `forEach` that fills `staffByStall`, one entry per known stall id. */
  method StaffByStall(stalls: seq<string>, staff: seq<StaffView>) returns (groups: map<string, seq<StaffView>>)
    ensures groups.Keys == set s | s in stalls
    ensures forall s :: s in groups ==> groups[s] == StaffOfStall(staff, s)
  {
    groups := map[];
    var i := 0;
    while i < |stalls|
      invariant 0 <= i <= |stalls|
      invariant groups.Keys == set s | s in stalls[..i]
      invariant forall s :: s in groups ==> groups[s] == StaffOfStall(staff, s)
    {
      assert stalls[..i + 1] == stalls[..i] + [stalls[i]];
      groups := groups[stalls[i] := StaffOfStall(staff, stalls[i])];
      i := i + 1;
    }
    assert stalls[..i] == stalls;
  }

  /**
   * A member is in a stall's group exactly when their stall is that stall;
   * a member without a stall, or with a stall not in the list, is in no group.
   */
  lemma GroupMembership(groups: map<string, seq<StaffView>>, stalls: seq<string>, staff: seq<StaffView>, v: StaffView)
    requires groups.Keys == set s | s in stalls
    requires forall s :: s in groups ==> groups[s] == StaffOfStall(staff, s)
    requires v in staff
    ensures forall s :: s in groups ==> (v in groups[s] <==> v.row.stallId == Some(s))
    ensures v.row.stallId.None? || v.row.stallId.value !in stalls ==> forall s :: s in groups ==> v !in groups[s]
  {
  }
}

=== FILE: notifications.dfy ===
/**
 * The toast list of the notification context
 * (src/contexts/NotificationContext.jsx).  The clock and the random id
 * suffix are inputs; the timer that removes a toast after its duration is a
 * later `RemoveToast` call.
 */
module Notifications {
  import opened Wrappers
  import opened Text

  datatype Toast = Toast(id: string, message: string, kind: string, duration: int)

  /** The duration used when the caller gives none (or `0`): longer for errors and warnings. */
  function DefaultDuration(kind: string): (ms: int)
    ensures kind == "error" || kind == "warning" ==> ms == 7000
    ensures kind != "error" && kind != "warning" ==> ms == 5000
  {
    if kind == "error" || kind == "warning" then 7000 else 5000
  }

  /** `duration || default`, `None` standing for `null`. */
  function DurationOf(kind: string, duration: Option<int>): (ms: int)
    ensures duration.Some? && duration.value != 0 ==> ms == duration.value
    ensures duration.None? || duration.value == 0 ==> ms == DefaultDuration(kind)
    ensures ms != 0
  {
    if duration.Some? && duration.value != 0 then duration.value else DefaultDuration(kind)
  }

  /** `toast-${Date.now()}-${suffix}`. */
  function ToastId(now: nat, suffix: string): (id: string)
    ensures StartsWith(id, "toast-")
  {
    "toast-" + NatToString(now) + "-" + suffix
  }

  /** The ids of a list of toasts, in order. */
  function Ids(toasts: seq<Toast>): (ids: seq<string>)
    ensures |ids| == |toasts| && forall i :: 0 <= i < |toasts| ==> ids[i] == toasts[i].id
  {
    seq(|toasts|, i requires 0 <= i < |toasts| => toasts[i].id)
  }

  /** `toasts.filter(t => t.id !== id)`. */
  function WithoutId(toasts: seq<Toast>, id: string): (r: seq<Toast>)
    ensures forall t :: t in r <==> t in toasts && t.id != id
    ensures |r| <= |toasts|
  {
    if toasts == [] then []
    else
      var r := WithoutId(toasts[..|toasts| - 1], id);
      var t := toasts[|toasts| - 1];
      assert toasts == toasts[..|toasts| - 1] + [t];
      if t.id != id then r + [t] else r
  }

  /** Filtering distributes over concatenation, so the kept toasts keep their order. */
  lemma {:induction false} WithoutIdAppend(a: seq<Toast>, b: seq<Toast>, id: string)
    ensures WithoutId(a + b, id) == WithoutId(a, id) + WithoutId(b, id)
    decreases |b|
  {
    if b == [] {
      assert a + b == a;
    } else {
      assert (a + b)[..|a + b| - 1] == a + b[..|b| - 1];
      WithoutIdAppend(a, b[..|b| - 1], id);
    }
  }

  /** A list with no toast of that id is left as it is. */
  lemma {:induction false} WithoutAbsentId(toasts: seq<Toast>, id: string)
    requires id !in Ids(toasts)
    ensures WithoutId(toasts, id) == toasts
  {
    forall i | 0 <= i < |toasts| ensures toasts[i].id != id {
      assert Ids(toasts)[i] == toasts[i].id;
    }
    KeepsEveryToast(toasts, id);
  }

  lemma {:induction false} KeepsEveryToast(toasts: seq<Toast>, id: string)
    requires forall i :: 0 <= i < |toasts| ==> toasts[i].id != id
    ensures WithoutId(toasts, id) == toasts
    decreases |toasts|
  {
    if toasts != [] {
      var init, t := toasts[..|toasts| - 1], toasts[|toasts| - 1];
      KeepsEveryToast(init, id);
      assert toasts == init + [t];
    }
  }

  /** The toasts shown by one `NotificationProvider`. */
  class ToastList {
    var toasts: seq<Toast>

    constructor()
      ensures toasts == []
    {
      toasts := [];
    }

    /**
     * `addToast(message, kind, duration)` at clock `now` with random suffix
     * `suffix`: exactly one toast appended, the others unchanged, its id returned.
     */
    method AddToast(message: string, kind: string, duration: Option<int>, now: nat, suffix: string)
      returns (id: string)
      modifies this
      ensures id == ToastId(now, suffix)
      ensures toasts == old(toasts) + [Toast(id, message, kind, DurationOf(kind, duration))]
    {
      id := ToastId(now, suffix);
      toasts := toasts + [Toast(id, message, kind, DurationOf(kind, duration))];
    }

    /** `removeToast(id)`: every toast with that id removed, the rest in order. */
    method RemoveToast(id: string)
      modifies this
      ensures toasts == WithoutId(old(toasts), id)
    {
      toasts := WithoutId(toasts, id);
    }

    method ShowSuccess(message: string, duration: Option<int>, now: nat, suffix: string) returns (id: string)
      modifies this
      ensures id == ToastId(now, suffix)
      ensures toasts == old(toasts) + [Toast(id, message, "success", DurationOf("success", duration))]
    {
      id := AddToast(message, "success", duration, now, suffix);
    }

    method ShowError(message: string, duration: Option<int>, now: nat, suffix: string) returns (id: string)
      modifies this
      ensures id == ToastId(now, suffix)
      ensures toasts == old(toasts) + [Toast(id, message, "error", DurationOf("error", duration))]
    {
      id := AddToast(message, "error", duration, now, suffix);
    }

    method ShowInfo(message: string, duration: Option<int>, now: nat, suffix: string) returns (id: string)
      modifies this
      ensures id == ToastId(now, suffix)
      ensures toasts == old(toasts) + [Toast(id, message, "info", DurationOf("info", duration))]
    {
      id := AddToast(message, "info", duration, now, suffix);
    }

    method ShowWarning(message: string, duration: Option<int>, now: nat, suffix: string) returns (id: string)
      modifies this
      ensures id == ToastId(now, suffix)
      ensures toasts == old(toasts) + [Toast(id, message, "warning", DurationOf("warning", duration))]
    {
      id := AddToast(message, "warning", duration, now, suffix);
    }
  }

  /** Removing a freshly added toast by its id gives back the list it was added to. */
  lemma RemoveUndoesAdd(toasts: seq<Toast>, t: Toast)
    requires t.id !in Ids(toasts)
    ensures WithoutId(toasts + [t], t.id) == toasts
  {
    WithoutIdAppend(toasts, [t], t.id);
    WithoutAbsentId(toasts, t.id);
    assert WithoutId([t], t.id) == [];
  }

  /** Removing one id keeps every other toast, in its order, and removes nothing else. */
  lemma RemoveKeepsOthers(a: seq<Toast>, t: Toast, b: seq<Toast>, id: string)
    requires t.id != id
    ensures WithoutId(a + [t] + b, id) == WithoutId(a, id) + [t] + WithoutId(b, id)
  {
    WithoutIdAppend(a + [t], b, id);
    WithoutIdAppend(a, [t], id);
    assert WithoutId([t], id) == [t];
  }

  /** A toast without an explicit duration shows 7000 ms for an error or warning, 5000 ms otherwise. */
  lemma ShowDefaults()
    ensures DurationOf("error", None) == 7000 && DurationOf("warning", None) == 7000
    ensures DurationOf("success", None) == 5000 && DurationOf("info", None) == 5000
  {
  }
}

=== FILE: query.dfy ===
/**
 * The part of the Supabase query builder the dashboard uses to narrow a
 * select: each call (`.eq`, `.gte`, `.lte`, `.is(column, null)`) adds one
 * predicate, so a query is the sequence of predicates added so far, in call
 * order.  Column values are passed as text.
 */
module QueryBuilder {

  datatype Filter =
    | Eq(column: string, value: string)
    | Gte(column: string, value: string)
    | Lte(column: string, value: string)
    | IsNull(column: string)

  type Query = seq<Filter>
}

=== FILE: reports.dfy ===
/**
 * The data logic of the reports page (src/Reports.jsx): the global range
 * copied into the six card filters, the sales-by-stall summary and its chart
 * order, the statistics scope and its highest/lowest stall, the expenses
 * stall filter, the one-row-per-stall-and-day reduction of the activity
 * history and the price arithmetic of the transaction editor.
 *
 * Database reads are parameters: a loader's rows are given as a sequence in
 * the order the query returned them.  Amounts are whole numbers (centavos),
 * and what `new Date(sale_date)` reads from a stored date is given with the
 * row (`None` for an invalid date).
 */
module Reports {
  import opened Wrappers
  import opened QueryBuilder
  import opened DateFilterUtils
  import opened StaffReportsToday
  import opened Sorting
  import opened JsObject
  import opened Grouping
  import JsonValue

  // ---------------------------------------------------------------------------
  // applyGlobalRangeToCards
  // ---------------------------------------------------------------------------

  /** The filter of a stall-aware card; `""` is an unset date or stall. */
  datatype CardFilter = CardFilter(startDate: string, endDate: string, stallId: string)

  /** A range from the global filter; `stallId` is `None` when the property is undefined. */
  datatype GlobalRange = GlobalRange(startDate: string, endDate: string, stallId: Option<string>)

  /** The filters of the six cards: the sales overview holds dates only. */
  datatype Cards = Cards(sales: Range, transactions: CardFilter, expenses: CardFilter,
                         statistics: CardFilter, stockHistory: CardFilter, activityHistory: CardFilter)

  /** `{...prev, startDate, endDate, ...(stallId defined ? {stallId} : {})}`. */
  function WithRange(f: CardFilter, range: GlobalRange): (r: CardFilter)
    ensures r.startDate == range.startDate && r.endDate == range.endDate
    ensures range.stallId.Some? ==> r.stallId == range.stallId.value
    ensures range.stallId.None? ==> r.stallId == f.stallId
  {
    CardFilter(range.startDate, range.endDate, if range.stallId.Some? then range.stallId.value else f.stallId)
  }

  /** `applyGlobalRangeToCards(range)`. */
  function ApplyGlobalRangeToCards(cards: Cards, range: GlobalRange): (r: Cards)
    ensures r.sales == Range(range.startDate, range.endDate)
    ensures var fs := [r.transactions, r.expenses, r.statistics, r.stockHistory, r.activityHistory];
            forall i :: 0 <= i < 5 ==> fs[i].startDate == range.startDate && fs[i].endDate == range.endDate
    ensures range.stallId.None? ==>
              r.transactions.stallId == cards.transactions.stallId && r.expenses.stallId == cards.expenses.stallId &&
              r.statistics.stallId == cards.statistics.stallId && r.stockHistory.stallId == cards.stockHistory.stallId &&
              r.activityHistory.stallId == cards.activityHistory.stallId
    ensures range.stallId.Some? ==>
              var s := range.stallId.value;
              r.transactions.stallId == s && r.expenses.stallId == s && r.statistics.stallId == s &&
              r.stockHistory.stallId == s && r.activityHistory.stallId == s
  {
    Cards(Range(range.startDate, range.endDate),
          WithRange(cards.transactions, range), WithRange(cards.expenses, range),
          WithRange(cards.statistics, range), WithRange(cards.stockHistory, range),
          WithRange(cards.activityHistory, range))
  }

  /**
   * Applying two ranges in turn is applying the second, with the first's
   * stall kept when the second leaves it undefined; in particular applying
   * the same range twice changes nothing more.
   */
  lemma ApplyGlobalRangeTwice(cards: Cards, a: GlobalRange, b: GlobalRange)
    ensures ApplyGlobalRangeToCards(ApplyGlobalRangeToCards(cards, a), b)
            == ApplyGlobalRangeToCards(cards, GlobalRange(b.startDate, b.endDate,
                                                          if b.stallId.Some? then b.stallId else a.stallId))
    ensures ApplyGlobalRangeToCards(ApplyGlobalRangeToCards(cards, a), a) == ApplyGlobalRangeToCards(cards, a)
  {
  }

  // ---------------------------------------------------------------------------
  // Sales by stall (loadSalesByStall)
  // ---------------------------------------------------------------------------

  /** A row of the sales read: `stalls.stall_name` is `""` when missing. */
  datatype SaleRow = SaleRow(stallId: string, stallName: string, totalAmount: Option<int>,
                             saleDate: Option<string>, saleTime: Option<int>)

  /** `sale.stalls?.stall_name || \`Stall ${stallId}\``. */
  function StallLabel(stallId: string, stallName: string): (s: string)
    ensures stallName != "" ==> s == stallName
    ensures stallName == "" ==> s == "Stall " + stallId
  {
    if stallName != "" then stallName else "Stall " + stallId
  }

  /** `Number(a || 0)`: a missing amount counts as 0. */
  function Amount(a: Option<int>): (n: int)
    ensures a.Some? ==> n == a.value
    ensures a.None? ==> n == 0
  {
    if a.Some? then a.value else 0
  }

  /** What a sale contributes to its stall's summary. */
  function SaleEntry(row: SaleRow): Entry
  {
    Entry(row.stallId, StallLabel(row.stallId, row.stallName), Amount(row.totalAmount),
          Stamp(row.saleDate, row.saleTime))
  }

  function Amounts(rows: seq<SaleRow>): (amounts: seq<Option<int>>)
    ensures |amounts| == |rows| && forall i :: 0 <= i < |rows| ==> amounts[i] == rows[i].totalAmount
  {
    seq(|rows|, i requires 0 <= i < |rows| => rows[i].totalAmount)
  }

  /** The rows of one stall, in order. */
  function StallRows(rows: seq<SaleRow>, stallId: string): (r: seq<SaleRow>)
    ensures |r| <= |rows|
  {
    RowsWithKey(rows, SaleEntry, stallId)
  }

  /**
   * The `forEach` of `loadSalesByStall` followed by `Object.values`: the
   * stalls' summaries, as `Accumulate(EntriesOf(rows, SaleEntry))` computes them.
   */
  function SalesByStall(rows: seq<SaleRow>): seq<Tally>
  {
    Grouped(EntriesOf(rows, SaleEntry))
  }

  /** Summing the entries is summing the amounts with missing ones as 0. */
  lemma {:induction false} TotalOfSales(rows: seq<SaleRow>)
    ensures Grouping.Total(EntriesOf(rows, SaleEntry)) == SumAmounts(Amounts(rows))
    decreases |rows|
  {
    if rows != [] {
      var init := rows[..|rows| - 1];
      TotalOfSales(init);
      EntriesOfPrefix(rows, SaleEntry);
      TotalAppend(EntriesOf(init, SaleEntry), SaleEntry(rows[|rows| - 1]));
      assert Amounts(rows)[..|rows| - 1] == Amounts(init);
    }
  }

  /**
   * A stall's summary: the label of its first row, the sum of its amounts
   * (missing as 0), the number of its rows and the latest date kept from them.
   */
  ghost predicate StallSummaryOf(rows: seq<SaleRow>, g: Tally)
  {
    var rs := StallRows(rows, g.key);
    rs != [] && g.name == StallLabel(rs[0].stallId, rs[0].stallName) &&
    g.total == SumAmounts(Amounts(rs)) && g.count == |rs| && g.latest == Latest(EntriesOf(rs, SaleEntry))
  }

  /**
   * One summary per stall that has a sale, each summarising that stall's
   * rows; together they account for every amount.
   */
  lemma SalesByStallSummary(rows: seq<SaleRow>)
    ensures var gs := SalesByStall(rows);
            (forall i, j :: 0 <= i < j < |gs| ==> gs[i].key != gs[j].key) &&
            (forall id :: StallRows(rows, id) != [] <==> exists j :: 0 <= j < |gs| && gs[j].key == id)
    ensures var gs := SalesByStall(rows);
            forall j :: 0 <= j < |gs| ==> StallSummaryOf(rows, gs[j])
    ensures GroupTotal(SalesByStall(rows)) == SumAmounts(Amounts(rows))
  {
    GroupedRows(rows, SaleEntry);
    TotalOfSales(rows);
    var gs := SalesByStall(rows);
    forall j | 0 <= j < |gs| ensures StallSummaryOf(rows, gs[j]) {
      var rs := StallRows(rows, gs[j].key);
      assert Summarises(rows, SaleEntry, gs[j]);
      TotalOfSales(rs);
    }
  }

  /** A sale whose date is set and valid. */
  predicate DatedSale(row: SaleRow)
  {
    row.saleDate.Some? && row.saleDate.value != "" && row.saleTime.Some?
  }

  /** The time `new Date(sale_date)` reads (0 for an invalid date). */
  function ReadTime(row: SaleRow): int
  {
    if row.saleTime.Some? then row.saleTime.value else 0
  }

  /**
   * When every sale of a stall has a valid date, its `last_sale` is the date
   * of the stall's sale with the largest time, the earliest-read one on ties.
   */
  lemma LastSaleIsLatest(rows: seq<SaleRow>, stallId: string)
    requires StallRows(rows, stallId) != []
    requires forall i :: 0 <= i < |rows| && rows[i].stallId == stallId ==> DatedSale(rows[i])
    ensures var rs := StallRows(rows, stallId);
            var l := Latest(EntriesOf(rs, SaleEntry));
            l.time.Some? &&
            (forall i :: 0 <= i < |rs| ==> ReadTime(rs[i]) <= l.time.value) &&
            exists j :: 0 <= j < |rs| && l == Stamp(rs[j].saleDate, rs[j].saleTime) &&
                        forall i :: 0 <= i < j ==> ReadTime(rs[i]) < l.time.value
  {
    var rs := StallRows(rows, stallId);
    var es := EntriesOf(rs, SaleEntry);
    hide StallRows, RowsWithKey, EntriesOf, SaleEntry, DatedSale, ValidStamp, Latest, ReadTime, TimeOf;
    StallRowsDated(rows, stallId);
    SaleStamps(rs);
    LatestIsFirstMaximum(es);
    var l := Latest(es);
    var j :| 0 <= j < |es| && es[j].stamp == l && forall i :: 0 <= i < j ==> TimeOf(es[i]) < l.time.value;
  }

  /** The sales of a stall are among the sales, so they are dated when all of them are. */
  lemma StallRowsDated(rows: seq<SaleRow>, stallId: string)
    requires forall i :: 0 <= i < |rows| && rows[i].stallId == stallId ==> DatedSale(rows[i])
    ensures var rs := StallRows(rows, stallId);
            forall i :: 0 <= i < |rs| ==> DatedSale(rs[i])
  {
    hide DatedSale;
    RowsWithKeyOf(rows, SaleEntry, stallId);
    var rs := StallRows(rows, stallId);
    forall i | 0 <= i < |rs| ensures DatedSale(rs[i]) {
      assert rs[i] in RowsWithKey(rows, SaleEntry, stallId);
    }
  }

  /** The entry of a dated sale carries its date and time. */
  lemma SaleStamps(rs: seq<SaleRow>)
    requires forall i :: 0 <= i < |rs| ==> DatedSale(rs[i])
    ensures var es := EntriesOf(rs, SaleEntry);
            |es| == |rs| &&
            forall i :: 0 <= i < |es| ==>
              ValidStamp(es[i].stamp) && TimeOf(es[i]) == ReadTime(rs[i]) &&
              es[i].stamp == Stamp(rs[i].saleDate, rs[i].saleTime)
  {
  }

  // ---------------------------------------------------------------------------
  // The sales chart order
  // ---------------------------------------------------------------------------

  function NegatedTotal(t: Tally): int
  {
    -t.total
  }

  function NegatedCount(t: Tally): int
  {
    -(t.count as int)
  }

  /** `b.total_sales - a.total_sales` for 'sales', `b.transaction_count - a.transaction_count` otherwise. */
  function ChartKey(metric: string): Tally -> int
  {
    if metric == "sales" then NegatedTotal else NegatedCount
  }

  /** `[...salesByStall].sort(...)`: the summaries, largest first by the chosen metric. */
  function ChartData(salesByStall: seq<Tally>, metric: string): (r: seq<Tally>)
    ensures multiset(r) == multiset(salesByStall)
    ensures metric == "sales" ==> forall i, j :: 0 <= i < j < |r| ==> r[i].total >= r[j].total
    ensures metric != "sales" ==> forall i, j :: 0 <= i < j < |r| ==> r[i].count >= r[j].count
  {
    var r := SortBy(salesByStall, ChartKey(metric));
    assert forall i, j :: 0 <= i < j < |r| ==> ChartKey(metric)(r[i]) <= ChartKey(metric)(r[j]);
    r
  }

  /** The sort is stable: stalls with equal values keep their order in the summary. */
  lemma ChartDataTies(salesByStall: seq<Tally>, metric: string, v: int)
    ensures WithKey(ChartData(salesByStall, metric), ChartKey(metric), v) == WithKey(salesByStall, ChartKey(metric), v)
  {
    SortByStable(salesByStall, ChartKey(metric), v);
  }

  // ---------------------------------------------------------------------------
  // Statistics (loadStatistics)
  // ---------------------------------------------------------------------------

  /** The bounds and stall of the statistics queries; `None` is `null`, meaning no filter. */
  datatype StatsScope = StatsScope(startDate: Option<string>, endDate: Option<string>, stallId: Option<string>)

  /** `s || null`. */
  function OrNull(s: string): (r: Option<string>)
    ensures r.None? <==> s == ""
    ensures r.Some? ==> r.value == s
  {
    if s == "" then None else Some(s)
  }

  /**
   * The scope of `loadStatistics`: a staff member always gets Manila's today
   * and the profile's stall; an admin gets the debounced filters; anyone
   * else no bounds and the (undebounced) filter stall.
   */
  function StatisticsScope(profile: Option<Profile>, filters: CardFilter, debounced: CardFilter,
                           now: int, hostOffset: int): (r: StatsScope)
    ensures profile.Some? && profile.value.role == "staff" ==>
              var today := BuildTodayRangePH(now, hostOffset).startDate;
              r == StatsScope(Some(today), Some(today), OrNull(profile.value.stallId))
    ensures profile.Some? && profile.value.role == "admin" ==>
              r == StatsScope(OrNull(debounced.startDate), OrNull(debounced.endDate), OrNull(debounced.stallId))
  {
    if profile.Some? && profile.value.role == "staff" then
      var today := BuildTodayRangePH(now, hostOffset);
      StatsScope(Some(today.startDate), Some(today.endDate), OrNull(profile.value.stallId))
    else if profile.Some? && profile.value.role == "admin" then
      StatsScope(OrNull(debounced.startDate), OrNull(debounced.endDate), OrNull(debounced.stallId))
    else
      StatsScope(None, None, OrNull(filters.stallId))
  }

  /** One statistics query: `gte`, `lte` and `eq('stall_id')`, each only when its value is set. */
  function ScopeQuery(dateColumn: string, scope: StatsScope): (q: Query)
    ensures forall s :: Gte(dateColumn, s) in q <==> scope.startDate == Some(s)
    ensures forall s :: Lte(dateColumn, s) in q <==> scope.endDate == Some(s)
    ensures forall s :: Eq("stall_id", s) in q <==> scope.stallId == Some(s)
    ensures |q| <= 3
  {
    (if scope.startDate.Some? then [Gte(dateColumn, scope.startDate.value)] else []) +
    (if scope.endDate.Some? then [Lte(dateColumn, scope.endDate.value)] else []) +
    (if scope.stallId.Some? then [Eq("stall_id", scope.stallId.value)] else [])
  }

  /** A staff member's statistics ignore the card's filters. */
  lemma StaffStatisticsIgnoreFilters(profile: Profile, filters: CardFilter, debounced: CardFilter,
                                     now: int, hostOffset: int)
    requires profile.role == "staff"
    ensures StatisticsScope(Some(profile), filters, debounced, now, hostOffset)
            == StatisticsScope(Some(profile), CardFilter("", "", ""), CardFilter("", "", ""), now, hostOffset)
  {
  }

  /**
   * A staff member's statistics select the same rows as every other staff
   * card: the same three predicates the staff restriction adds, in another
   * order.
   */
  lemma StaffStatisticsAreToday(profile: Profile, filters: CardFilter, debounced: CardFilter,
                                now: int, hostOffset: int, dateColumn: string)
    requires IsStaffWithStall(Some(profile)) && dateColumn != ""
    ensures multiset(ScopeQuery(dateColumn, StatisticsScope(Some(profile), filters, debounced, now, hostOffset)))
            == multiset(RestrictToStaffStallAndToday([], Some(profile), dateColumn, now, hostOffset))
  {
    var t := BuildTodayRangePH(now, hostOffset).startDate;
    var scope := StatisticsScope(Some(profile), filters, debounced, now, hostOffset);
    assert scope == StatsScope(Some(t), Some(t), Some(profile.stallId));
    var q1 := ScopeQuery(dateColumn, scope);
    assert q1 == [Gte(dateColumn, t)] + [Lte(dateColumn, t)] + [Eq("stall_id", profile.stallId)];
    var q2 := RestrictToStaffStallAndToday([], Some(profile), dateColumn, now, hostOffset);
    assert q2 == [] + [Eq("stall_id", profile.stallId)] + [Gte(dateColumn, t), Lte(dateColumn, t)];
    hide *;
    assert multiset(q1) == multiset(q2);
  }

  /** An admin with empty filters gets unfiltered statistics. */
  lemma AdminEmptyFiltersSelectAll(profile: Profile, filters: CardFilter, now: int, hostOffset: int, dateColumn: string)
    requires profile.role == "admin"
    ensures ScopeQuery(dateColumn, StatisticsScope(Some(profile), filters, CardFilter("", "", ""), now, hostOffset)) == []
  {
  }

  /** The entry a sale contributes to `stallTotals` (no date is kept there). */
  function StallTotalEntry(row: SaleRow): Entry
  {
    Entry(row.stallId, StallLabel(row.stallId, row.stallName), Amount(row.totalAmount), NullStamp)
  }

  /** `Object.values(stallTotals)`. */
  function StallTotals(rows: seq<SaleRow>): seq<Tally>
  {
    Grouped(seq(|rows|, i requires 0 <= i < |rows| => StallTotalEntry(rows[i])))
  }

  /** The fold `stall.total > max.total ? stall : max` from the first stall: the first of the largest. */
  function HighestIndex(gs: seq<Tally>): (j: nat)
    requires gs != []
    ensures j < |gs|
    ensures forall i :: 0 <= i < |gs| ==> gs[i].total <= gs[j].total
    ensures forall i :: 0 <= i < j ==> gs[i].total < gs[j].total
  {
    if |gs| == 1 then 0
    else
      var m := HighestIndex(gs[..|gs| - 1]);
      if gs[|gs| - 1].total > gs[m].total then |gs| - 1 else m
  }

  /** The fold `stall.total < min.total ? stall : min` from the first stall: the first of the smallest. */
  function LowestIndex(gs: seq<Tally>): (j: nat)
    requires gs != []
    ensures j < |gs|
    ensures forall i :: 0 <= i < |gs| ==> gs[i].total >= gs[j].total
    ensures forall i :: 0 <= i < j ==> gs[i].total > gs[j].total
  {
    if |gs| == 1 then 0
    else
      var m := LowestIndex(gs[..|gs| - 1]);
      if gs[|gs| - 1].total < gs[m].total then |gs| - 1 else m
  }

  /** `highestEarningStall`: `null` without stalls. */
  function HighestEarningStall(gs: seq<Tally>): (r: Option<Tally>)
    ensures r.None? <==> gs == []
    ensures r.Some? ==> exists j :: 0 <= j < |gs| && gs[j] == r.value &&
                          (forall i :: 0 <= i < |gs| ==> gs[i].total <= r.value.total) &&
                          (forall i :: 0 <= i < j ==> gs[i].total < r.value.total)
  {
    if gs == [] then None else Some(gs[HighestIndex(gs)])
  }

  /** `lowestEarningStall`: `null` without stalls. */
  function LowestEarningStall(gs: seq<Tally>): (r: Option<Tally>)
    ensures r.None? <==> gs == []
    ensures r.Some? ==> exists j :: 0 <= j < |gs| && gs[j] == r.value &&
                          (forall i :: 0 <= i < |gs| ==> gs[i].total >= r.value.total) &&
                          (forall i :: 0 <= i < j ==> gs[i].total > r.value.total)
  {
    if gs == [] then None else Some(gs[LowestIndex(gs)])
  }

  /** The four figures of the statistics card. */
  datatype Statistics = Statistics(totalSales: int, totalExpenses: int,
                                   highest: Option<Tally>, lowest: Option<Tally>)

  /**
   * The statistics from the three reads (`sum + amount` counts a `null`
   * amount as 0); the highest and lowest stall are taken over the stalls
   * that have a sale in scope.
   */
  function LoadStatistics(sales: seq<Option<int>>, expenses: seq<Option<int>>, stallSales: seq<SaleRow>): (r: Statistics)
    ensures r.totalSales == SumAmounts(sales) && r.totalExpenses == SumAmounts(expenses)
    ensures r.highest.None? <==> stallSales == []
    ensures r.lowest.None? <==> stallSales == []
    ensures r.highest == HighestEarningStall(StallTotals(stallSales))
    ensures r.lowest == LowestEarningStall(StallTotals(stallSales))
  {
    var gs := StallTotals(stallSales);
    var es := seq(|stallSales|, i requires 0 <= i < |stallSales| => StallTotalEntry(stallSales[i]));
    GroupedKeys(es);
    assert stallSales != [] ==> es[0].key in Grouping.FirstSeen(es);
    Statistics(SumAmounts(sales), SumAmounts(expenses), HighestEarningStall(gs), LowestEarningStall(gs))
  }

  /** What one stall earned in scope: the sum of its sales' amounts, a missing one as 0. */
  ghost function StallEarnings(rows: seq<SaleRow>, stallId: string): int
  {
    Grouping.Total(EntriesOf(RowsWithKey(rows, StallTotalEntry, stallId), StallTotalEntry))
  }

  /**
   * The card's highest and lowest stall are stalls with a sale in scope,
   * each carrying what it earned, and no stall with a sale earned more
   * than the highest or less than the lowest.
   */
  lemma StatisticsStallsAreExtremes(sales: seq<Option<int>>, expenses: seq<Option<int>>, stallSales: seq<SaleRow>)
    ensures var h := LoadStatistics(sales, expenses, stallSales).highest;
            h.Some? ==>
              RowsWithKey(stallSales, StallTotalEntry, h.value.key) != [] &&
              h.value.total == StallEarnings(stallSales, h.value.key) &&
              forall id :: RowsWithKey(stallSales, StallTotalEntry, id) != [] ==>
                StallEarnings(stallSales, id) <= h.value.total
    ensures var l := LoadStatistics(sales, expenses, stallSales).lowest;
            l.Some? ==>
              RowsWithKey(stallSales, StallTotalEntry, l.value.key) != [] &&
              l.value.total == StallEarnings(stallSales, l.value.key) &&
              forall id :: RowsWithKey(stallSales, StallTotalEntry, id) != [] ==>
                StallEarnings(stallSales, id) >= l.value.total
  {
    var gs := StallTotals(stallSales);
    StallTotalsGrouped(stallSales);
    hide *;
    GroupedRows(stallSales, StallTotalEntry);
    var r := LoadStatistics(sales, expenses, stallSales);
    forall id | RowsWithKey(stallSales, StallTotalEntry, id) != []
      ensures exists j :: 0 <= j < |gs| && gs[j].key == id && gs[j].total == StallEarnings(stallSales, id)
    {
      var j :| 0 <= j < |gs| && gs[j].key == id;
      StallSummaryTotal(stallSales, gs[j]);
    }
    if r.highest.Some? {
      var j :| 0 <= j < |gs| && gs[j] == r.highest.value;
      StallSummaryTotal(stallSales, gs[j]);
    }
    if r.lowest.Some? {
      var j :| 0 <= j < |gs| && gs[j] == r.lowest.value;
      StallSummaryTotal(stallSales, gs[j]);
    }
  }

  /** The stall totals are the grouping of the rows' stall entries. */
  lemma StallTotalsGrouped(rows: seq<SaleRow>)
    ensures StallTotals(rows) == Grouped(EntriesOf(rows, StallTotalEntry))
  {
    var es := seq(|rows|, i requires 0 <= i < |rows| => StallTotalEntry(rows[i]));
    assert es == EntriesOf(rows, StallTotalEntry);
  }

  /** A stall's group in the statistics holds what that stall earned. */
  lemma StallSummaryTotal(rows: seq<SaleRow>, g: Tally)
    requires Summarises(rows, StallTotalEntry, g)
    ensures RowsWithKey(rows, StallTotalEntry, g.key) != [] && g.total == StallEarnings(rows, g.key)
  {
  }

  // ---------------------------------------------------------------------------
  // The expenses stall filter (loadExpenses)
  // ---------------------------------------------------------------------------

  /** The marker the stall select uses for "no stall". */
  const NoStall: string := "__none__"

  /** The stall predicate `loadExpenses` adds for an admin. */
  function ExpenseStallFilter(stallId: string): (fs: seq<Filter>)
    ensures |fs| <= 1
  {
    if stallId == "" then []
    else if stallId == NoStall then [IsNull("stall_id")]
    else [Eq("stall_id", stallId)]
  }

  /** An expense's `stall_id` satisfies the stall predicates (`None` is `null`). */
  predicate SelectsStall(fs: seq<Filter>, stall: Option<string>)
  {
    forall f :: f in fs ==>
      (f.Eq? && f.column == "stall_id" ==> stall == Some(f.value)) &&
      (f.IsNull? && f.column == "stall_id" ==> stall.None?)
  }

  /**
   * The expenses card shows: every expense for an unset stall, exactly the
   * expenses without a stall for the "no stall" marker, and exactly the
   * expenses of that stall otherwise.
   */
  lemma ExpenseStallSelection(stallId: string, stall: Option<string>)
    ensures stallId == "" ==> SelectsStall(ExpenseStallFilter(stallId), stall)
    ensures stallId == NoStall ==> (SelectsStall(ExpenseStallFilter(stallId), stall) <==> stall.None?)
    ensures stallId != "" && stallId != NoStall ==>
              (SelectsStall(ExpenseStallFilter(stallId), stall) <==> stall == Some(stallId))
  {
    if stallId == NoStall {
      assert IsNull("stall_id") in ExpenseStallFilter(stallId);
    } else if stallId != "" {
      assert Eq("stall_id", stallId) in ExpenseStallFilter(stallId);
    }
  }

  // ---------------------------------------------------------------------------
  // Activity history (loadActivityHistory)
  // ---------------------------------------------------------------------------

  /** A `stall_status_history` row as read. */
  datatype ActivityRow = ActivityRow(id: string, stallId: string, status: string, date: string, changedAt: string)

  /** `${row.stall_id}-${row.date}`. */
  function ActivityKey(row: ActivityRow): (k: string)
    ensures |k| > |row.stallId| && k[|row.stallId|] == '-'
  {
    row.stallId + "-" + row.date
  }

  function ActivityKeys(rows: seq<ActivityRow>): (ks: seq<string>)
    ensures |ks| == |rows| && forall i :: 0 <= i < |rows| ==> ks[i] == ActivityKey(rows[i])
  {
    seq(|rows|, i requires 0 <= i < |rows| => ActivityKey(rows[i]))
  }

  /** The first row of each key, in the order the keys first occur. */
  function FirstPerKey(rows: seq<ActivityRow>): seq<ActivityRow>
  {
    if rows == [] then []
    else
      var r := FirstPerKey(rows[..|rows| - 1]);
      var row := rows[|rows| - 1];
      if ActivityKey(row) in ActivityKeys(r) then r else r + [row]
  }

  lemma FirstPerKeyAppend(rows: seq<ActivityRow>, row: ActivityRow)
    ensures FirstPerKey(rows + [row]) == FirstPerKey(rows) + (if ActivityKey(row) in ActivityKeys(FirstPerKey(rows)) then [] else [row])
  {
    assert (rows + [row])[..|rows|] == rows;
  }

  lemma ActivityKeysAppend(rows: seq<ActivityRow>, row: ActivityRow)
    ensures ActivityKeys(rows + [row]) == ActivityKeys(rows) + [ActivityKey(row)]
  {
  }

  /** The kept rows' keys are the keys of the input, each once, in first-occurrence order. */
  lemma {:induction false} FirstPerKeyKeys(rows: seq<ActivityRow>)
    ensures ActivityKeys(FirstPerKey(rows)) == JsonValue.Distinct(ActivityKeys(rows))
    decreases |rows|
  {
    if rows != [] {
      var init, row := rows[..|rows| - 1], rows[|rows| - 1];
      FirstPerKeyKeys(init);
      assert rows == init + [row];
      FirstPerKeyAppend(init, row);
      ActivityKeysAppend(init, row);
      ActivityKeysAppend(FirstPerKey(init), row);
      assert ActivityKeys(rows)[..|rows| - 1] == ActivityKeys(init);
    }
  }

  /** A row whose key has not occurred before it is kept. */
  lemma {:induction false} FirstOccurrenceKept(rows: seq<ActivityRow>, i: int)
    requires 0 <= i < |rows|
    requires forall i' :: 0 <= i' < i ==> ActivityKey(rows[i']) != ActivityKey(rows[i])
    ensures rows[i] in FirstPerKey(rows)
    decreases |rows|
  {
    var init, row := rows[..|rows| - 1], rows[|rows| - 1];
    assert rows == init + [row];
    FirstPerKeyAppend(init, row);
    if i < |rows| - 1 {
      FirstOccurrenceKept(init, i);
    } else {
      FirstPerKeyKeys(init);
      assert ActivityKey(row) !in ActivityKeys(init);
    }
  }

  /** Every kept row is the first row of its key. */
  lemma {:induction false} KeptIsFirstOccurrence(rows: seq<ActivityRow>, x: ActivityRow)
    requires x in FirstPerKey(rows)
    ensures exists i :: 0 <= i < |rows| && rows[i] == x &&
                        forall i' :: 0 <= i' < i ==> ActivityKey(rows[i']) != ActivityKey(x)
    decreases |rows|
  {
    var init, row := rows[..|rows| - 1], rows[|rows| - 1];
    assert rows == init + [row];
    var kept := FirstPerKey(init);
    FirstPerKeyAppend(init, row);
    hide FirstPerKey, ActivityKeys;
    if x in kept {
      KeptIsFirstOccurrence(init, x);
      var i :| 0 <= i < |init| && init[i] == x && forall i' :: 0 <= i' < i ==> ActivityKey(init[i']) != ActivityKey(x);
      assert rows[i] == x && forall i' :: 0 <= i' < i ==> rows[i'] == init[i'];
    } else {
      assert x == row && ActivityKey(row) !in ActivityKeys(kept);
      NewKeyNotBefore(init, row);
      assert rows[|rows| - 1] == x && forall i' :: 0 <= i' < |init| ==> rows[i'] == init[i'];
    }
  }

  /** A row whose key none of the kept rows has is the first row of its key. */
  lemma NewKeyNotBefore(init: seq<ActivityRow>, row: ActivityRow)
    requires ActivityKey(row) !in ActivityKeys(FirstPerKey(init))
    ensures forall i' :: 0 <= i' < |init| ==> ActivityKey(init[i']) != ActivityKey(row)
  {
    FirstPerKeyKeys(init);
    hide FirstPerKey;
    forall i' | 0 <= i' < |init| ensures ActivityKey(init[i']) != ActivityKey(row) {
      assert ActivityKeys(init)[i'] == ActivityKey(init[i']);
    }
  }

  /** The object after the rows `done`: the first row of each key seen, keys in first-occurrence order. */
  ghost predicate KeepsFirst(acc: map<string, ActivityRow>, order: seq<string>, done: seq<ActivityRow>)
  {
    var kept := FirstPerKey(done);
    order == ActivityKeys(kept) &&
    (forall k :: k in acc <==> k in order) &&
    (forall j :: 0 <= j < |order| ==> order[j] in acc && acc[order[j]] == kept[j]) &&
    (forall j :: 0 <= j < |order| ==> !IsArrayIndex(order[j]))
  }

  lemma KeepsFirstStep(acc: map<string, ActivityRow>, order: seq<string>, done: seq<ActivityRow>, row: ActivityRow)
    requires KeepsFirst(acc, order, done)
    ensures var k := ActivityKey(row);
            if k in acc then KeepsFirst(acc, order, done + [row])
            else KeepsFirst(acc[k := row], order + [k], done + [row])
  {
    var k := ActivityKey(row);
    FirstPerKeyAppend(done, row);
    ActivityKeysAppend(FirstPerKey(done), row);
    NonDigitKey(k, |row.stallId|);
  }

  /**
   * The `forEach` of `loadActivityHistory` (keep a row only when its key is
   * not yet in the object) followed by `Object.values`.
   */
  method LatestByStallAndDate(rows: seq<ActivityRow>) returns (history: seq<ActivityRow>)
    ensures history == FirstPerKey(rows)
  {
    var acc: map<string, ActivityRow> := map[];
    var order: seq<string> := [];
    var i := 0;
    assert rows[..0] == [];
    while i < |rows|
      invariant 0 <= i <= |rows|
      invariant KeepsFirst(acc, order, rows[..i])
    {
      var row := rows[i];
      var key := ActivityKey(row);
      assert rows[..i + 1] == rows[..i] + [row];
      KeepsFirstStep(acc, order, rows[..i], row);
      if key !in acc {
        acc := acc[key := row];
        order := order + [key];
      }
      i := i + 1;
    }
    assert rows[..i] == rows;
    EnumerationOrderOfNames(order);
    var keys := EnumerationOrder(order);
    history := seq(|keys|, j requires 0 <= j < |keys| && keys[j] in acc => acc[keys[j]]);
  }

  // ---------------------------------------------------------------------------
  // The transaction editor
  // ---------------------------------------------------------------------------

  /** A menu item as loaded; `price` is `None` when `Number(price)` is NaN or the price is null. */
  datatype MenuItem = MenuItem(itemId: string, itemName: string, price: Option<int>)

  /** The transaction being edited; the joined `menu_items` fields are `None` until set. */
  datatype EditedSale = EditedSale(productId: string, quantitySold: int, unitPrice: int, totalAmount: int,
                                   itemName: Option<string>, itemPrice: Option<int>)

  /** The amount shown agrees with the quantity and the unit price. */
  predicate Priced(t: EditedSale)
  {
    t.totalAmount == t.quantitySold * t.unitPrice
  }

  /** `menuItems.find(mi => String(mi.item_id) === String(id))`: the first item with that id. */
  function FindItem(items: seq<MenuItem>, id: string): (r: Option<MenuItem>)
    ensures r.None? <==> forall i :: 0 <= i < |items| ==> items[i].itemId != id
    ensures r.Some? ==> exists j :: 0 <= j < |items| && items[j] == r.value && r.value.itemId == id &&
                                   forall i :: 0 <= i < j ==> items[i].itemId != id
  {
    if items == [] then None
    else if items[0].itemId == id then Some(items[0])
    else
      var r := FindItem(items[1..], id);
      if r.Some? then
        var j :| 0 <= j < |items[1..]| && items[1..][j] == r.value && r.value.itemId == id &&
                 forall i :: 0 <= i < j ==> items[1..][i].itemId != id;
        assert items[j + 1] == r.value;
        r
      else r
  }

  /**
   * Choosing item `id`: an unknown item changes only `product_id`; a known
   * one sets the product, the unit price (`Number(price) || 0`) and the
   * amount for the current quantity.
   */
  function ChooseItem(t: EditedSale, items: seq<MenuItem>, id: string): (r: EditedSale)
    ensures FindItem(items, id).None? ==> r == t.(productId := id)
    ensures FindItem(items, id).Some? ==>
              var m := FindItem(items, id).value;
              r.productId == m.itemId && r.unitPrice == Amount(m.price) && r.quantitySold == t.quantitySold &&
              r.itemName == Some(m.itemName) && r.itemPrice == Some(r.unitPrice) && Priced(r)
  {
    match FindItem(items, id)
    case None => t.(productId := id)
    case Some(m) =>
      var price := Amount(m.price);
      t.(productId := m.itemId, unitPrice := price, totalAmount := t.quantitySold * price,
         itemName := Some(m.itemName), itemPrice := Some(price))
  }

  /**
   * Changing the quantity input, given what `Number(value)` reads from it
   * (`None` for NaN): `|| 0` turns NaN into 0, and the amount follows.
   */
  function ChangeQuantity(t: EditedSale, number: Option<int>): (r: EditedSale)
    ensures r.quantitySold == Amount(number) && Priced(r)
    ensures r.productId == t.productId && r.unitPrice == t.unitPrice
    ensures r.itemName == t.itemName && r.itemPrice == t.itemPrice
  {
    var qty := Amount(number);
    t.(quantitySold := qty, totalAmount := qty * t.unitPrice)
  }

  /** Every edit keeps the amount consistent, and an unknown item cannot break it. */
  lemma EditsKeepPriced(t: EditedSale, items: seq<MenuItem>, id: string, number: Option<int>)
    requires Priced(t)
    ensures Priced(ChooseItem(t, items, id)) && Priced(ChangeQuantity(t, number))
  {
  }

  /** Choosing a known item and then changing the quantity charges the new quantity at the item's price. */
  lemma ChooseThenChangeQuantity(t: EditedSale, items: seq<MenuItem>, id: string, number: Option<int>)
    requires FindItem(items, id).Some?
    ensures var r := ChangeQuantity(ChooseItem(t, items, id), number);
            r.totalAmount == Amount(number) * Amount(FindItem(items, id).value.price)
  {
  }
}

=== FILE: sorting.dfy ===
/**
 * `Array.prototype.sort` with a numeric comparator (`(a, b) => key(a) - key(b)`).
 * The sort of ECMA-262 (section 23.1.3.30) is stable, so its result is
 * determined: ascending by key, and elements with equal keys in their
 * original order.  `SortBy` is an insertion sort with that result, and
 * `StableSortUnique` shows that any ordering with those two properties is
 * the same list.
 */
module Sorting {

  /** Non-decreasing by `key`. */
  predicate SortedBy<T>(s: seq<T>, key: T -> int)
  {
    forall i, j :: 0 <= i < j < |s| ==> key(s[i]) <= key(s[j])
  }

  /** The elements of `s` whose key is `v`, in order. */
  function WithKey<T>(s: seq<T>, key: T -> int, v: int): (r: seq<T>)
    ensures |r| <= |s|
  {
    if s == [] then []
    else
      var r := WithKey(s[..|s| - 1], key, v);
      if key(s[|s| - 1]) == v then r + [s[|s| - 1]] else r
  }

  /** `x` placed after every element whose key is not larger. */
  function InsertBy<T(==)>(s: seq<T>, x: T, key: T -> int): (r: seq<T>)
    requires SortedBy(s, key)
    ensures multiset(r) == multiset(s) + multiset{x}
    ensures |r| == |s| + 1
    ensures forall y :: y in r ==> y in s || y == x
    ensures SortedBy(r, key)
  {
    if s == [] || key(s[|s| - 1]) <= key(x) then s + [x]
    else
      var init, last := s[..|s| - 1], s[|s| - 1];
      assert s == init + [last];
      var r := InsertBy(init, x, key);
      assert forall i :: 0 <= i < |r| ==> r[i] in r;
      r + [last]
  }

  /** `[...s].sort((a, b) => key(a) - key(b))`. */
  function SortBy<T(==)>(s: seq<T>, key: T -> int): (r: seq<T>)
    ensures multiset(r) == multiset(s)
    ensures |r| == |s|
    ensures SortedBy(r, key)
  {
    if s == [] then []
    else
      assert s == s[..|s| - 1] + [s[|s| - 1]];
      InsertBy(SortBy(s[..|s| - 1], key), s[|s| - 1], key)
  }

  lemma WithKeyAppend<T>(s: seq<T>, x: T, key: T -> int, v: int)
    ensures WithKey(s + [x], key, v) == WithKey(s, key, v) + (if key(x) == v then [x] else [])
  {
    assert (s + [x])[..|s|] == s;
  }

  /** Inserting adds `x` after the elements of its own key. */
  lemma {:induction false} InsertByWithKey<T>(s: seq<T>, x: T, key: T -> int, v: int)
    requires SortedBy(s, key)
    ensures WithKey(InsertBy(s, x, key), key, v) == WithKey(s, key, v) + (if key(x) == v then [x] else [])
    decreases |s|
  {
    if s == [] || key(s[|s| - 1]) <= key(x) {
      WithKeyAppend(s, x, key, v);
    } else {
      var init, last := s[..|s| - 1], s[|s| - 1];
      assert s == init + [last];
      var r := InsertBy(init, x, key);
      assert InsertBy(s, x, key) == r + [last];
      hide InsertBy;
      InsertByWithKey(init, x, key, v);
      WithKeyAppend(r, last, key, v);
      WithKeyAppend(init, last, key, v);
    }
  }

  /** The sort is stable: the elements of each key keep their order. */
  lemma {:induction false} SortByStable<T>(s: seq<T>, key: T -> int, v: int)
    ensures WithKey(SortBy(s, key), key, v) == WithKey(s, key, v)
    decreases |s|
  {
    if s != [] {
      var init, last := s[..|s| - 1], s[|s| - 1];
      SortByStable(init, key, v);
      InsertByWithKey(SortBy(init, key), last, key, v);
      assert s == init + [last];
      WithKeyAppend(init, last, key, v);
    }
  }

  /** The last element of a sorted list has the largest key, and every element of that key follows the rest. */
  lemma SortedLast<T>(r: seq<T>, key: T -> int, v: int)
    requires SortedBy(r, key) && r != []
    ensures v > key(r[|r| - 1]) ==> WithKey(r, key, v) == []
  {
  }

  lemma {:induction false} WithKeyEmpty<T>(s: seq<T>, key: T -> int, v: int)
    requires forall i :: 0 <= i < |s| ==> key(s[i]) != v
    ensures WithKey(s, key, v) == []
    decreases |s|
  {
    if s != [] {
      WithKeyEmpty(s[..|s| - 1], key, v);
    }
  }

  /** A non-empty list has an element of the key of its last element. */
  lemma LastKeyPresent<T>(q: seq<T>, key: T -> int)
    requires q != []
    ensures WithKey(q, key, key(q[|q| - 1])) != []
  {
    hide WithKey;
    assert q == q[..|q| - 1] + [q[|q| - 1]];
    WithKeyAppend(q[..|q| - 1], q[|q| - 1], key, key(q[|q| - 1]));
  }

  lemma PrefixOfAppend<T>(x: seq<T>, y: seq<T>, a: T, b: T)
    requires x + [a] == y + [b]
    ensures x == y && a == b
  {
    assert |x| == |y|;
    assert forall i :: 0 <= i < |x| ==> x[i] == (x + [a])[i];
    assert (x + [a])[|x|] == a;
  }

  /** Two sorted lists that agree key by key end with the same element. */
  lemma SameLast<T>(r: seq<T>, q: seq<T>, key: T -> int)
    requires SortedBy(r, key) && SortedBy(q, key) && r != [] && q != []
    requires WithKey(r, key, key(r[|r| - 1])) == WithKey(q, key, key(r[|r| - 1]))
    requires WithKey(r, key, key(q[|q| - 1])) == WithKey(q, key, key(q[|q| - 1]))
    ensures r[|r| - 1] == q[|q| - 1]
  {
    hide *;
    var a, b := r[|r| - 1], q[|q| - 1];
    var r', q' := r[..|r| - 1], q[..|q| - 1];
    LastKeyPresent(r, key);
    LastKeyPresent(q, key);
    SortedLast(r, key, key(b));
    SortedLast(q, key, key(a));
    assert key(a) == key(b);
    assert r == r' + [a] && q == q' + [b];
    WithKeyAppend(r', a, key, key(a));
    WithKeyAppend(q', b, key, key(a));
    var x, y := WithKey(r', key, key(a)), WithKey(q', key, key(a));
    PrefixOfAppend(x, y, a, b);
  }

  /** Dropping the same last element keeps two lists in agreement key by key. */
  lemma DropLastAgree<T>(r': seq<T>, q': seq<T>, a: T, key: T -> int, v: int)
    requires WithKey(r' + [a], key, v) == WithKey(q' + [a], key, v)
    ensures WithKey(r', key, v) == WithKey(q', key, v)
  {
    hide WithKey;
    WithKeyAppend(r', a, key, v);
    WithKeyAppend(q', a, key, v);
    var x, y := WithKey(r', key, v), WithKey(q', key, v);
    if key(a) == v {
      PrefixOfAppend(x, y, a, a);
    }
  }

  /**
   * Two orderings that are both sorted by key and agree, key by key, on the
   * order of the elements are the same list; so `SortBy` returns exactly
   * what any stable sort returns.
   */
  lemma {:induction false} StableSortUnique<T>(r: seq<T>, q: seq<T>, key: T -> int)
    requires SortedBy(r, key) && SortedBy(q, key)
    requires forall v :: WithKey(r, key, v) == WithKey(q, key, v)
    ensures r == q
    decreases |r|
  {
    if r == [] || q == [] {
      if r != [] {
        LastKeyPresent(r, key);
      } else if q != [] {
        LastKeyPresent(q, key);
      }
    } else {
      SameLast(r, q, key);
      var r', q', a := r[..|r| - 1], q[..|q| - 1], r[|r| - 1];
      assert r == r' + [a] && q == q' + [a];
      forall v ensures WithKey(r', key, v) == WithKey(q', key, v) {
        DropLastAgree(r', q', a, key, v);
      }
      StableSortUnique(r', q', key);
    }
  }

  /** `SortBy` agrees with every stable sort: any sorted rearrangement that keeps each key's order. */
  lemma SortByIsTheStableSort<T>(s: seq<T>, q: seq<T>, key: T -> int)
    requires SortedBy(q, key)
    requires forall v :: WithKey(q, key, v) == WithKey(s, key, v)
    ensures SortBy(s, key) == q
  {
    forall v ensures WithKey(SortBy(s, key), key, v) == WithKey(q, key, v) {
      SortByStable(s, key, v);
    }
    StableSortUnique(SortBy(s, key), q, key);
  }
}

=== FILE: staff_reports_today.dfy ===
/**
 * Staff "today" helpers (src/utils/staffReportsToday.js): today's range in
 * Manila, the stall-and-today restriction applied to staff queries, and the
 * defaulting wrappers around the stock, stock-status and sales reads.
 *
 * Database reads are parameters: a read that fails is `Failure`, one that
 * succeeds carries the rows it returned.  The `stock_status_history` table is
 * a map keyed by `(stall_id, date)` held by `StockStatusHistory`, whose
 * `upsert` replaces the row with that key.  Amounts and quantities are whole
 * numbers (centavos, pieces).
 */
module StaffReportsToday {
  import opened Wrappers
  import opened Calendar
  import opened DateString
  import opened DateUtils
  import opened QueryBuilder
  import opened DateFilterUtils

  /** The profile fields these helpers read; `""` is a missing `stall_id`. */
  datatype Profile = Profile(role: string, stallId: string)

  const NotSoldOut: string := "not_sold_out"

  // ---------------------------------------------------------------------------
  // buildTodayRangePH and restrictToStaffStallAndToday
  // ---------------------------------------------------------------------------

  /** `buildTodayRangePH()`: start and end are both Manila's today as the host computes it. */
  function BuildTodayRangePH(now: int, hostOffset: int): (r: Range)
    ensures r.startDate == r.endDate && r.startDate != ""
  {
    var dateStr := GetPHDateString(GetPHDate(now, hostOffset));
    Range(dateStr, dateStr)
  }

  /** It is the range of the 'today' preset. */
  lemma BuildTodayRangeIsTodayPreset(now: int, hostOffset: int)
    ensures BuildTodayRangePH(now, hostOffset) == GetPresetDateRange(Today, now, hostOffset)
  {
  }

  /** On a host at or west of UTC+8 the range is Manila's calendar date itself. */
  lemma BuildTodayRangeIsPHToday(now: int, hostOffset: int)
    requires ConstructorSafe(PHDateOf(now))
    requires -16 * MsPerHour < hostOffset <= PHOffset
    ensures BuildTodayRangePH(now, hostOffset) == Range(Format(PHDateOf(now)), Format(PHDateOf(now)))
  {
    BuildTodayRangeIsTodayPreset(now, hostOffset);
    GetPresetDateRangeWestOfManila(Today, now, hostOffset);
  }

  /** The restriction applies only to a present profile with role 'staff' and a stall. */
  predicate IsStaffWithStall(profile: Option<Profile>)
  {
    profile.Some? && profile.value.role == "staff" && profile.value.stallId != ""
  }

  /**
   * `restrictToStaffStallAndToday(query, profile, {dateColumn})`: for a staff
   * member with a stall, `eq('stall_id', stall)` and, when a date column is
   * given, today as both bounds on it; otherwise the query unchanged.
   */
  function RestrictToStaffStallAndToday(query: Query, profile: Option<Profile>, dateColumn: string,
                                        now: int, hostOffset: int): (r: Query)
    ensures !IsStaffWithStall(profile) ==> r == query
    ensures IsStaffWithStall(profile) ==>
              query < r && r[|query|] == Eq("stall_id", profile.value.stallId)
    ensures dateColumn == "" ==> |r| <= |query| + 1
  {
    if !IsStaffWithStall(profile) then query
    else
      var today := BuildTodayRangePH(now, hostOffset);
      var restricted := query + [Eq("stall_id", profile.value.stallId)];
      if dateColumn != "" then restricted + [Gte(dateColumn, today.startDate), Lte(dateColumn, today.endDate)]
      else restricted
  }

  /**
   * With a date column the staff restriction is the stall filter followed by
   * exactly what `applyDateRangeFilter` adds for today's range on a plain
   * date column.
   */
  lemma RestrictIsStallThenToday(query: Query, profile: Option<Profile>, dateColumn: string, now: int, hostOffset: int)
    requires IsStaffWithStall(profile) && dateColumn != ""
    ensures var today := BuildTodayRangePH(now, hostOffset);
            ApplyDateRangeFilter(Some(query + [Eq("stall_id", profile.value.stallId)]), dateColumn,
                                 today.startDate, today.endDate, false, hostOffset)
            == Ok(Some(RestrictToStaffStallAndToday(query, profile, dateColumn, now, hostOffset)))
  {
    var today := BuildTodayRangePH(now, hostOffset);
    var restricted := query + [Eq("stall_id", profile.value.stallId)];
    hide BuildTodayRangePH, GetPHDateString, GetPHDate, ApplyDateRangeFilter;
    ApplyDateRangeFilterPlain(restricted, dateColumn, today.startDate, today.endDate, hostOffset);
  }

  // ---------------------------------------------------------------------------
  // fetchCurrentStallStockForStaff and fetchTodaySalesTotalForStaff
  // ---------------------------------------------------------------------------

  /**
   * `fetchCurrentStallStockForStaff(profile)` given the outcome of reading
   * the stall's `quantity`: 0 without a stall or when the read fails, and a
   * missing (or 0) quantity is 0.
   */
  function CurrentStallStock(profile: Option<Profile>, read: Result<Option<int>>): (n: int)
    ensures profile.None? || profile.value.stallId == "" || read.Failure? ==> n == 0
    ensures profile.Some? && profile.value.stallId != "" && read.Ok? && read.value.Some? ==> n == read.value.value
    ensures read.Ok? && read.value.None? ==> n == 0
  {
    if profile.None? || profile.value.stallId == "" then 0
    else
      match read
      case Failure(_) => 0
      case Ok(quantity) => if quantity.Some? then quantity.value else 0
  }

  /** The query `fetchTodaySalesTotalForStaff` sends: sales restricted by stall and `sale_date`. */
  function TodaySalesQuery(profile: Option<Profile>, now: int, hostOffset: int): (q: Query)
  {
    RestrictToStaffStallAndToday([], profile, "sale_date", now, hostOffset)
  }

  /**
   * A profile with a stall but another role passes the stall guard of
   * `fetchTodaySalesTotalForStaff` yet gets no restriction: its total is over
   * every sale.
   */
  lemma TodaySalesQueryOfNonStaff(profile: Profile, now: int, hostOffset: int)
    requires profile.stallId != "" && profile.role != "staff"
    ensures TodaySalesQuery(Some(profile), now, hostOffset) == []
  {
  }

  /** A staff member's query names the stall and today on `sale_date`, in that order. */
  lemma TodaySalesQueryOfStaff(profile: Profile, now: int, hostOffset: int)
    requires profile.stallId != "" && profile.role == "staff"
    ensures var t := BuildTodayRangePH(now, hostOffset).startDate;
            TodaySalesQuery(Some(profile), now, hostOffset)
            == [Eq("stall_id", profile.stallId), Gte("sale_date", t), Lte("sale_date", t)]
  {
    var t := BuildTodayRangePH(now, hostOffset).startDate;
    hide BuildTodayRangePH;
    assert [] + [Eq("stall_id", profile.stallId)] + [Gte("sale_date", t), Lte("sale_date", t)]
        == [Eq("stall_id", profile.stallId), Gte("sale_date", t), Lte("sale_date", t)];
  }

  /** `amounts.reduce((sum, a) => sum + Number(a || 0), 0)`: missing amounts count as 0. */
  function SumAmounts(amounts: seq<Option<int>>): (total: int)
  {
    if amounts == [] then 0
    else SumAmounts(amounts[..|amounts| - 1]) + (if amounts[|amounts| - 1].Some? then amounts[|amounts| - 1].value else 0)
  }

  /** The total is additive over concatenation. */
  lemma {:induction false} SumAmountsAppend(a: seq<Option<int>>, b: seq<Option<int>>)
    ensures SumAmounts(a + b) == SumAmounts(a) + SumAmounts(b)
    decreases |b|
  {
    if b == [] {
      assert a + b == a;
    } else {
      assert (a + b)[..|a + b| - 1] == a + b[..|b| - 1];
      SumAmountsAppend(a, b[..|b| - 1]);
    }
  }

  /** Non-negative amounts give a non-negative total. */
  lemma {:induction false} SumAmountsNonNegative(amounts: seq<Option<int>>)
    requires forall i :: 0 <= i < |amounts| && amounts[i].Some? ==> amounts[i].value >= 0
    ensures SumAmounts(amounts) >= 0
    decreases |amounts|
  {
    if amounts != [] {
      SumAmountsNonNegative(amounts[..|amounts| - 1]);
    }
  }

  /**
   * `fetchTodaySalesTotalForStaff(profile)` given the outcome of the sales
   * read: 0 without a stall or when the read fails, otherwise the sum.
   */
  function TodaySalesTotal(profile: Option<Profile>, read: Result<seq<Option<int>>>): (total: int)
    ensures profile.None? || profile.value.stallId == "" || read.Failure? ==> total == 0
    ensures profile.Some? && profile.value.stallId != "" && read.Ok? ==> total == SumAmounts(read.value)
  {
    if profile.None? || profile.value.stallId == "" then 0
    else
      match read
      case Failure(_) => 0
      case Ok(amounts) => SumAmounts(amounts)
  }

  // ---------------------------------------------------------------------------
  // fetchTodayStockStatus and saveTodayStockStatus
  // ---------------------------------------------------------------------------

  /** A `stock_status_history` row; a `null` level is `None`. */
  datatype StatusRow = StatusRow(stockLevel: Option<int>, stockStatus: string)

  /** What `fetchTodayStockStatus` returns. */
  datatype StockStatus = StockStatus(stockLevel: Option<int>, stockStatus: string)

  const DefaultStockStatus: StockStatus := StockStatus(None, NotSoldOut)

  /**
   * How a row read back is normalised: a non-number level becomes
   * `Number(level || 0)`, so a `null` level reads as 0, and an empty status
   * reads as 'not_sold_out'.
   */
  function NormaliseRow(row: StatusRow): (s: StockStatus)
    ensures s.stockLevel.Some?
    ensures s.stockStatus != ""
    ensures row.stockStatus != "" ==> s.stockStatus == row.stockStatus
    ensures row.stockLevel.Some? ==> s.stockLevel == row.stockLevel
  {
    StockStatus(Some(if row.stockLevel.Some? then row.stockLevel.value else 0),
                if row.stockStatus != "" then row.stockStatus else NotSoldOut)
  }

  /** The `(stall_id, date)` key of today's row for a stall. */
  function TodayKey(stallId: string, now: int, hostOffset: int): (k: (string, string))
    ensures k.0 == stallId && k.1 == BuildTodayRangePH(now, hostOffset).startDate
  {
    (stallId, BuildTodayRangePH(now, hostOffset).startDate)
  }

  /**
   * `fetchTodayStockStatus(stallId)` against the table `rows`; `readFails`
   * is a failed read.  No stall, no row and a failure all give the default.
   */
  function FetchTodayStockStatus(rows: map<(string, string), StatusRow>, stallId: string, now: int, hostOffset: int,
                                 readFails: bool): (s: StockStatus)
    ensures stallId == "" || readFails || TodayKey(stallId, now, hostOffset) !in rows ==> s == DefaultStockStatus
    ensures stallId != "" && !readFails && TodayKey(stallId, now, hostOffset) in rows ==>
              s == NormaliseRow(rows[TodayKey(stallId, now, hostOffset)])
  {
    if stallId == "" then DefaultStockStatus
    else
      var key := TodayKey(stallId, now, hostOffset);
      if readFails then DefaultStockStatus
      else if key !in rows then DefaultStockStatus
      else NormaliseRow(rows[key])
  }

  /** The table behind `saveTodayStockStatus`. */
  class StockStatusHistory {
    var rows: map<(string, string), StatusRow>

    constructor(rows: map<(string, string), StatusRow>)
      ensures this.rows == rows
    {
      this.rows := rows;
    }

    /**
     * `saveTodayStockStatus(stallId, level, status)`: nothing without a stall
     * or when the upsert fails; otherwise today's row for the stall becomes
     * the new values.  `stockLevel` is `None` when the input is not a finite
     * number.
     */
    method SaveTodayStockStatus(stallId: string, stockLevel: Option<int>, stockStatus: string,
                                now: int, hostOffset: int, writeFails: bool)
      modifies this
      ensures stallId == "" || writeFails ==> rows == old(rows)
      ensures stallId != "" && !writeFails ==>
                rows == old(rows)[TodayKey(stallId, now, hostOffset) := StatusRow(stockLevel, stockStatus)]
    {
      if stallId == "" {
        return;
      }
      var key := TodayKey(stallId, now, hostOffset);
      if writeFails {
        return;
      }
      rows := rows[key := StatusRow(stockLevel, stockStatus)];
    }
  }

  /**
   * Reading today's status right after saving it gives the saved values back,
   * normalised: a level saved as `null` reads as 0 and an empty status as
   * 'not_sold_out'.
   */
  lemma SaveThenFetch(rows: map<(string, string), StatusRow>, stallId: string, stockLevel: Option<int>,
                      stockStatus: string, now: int, hostOffset: int)
    requires stallId != ""
    ensures var saved := rows[TodayKey(stallId, now, hostOffset) := StatusRow(stockLevel, stockStatus)];
            FetchTodayStockStatus(saved, stallId, now, hostOffset, false)
            == StockStatus(Some(if stockLevel.Some? then stockLevel.value else 0),
                           if stockStatus != "" then stockStatus else NotSoldOut)
  {
  }

  /** Saving twice on the same day leaves one row holding the second values; other rows are untouched. */
  lemma SaveTwiceKeepsLast(rows: map<(string, string), StatusRow>, key: (string, string), first: StatusRow,
                           second: StatusRow)
    ensures rows[key := first][key := second] == rows[key := second]
    ensures forall k :: k in rows && k != key ==> rows[key := second][k] == rows[k]
    ensures |rows[key := second].Keys| <= |rows.Keys| + 1
  {
    var r := rows[key := second];
    if key in rows {
      assert r.Keys == rows.Keys;
    } else {
      assert r.Keys == rows.Keys + {key};
    }
  }
}

=== FILE: text.dfy ===
/**
 * The JavaScript string operations the dashboard relies on, as functions on
 * `string`: relational `<` (lexicographic order of UTF-16 code units), `includes`,
 * `startsWith`, `endsWith`, `indexOf`, `replace` with a string pattern (first
 * occurrence only), `split` on one character, `trim`, and zero-padded decimals.
 */
module Text {
  import opened Wrappers


  // ---------------------------------------------------------------------------
  // Ordering
  // ---------------------------------------------------------------------------

  /**
   * A character's place in UTF-16 code-unit order.  A JavaScript string is a
   * sequence of UTF-16 code units: characters from U+10000 up are written as
   * a surrogate pair, whose first unit lies in 0xD800..0xDBFF, so they sort
   * after U+0000..U+D7FF and before U+E000..U+FFFF.
   */
  function CodeUnitRank(c: char): int
  {
    var n := c as int;
    if 0xE000 <= n < 0x10000 then n + 0x110000 else n
  }

  /** `a < b` on JavaScript strings: lexicographic by UTF-16 code units. */
  predicate LexLess(a: string, b: string)
  {
    if a == [] then b != []
    else if b == [] then false
    else if a[0] != b[0] then CodeUnitRank(a[0]) < CodeUnitRank(b[0])
    else LexLess(a[1..], b[1..])
  }

  /** The UTF-16 code units of one character (section 2.1 of RFC 2781). */
  function Utf16Char(c: char): (u: seq<int>)
    ensures |u| == (if c as int < 0x10000 then 1 else 2)
    ensures forall i :: 0 <= i < |u| ==> 0 <= u[i] < 0x10000
    ensures |u| == 2 ==> 0xD800 <= u[0] < 0xDC00 <= u[1] < 0xE000
  {
    var n := c as int;
    if n < 0x10000 then [n]
    else [0xD800 + (n - 0x10000) / 0x400, 0xDC00 + (n - 0x10000) % 0x400]
  }

  /** The UTF-16 code units of a string, as a JavaScript string holds them. */
  function Utf16(s: string): (u: seq<int>)
    ensures |u| >= |s|
  {
    if s == [] then [] else Utf16Char(s[0]) + Utf16(s[1..])
  }

  /** Lexicographic order on code-unit sequences. */
  predicate UnitsLess(a: seq<int>, b: seq<int>)
  {
    if a == [] then b != []
    else if b == [] then false
    else if a[0] != b[0] then a[0] < b[0]
    else UnitsLess(a[1..], b[1..])
  }

  /** A common prefix does not decide the order. */
  lemma {:induction false} UnitsLessCommon(p: seq<int>, x: seq<int>, y: seq<int>)
    ensures UnitsLess(p + x, p + y) <==> UnitsLess(x, y)
  {
    if p != [] {
      assert (p + x)[1..] == p[1..] + x && (p + y)[1..] == p[1..] + y;
      UnitsLessCommon(p[1..], x, y);
    } else {
      assert p + x == x && p + y == y;
    }
  }

  /** Two different characters are ordered by their first differing code unit, whatever follows them. */
  lemma UnitsOfDifferentChars(c: char, d: char, x: seq<int>, y: seq<int>)
    requires c != d
    ensures UnitsLess(Utf16Char(c) + x, Utf16Char(d) + y) <==> CodeUnitRank(c) < CodeUnitRank(d)
  {
    var u, v := Utf16Char(c) + x, Utf16Char(d) + y;
    var n, m := c as int, d as int;
    assert u[0] == Utf16Char(c)[0] && v[0] == Utf16Char(d)[0];
    if n >= 0x10000 && m >= 0x10000 {
      var qn, qm := (n - 0x10000) / 0x400, (m - 0x10000) / 0x400;
      var rn, rm := (n - 0x10000) % 0x400, (m - 0x10000) % 0x400;
      assert n == 0x10000 + 0x400 * qn + rn && m == 0x10000 + 0x400 * qm + rm;
      if qn == qm {
        assert u[1] == Utf16Char(c)[1] && v[1] == Utf16Char(d)[1];
        assert u[1..][0] == u[1] && v[1..][0] == v[1];
        assert rn != rm;
      } else if qn < qm {
        assert n < m;
      } else {
        assert m < n;
      }
    }
  }

  /** JavaScript's `<` on strings is lexicographic order on their UTF-16 code units. */
  lemma {:induction false} LexLessIsCodeUnitOrder(a: string, b: string)
    ensures LexLess(a, b) <==> UnitsLess(Utf16(a), Utf16(b))
  {
    if a != [] && b != [] {
      if a[0] == b[0] {
        LexLessIsCodeUnitOrder(a[1..], b[1..]);
        UnitsLessCommon(Utf16Char(a[0]), Utf16(a[1..]), Utf16(b[1..]));
      } else {
        UnitsOfDifferentChars(a[0], b[0], Utf16(a[1..]), Utf16(b[1..]));
      }
    } else if a == [] && b != [] {
      assert Utf16(b) != [];
    } else if a != [] {
      assert Utf16(a) != [];
    }
  }

  lemma {:induction false} LexLessIrreflexive(a: string)
    ensures !LexLess(a, a)
  {
    if a != [] {
      LexLessIrreflexive(a[1..]);
    }
  }

  /** Comparing two strings that start with prefixes of equal length decides on the prefixes first. */
  lemma {:induction false} LexLessConcat(p: string, q: string, a: string, b: string)
    requires |p| == |q|
    ensures LexLess(p + a, q + b) <==> LexLess(p, q) || (p == q && LexLess(a, b))
  {
    if p != [] {
      assert p + a != [] && q + b != [];
      assert (p + a)[0] == p[0] && (q + b)[0] == q[0];
      assert (p + a)[1..] == p[1..] + a && (q + b)[1..] == q[1..] + b;
      LexLessConcat(p[1..], q[1..], a, b);
      if p[0] == q[0] {
        assert LexLess(p + a, q + b) == LexLess(p[1..] + a, q[1..] + b);
        assert LexLess(p, q) == LexLess(p[1..], q[1..]);
        assert p == [p[0]] + p[1..] && q == [q[0]] + q[1..];
        assert p == q <==> p[1..] == q[1..];
      } else {
        assert p != q;
      }
    } else {
      assert p + a == a && q + b == b;
    }
  }

  lemma {:induction false} LexLessTotal(a: string, b: string)
    ensures a == b || LexLess(a, b) || LexLess(b, a)
  {
    if a != [] && b != [] && a[0] == b[0] {
      LexLessTotal(a[1..], b[1..]);
      assert a == [a[0]] + a[1..] && b == [b[0]] + b[1..];
    }
  }

  lemma {:induction false} LexLessTransitive(a: string, b: string, c: string)
    requires LexLess(a, b) && LexLess(b, c)
    ensures LexLess(a, c)
  {
    if a != [] && a[0] == b[0] && b[0] == c[0] {
      LexLessTransitive(a[1..], b[1..], c[1..]);
    }
  }

  lemma {:induction false} LexLessAsymmetric(a: string, b: string)
    requires LexLess(a, b)
    ensures !LexLess(b, a)
  {
    if a != [] && a[0] == b[0] {
      LexLessAsymmetric(a[1..], b[1..]);
    }
  }

  // ---------------------------------------------------------------------------
  // Sorting
  // ---------------------------------------------------------------------------

  /** No element is smaller than one before it. */
  predicate Ascending(s: seq<string>)
  {
    forall i, j :: 0 <= i < j < |s| ==> !LexLess(s[j], s[i])
  }

  /** Each element is smaller than every element after it. */
  predicate StrictlyAscending(s: seq<string>)
  {
    forall i, j :: 0 <= i < j < |s| ==> LexLess(s[i], s[j])
  }

  /** An element smaller than `x` stays in front of `x` inserted into the rest. */
  lemma InsertBehindHead(x: string, s: seq<string>, t: seq<string>)
    requires s != [] && Ascending(s) && LexLess(s[0], x)
    requires multiset(t) == multiset(s[1..]) + multiset{x} && Ascending(t)
    ensures multiset([s[0]] + t) == multiset(s) + multiset{x}
    ensures Ascending([s[0]] + t)
  {
    hide LexLess;
    var r := [s[0]] + t;
    assert s == [s[0]] + s[1..];
    forall j | 1 <= j < |r| ensures !LexLess(r[j], s[0]) {
      assert r[j] == t[j - 1];
      assert r[j] in multiset(s[1..]) + multiset{x};
      if r[j] == x {
        LexLessAsymmetric(s[0], x);
      } else {
        assert r[j] in s[1..];
        var k :| 0 <= k < |s[1..]| && s[1..][k] == r[j];
        assert s[k + 1] == r[j];
      }
    }
    forall i, j | 0 <= i < j < |r| ensures !LexLess(r[j], r[i]) {
      if i > 0 {
        assert r[i] == t[i - 1] && r[j] == t[j - 1];
      }
    }
  }

  /** An `x` not greater than the first element goes in front of all of them. */
  lemma InsertAtHead(x: string, s: seq<string>)
    requires Ascending(s) && (s == [] || !LexLess(s[0], x))
    ensures Ascending([x] + s)
  {
    hide LexLess;
    var r := [x] + s;
    forall j | 0 <= j < |s| ensures !LexLess(s[j], x) {
      if LexLess(s[j], x) {
        LexLessTotal(s[0], s[j]);
        if LexLess(s[0], s[j]) {
          LexLessTransitive(s[0], s[j], x);
        }
      }
    }
    forall i, j | 0 <= i < j < |r| ensures !LexLess(r[j], r[i]) {
      assert r[j] == s[j - 1];
      if i > 0 {
        assert r[i] == s[i - 1];
      }
    }
  }

  /** `x` placed before the first element of `s` that is not smaller. */
  function Insert(x: string, s: seq<string>): (r: seq<string>)
    requires Ascending(s)
    ensures multiset(r) == multiset(s) + multiset{x}
    ensures Ascending(r)
  {
    if s == [] then [x]
    else if LexLess(s[0], x) then
      var t := Insert(x, s[1..]);
      InsertBehindHead(x, s, t);
      [s[0]] + t
    else
      InsertAtHead(x, s);
      [x] + s
  }

  /** `arr.sort()` on strings: ascending by UTF-16 code units, the same elements. */
  function Sort(s: seq<string>): (r: seq<string>)
    ensures multiset(r) == multiset(s)
    ensures Ascending(r)
  {
    if s == [] then []
    else
      assert s == s[..|s| - 1] + [s[|s| - 1]];
      Insert(s[|s| - 1], Sort(s[..|s| - 1]))
  }

  /** A list without repetitions holds each element at most once. */
  lemma {:induction false} NoRepeatsCount(s: seq<string>, x: string)
    requires forall i, j :: 0 <= i < j < |s| ==> s[i] != s[j]
    ensures multiset(s)[x] <= 1
  {
    if s != [] {
      var init := s[..|s| - 1];
      NoRepeatsCount(init, x);
      assert s == init + [s[|s| - 1]];
      if s[|s| - 1] == x {
        assert x !in init;
      }
    }
  }

  /** Two equal entries at different places count twice. */
  lemma RepeatCounted(r: seq<string>, i: int, j: int)
    requires 0 <= i < j < |r| && r[i] == r[j]
    ensures multiset(r)[r[i]] >= 2
  {
    assert r == r[..i] + [r[i]] + r[i + 1..j] + [r[j]] + r[j + 1..];
  }

  /** A permutation of a list without repetitions has none either. */
  lemma PermutationNoRepeats(s: seq<string>, r: seq<string>)
    requires forall i, j :: 0 <= i < j < |s| ==> s[i] != s[j]
    requires multiset(r) == multiset(s)
    ensures forall i, j :: 0 <= i < j < |r| ==> r[i] != r[j]
  {
    forall i, j | 0 <= i < j < |r| ensures r[i] != r[j] {
      if r[i] == r[j] {
        RepeatCounted(r, i, j);
        NoRepeatsCount(s, r[i]);
      }
    }
  }

  /** An ascending list without repetitions is strictly ascending. */
  lemma AscendingDistinctStrict(r: seq<string>)
    requires Ascending(r)
    requires forall i, j :: 0 <= i < j < |r| ==> r[i] != r[j]
    ensures StrictlyAscending(r)
  {
    hide LexLess;
    forall i, j | 0 <= i < j < |r| ensures LexLess(r[i], r[j]) {
      LexLessTotal(r[i], r[j]);
    }
  }

  /** Sorting a list without repetitions orders it strictly. */
  lemma SortDistinct(s: seq<string>)
    requires forall i, j :: 0 <= i < j < |s| ==> s[i] != s[j]
    ensures StrictlyAscending(Sort(s))
    ensures forall i, j :: 0 <= i < j < |Sort(s)| ==> Sort(s)[i] != Sort(s)[j]
  {
    hide Sort, LexLess;
    var r := Sort(s);
    PermutationNoRepeats(s, r);
    AscendingDistinctStrict(r);
  }

  // ---------------------------------------------------------------------------
  // Decimal digits
  // ---------------------------------------------------------------------------

  predicate IsDigit(c: char)
  {
    '0' <= c <= '9'
  }

  predicate AllDigits(s: string)
  {
    forall i :: 0 <= i < |s| ==> IsDigit(s[i])
  }

  function DigitChar(n: int): (c: char)
    requires 0 <= n < 10
    ensures IsDigit(c) && c as int - '0' as int == n
  {
    ('0' as int + n) as char
  }

  function Pow10(w: nat): (p: nat)
    ensures p >= 1
  {
    if w == 0 then 1 else 10 * Pow10(w - 1)
  }

  /** The last `w` decimal digits of `n`, zero-padded (`String(n).padStart(w, '0')` for n < 10^w). */
  function Digits(n: nat, w: nat): (s: string)
    ensures |s| == w && AllDigits(s)
  {
    if w == 0 then "" else Digits(n / 10, w - 1) + [DigitChar(n % 10)]
  }

  /** The number a string of decimal digits denotes. */
  function DigitsValue(s: string): (v: nat)
    requires AllDigits(s)
    ensures v < Pow10(|s|)
  {
    if s == [] then 0
    else DigitsValue(s[..|s| - 1]) * 10 + (s[|s| - 1] as int - '0' as int)
  }

  lemma {:induction false} DigitsValueOfDigits(n: nat, w: nat)
    requires n < Pow10(w)
    ensures DigitsValue(Digits(n, w)) == n
  {
    if w > 0 {
      DigitsValueOfDigits(n / 10, w - 1);
      var s := Digits(n, w);
      assert s[..w - 1] == Digits(n / 10, w - 1);
    }
  }

  lemma {:induction false} DigitsOfDigitsValue(s: string)
    requires AllDigits(s)
    ensures Digits(DigitsValue(s), |s|) == s
  {
    if s != [] {
      var v := DigitsValue(s);
      var init := s[..|s| - 1];
      DigitsOfDigitsValue(init);
      assert v / 10 == DigitsValue(init);
      assert s == init + [s[|s| - 1]];
    }
  }

  /** Zero-padded digit strings of one width compare as strings exactly as their values compare. */
  lemma {:induction false} DigitsOrder(a: nat, b: nat, w: nat)
    requires a < Pow10(w) && b < Pow10(w)
    ensures LexLess(Digits(a, w), Digits(b, w)) <==> a < b
  {
    if w == 0 {
    } else {
      var pa, pb := Digits(a / 10, w - 1), Digits(b / 10, w - 1);
      var ca, cb := DigitChar(a % 10), DigitChar(b % 10);
      DigitsOrder(a / 10, b / 10, w - 1);
      LexLessConcat(pa, pb, [ca], [cb]);
      assert LexLess([ca], [cb]) <==> a % 10 < b % 10;
      if pa == pb {
        DigitsValueOfDigits(a / 10, w - 1);
        DigitsValueOfDigits(b / 10, w - 1);
      }
      assert a < b <==> a / 10 < b / 10 || (a / 10 == b / 10 && a % 10 < b % 10);
    }
  }

  /** `String(n)` for a natural number: the shortest decimal representation. */
  function NatToString(n: nat): (s: string)
    ensures |s| >= 1 && AllDigits(s)
    decreases n
  {
    if n < 10 then [DigitChar(n)] else NatToString(n / 10) + [DigitChar(n % 10)]
  }

  /** `String(n)` reads back as `n`. */
  lemma {:induction false} NatToStringValue(n: nat)
    ensures DigitsValue(NatToString(n)) == n
    decreases n
  {
    if n >= 10 {
      var s := NatToString(n);
      assert s[..|s| - 1] == NatToString(n / 10);
      NatToStringValue(n / 10);
    }
  }

  /** `String(n)` of a number with exactly w digits is its w-digit zero-padded form. */
  lemma {:induction false} NatToStringDigits(n: nat, w: nat)
    requires 1 <= w && Pow10(w - 1) <= n < Pow10(w)
    ensures NatToString(n) == Digits(n, w)
    decreases w
  {
    if w > 1 {
      assert Pow10(w - 1) == 10 * Pow10(w - 2);
      assert Pow10(w - 2) <= n / 10 < Pow10(w - 1);
      NatToStringDigits(n / 10, w - 1);
    }
  }

  /** `String(i)` for an integer. */
  function IntToString(i: int): (s: string)
    ensures |s| >= 1
  {
    if i < 0 then "-" + NatToString(-i) else NatToString(i)
  }

  /**
   * The whole-number reading of a typed stock level: surrounding white space
   * is ignored, the empty string is 0, a run of decimal digits is its value,
   * and anything else (a sign, a fraction, an exponent, other text) is `None`.
   */
  function NumberOf(s: string): (r: Option<int>)
    ensures AllDigits(s) && s != [] ==> r == Some(DigitsValue(s))
  {
    var t := Trim(s);
    assert AllDigits(s) && s != [] ==> t == s by {
      if AllDigits(s) && s != [] {
        assert forall i :: 0 <= i < |s| ==> !IsWhitespace(s[i]);
        assert TrimStart(s) == s && TrimEnd(s) == s;
      }
    }
    if t == [] then Some(0)
    else if AllDigits(t) then Some(DigitsValue(t))
    else None
  }

  // ---------------------------------------------------------------------------
  // Searching
  // ---------------------------------------------------------------------------

  predicate StartsWith(s: string, prefix: string)
  {
    |prefix| <= |s| && s[..|prefix|] == prefix
  }

  predicate EndsWith(s: string, suffix: string)
  {
    |suffix| <= |s| && s[|s| - |suffix|..] == suffix
  }

  /** A string ends with what was appended to it. */
  lemma EndsWithAppended(s: string, suffix: string)
    ensures EndsWith(s + suffix, suffix)
  {
    assert (s + suffix)[|s|..] == suffix;
  }

  /** `sub` occurs in `s` at position `j`. */
  predicate OccursAt(s: string, sub: string, j: int)
  {
    0 <= j <= |s| - |sub| && s[j..j + |sub|] == sub
  }

  lemma OccursShift(s: string, sub: string)
    requires s != []
    ensures forall j :: 1 <= j <= |s| ==> (OccursAt(s, sub, j) <==> OccursAt(s[1..], sub, j - 1))
  {
    forall j | 1 <= j <= |s|
      ensures OccursAt(s, sub, j) <==> OccursAt(s[1..], sub, j - 1)
    {
      if j <= |s| - |sub| {
        var x, y := s[j..j + |sub|], s[1..][j - 1..j - 1 + |sub|];
        assert |x| == |y| && forall k :: 0 <= k < |x| ==> x[k] == y[k];
        assert x == y;
      }
    }
  }

  /** `s.indexOf(sub)`: the first position at which `sub` occurs, or -1. */
  function IndexOf(s: string, sub: string): (r: int)
    ensures r == -1 || OccursAt(s, sub, r)
    ensures r >= 0 ==> forall j :: 0 <= j < r ==> !OccursAt(s, sub, j)
    ensures r == -1 ==> forall j :: !OccursAt(s, sub, j)
    decreases |s|
  {
    if |s| < |sub| then -1
    else if s[..|sub|] == sub then 0
    else
      assert !OccursAt(s, sub, 0);
      OccursShift(s, sub);
      var r := IndexOf(s[1..], sub);
      if r == -1 then -1 else r + 1
  }

  /** `s.includes(sub)`. */
  predicate Contains(s: string, sub: string)
  {
    IndexOf(s, sub) >= 0
  }

  lemma ContainsAt(s: string, sub: string, i: int)
    requires OccursAt(s, sub, i)
    ensures Contains(s, sub)
  {
  }

  lemma ContainsPrefix(s: string, sub: string)
    requires StartsWith(s, sub)
    ensures Contains(s, sub)
  {
    ContainsAt(s, sub, 0);
  }

  /** `s.replace(from, to)` with a string pattern: only the FIRST occurrence is replaced. */
  function ReplaceFirst(s: string, from: string, to: string): (r: string)
  {
    var i := IndexOf(s, from);
    if i < 0 then s else s[..i] + to + s[i + |from|..]
  }

  /** `s.indexOf(c)` for one character. */
  function IndexOfChar(s: string, c: char): (r: int)
    ensures -1 <= r < |s|
    ensures r >= 0 ==> s[r] == c && c !in s[..r]
    ensures r == -1 ==> c !in s
  {
    if s == [] then -1
    else if s[0] == c then 0
    else
      var r := IndexOfChar(s[1..], c);
      if r == -1 then -1
      else
        assert s[..r + 1] == [s[0]] + s[1..][..r];
        r + 1
  }

  /** `s.split(sep)` for a one-character separator: never empty, `""` splits to `[""]`. */
  function Split(s: string, sep: char): (parts: seq<string>)
    ensures |parts| >= 1
    ensures forall i :: 0 <= i < |parts| ==> sep !in parts[i]
    decreases |s|
  {
    var i := IndexOfChar(s, sep);
    if i < 0 then [s] else [s[..i]] + Split(s[i + 1..], sep)
  }

  /** `parts.join(sep)`. */
  function Join(parts: seq<string>, sep: char): string
  {
    if |parts| == 0 then ""
    else if |parts| == 1 then parts[0]
    else parts[0] + [sep] + Join(parts[1..], sep)
  }

  /** One step of `Split`: the text before the first separator, then the split of the rest. */
  lemma SplitStep(s: string, sep: char)
    ensures var i := IndexOfChar(s, sep);
            Split(s, sep) == if i < 0 then [s] else [s[..i]] + Split(s[i + 1..], sep)
  {
  }

  /** Splitting and joining on the same character gives the original string back. */
  lemma {:induction false} JoinSplit(s: string, sep: char)
    ensures Join(Split(s, sep), sep) == s
    decreases |s|
  {
    hide Split, IndexOfChar;
    SplitStep(s, sep);
    var i := IndexOfChar(s, sep);
    if i >= 0 {
      assert 0 <= i < |s|;
      var rest := Split(s[i + 1..], sep);
      var parts := [s[..i]] + rest;
      assert parts[0] == s[..i] && parts[1..] == rest && |parts| >= 2;
      assert Join(parts, sep) == s[..i] + [sep] + Join(rest, sep);
      JoinSplit(s[i + 1..], sep);
      assert s == s[..i] + [sep] + s[i + 1..];
    }
  }

  /** Joining separator-free parts and splitting again gives the parts back. */
  lemma {:induction false} SplitJoin(parts: seq<string>, sep: char)
    requires |parts| >= 1
    requires forall i :: 0 <= i < |parts| ==> sep !in parts[i]
    ensures Split(Join(parts, sep), sep) == parts
    decreases |parts|
  {
    if |parts| > 1 {
      var s := Join(parts, sep);
      assert s == parts[0] + [sep] + Join(parts[1..], sep);
      assert s[|parts[0]|] == sep;
      assert s[..|parts[0]|] == parts[0];
      assert IndexOfChar(s, sep) == |parts[0]|;
      assert s[|parts[0]| + 1..] == Join(parts[1..], sep);
      SplitJoin(parts[1..], sep);
    }
  }

  // ---------------------------------------------------------------------------
  // Trimming
  // ---------------------------------------------------------------------------

  /** ECMAScript WhiteSpace and LineTerminator code points, which `trim` removes. */
  predicate IsWhitespace(c: char)
  {
    c == '\t' || c == '\n' || c == '\U{000B}' || c == '\U{000C}' || c == '\r' || c == ' ' ||
    c == '\U{00A0}' || c == '\U{1680}' || ('\U{2000}' <= c <= '\U{200A}') ||
    c == '\U{2028}' || c == '\U{2029}' || c == '\U{202F}' || c == '\U{205F}' ||
    c == '\U{3000}' || c == '\U{FEFF}'
  }

  function TrimStart(s: string): (r: string)
    ensures |r| <= |s| && r == s[|s| - |r|..]
    ensures r != [] ==> !IsWhitespace(r[0])
    ensures forall i :: 0 <= i < |s| - |r| ==> IsWhitespace(s[i])
  {
    if s != [] && IsWhitespace(s[0]) then TrimStart(s[1..]) else s
  }

  function TrimEnd(s: string): (r: string)
    ensures |r| <= |s| && r == s[..|r|]
    ensures r != [] ==> !IsWhitespace(r[|r| - 1])
    ensures forall i :: |r| <= i < |s| ==> IsWhitespace(s[i])
  {
    if s != [] && IsWhitespace(s[|s| - 1]) then TrimEnd(s[..|s| - 1]) else s
  }

  /** `s.trim()`. */
  function Trim(s: string): (r: string)
    ensures r != [] ==> !IsWhitespace(r[0]) && !IsWhitespace(r[|r| - 1])
    ensures r == [] <==> forall i :: 0 <= i < |s| ==> IsWhitespace(s[i])
  {
    TrimEnd(TrimStart(s))
  }

  lemma TrimIdempotent(s: string)
    ensures Trim(Trim(s)) == Trim(s)
  {
    var r := Trim(s);
    assert TrimStart(r) == r;
    assert TrimEnd(r) == r;
  }

  /** `e?.message || fallback` for a failure whose error carries `message`. */
  function MessageOr(message: string, fallback: string): (m: string)
    ensures message != "" ==> m == message
    ensures message == "" ==> m == fallback
  {
    if message != "" then message else fallback
  }

  /** `s || null` for a form field: an empty string is stored as `null`. */
  function NullIfEmpty(s: string): (r: Option<string>)
    ensures r.None? <==> s == ""
    ensures r.Some? ==> r.value == s
  {
    if s == "" then None else Some(s)
  }

  /** A nullable string used as a JavaScript condition: present and not the empty string. */
  predicate Truthy(s: Option<string>)
  {
    s.Some? && s.value != ""
  }
}

=== FILE: uri_component.dfy ===
/**
 * JavaScript's `encodeURIComponent`: every character outside the unreserved
 * set `A-Z a-z 0-9 - _ . ! ~ * ' ( )` becomes the percent-encoded octets
 * (section 2.1 of RFC 3986) of its UTF-8 encoding (section 3 of RFC 3629),
 * hexadecimal digits in upper case.  Dafny characters are Unicode scalar
 * values, so the lone-surrogate error of the JavaScript function cannot
 * arise.  Decoding undoes both layers.
 */
module UriComponent {
  import opened Wrappers

  // ---------------------------------------------------------------------------
  // UTF-8
  // ---------------------------------------------------------------------------

  /** A continuation octet carrying six bits. */
  function Cont(bits: int): (b: int)
    requires 0 <= bits
  {
    0x80 + bits % 64
  }

  /** The UTF-8 octets of one scalar value. */
  function Utf8Char(c: char): (bytes: seq<int>)
    ensures 1 <= |bytes| <= 4
    ensures forall i :: 0 <= i < |bytes| ==> 0 <= bytes[i] < 256
    ensures |bytes| == 1 <==> (c as int) < 0x80
  {
    var cp := c as int;
    if cp < 0x80 then [cp]
    else if cp < 0x800 then [0xC0 + cp / 64, Cont(cp)]
    else if cp < 0x10000 then [0xE0 + cp / 4096, Cont(cp / 64), Cont(cp)]
    else [0xF0 + cp / 262144, Cont(cp / 4096), Cont(cp / 64), Cont(cp)]
  }

  /** The UTF-8 encoding of a string. */
  function Utf8(s: string): (bytes: seq<int>)
    ensures forall i :: 0 <= i < |bytes| ==> 0 <= bytes[i] < 256
  {
    if s == [] then [] else Utf8Char(s[0]) + Utf8(s[1..])
  }

  /** The length of the sequence a lead octet starts, or 0 for an octet that cannot lead. */
  function SequenceLength(lead: int): (n: int)
  {
    if 0 <= lead < 0x80 then 1
    else if 0xC2 <= lead < 0xE0 then 2
    else if 0xE0 <= lead < 0xF0 then 3
    else if 0xF0 <= lead < 0xF5 then 4
    else 0
  }

  predicate IsCont(b: int)
  {
    0x80 <= b < 0xC0
  }

  /** The scalar value an encoded sequence stands for, before its range is checked. */
  function CodePoint(bytes: seq<int>): (cp: int)
    requires 1 <= |bytes| <= 4
  {
    if |bytes| == 1 then bytes[0]
    else if |bytes| == 2 then (bytes[0] - 0xC0) * 64 + (bytes[1] - 0x80)
    else if |bytes| == 3 then (bytes[0] - 0xE0) * 4096 + (bytes[1] - 0x80) * 64 + (bytes[2] - 0x80)
    else (bytes[0] - 0xF0) * 262144 + (bytes[1] - 0x80) * 4096 + (bytes[2] - 0x80) * 64 + (bytes[3] - 0x80)
  }

  /** The shortest-form range for a sequence of `n` octets. */
  predicate InRange(cp: int, n: int)
  {
    if n == 1 then 0 <= cp < 0x80
    else if n == 2 then 0x80 <= cp < 0x800
    else if n == 3 then 0x800 <= cp < 0x10000 && !(0xD800 <= cp < 0xE000)
    else 0x10000 <= cp < 0x110000
  }

  /** Decodes UTF-8; `None` for a malformed sequence. */
  function Utf8Decode(bytes: seq<int>): (r: Option<string>)
    decreases |bytes|
  {
    if bytes == [] then Some([])
    else
      var n := SequenceLength(bytes[0]);
      if n == 0 || |bytes| < n then None
      else if !(forall i :: 1 <= i < n ==> IsCont(bytes[i])) then None
      else
        var cp := CodePoint(bytes[..n]);
        if !InRange(cp, n) then None
        else
          match Utf8Decode(bytes[n..])
          case None => None
          case Some(rest) => Some([cp as char] + rest)
  }

  /** One character's octets decode to that character's value, in shortest form. */
  lemma Utf8CharDecodes(c: char)
    ensures var b := Utf8Char(c);
            SequenceLength(b[0]) == |b| && (forall i :: 1 <= i < |b| ==> IsCont(b[i])) &&
            CodePoint(b) == c as int && InRange(c as int, |b|)
  {
    var cp := c as int;
    if cp >= 0x800 && cp < 0x10000 {
      ThreeOctets(cp);
    } else if cp >= 0x10000 {
      FourOctets(cp);
    }
  }

  lemma ThreeOctets(cp: int)
    requires 0x800 <= cp < 0x10000
    ensures cp == (cp / 4096) * 4096 + ((cp / 64) % 64) * 64 + cp % 64
  {
    assert cp / 64 == (cp / 4096) * 64 + (cp / 64) % 64;
  }

  lemma FourOctets(cp: int)
    requires 0x10000 <= cp < 0x110000
    ensures cp == (cp / 262144) * 262144 + ((cp / 4096) % 64) * 4096 + ((cp / 64) % 64) * 64 + cp % 64
  {
    assert cp / 64 == (cp / 4096) * 64 + (cp / 64) % 64;
    assert cp / 4096 == (cp / 262144) * 64 + (cp / 4096) % 64;
  }

  /** Decoding the UTF-8 encoding gives the string back. */
  lemma {:induction false} Utf8RoundTrip(s: string)
    ensures Utf8Decode(Utf8(s)) == Some(s)
    decreases |s|
  {
    if s != [] {
      var b := Utf8Char(s[0]);
      var bytes := Utf8(s);
      assert bytes == b + Utf8(s[1..]);
      Utf8CharDecodes(s[0]);
      assert bytes[..|b|] == b;
      assert bytes[|b|..] == Utf8(s[1..]);
      assert forall i :: 1 <= i < |b| ==> bytes[i] == b[i];
      Utf8RoundTrip(s[1..]);
      assert (CodePoint(b) as char) == s[0];
      assert s == [s[0]] + s[1..];
    }
  }

  // ---------------------------------------------------------------------------
  // Percent-encoding
  // ---------------------------------------------------------------------------

  /** The characters `encodeURIComponent` leaves as they are. */
  predicate IsUnreserved(c: char)
  {
    ('A' <= c <= 'Z') || ('a' <= c <= 'z') || ('0' <= c <= '9') ||
    c == '-' || c == '_' || c == '.' || c == '!' || c == '~' || c == '*' || c == '\'' || c == '(' || c == ')'
  }

  function HexDigit(n: int): (c: char)
    requires 0 <= n < 16
  {
    if n < 10 then ('0' as int + n) as char else ('A' as int + n - 10) as char
  }

  predicate IsHexDigit(c: char)
  {
    ('0' <= c <= '9') || ('A' <= c <= 'F') || ('a' <= c <= 'f')
  }

  function HexValue(c: char): (n: int)
    requires IsHexDigit(c)
    ensures 0 <= n < 16
  {
    if '0' <= c <= '9' then c as int - '0' as int
    else if 'A' <= c <= 'F' then c as int - 'A' as int + 10
    else c as int - 'a' as int + 10
  }

  /** `%XY` for one octet. */
  function PercentOctet(b: int): (t: string)
    requires 0 <= b < 256
    ensures |t| == 3 && t[0] == '%' && IsHexDigit(t[1]) && IsHexDigit(t[2])
    ensures HexValue(t[1]) * 16 + HexValue(t[2]) == b
  {
    ['%', HexDigit(b / 16), HexDigit(b % 16)]
  }

  function PercentOctets(bytes: seq<int>): (t: string)
    requires forall i :: 0 <= i < |bytes| ==> 0 <= bytes[i] < 256
    ensures |t| == 3 * |bytes|
    ensures forall i :: 0 <= i < |t| ==> t[i] == '%' || IsHexDigit(t[i])
  {
    if bytes == [] then [] else PercentOctet(bytes[0]) + PercentOctets(bytes[1..])
  }

  /** `encodeURIComponent(s)`. */
  function EncodeURIComponent(s: string): (t: string)
    ensures |t| >= |s|
    ensures forall i :: 0 <= i < |t| ==> IsUnreserved(t[i]) || t[i] == '%' || IsHexDigit(t[i])
  {
    if s == [] then []
    else if IsUnreserved(s[0]) then [s[0]] + EncodeURIComponent(s[1..])
    else PercentOctets(Utf8Char(s[0])) + EncodeURIComponent(s[1..])
  }

  /** The output never holds a path or query delimiter, so it stays one path segment. */
  lemma EncodedHasNoDelimiters(s: string)
    ensures var t := EncodeURIComponent(s);
            '/' !in t && '?' !in t && '#' !in t
  {
  }

  /** A string of unreserved characters is its own encoding. */
  lemma {:induction false} EncodeUnreserved(s: string)
    requires forall i :: 0 <= i < |s| ==> IsUnreserved(s[i])
    ensures EncodeURIComponent(s) == s
    decreases |s|
  {
    if s != [] {
      EncodeUnreserved(s[1..]);
      assert s == [s[0]] + s[1..];
    }
  }

  /**
   * The octets a percent-encoded string stands for, as `decodeURIComponent`
   * reads it: `%XY` is one octet, any other character its UTF-8 octets; a
   * '%' without two hexadecimal digits is malformed (`None`).
   */
  function PercentDecode(t: string): (r: Option<seq<int>>)
    decreases |t|
  {
    if t == [] then Some([])
    else if t[0] == '%' then
      if |t| >= 3 && IsHexDigit(t[1]) && IsHexDigit(t[2]) then
        match PercentDecode(t[3..])
        case None => None
        case Some(rest) => Some([HexValue(t[1]) * 16 + HexValue(t[2])] + rest)
      else None
    else
      match PercentDecode(t[1..])
      case None => None
      case Some(rest) => Some(Utf8Char(t[0]) + rest)
  }

  /** Decoding reads one `%XY` back as its octet. */
  lemma DecodeOctet(b: int, tail: string)
    requires 0 <= b < 256
    requires PercentDecode(tail).Some?
    ensures PercentDecode(PercentOctet(b) + tail) == Some([b] + PercentDecode(tail).value)
  {
    var t := PercentOctet(b) + tail;
    assert t[0] == '%' && t[1] == PercentOctet(b)[1] && t[2] == PercentOctet(b)[2];
    assert t[3..] == tail;
  }

  lemma {:induction false} PercentDecodeOctets(bytes: seq<int>, tail: string)
    requires forall i :: 0 <= i < |bytes| ==> 0 <= bytes[i] < 256
    requires PercentDecode(tail).Some?
    ensures PercentDecode(PercentOctets(bytes) + tail) == Some(bytes + PercentDecode(tail).value)
    decreases |bytes|
  {
    hide PercentDecode;
    if bytes == [] {
      assert PercentOctets(bytes) + tail == tail;
      assert bytes + PercentDecode(tail).value == PercentDecode(tail).value;
    } else {
      var rest := PercentOctets(bytes[1..]) + tail;
      var v := PercentDecode(tail).value;
      assert PercentOctets(bytes) + tail == PercentOctet(bytes[0]) + rest;
      PercentDecodeOctets(bytes[1..], tail);
      assert PercentDecode(rest) == Some(bytes[1..] + v);
      DecodeOctet(bytes[0], rest);
      assert [bytes[0]] + (bytes[1..] + v) == bytes + v;
    }
  }

  /** Percent-decoding the encoding gives the UTF-8 octets of the original. */
  lemma {:induction false} PercentDecodeEncode(s: string)
    ensures PercentDecode(EncodeURIComponent(s)) == Some(Utf8(s))
    decreases |s|
  {
    if s != [] {
      PercentDecodeEncode(s[1..]);
      var rest := EncodeURIComponent(s[1..]);
      if IsUnreserved(s[0]) {
        var t := [s[0]] + rest;
        assert t[0] == s[0] && t[1..] == rest;
      } else {
        PercentDecodeOctets(Utf8Char(s[0]), rest);
      }
    }
  }

  /** `decodeURIComponent(encodeURIComponent(s)) == s`. */
  lemma DecodeEncode(s: string)
    ensures PercentDecode(EncodeURIComponent(s)).Some?
    ensures Utf8Decode(PercentDecode(EncodeURIComponent(s)).value) == Some(s)
  {
    PercentDecodeEncode(s);
    Utf8RoundTrip(s);
  }
}

=== FILE: wrappers.dfy ===
/** Optional values and outcomes shared by every module. */
module Wrappers {

  datatype Option<T> = None | Some(value: T)

  /** A JavaScript computation either returns a value or throws an error carrying a message. */
  datatype Result<T> = Ok(value: T) | Failure(error: string)
}
